=== FILE: README.md ===
# tools: a verified model

A Dafny model of the small command-line tools in the `tools` repository.
Each tool is modelled as pure functions and short methods over an
in-memory file tree, with contracts and lemmas that state what each tool
promises.

- **`Archive.py`: the recursive revision archiver.**
  - A directory is summarised as one line per entry: `hash mode name`.
    - The hash is the SHA-384 digest of the entry's content, written in
      URL-safe base64.
    - The mode is the ten-character permission string.
    - The directory's own line hashes the lines below it and goes on top,
      so a change anywhere below shows at every level above it (a Merkle
      chain).
  - Revisions are stored in the repository directory `.Archive/` under
    `Y%Y%m%dT%H%M%SZ_` timestamps followed by the file name.
  - Content is stored only when the entry's name has never been stored,
    or when its bytes differ from the latest revision.
  - The latest revision is found through the alphabetical order of the
    stored names.
  - Modelled in: the modules `Archive`, `ArchiveProps` and `ArchiveCli`,
    with helper modules for:
    - summaries (`Summary`);
    - URL-safe base64 (`Base64Url`);
    - timestamps (`Stamps`);
    - the merged revision index (`ArchiveIndex`);
    - path normalisation (`ArchivePaths`);
    - mode strings (`Modes`);
    - the file tree (`FsTree`);
    - Python's string order and sorting (`Sorting`).
- **`gonecode.py`: reports unused Go functions, types and variables, plus
  line and byte counts.**
  - Modelled in:
    - `GoneCode`: the switches, the walk, the analysis and the report;
    - `GoLex`: the line-level lexing helpers;
    - `GoScan`: the declaration and usage scans.
- **`codehelper.py`: reports adjacent lines that assign to the same
  variable, plus line and byte totals.**
  - A line counts as an assignment when it is blanks, a non-empty name,
    blanks, and then `:` or `=`. So `name =`, `name :=` and `key: value`
    all count, and the key is the line up to the end of the name.
  - In C and C++ files, `name::` is a scope, not an assignment; in other
    files it counts.
  - Modelled in: `CodeHelper`.
- **`grepblocks.py`: prints the blocks of at most `max(distance, 1)`
  lines that contain the sought words in order (`GrepBlocks.Bound`); a
  negative distance yields no block.**
  - The blocks a file yields are also given by a reference scan,
    `GrepBlocks.Greedy`, defined by first occurrences:
    - a block opens at the first line holding the first word;
    - each further word is taken at its first line after the previous hit;
    - the block is emitted when its last word comes within the distance;
    - otherwise it is dropped at the line that makes it too long, and the
      scan restarts after that line.
  - Modelled in: `GrepBlocks`.
- **`loc.py`: counts the lines and bytes of the source files below the
  working directory.**
  - Modelled in: `Loc`, with the walk and the counting shared in
    `SourceFiles`.
- **`columns.py`: aligns the whitespace-separated fields of its input
  into columns.**
  - Modelled in: `Columns`.
- **`word.py`: prints the n-th word of every input line.**
  - Modelled in: `Word`.
- **`formatjson.py`: re-indents JSON text, one value per line.**
  - Modelled in: `FormatJson`.
- **`s3viewer.py`: an interactive browser over `aws s3 ls` listings.**
  - Modelled in: `S3Viewer`.
- **Shared modules:**
  - `Strings`: Python string helpers such as `split`, `strip`, `find`,
    `rfind`, `replace` and slicing;
  - `Numbers`: `int()` and `str()` on decimal integers;
  - `Wrappers`: `Option`.

**Inputs.** File contents, directory listings, the clock and SHA-384 are
inputs to the model:

- the file system is a tree value;
- a file is read through a reader function;
- the time of a run is a parameter;
- SHA-384 is a function parameter, and base64 is modelled in full.

**Outputs.** What a tool prints is modelled as the values it prints.

**Quirks.** These quirks of the code are modelled as written:

- `archive` computes a base name by looking up the separator's position
  in the full name but cutting the already cut name. With both `/` and
  `\` in a name, this gives a wrong base name; `ArchivePaths` proves the
  example `d/a\b`.
- The loop that strips the root's trailing separators never ends for an
  empty or all-separator root. `ArchivePaths.RootLoopDiverges` proves
  this, and `archive`'s contract excludes such roots.
- Timestamps sort chronologically only up to the year 9999.
  `Stamps.Y10KBreaksOrder` proves that ordering fails after that.

## Model

| member | source | states |
|---|---|---|
| Summary.HashText | Archive.py:446-447 | the hash of a content is 64 characters, all from the URL-safe base64 alphabet |
| Summary.HashTextInjective | Archive.py:446-447 | contents with different SHA-384 digests get different hash texts |
| Summary.Render | Archive.py:300 | definition of one summary line's text; characterised by ParseRender |
| Summary.RenderAll | Archive.py:299-305 | definition of the text of the summary lines in order; characterised by RenderAllAppend, ParseRenderAll and RenderAllInjective |
| Summary.RenderAllAppend | Archive.py:299-305 | the text of a list of summary lines is the texts of any split of it, one after the other |
| Summary.ParseRender | Archive.py:300 | a line whose hash and mode hold no space and whose name holds no newline reads back from its text, with whatever follows it left untouched |
| Summary.ParseRenderAll | Archive.py:299-305 | a summary of such lines reads back into exactly those lines |
| Summary.RenderAllInjective | Archive.py:299-305 | two different lists of such lines never give the same summary text |
| Summary.ChildChangesParent | Archive.py:299-305 | when one entry's content digest changes, the directory's summary text changes, all other lines being equal |
| Base64Url.IndexOf | Archive.py:447 | a character's digit value is -1 or in 0..63 |
| Base64Url.IndexOfCharOf | Archive.py:447 | the digit for each value 0..63 reads back as that value |
| Base64Url.Sextets | Archive.py:447 | three bytes give four six-bit digit values |
| Base64Url.EncodeBlock | Archive.py:447 | three bytes give four characters |
| Base64Url.EncodeBlockInAlphabet | Archive.py:447 | those four characters are all from the URL-safe alphabet |
| Base64Url.Encode | Archive.py:447 | n bytes encode to 4 times n/3 (rounded up) characters, so a 48-byte digest gives 64 |
| Base64Url.EncodeInAlphabet | Archive.py:447 | when the byte count is a multiple of three (as for a digest), the encoding holds no padding, only alphabet characters |
| Base64Url.Unsextets | Archive.py:447 | four digit values give three bytes |
| Base64Url.SextetsRoundTrip | Archive.py:447 | cutting three bytes into digits and joining them back gives the bytes; zero trailing bytes give zero trailing bits |
| Base64Url.DecodeEncodeBlock | Archive.py:447 | a whole encoded block decodes to its three bytes |
| Base64Url.DecodeEncodeTwo | Archive.py:447 | two leftover bytes decode back from their final block with one `=` |
| Base64Url.DecodeEncodeOne | Archive.py:447 | one leftover byte decodes back from its final block with two `=` |
| Base64Url.RoundTrip | Archive.py:447 | decoding undoes encoding, for every byte string |
| Base64Url.EncodeInjective | Archive.py:447 | distinct byte strings have distinct encodings |
| Stamps.Fixed | Archive.py:138 | a zero-padded field of width w is w characters |
| Stamps.FixedInjective | Archive.py:138 | two values below 10 to the w have the same w-digit field iff they are equal |
| Stamps.FixedOrder | Archive.py:138 | w-digit zero-padded fields sort as their values do |
| Stamps.Field | Archive.py:138 | definition of a numeric field of `strftime`; characterised by Fixed, FixedInjective and FieldOrder |
| Stamps.FieldOrder | Archive.py:138 | in-range timestamp fields compare (strictly and for equality) as their values do, and have their fixed width |
| Stamps.Format | Archive.py:138 | definition of `time.strftime(TIMESTAMP_FORMAT, t)`; characterised by FormatLength, FormatOrder and Y10KBreaksOrder |
| Stamps.FormatLength | Archive.py:138-139 | every timestamp of a year up to 9999 is exactly 18 characters, the constant slice width |
| Stamps.FormatOrder | Archive.py:236-239 | for years up to 9999, timestamps sort alphabetically exactly in chronological order |
| Stamps.Y10KBreaksOrder | Archive.py:236-238 | a timestamp in the year 10000 is 19 characters and sorts before one from 9999, so the order fails there |
| Modes.ModeStr | Archive.py:417-444 | the mode string is 10 characters; the first is `d` for a directory and `-` otherwise |
| Modes.ModeStrSlot | Archive.py:423-442 | permission slot i shows its letter when its bit is set and `-` otherwise |
| Modes.ModeStrSlots | Archive.py:423-442 | every slot 1..9 shows its letter iff its bit is set, `-` iff it is clear |
| Modes.ModeStrNoSpace | Archive.py:417-444 | a mode string never holds a space, so it stays one field of a summary line |
| Modes.ParseMode | Archive.py:417-444 | reading a mode string back gives only the nine permission bits |
| Modes.ModeRoundTrip | Archive.py:417-444 | reading back a mode string gives the type and exactly the nine permission bits; set-id and sticky bits are lost |
| Modes.ModeStrMasked | Archive.py:417-444 | bits above the nine permission bits do not show |
| Modes.ModeStrInjective | Archive.py:417-444 | two objects get the same mode string iff they agree on type and on the nine permission bits |
| ArchivePaths.StripSeps | Archive.py:231 | the stripped name is a prefix of the name that does not end in a separator, and only separators were removed |
| ArchivePaths.NormaliseRepo | Archive.py:230-232 | the repository name ends in exactly one `/`, after the name with its trailing separators removed |
| ArchivePaths.StripSepsOfPadded | Archive.py:231 | extra trailing separators make no difference |
| ArchivePaths.NormaliseRepoIdempotent | Archive.py:230-232 | normalising twice changes nothing, and trailing separators are ignored |
| ArchivePaths.StripRoot | Archive.py:227 | where the root loop ends, the root is a prefix that fails the loop test, with only separators removed |
| ArchivePaths.NormaliseRoot | Archive.py:226-228 | the root ends in one `/` after a non-separator, and is the root with its trailing separators replaced by that `/` |
| ArchivePaths.NormaliseRootAgrees | Archive.py:226-232 | for a root holding a non-separator, the root loop and the repository loop agree |
| ArchivePaths.RootLoopDiverges | Archive.py:227 | for an empty or all-separator root the loop test holds and stays true after each cut, so the loop never ends |
| ArchivePaths.BaseName | Archive.py:263-268 | the base name as computed is never longer than the name |
| ArchivePaths.BaseNameOneKind | Archive.py:263-268 | with only one kind of separator in a name, the base name is the text after its last separator |
| ArchivePaths.BaseNameMixedSeparators | Archive.py:263-268 | with both kinds, the cut misses: `d/a\b` gives the empty name, not `b` |
| ArchiveIndex.DateOf | Archive.py:246 | the timestamp part is a prefix of the stored name, at most 18 characters |
| ArchiveIndex.RealOf | Archive.py:247 | the timestamp part followed by the real-name part is the stored name |
| ArchiveIndex.RevisionName | Archive.py:246-247 | a stored name built from an 18-character timestamp and a real name splits back into exactly those two |
| ArchiveIndex.Index | Archive.py:244-250 | a real name is a key iff some stored name carries it, and its list is the dates of those stored names in listing order |
| ArchiveIndex.IndexDomain | Archive.py:244-250 | a real name is in the index iff some stored name carries it |
| ArchiveIndex.DatesOf | Archive.py:244-250 | definition of the dates listed for a real name, in listing order; characterised by DatesOfMember, DatesOfComplete and DatesSorted |
| ArchiveIndex.DatesOfMember | Archive.py:244-250 | every date listed for a real name comes from a stored name with that date and real name |
| ArchiveIndex.DatesOfComplete | Archive.py:244-250 | every stored name of a real name contributes its date to that name's list |
| ArchiveIndex.DateOrder | Archive.py:236-247 | two stored names with the same real name sort as their timestamps do |
| ArchiveIndex.DatesSorted | Archive.py:239-250 | from the sorted listing, each real name's dates come out in ascending order |
| ArchiveIndex.Latest | Archive.py:316-319 | definition of `dates[-1]`; characterised by LatestIsNewest and NewestDate |
| ArchiveIndex.LatestIsNewest | Archive.py:316-319 | `dates[-1]` of a stored real name names a revision in the listing that sorts after every other revision of that name |
| ArchiveIndex.LastDateStored | Archive.py:244-250 | the last date of a real name comes from a stored name with that real name |
| ArchiveIndex.NewestDate | Archive.py:316-319 | a stored name carrying the last date of its real name sorts after every stored name of that real name |
| ArchiveIndex.Stores | Archive.py:307-328 | definition of the store rule; characterised by StoresIff, StoresNew and StoreThenSkip |
| ArchiveIndex.StoresIff | Archive.py:307-328 | for a stored real name, content is stored iff it differs from the bytes of the greatest stored revision of that name |
| ArchiveIndex.StoresNew | Archive.py:309-313 | a name with no stored revision is stored |
| ArchiveIndex.StoreThenSkip | Archive.py:316-327 | content equal to the newest stored revision of its name is not stored again |
| ArchiveIndex.OlderStampStoresAgain | Archive.py:316-323 | content stored under a stamp that sorts before the newest revision of its name does not become the latest, so the same content is stored again on the next pass |
| FsTree.Segments | Archive.py:271-273 | splitting a path on `/` gives at least one piece, and no piece holds a `/` |
| FsTree.SegmentsOfName | Archive.py:271-273 | a name without `/` is one piece |
| FsTree.SegmentsOfDirPath | Archive.py:283 | a name followed by `/` is that name and an empty piece |
| FsTree.SegmentsJoin | Archive.py:271-273 | the pieces joined by `/` give back the path |
| FsTree.Child | Archive.py:271-273 | looking up a name in a directory finds an entry of that name iff there is one |
| FsTree.Lookup | Archive.py:271-273 | definition of resolving a name below a directory; characterised by WalkDescends, LookupListedName and LookupDirEntry |
| FsTree.WalkDescends | Archive.py:271-273 | path resolution never leaves the tree, and goes strictly down once a piece names an entry |
| FsTree.WalkWF | Archive.py:271-273 | resolution in a well-formed tree ends in a well-formed node |
| FsTree.LookupDirEntry | Archive.py:283 | in a well-formed directory, `x/` resolves to the subdirectory entry `x` |
| FsTree.LookupListedDir | Archive.py:283 | the path `x/` of a listed subdirectory `x` resolves to a directory |
| FsTree.LookupListedName | Archive.py:379 | a listed name resolves to its own entry |
| FsTree.LookupDescends | Archive.py:271-288 | a name that moves into the tree resolves strictly below the directory, which makes the recursion end |
| FsTree.DirNames | Archive.py:376-382 | the subdirectory names are exactly the directory entries other than `.` and `..` |
| FsTree.FileNames | Archive.py:376-383 | the file names are exactly the regular-file entries other than `.` and `..` |
| FsTree.ListDirSorted | Archive.py:370-388 | both lists are sorted, and hold exactly the subdirectory names and the regular-file names |
| FsTree.ListDirDisjoint | Archive.py:376-383 | no name is in both lists, and an entry that is neither file nor directory is in neither |
| Sorting.LexLeRefl | Archive.py:385-386 | Python's string order is reflexive |
| Sorting.LexLeTotal | Archive.py:385-386 | Python's string order is total |
| Sorting.LexLeAntisym | Archive.py:385-386 | Python's string order is antisymmetric |
| Sorting.LexLeTrans | Archive.py:385-386 | Python's string order is transitive |
| Sorting.LexLeOfHeads | Archive.py:246-247 | between strings of one width, differing heads decide the order of their extensions |
| Sorting.LexLeSameTail | Archive.py:246-247 | the same tail after heads of one width keeps their order |
| Sorting.ConsSorted | Archive.py:385-386 | a string no greater than the head of a sorted list extends it |
| Sorting.Insert | Archive.py:385-386 | inserting into a sorted list gives a sorted list with one more copy of the string |
| Sorting.Sort | Archive.py:385-386 | `sorted` returns a sorted permutation of its input |
| Sorting.SortedLast | Archive.py:318 | the last element of a sorted list is at least every element |
| Sorting.SortedSet | loc.py:42 | sorting a dictionary's keys lists each key once, in ascending order |
| Archive.RepoMap | Archive.py:319 | the stored bytes are known for exactly the regular files of the repository directory |
| Archive.SummaryLine | Archive.py:300 | a summary line has a 64-character hash and a 10-character mode, neither holding a space, and the base name as its name |
| Archive.AddLine | Archive.py:305 | the line goes at the bottom; the text stays the rendering of the lines, and nothing is stored |
| Archive.Store | Archive.py:330-357 | storing changes only the repository: the bytes go under timestamp plus name, with one write at the repository path |
| Archive.Start | Archive.py:239-250 | every real name of the merged index has its latest revision among the stored files |
| Archive.InitiallyHeld | Archive.py:239-250 | the index built from a repository listing names only revisions held in that repository |
| Archive.OrderArchivable | Archive.py:257 | the processing order (subdirectories, files, then `.`) holds only names the archiver can take |
| Archive.ListedNamesArchivable | Archive.py:370-388 | names listed from a directory can be archived |
| Archive.Step | Archive.py:258-361 | one entry adds at most one line, keeps the text the rendering of the lines, never loses a stored revision, and keeps the index's latest revisions held |
| Archive.StepSelf | Archive.py:278-280 | the step for `.` keeps the same facts |
| Archive.StepSubdir | Archive.py:281-288 | the step for a subdirectory with a repository keeps the same facts |
| Archive.StepFile | Archive.py:289-294 | the step for a readable file keeps the same facts |
| Archive.Loop | Archive.py:257-361 | the loop adds at most one line per name, keeps the text the rendering of the lines, and never loses a stored revision |
| Archive.ArchiveSub | Archive.py:281-288 | the returned text of a subdirectory is the rendering of its lines |
| Archive.ArchiveDir | Archive.py:225-363 | the returned text is the rendering of the summary lines, whose fields hold no space, with at most one line per subdirectory, per file, and for `.` |
| ArchiveProps.LoopAppend | Archive.py:257-258 | the loop over a split list is the loop over the first part, then over the second |
| ArchiveProps.LoopLast | Archive.py:257-258 | the last name of the order is processed last, after all the others |
| ArchiveProps.ChildPass | Archive.py:257 | after the subdirectories and files, the text is the rendering of their lines and every latest revision is still held |
| ArchiveProps.PassIsLoop | Archive.py:257-258 | a pass is the loop over subdirectories, then files, then `.` |
| ArchiveProps.ChildPassIsLoop | Archive.py:257-258 | the part before `.` is the loop over subdirectories then files |
| ArchiveProps.PassSplits | Archive.py:257-258 | a whole pass is the subdirectories and files, followed by the step for `.` |
| ArchiveProps.DirNameResolves | Archive.py:271-280 | the entry `.` resolves to the directory itself and keeps `.` as its base name |
| ArchiveProps.RepoNotSelf | Archive.py:259-261 | a repository other than `./` is never skipped in place of `.` |
| ArchiveProps.SelfStepEffect | Archive.py:299-303 | the line of `.` hashes the text so far and goes on top, and that text is written under the run's timestamp exactly when the store rule says so |
| ArchiveProps.SelfLineFirst | Archive.py:299-335 | a directory's summary is its `.` line, hashing the lines of its entries, followed by those lines; it is stored as `now` plus `.` exactly when the store rule says so |
| ArchiveProps.StepSkips | Archive.py:259-297 | the repository itself, a name that does not resolve, a subdirectory without a repository, an unreadable file and a non-file entry change nothing |
| ArchiveProps.StepSubdirEffect | Archive.py:281-288 | a subdirectory with a repository adds one line hashing the text of its own pass, keeps that pass's writes, and stores nothing here |
| ArchiveProps.StepFileEffect | Archive.py:289-357 | a readable file adds one line hashing its bytes, and is written under its modification time exactly when the store rule says so |
| ArchiveProps.SubdirChangeShows | Archive.py:288-305 | if a subdirectory's returned text changes digest, its parent's summary changes too |
| ArchiveCli.Gather | Archive.py:150-211 | the loop stops only at a command, an argument with a `..` segment, or a crash; otherwise every argument resolves, and the lists gain exactly the readable regular files and the directories named without blanks |
| ArchiveCli.FirstUnarchivable | Archive.py:225-363 | the first name the archiver cannot take, or none iff every name can be taken |
| ArchiveCli.HandleArgs | Archive.py:145-221 | archiving happens only with a repository present and every argument resolved, and then the result is the pass over the chosen lists |
| ArchiveCli.Finish | Archive.py:213-221 | no repository means no run; with one, the named lists are archived, or the sorted directory listing when no file was named |
| ArchiveCli.ListingArchivable | Archive.py:217-218 | every name of the directory listing can be archived |
| ArchiveCli.Run | Archive.py:220-221 | the run's text is the rendering of its summary lines |
| ArchiveCli.RepoDirNormal | Archive.py:117 | `.Archive/` is already in normal form |
| ArchiveCli.GatherPlainPrefix | Archive.py:150-211 | arguments that resolve and are not commands never stop the loop |
| ArchiveCli.CommandEndsRun | Archive.py:153-187 | the first `init`, `add` or `addsuffix` ends the run: `init` reports whether it made the repository, the other two that they are not implemented |
| ArchiveCli.MissingArgCrashes | Archive.py:200 | an argument that does not resolve ends the run with a crash |
| ArchiveCli.NoRepositoryNoRun | Archive.py:213-215 | without a repository nothing is archived |
| ArchiveCli.NamedSelection | Archive.py:207-211 | with a file named, exactly the named readable regular files and named directories (blank names skipped) are archived |
| ArchiveCli.NoFileArchivesListing | Archive.py:217-218 | with no file named, the sorted listing of the directory is archived, and named directories are dropped |
| SourceFiles.JoinPath | loc.py:62 | the path is the name at the top, and root, `/`, name below it |
| SourceFiles.Find | loc.py:58-72 | the walk only adds paths to the dictionary |
| SourceFiles.FindCollects | loc.py:58-72 | the walk adds exactly the paths of the kept files, each mapped to its own name, on top of the dictionary it was given |
| SourceFiles.Kept | loc.py:38 | the paths found from the top directory are exactly those of the kept name lists |
| SourceFiles.FoundShape | loc.py:58-72 | every kept name list passes the prefix filter at every level and ends in a wanted file name |
| SourceFiles.PairsAreLists | loc.py:58-72 | a path and name are found iff some kept name list leads to that path and ends in that name |
| SourceFiles.PairsDir | loc.py:63-66 | the paths found in a kept directory are those of its name lists, with the directory's name in front |
| SourceFiles.LinesOf | loc.py:53 | the lines of a file hold its bytes in order, each ending in its newline except perhaps the last |
| SourceFiles.CountLinesAndBytes | loc.py:50-56 | the line count is the number of lines |
| SourceFiles.BytesAreLength | loc.py:50-56 | the byte count is the length of the lines together |
| SourceFiles.FileCounts | loc.py:50-56 | a file counts all its bytes, and one line per newline plus one for an unterminated tail |
| SourceFiles.NewlinesOfLines | loc.py:53 | a file has one line per newline, plus one for an unterminated tail |
| SourceFiles.Totals | loc.py:39-47 | the file total is the number of files |
| SourceFiles.TotalsAppend | loc.py:39-47 | totals add up over any split of the files |
| SourceFiles.TotalBytes | loc.py:39-47 | the byte total is the size of all the files together |
| SourceFiles.SortedPaths | loc.py:42 | the sorted paths list each key of the dictionary once, in ascending order |
| SourceFiles.Contents | loc.py:42-44 | the contents are those of the paths, in order |
| SourceFiles.Tally | loc.py:39-47 | the loop's totals are the reference totals: one file per content, and the byte total the size of all of them |
| Loc.Prefixes | loc.py:35-37 | `.git` and `.svn` are always skipped, and `vendor` iff neither `vendor` nor `+vendor` is an argument |
| Loc.VendorSkipped | loc.py:35-37 | a vendored name is skipped exactly when vendoring was not asked for |
| Loc.Run | loc.py:34-48 | every source path is listed once, sorted, and the totals are the file count, line count and size of the listed files |
| CodeHelper.SkipBlanks | codehelper.py:67 | the scan stops at the first non-blank at or after its start, all blanks before it |
| CodeHelper.SkipName | codehelper.py:69 | the scan stops at the first non-name character at or after its start, all name characters before it |
| CodeHelper.Scan | codehelper.py:65-72 | the name start, name end and operator position are in order within the line |
| CodeHelper.ScanShape | codehelper.py:65-72 | the scan cuts the line into blanks, a run of name characters, and blanks |
| CodeHelper.ShapeScan | codehelper.py:65-72 | on a line of that shape the scan stops exactly at its cut points |
| CodeHelper.BlanksStop | codehelper.py:67 | blanks up to a non-blank make the blank scan stop there |
| CodeHelper.NameStops | codehelper.py:69 | name characters up to a non-name character make the name scan stop there |
| CodeHelper.Key | codehelper.py:86 | the remembered key is a prefix of the line |
| CodeHelper.IsAssign | codehelper.py:65-83 | definition of the assignment test; characterised by AssignIff and CppScope |
| CodeHelper.AssignIff | codehelper.py:65-83 | a line counts as an assignment iff it is blanks, a non-empty name, blanks, then `:` or `=` (not `::` in C and C++ files), and its key is everything before the operator's blanks |
| CodeHelper.CppScope | codehelper.py:78-80 | `name::` is no assignment in a C or C++ file, but is one elsewhere, with `name` as key |
| CodeHelper.Class | codehelper.py:74-83 | definition of how the tracker sees one line: an assignment's key or a reset; characterised by AssignIff and Classes |
| CodeHelper.Classes | codehelper.py:74-83 | every line is classed as an assignment key or as a reset, in order |
| CodeHelper.Step | codehelper.py:84-95 | after a line the tracked key is that line's class, and a pair is reported iff the line and the one before are assignments with the same key |
| CodeHelper.Expected | codehelper.py:56-99 | among n lines there are fewer than n reported pairs |
| CodeHelper.ExpectedSound | codehelper.py:87-92 | every reported pair is two adjacent assignment lines with the same key |
| CodeHelper.ExpectedComplete | codehelper.py:87-92 | every two adjacent assignment lines with the same key are reported |
| CodeHelper.ExpectedOrdered | codehelper.py:87-92 | pairs are reported in line order, so none twice |
| CodeHelper.Detect | codehelper.py:59-97 | the tracker over a file's lines reports exactly the reference pairs |
| CodeHelper.RepeatedAssign | codehelper.py:87-92 | k identical assignment lines in a row give k - 1 reports: the key is kept after a match |
| CodeHelper.RepeatedCount | codehelper.py:87-92 | n lines of the same key give n - 1 reports |
| CodeHelper.NoClassNoPair | codehelper.py:75-83 | a line that resets the tracker is in no reported pair |
| CodeHelper.ResetBreaks | codehelper.py:75-83 | a line that is not an assignment is in no reported pair |
| CodeHelper.CountLinesAndBytes | codehelper.py:56-99 | a file gives one line per newline plus an unterminated tail, all its bytes, and its reference pairs |
| CodeHelper.MakefilesKept | codehelper.py:33 | `Makefile` and `makefile` are kept, through the `akefile` suffix |
| CodeHelper.Run | codehelper.py:45-54 | the source paths are listed once each, sorted, each with its counts and pairs, and the totals are the lines and size of all of them |
| GoLex.Blot | gonecode.py:307-311 | blotting keeps the length and leaves no punctuation |
| GoLex.BlotPlain | gonecode.py:307-311 | a line without punctuation is left as it is |
| GoLex.SplitCode | gonecode.py:307-312 | every token is non-empty, without whitespace or punctuation |
| GoLex.SplitCodePlain | gonecode.py:307-312 | a line without punctuation splits as `str.split()` would |
| GoLex.CutAt | gonecode.py:316-318 | the cut line is a prefix of the line |
| GoLex.FirstStop | gonecode.py:314-319 | the first index where `//`, `:=` or `=` starts, or the line's length |
| GoLex.SplitVarsCut | gonecode.py:314-319 | the three cuts in turn cut at the first marker of any kind |
| GoLex.CutAtAssign | gonecode.py:315-318 | after the `//` cut, the `:=` cut lands at the first marker |
| GoLex.CutAtEquals | gonecode.py:315-318 | after the `:=` cut, the `=` cut lands at the first marker |
| GoLex.CutLength | gonecode.py:316-318 | a cut lands at the first occurrence of its marker, or keeps the line |
| GoLex.NoParenToken | gonecode.py:263-264 | `(` is never a token, so the `var (` check never fires |
| GoLex.NameOf | gonecode.py:180-183 | the name holds no `(` and has no whitespace at either end |
| GoLex.ParseFunc | gonecode.py:164-183 | the name read holds no `(`, and a receiver is read only from a line starting with `(` |
| GoLex.ParseFuncFails | gonecode.py:168-175 | a declaration is not understood iff it starts with `(` and has no `)` or nothing inside the receiver |
| GoLex.ParsePlainFunc | gonecode.py:179-183 | a plain declaration reads back its name, with no receiver |
| GoLex.ParseMethodFunc | gonecode.py:164-183 | a method declaration reads back its receiver type and its name |
| GoLex.ReceiverPart | gonecode.py:168-177 | the receiver runs to the first `)` and its last token is the type |
| GoLex.PaddedName | gonecode.py:179-183 | the name after the receiver is read without its padding |
| GoLex.NameAtParen | gonecode.py:180-183 | the name part ends at the first `(` and is stripped |
| GoLex.TypeName | gonecode.py:224 | the type name is a single token, and there is none iff the rest of the line is whitespace |
| GoLex.SplitEmptyAllSpace | gonecode.py:224 | a string that splits into nothing is all whitespace |
| GoLex.Dashed | gonecode.py:299 | underscores become dashes, keeping the length |
| GoLex.IsParam | gonecode.py:298-305 | with no significant length the dashed argument must equal the directive; otherwise it must start with the directive's first characters |
| GoLex.DashedIdempotent | gonecode.py:299 | dashing twice changes nothing |
| GoScan.GatherAt | gonecode.py:139-191 | a record only line k can produce is gathered iff line k produces it |
| GoScan.GatherIn | gonecode.py:139-191 | a record is gathered iff some line produces it |
| GoScan.FuncLineDecl | gonecode.py:164-191 | a `func ` line records what its declaration reads, unless it is not understood or is a skipped `Test` function |
| GoScan.FuncAtIff | gonecode.py:145-191 | a func record of a line carries the path, the 1-based line number, and the receiver and name the line declares |
| GoScan.FuncDecls | gonecode.py:136-193 | definition of the func records `find_funcs` adds for one file, in line order; characterised by FuncDeclsIff and FuncDeclsAt |
| GoScan.FuncDeclsAt | gonecode.py:136-193 | a func record of a file comes from the line at its line number |
| GoScan.FuncDeclsIff | gonecode.py:136-193 | a func record is in a file's records iff the line at its number is a `func ` line declaring that receiver and name |
| GoScan.TypeAtIff | gonecode.py:218-228 | a type record of a line carries the path, line number and the first token after `type ` |
| GoScan.TypeDecls | gonecode.py:195-230 | definition of the type records `find_types` adds for one file, in line order; characterised by TypeDeclsIff and TypeDeclsAt |
| GoScan.TypeDeclsAt | gonecode.py:195-230 | a type record of a file comes from the line at its line number |
| GoScan.TypeDeclsIff | gonecode.py:195-230 | a type record is in a file's records iff the line at its number is a `type ` line naming it |
| GoScan.VarNames | gonecode.py:258-264 | the names of a `var ` line are its split tokens, `(` skipped |
| GoScan.DropParen | gonecode.py:263-264 | skipping `(` changes nothing when there is none |
| GoScan.VarAtIff | gonecode.py:255-268 | a var record of a line carries the path, line number and one of the names the line declares |
| GoScan.VarDecls | gonecode.py:232-270 | definition of the var records `find_vars` adds for one file, in line order; characterised by VarDeclsIff and VarDeclsAt |
| GoScan.VarDeclsAt | gonecode.py:232-270 | a var record of a file comes from the line at its line number |
| GoScan.VarDeclsIff | gonecode.py:232-270 | a var record is in a file's records iff the line at its number is a `var ` line declaring that name |
| GoScan.LastMarker | gonecode.py:142-143 | the last line at or before j that sets the enclosing function, with no such line after it |
| GoScan.CloseClears | gonecode.py:142-162 | a `}` line is inside no function, so every declared token on it counts as a use |
| GoScan.EnclosingStep | gonecode.py:142-183 | the running `funcname` agrees with the reference enclosing function, line after line |
| GoScan.LineUses | gonecode.py:151-160 | a line uses exactly the declared names, other than the enclosing function, that occur in it as whole tokens |
| GoScan.LineUsesAt | gonecode.py:147-162 | the names a line adds are exactly those it uses by the reference |
| GoScan.FuncUsedInSnoc | gonecode.py:139-162 | a name is used in the first i + 1 lines iff it is used in the first i or at line i |
| GoScan.FuncUsesLine | gonecode.py:139-185 | after each line the running function name and the used set agree with the reference |
| GoScan.FuncUsesIn | gonecode.py:136-193 | the usage pass finds exactly the declared names used somewhere in the file outside their own function and declaration lines |
| GoScan.UsesIn | gonecode.py:202-216 | the type and var usage passes find exactly the declared names that occur as tokens on a non-declaration line |
| GoneCode.MatchIn | gonecode.py:45-54 | the switch found is the first whose directive the dashed argument equals, or none matches |
| GoneCode.MatchFlag | gonecode.py:45-54 | an argument names a switch iff its dashed form is that switch's directive |
| GoneCode.Toggle | gonecode.py:45-54 | toggling flips exactly one switch |
| GoneCode.FlagParity | gonecode.py:44-54 | a switch ends up on iff it started on and was named an even number of times, or started off and was named an odd number of times |
| GoneCode.TakeArg | gonecode.py:45-58 | definition of one turn of the argument loop; characterised by TakeArgToggles and RootIsLastPlain |
| GoneCode.ParseArgs | gonecode.py:42-58 | definition of the argument loop of `main`; characterised by UnknownFirst, FlagParity and RootIsLastPlain |
| GoneCode.ParseStep | gonecode.py:44-58 | an argument that is not an unknown directive is taken, and the loop goes on from there |
| GoneCode.TakeArgToggles | gonecode.py:45-54 | an argument toggles exactly the switch it names |
| GoneCode.UnknownFirst | gonecode.py:55 | the loop stops iff some argument is an unknown directive, and then at the first one |
| GoneCode.RootIsLastPlain | gonecode.py:57-58 | the search root and the listed directory are the last plain argument, or stay as they were when there is none |
| GoneCode.LastPlainShift | gonecode.py:58 | the last plain argument of the rest is the last plain argument of all |
| GoneCode.NoPlainShift | gonecode.py:58 | with no plain argument after the first, the first decides the root |
| GoneCode.RepeatCancels | gonecode.py:45-54 | naming a switch twice in a row changes nothing |
| GoneCode.ListDir | gonecode.py:60 | the directory is listed, with exactly its entries, when the name resolves to a directory, and the call fails otherwise |
| GoneCode.SortedSources | gonecode.py:60-69 | `sorted(paths)` over the walk of the listing: the paths are in ascending order, and a path is listed iff the walk keeps it as a source file under the options |
| GoneCode.GoSources | gonecode.py:280-296 | every collected file ends in `.go`, passes the prefix filter, and under `--ignore-test-files` is not a `_test.go` file |
| GoneCode.Files | gonecode.py:69-75 | the lines of every file, in order |
| GoneCode.AllFuncs | gonecode.py:69-73 | definition of the func records of the run, file after file; characterised by AllFuncsIn and KeysOf |
| GoneCode.AllFuncsIn | gonecode.py:69-73 | a func record of the run is one of some file's records |
| GoneCode.AllTypes | gonecode.py:69-74 | definition of the type records of the run, file after file; characterised by AllTypesIn and KeysOf |
| GoneCode.AllTypesIn | gonecode.py:69-74 | a type record of the run is one of some file's records |
| GoneCode.AllVars | gonecode.py:69-75 | definition of the var records of the run, file after file; characterised by AllVarsIn and KeysOf |
| GoneCode.AllVarsIn | gonecode.py:69-75 | a var record of the run is one of some file's records |
| GoneCode.KeysOf | gonecode.py:188-189 | the keys of `all_funcs`, `all_types` or `all_vars` are exactly the names of the records |
| GoneCode.FirstCrash | gonecode.py:224 | the first file with a bare `type ` line, where `split()[0]` raises, or none |
| GoneCode.FuncUsage | gonecode.py:80-83 | the func usage pass finds exactly the declared names used in some file |
| GoneCode.Usage | gonecode.py:85-93 | the type and var usage passes find exactly the declared names used in some file |
| GoneCode.UnusedFuncs | gonecode.py:103-107 | the unused funcs are the declared names used nowhere, sorted |
| GoneCode.Unused | gonecode.py:113-127 | the unused types or vars are the declared names used nowhere, sorted |
| GoneCode.UnusedReport | gonecode.py:113-131 | a report of unused types or vars is present iff its switch is on, and then lists them sorted |
| GoneCode.Analyse | gonecode.py:60-134 | the sorted `.go` files, all their records, each unused report present iff switched on and complete, and the totals; or the crash of the first bad `type ` line |
| GoneCode.Run | gonecode.py:37-134 | an unknown directive, a missing directory, a crash or a report, each exactly when it happens: a crash names the first file with a bare `type ` line, and a report comes only when no file has one; the report holds the sorted `.go` files under the parsed options, all their func, type and var records, each unused report present iff its switch is on and listing, sorted, exactly the declared names used nowhere, and the totals |
| GrepBlocks.ParseArgs | grepblocks.py:37-41 | the loop adds at most one sought word per argument |
| GrepBlocks.SoughtInOrder | grepblocks.py:37-41 | the sought words are the arguments not led by a digit, in order |
| GrepBlocks.DistanceIsLast | grepblocks.py:35-40 | the distance is the value of the last digit-led argument, or 7 when there is none |
| GrepBlocks.BadDistanceStops | grepblocks.py:39 | a digit-led argument that `int` cannot read stops the tool |
| GrepBlocks.ContainsAny | grepblocks.py:112-116 | the word found is the first listed word that occurs in the line, and none is found iff no listed word occurs |
| GrepBlocks.Head | grepblocks.py:66 | `remaining[:1]` is empty for an empty list and the first word otherwise |
| GrepBlocks.HitsSpread | grepblocks.py:66-81 | hits on strictly increasing lines span at least as many lines as there are hits |
| GrepBlocks.HitsExtend | grepblocks.py:77 | a hit of the next sought word on a later line extends the run of hits |
| GrepBlocks.Complete | grepblocks.py:78-81 | a complete run of hits holds the sought words in order on at least as many lines as there are words |
| GrepBlocks.KeepBuilding | grepblocks.py:67-74 | a line without the next word only lengthens a started block |
| GrepBlocks.FoundNext | grepblocks.py:73-77 | a line with the next word, not the last, starts or lengthens the block and records the hit |
| GrepBlocks.FoundLast | grepblocks.py:75-81 | a line with the last word completes a block spanning its lines, the words in order |
| GrepBlocks.BlockGrown | grepblocks.py:67-68 | the block with a line added is the slice of lines it spans |
| GrepBlocks.LastHitSpan | grepblocks.py:77-81 | the hits with the last one added hold the sought words in order across the block |
| GrepBlocks.EmittedFacts | grepblocks.py:56-82 | the blocks are slices of the file in order and apart, each holding the sought words in order, at least as long as the word list and no longer than the distance allows |
| GrepBlocks.NextHitFirst | grepblocks.py:65-76 | the line where a block opens, or where the next word is taken, is the first line from there on that holds the word, or the end of the file when none does |
| GrepBlocks.Chain | grepblocks.py:65-78 | the words of a block, each taken on a later line than the one before, end at least as many lines on as there are words after the first |
| GrepBlocks.ChainSkip | grepblocks.py:73-74 | a line without the next word leaves the line where the words end unchanged |
| GrepBlocks.GreedySkip | grepblocks.py:73-74 | with no block open, a line without the first word leaves the blocks still to come unchanged |
| GrepBlocks.PendingSkip | grepblocks.py:66-74 | a line without the next word, within the distance, leaves the blocks still to come unchanged |
| GrepBlocks.Bound | grepblocks.py:69-72 | definition of the longest block kept, one line for a distance below 1; characterised by PendingReset and EmittedFacts |
| GrepBlocks.PendingReset | grepblocks.py:67-72 | the line that makes the open block longer than the distance drops it, and what is still to come is a fresh scan from the next line, that line itself not looked at; a negative distance drops every line |
| GrepBlocks.PendingNext | grepblocks.py:73-77 | a line with the next word, not the last, opens or extends the block and leaves the blocks still to come unchanged |
| GrepBlocks.PendingLast | grepblocks.py:75-81 | a line with the last word emits the open block, or a one-line block when none is open, and a fresh scan follows from the next line |
| GrepBlocks.PendingEmit | grepblocks.py:78-81 | the block emitted by the last word joins those emitted before it, in order |
| GrepBlocks.PendingDone | grepblocks.py:65-82 | a block still open when the file ends is never emitted |
| GrepBlocks.Step | grepblocks.py:65-81 | one line keeps the emitted blocks valid, keeps the block being built consistent with its hits, and moves no block into or out of the sequence the reference scan emits |
| GrepBlocks.StepHit | grepblocks.py:72-81 | a line holding the next sought word either completes a valid block or extends the one being built by one hit, in step with the reference scan |
| GrepBlocks.FindBlocks | grepblocks.py:56-82 | the blocks returned are valid in that sense over the whole file, and their spans are exactly those of the reference scan: each block opens at the first line holding the first word, takes each next word at its first later line, and is emitted only when its last word comes within the distance, the scan restarting after the line that made a block too long |
| GrepBlocks.FilesEmittedEach | grepblocks.py:48-49 | what holds of each file's entry as it is gathered, path by path, holds of the entry at every index of the result |
| GrepBlocks.BlocksOfFiles | grepblocks.py:48-49 | one entry per path, each the valid blocks of that file's lines at exactly the reference scan's spans |
| GrepBlocks.Run | grepblocks.py:34-54 | a bad distance stops the tool, no sought word prints the usage, and otherwise every source path gets, sorted by path, the valid blocks at exactly the reference scan's spans for its lines |
| Columns.ParseArgs | columns.py:8-15 | the separator is a tab iff `--tab` is given, two spaces otherwise; a file is read iff exactly one other argument is left |
| Columns.MaxLen | columns.py:20-28 | no row has more tokens than the longest row |
| Columns.MaxLenReached | columns.py:20-28 | some row is that long |
| Columns.ColWidthBeyond | columns.py:20-28 | a column past the longest row is empty |
| Columns.ColWidth | columns.py:24-28 | definition of a column's width as the longest token in it; characterised by ColWidthIsMax and ColWidthBeyond |
| Columns.ColWidthIsMax | columns.py:24-28 | a column's width is at least every token in it, and equal to one of them |
| Columns.Widen | columns.py:24-28 | one more row grows the width list to its length and widens each column to fit its token |
| Columns.Widths | columns.py:20-28 | the width loop gives one width per column, the widest token of that column |
| Columns.WidthsOf | columns.py:20-28 | the widths of the input rows, one per column |
| Columns.Cell | columns.py:33-37 | definition of one token padded to its column, then the separator unless last; characterised by CellLength and Padding |
| Columns.CellLength | columns.py:33-37 | a cell is its column's width, plus the separator unless it is last |
| Columns.FormatPrefix | columns.py:30-37 | the line up to token i fills exactly the columns before it |
| Columns.Aligned | columns.py:30-37 | token i of every row starts at the same offset |
| Columns.Format | columns.py:30-37 | definition of the line printed for a row; characterised by FormatSplit, FormatLength and Aligned |
| Columns.FormatLength | columns.py:30-37 | a line is as long as its columns plus one separator between each two |
| Columns.Padding | columns.py:34-37 | what follows a token is whitespace, and is empty only after the last token |
| Columns.SplitCell | columns.py:32-37 | the first token of the line from token i on is token i |
| Columns.SplitNext | columns.py:32-37 | the line from token i on splits back into tokens i onward |
| Columns.SplitEnd | columns.py:32-37 | past the last token nothing is printed |
| Columns.SplitFrom | columns.py:32-37 | splitting the line from token i on gives back tokens i onward |
| Columns.FormatSplit | columns.py:29-38 | a printed line splits on whitespace back into its row's tokens |
| Columns.Rows | columns.py:17-22 | one row per input line, holding that line's tokens |
| Columns.Fits | columns.py:20-28 | every token fits its column |
| Columns.PrintedSplits | columns.py:29-38 | each printed line splits back into its input line's tokens |
| Columns.Table | columns.py:29-38 | one printed line per row, each that row laid out in the widths |
| Columns.TableSplits | columns.py:29-38 | every printed line splits back into the tokens of its input line |
| Columns.Layout | columns.py:20-38 | the two passes give the table of the rows in their own widths |
| Columns.Run | columns.py:7-38 | one printed line per input line, each aligned to the columns' widths and splitting back into the same tokens |
| Word.Pick | word.py:20-26 | the word printed is empty or one of the line's words |
| Word.Reversed | word.py:24 | the words in the opposite order |
| Word.PickFront | word.py:21-22 | a non-negative n picks word n |
| Word.PickBack | word.py:23-24 | -1 - k picks word k of the reversed line, so -1 is the last word |
| Word.PickWraps | word.py:23-24 | a negative index and its non-negative counterpart pick the same word |
| Word.PickEmpty | word.py:20-26 | the output line is empty exactly when n is out of range for the line |
| Word.Words | word.py:19-26 | one output line per input line, each the word picked from it |
| Word.Run | word.py:16-26 | a bad number stops the tool, no number with input to read raises, and otherwise there is one output line per input line, its picked word |
| FormatJson.Step | formatjson.py:24-56 | one turn of the loop consumes at least one character and stays within the line |
| FormatJson.DepthAppend | formatjson.py:33-50 | the depth of a text is the sum of the depths of its parts |
| FormatJson.StepBalance | formatjson.py:33-50 | one turn moves the indent by the depth of what it consumed |
| FormatJson.ScanBalance | formatjson.py:24-56 | after a line, the indent has risen by 2 per opener and fallen by 2 per closer |
| FormatJson.StepKeeps | formatjson.py:32-54 | one turn moves characters from the line to the pending text or the written chunks, in order |
| FormatJson.ScanKeeps | formatjson.py:24-56 | the written chunks of a line, then the pending text, spell the line: no character is dropped or reordered |
| FormatJson.StepShape | formatjson.py:33-54 | one turn keeps every chunk ending at its delimiter and the pending text delimiter-free |
| FormatJson.ScanShape | formatjson.py:24-56 | every chunk ends at a delimiter, a `,` or newline after a closer kept with it, and the pending text holds none |
| FormatJson.FormatLine | formatjson.py:21-56 | definition of the loop over one line; characterised by FormatLineFacts, ScanKeeps, ScanShape and ScanBalance |
| FormatJson.FormatLineFacts | formatjson.py:21-56 | a line's chunks and pending text spell it, are well shaped, and move the indent by its depth |
| FormatJson.Body | formatjson.py:14-56 | definition of the reformatted lines, each entered at the indent the one before left; characterised by BodyBalance and BodyShape |
| FormatJson.BodyBalance | formatjson.py:14-56 | across lines the indent is twice the openers minus the closers seen since reformatting began |
| FormatJson.BodyShape | formatjson.py:14-56 | every chunk of every reformatted line is well shaped |
| FormatJson.FirstEntered | formatjson.py:15-20 | reformatting starts at the first line that starts with `{` after stripping, or never |
| FormatJson.Puts | formatjson.py:34-53 | each chunk is written as its indent and text |
| FormatJson.Echoes | formatjson.py:19 | each line before the first `{` line is echoed |
| FormatJson.Output | formatjson.py:14-58 | the lines before the first `{` line are echoed, then every chunk of the rest in order, then the last line's leftover if any |
| FormatJson.Run | formatjson.py:5-58 | the output of the input file or standard input is that echo, then those chunks, then that leftover |
| S3Viewer.Qualify | s3viewer.py:105-106 | a non-empty path starts with `s3://` afterwards, and only the empty path stays empty |
| S3Viewer.QualifyIdempotent | s3viewer.py:105-106 | qualifying twice changes nothing |
| S3Viewer.Command | s3viewer.py:104-111 | definition of `cmdfmt`; characterised by QualifyIdempotent, CommandScheme, ReplaceOnce and CommandText |
| S3Viewer.CommandScheme | s3viewer.py:104-111 | writing the scheme out or leaving it off gives the same command |
| S3Viewer.NoPlaceholder | s3viewer.py:108-110 | a text without `{` holds no placeholder |
| S3Viewer.NoPlaceholderFound | s3viewer.py:108-110 | a text without `{` has no placeholder to find |
| S3Viewer.FindPlaceholder | s3viewer.py:108-110 | the placeholder found is the one after the text before it |
| S3Viewer.ReplaceOnce | s3viewer.py:108-110 | replacing the one placeholder puts the path in its place and nothing else |
| S3Viewer.CommandText | s3viewer.py:15-16 | the listing commands are `aws s3 ls` with the quoted qualified path, or with nothing, before their tails |
| S3Viewer.DropSlash | s3viewer.py:83-84 | a folder name loses one trailing `/`, and is kept as it is otherwise |
| S3Viewer.FileLineSplit | s3viewer.py:80 | a file line splits into its date, time, size and the tokens of its name |
| S3Viewer.FindSize | s3viewer.py:95-97 | searching from inside the spaces before the size finds the size, and the name follows it after one character |
| S3Viewer.ParseFile | s3viewer.py:93-99 | a line of four or more tokens whose size is found past the date and time is a file named by what follows the size and one character |
| S3Viewer.SizeSearched | s3viewer.py:95 | the size of a line of four or more tokens is searched for past the date, the time and one character after each |
| S3Viewer.ParseLine | s3viewer.py:77-101 | definition of the body of the loop in `ls`; characterised by ParseLineIs, FileName and Collected |
| S3Viewer.Chomp | s3viewer.py:78-79 | definition of dropping one trailing newline; characterised by FileLineChomp |
| S3Viewer.Classify | s3viewer.py:80-101 | definition of the branches on the token count; characterised by ParseFile, FileLineClassify and FileLineFile |
| S3Viewer.ParseLineIs | s3viewer.py:78-101 | reading a line is classifying the chomped line by its tokens and where the size is found |
| S3Viewer.FileLineChomp | s3viewer.py:78-79 | a file line has no newline to lose |
| S3Viewer.FileLineClassify | s3viewer.py:78-101 | a file line is read by classifying its tokens |
| S3Viewer.FileLineSize | s3viewer.py:95-97 | the size of a file line is found right after its spaces, and the name follows it after one character |
| S3Viewer.FileLineFile | s3viewer.py:93-99 | a file line's tokens, with its size where it is found, classify as that file |
| S3Viewer.FileName | s3viewer.py:77-101 | a file line as `aws s3 ls` prints it reads back as that file, whatever spaces its name holds |
| S3Viewer.Parse | s3viewer.py:77-101 | one reading per output line, in order |
| S3Viewer.Collect | s3viewer.py:75-102 | no more folders and files than lines |
| S3Viewer.Listing | s3viewer.py:75-102 | definition of `ls` on its command's output lines; characterised by Parse and Collected |
| S3Viewer.Ls | s3viewer.py:65-102 | definition of `ls`, the output of `os.popen` a parameter; characterised by CommandText and Collected |
| S3Viewer.Collected | s3viewer.py:75-102 | the folders are exactly those of the folder lines, the files those of the file lines |
| S3Viewer.Decide | s3viewer.py:37-54 | definition of what a choice does; characterised by DecideMenu and DecideOutside |
| S3Viewer.Choose | s3viewer.py:36-54 | definition of an answer at the prompt: an answer `int()` rejects quits, any other is decided as its number; characterised by ParseShow, DecideMenu and DecideOutside |
| S3Viewer.DecideMenu | s3viewer.py:25-50 | choice c, from 1 up, is item c - 1 of the folders followed by the files: a folder is entered, a file shown |
| S3Viewer.DecideOutside | s3viewer.py:37-54 | 0 goes up, or exits at the top; past the menu a choice is invalid; a negative choice enters a folder counted from the end, and raises (ending the session) beyond it |
| S3Viewer.Apply | s3viewer.py:41-45 | definition of `cd ..` and `cd name` on the levels; characterised by UpUndoesEnter |
| S3Viewer.UpUndoesEnter | s3viewer.py:41-45 | going up undoes entering a folder |
| Strings.Join | s3viewer.py:55 | definition of `string.join(levels, "/")`; characterised by S3Viewer.JoinSlashed and S3Viewer.JoinEnds |
| S3Viewer.JoinSlashed | s3viewer.py:55-57 | the levels joined by `/`, with a `/` added, are every level followed by `/` |
| S3Viewer.JoinEnds | s3viewer.py:55 | the joined levels end with the last level |
| S3Viewer.PathOf | s3viewer.py:55-57 | definition of the path of the levels; characterised by PathOfLevels, JoinSlashed and JoinEnds |
| S3Viewer.PathOfLevels | s3viewer.py:55-57 | when the last level is a plain name, the path is every level followed by one `/`, and the top is the empty path |
| S3Viewer.Names | s3viewer.py:45 | the names of the items, in order |
| S3Viewer.ReachableEnter | s3viewer.py:44-46 | entering a folder the current menu shows keeps every level reachable |
| S3Viewer.ReachableUp | s3viewer.py:41-42 | going up keeps every level reachable |
| S3Viewer.NextReachable | s3viewer.py:33-54 | only choice 0 at the top exits, and every move from the menu keeps every level a folder its parent's listing showed |
| S3Viewer.Turn | s3viewer.py:33-58 | one answer applies the chosen move, exits only at the top, and adds the new path to the printed ones only on a move up or into a folder, keeping every level and path reachable |
| S3Viewer.Run | s3viewer.py:19-63 | the levels only ever name folders the menus showed, an exit happens only at the top, and each path whose command is printed is one the session can reach, the last being the current one |
| Strings.DropSpaces | columns.py:22 | dropping leading whitespace keeps a suffix that starts with no whitespace |
| Strings.DropSpacesSuffix | columns.py:22 | what is dropped is whitespace, and what is kept is a suffix |
| Strings.TakeWord | columns.py:22 | the leading word is a whitespace-free prefix, followed by whitespace or the end |
| Strings.Split | columns.py:22 | `str.split()` yields only non-empty whitespace-free tokens |
| Strings.RemoveSpacesAppend | columns.py:22 | removing whitespace distributes over concatenation |
| Strings.SplitKeepsContent | columns.py:22 | the tokens glued back together are the input's non-whitespace characters, in order |
| Strings.SplitOfSpaces | columns.py:22 | whitespace alone splits into nothing |
| Strings.SplitAfterSpaces | columns.py:22 | leading whitespace does not change the split |
| Strings.SplitWordThen | columns.py:22 | a word followed by whitespace is the first token, and the rest splits on its own |
| Strings.SplitOfWord | columns.py:22 | a single token splits to itself |
| Strings.SplitHead | columns.py:22 | the first token sits after leading whitespace, and the remaining tokens are the split of what follows it |
| Strings.RemoveFirst | grepblocks.py:77 | `list.remove` drops one copy of the word: the first, when it is at the front |
| Strings.SplitNoneOf | gonecode.py:307-312 | tokens avoid every character the input avoids |
| Strings.Find | s3viewer.py:95 | definition of `s.find(sub)`; characterised by FindFrom |
| Strings.FindFrom | s3viewer.py:95 | `find` gives the least index at or after the start where the text occurs, or -1 when there is none |
| Strings.Contains | grepblocks.py:112-116 | definition of `sub in s`; characterised by ContainsIff |
| Strings.ContainsIff | grepblocks.py:112-116 | `sub in s` holds iff `sub` occurs at some index |
| Strings.FirstIndex | loc.py:53 | the index of the first occurrence of a character (a newline, where a file is cut into lines), or the length |
| Strings.RFind | Archive.py:266 | `rfind` gives the last index of the character, or -1 when there is none |
| Strings.SliceFrom | Archive.py:268 | `s[k:]` is the suffix from k, or empty past the end |
| Strings.SliceTo | gonecode.py:301 | `s[:k]` is the prefix of length k, or the whole string |
| Strings.StartsWithIsPrefix | loc.py:74-78 | `s[:len(p)] == p` iff p is a prefix of s |
| Strings.EndsWithIsSuffix | loc.py:80-84 | for a non-empty suffix, `s[-len(suf):] == suf` iff s ends with it |
| Strings.HasPrefix | loc.py:74-78 | definition of `has_prefix`; characterised by HasPrefixIff |
| Strings.HasPrefixIff | loc.py:74-78 | `has_prefix` holds iff some listed prefix starts the name |
| Strings.HasSuffix | loc.py:80-84 | definition of `has_suffix`; characterised by HasSuffixIff |
| Strings.HasSuffixIff | loc.py:80-84 | for non-empty suffixes, `has_suffix` holds iff some listed suffix ends the name |
| Strings.Strip | s3viewer.py:82 | the stripped text starts and ends with no whitespace |
| Strings.StripSlice | s3viewer.py:82 | what `strip` keeps is a slice of the input with only whitespace around it |
| Strings.StripPadded | formatjson.py:16 | a word with whitespace around it strips to itself |
| Strings.StripEnd | s3viewer.py:82 | the text without trailing whitespace is a prefix ending in a non-space |
| Strings.ReplaceAll | s3viewer.py:108-110 | `replace` changes nothing when the pattern does not occur |
| Strings.Spaces | columns.py:35 | `" " * n` is n spaces, none for a negative n |
| Numbers.Decimal | word.py:18 | the decimal digits of a number, without leading zeros |
| Numbers.DecimalValue | word.py:18 | the digits of a number read back as that number |
| Numbers.ParseSigned | word.py:18 | a signed number is read only from a non-empty text |
| Numbers.ShowInt | word.py:18 | `str(i)` is one token |
| Numbers.ParseInt | word.py:18 | definition of `int(s)`, `None` where it raises; characterised by ParseShow |
| Numbers.ParseSignedShow | word.py:18 | the sign and digits of `str(i)` read back as i |
| Numbers.ParseShow | word.py:18 | `int(str(i)) == i`, whatever whitespace surrounds it |

## Left out

- Input and output: files, directories, standard input and the time of day are parameters (a `Node` tree, a text, a `DateTime`); printed lines are values, and the exact `print` formatting of counts, menus and messages is modelled only where a property is stated about it.
- SHA-384 is a parameter `sha` of the archiver; only its use (digest, base64 with `-` and `_`, 64 characters) is modelled.
- The conversion of a file's `st_mtime` with `time.gmtime` is left out: a file carries its modification time as a `DateTime`.
- Symbolic links: the pass reads each entry's status with `os.stat` (Archive.py:273), which follows links, so the `S_ISLNK` branch of the store step (Archive.py:342-349) never fires on a real run; the tree has no link nodes.
- Copying a file into the repository is modelled as the Python write the source uses off Linux (Archive.py:357): one write of the content. Preserved permissions and times of `cp -p` are not modelled.
- Archive.StepFile: states the write of the content under timestamp plus name for every archivable file. On Linux the source copies with the shell command `/bin/cp -p "path" "dest"` (Archive.py:346, 354), and that copy holds only for paths free of `"`, `$`, `` ` `` and `\`. With one of those in the name the shell joins, expands or runs part of it, so the copy can fail or land elsewhere while the summary line still records the file.
- ArchiveProps.StepFileEffect: states the same write, and holds on Linux only for the same paths.
- Directories that `os.listdir` cannot read are not modelled: every directory of the tree lists its entries. A file that `open` cannot read is modelled only where the source tests for it (`is_readable_file` in the archiver); in the line-counting tools such a file would raise, which is not modelled.
- A revision named by the repository index is always present in the model; a repository edited by hand so that a listed revision is missing would make the archiver raise, which is not modelled.
- Paths that go up with `..` are not resolved: the archiver's argument loop stops with `Unsupported` for them, and a listing that holds such a name also yields `Unsupported`.
- ArchiveCli.Run: no lemma states that a second pass over an unchanged tree writes nothing, and as written that fails. A file whose modification time sorts before the newest stored revision of its name is stored under the older stamp, the newer revision stays the latest, and every later pass stores the file again (`ArchiveIndex.OlderStampStoresAgain`). When each stored stamp is the newest of its name, the store rule skips the same content (`ArchiveIndex.StoreThenSkip`), but the writes of a pass are not applied back to the tree, so the statement over a whole second pass is not made.
- ArchiveCli.Gather: the tree is the working directory and nothing above it. An absolute argument is looked up inside the working directory, and an argument with a `..` segment stops the loop as `Unsupported`; the source hands both to `os.stat` on the real file system.
- ArchiveCli.Finish: a named directory with no name of its own to record, such as `./` or `/`, ends the run as `Unsupported`; the source archives it by recursing into it (Archive.py:207-210, 281-288).
- ArchiveCli.HandleArgs: inherits both gaps above. An absolute argument names a path inside the working directory, and `..`, `./` or `/` end the run as `Unsupported` where the source would archive what they name.
- GoneCode.ListDir: a directory name with a `..` segment gives `None`, and an absolute name is looked up inside the working directory; `os.listdir` would list the real directory in both cases.
- GoneCode.Run: through `GoneCode.ListDir`, ends with `NoDirectory` for a `..` root that `os.listdir` would list, and analyses a directory of the working tree for an absolute root.
- A root that is empty or only separators makes the archiver's strip loop spin forever (`ArchivePaths.RootLoopDiverges` shows it); the archiving functions require a root with some other character.
- The archiver's configuration file comments (`Retain`, `Ignore`) and the `add` and `addsuffix` commands are not implemented by the source; they are modelled as the `NotImplemented` outcome. `init` is modelled as its outcome (whether a directory is made), not as a change of the tree.
- `int()` accepts more than a sign and digits (underscores, other Unicode digits); only ASCII digits with one optional sign and surrounding whitespace are modelled.
- Printing-only switches of the Go dead-code finder (`Print_All_Paths`, `Print_All_Funcs`, `Print_All_Types`, `Print_All_Vars`, `Print_Line_Counts`) are modelled as flags; their output formats are not.
- The Go dead-code finder records each use with its path and line; the model keeps the set of used names, which is all the report depends on.
- The s3viewer cache only memoises the listing; the model passes the listing as a function `ls`, so the cache is left out. The interactive loop reads a sequence of answers; a failed `popen` and the printed command line are not modelled.
- S3Viewer.ParseLine: the branch for a four-token line whose size cannot be found is modelled as `Unknown`, but it is not shown to be unreachable.
- Word.Pick: an index out of range yields the empty line that `print()` writes under Python 3; under Python 2, which the other tools of the repository need, the same statement writes `()`.
- The file name argument of `word.py` is read from the command line but never opened; the model takes the text from standard input, as the source does.
- ArchivePaths.BaseName: states only a length bound in its own contract; what it means is stated by the lemmas beside it (`BaseNameOneKind`, `BaseNameMixedSeparators`).
- Strings.ReplaceAll: states only the case with no occurrence; the single-placeholder use in s3viewer is `S3Viewer.ReplaceOnce`.
- Numbers.ParseSigned: states only that a number needs a non-empty text; its round trip with `str` is `Numbers.ParseSignedShow` and `Numbers.ParseShow`.
- GrepBlocks.ParseArgs: states only a bound on the sought words in its own contract; their order and contents are `GrepBlocks.SoughtInOrder`.
- S3Viewer.Collect: states only a bound on the number of items in its own contract; which listing lines become folders and files is `S3Viewer.Collected`.
- SourceFiles.CountLinesAndBytes: states the line count in its own contract; the byte total is `SourceFiles.BytesAreLength` and `SourceFiles.FileCounts`.

=== FILE: archive.dfy ===
/**
 One archiving pass of `archive(root, repo, subdirs, filenames, now)`:
 every named subdirectory that holds its own repository is archived
 first (recursively), then every named file, then the directory itself
 under the name `.`. Each entry contributes one summary line; an entry
 whose content differs from its latest stored revision (or that was never
 stored) is written into the directory's repository under a timestamped
 name. The pass returns the directory's summary text.

 Everything the source reads from disk comes from the tree `here` (the
 directory `root` names); the repository of `here` is threaded through
 the pass as a map from stored names to bytes, and every file the pass
 writes, in any directory, is reported as a `Write` with its full path.
 */
module Archive {
  import opened Wrappers
  import opened Strings
  import opened Sorting
  import opened Stamps
  import opened FsTree
  import opened ArchivePaths
  import opened Modes
  import opened ArchiveIndex
  import opened Summary
  import opened Base64Url

  /** `DIR_NAME`: the name under which a directory archives itself. */
  const DirName := "."

  /** `REPO_DIRNAME`: the repository directory of every archived directory. */
  const RepoDirName := ".Archive/"

  /** A file the pass writes: `open(path, "wb").write(data)`, as the source
      stores a file off Linux. The Linux copy through the shell, `cp -p`,
      lands the same bytes only for paths free of the characters the shell
      treats specially inside double quotes (see README). */
  datatype Write = Write(path: string, data: string)

  /** The state of the loop over one directory's entries: the summary
      text and its lines so far, the directory's repository (stored name
      to bytes) and all writes so far, those of subdirectories included. */
  datatype State = State(text: string, lines: seq<Line>, repo: map<string, string>, writes: seq<Write>)

  /** A name that can be archived: `.`, or a path that moves into the
      tree at least once and never goes up with `..`. */
  predicate ArgName(name: string) {
    name == DirName ||
    ((exists i :: 0 <= i < |Segments(name)| && Moves(Segments(name)[i])) && ".." !in Segments(name))
  }

  /** A root as `archive` leaves it after normalisation. */
  predicate NormalRoot(r: string) {
    |r| >= 2 && r[|r| - 1] == '/' && !IsSep(r[|r| - 2])
  }

  /** A repository name as `archive` leaves it after normalisation. */
  predicate NormalRepo(p: string) {
    NormaliseRepo(p) == p
  }

  /** The base name of the repository, `repo[:-1]`. */
  function RepoBase(p: string): string
    requires |p| >= 1
  {
    p[..|p| - 1]
  }

  /** Every real name of the index has a latest revision held in `repo`. */
  predicate IndexHeld(idx: map<string, seq<string>>, repo: map<string, string>) {
    forall n :: n in idx ==> idx[n] != [] && Latest(idx, n) + n in repo
  }

  /** The stored names and bytes of the regular files of a repository
      directory. */
  function RepoMap(es: seq<Entry>): (m: map<string, string>)
    ensures forall x :: x in m <==> (x != "." && x != ".." &&
              exists i :: 0 <= i < |es| && es[i].name == x && es[i].node.File?)
  {
    if es == [] then map[]
    else
      var m := RepoMap(es[1..]);
      assert forall i :: 1 <= i < |es| ==> es[i] == es[1..][i - 1];
      if es[0].name != "." && es[0].name != ".." && es[0].node.File? then m[es[0].name := es[0].node.data] else m
  }

  /** One summary line: `hash384base64(content) + " " + get_mode_str(path) + " " + src`. */
  function SummaryLine(sha: string -> Digest, content: string, node: Node, src: string): (l: Line)
    ensures |l.hash| == 64 && |l.mode| == 10 && l.name == src
    ensures ' ' !in l.hash && ' ' !in l.mode
  {
    var h := HashText(sha, content);
    assert ' ' !in h by {
      forall i | 0 <= i < |h|
        ensures h[i] != ' '
      {
        assert InAlphabet(h[i]);
      }
    }
    ModeStrNoSpace(node.Dir?, node.mode);
    Line(h, ModeStr(node.Dir?, node.mode), src)
  }

  /** Append a line at the bottom of the summary. */
  function AddLine(st: State, l: Line): (r: State)
    ensures r.lines == st.lines + [l] && r.repo == st.repo && r.writes == st.writes
    ensures st.text == RenderAll(st.lines) ==> r.text == RenderAll(r.lines)
    ensures SpaceFreeFields(st.lines) && ' ' !in l.hash && ' ' !in l.mode ==> SpaceFreeFields(r.lines)
  {
    RenderAllAppend(st.lines, [l]);
    assert forall i :: 0 <= i < |st.lines| ==> (st.lines + [l])[i] == st.lines[i];
    assert (st.lines + [l])[|st.lines|] == l;
    State(st.text + Render(l), st.lines + [l], st.repo, st.writes)
  }

  /** Store `data` under `stamp + src` in this directory's repository. */
  function Store(st: State, root: string, repo: string, stamp: string, src: string, data: string): (r: State)
    ensures r.text == st.text && r.lines == st.lines
    ensures r.repo == st.repo[stamp + src := data]
    ensures r.writes == st.writes + [Write(root + repo + stamp + src, data)]
  {
    State(st.text, st.lines, st.repo[stamp + src := data], st.writes + [Write(root + repo + stamp + src, data)])
  }

  /** `archive(root, repo, subdirs, filenames, now)` on the directory
      `here` that `root` names. `sha` is SHA-384 and `now` the time of
      the run. */
  function ArchiveDir(sha: string -> Digest, now: DateTime, here: Node, root: string, repo: string,
                      subdirs: seq<string>, files: seq<string>): (r: State)
    requires here.Dir? && WF(here) && !AllSeps(root)
    requires Lookup(here, NormaliseRepo(repo)).Some? && Lookup(here, NormaliseRepo(repo)).value.Dir?
    requires forall i :: 0 <= i < |subdirs| ==> ArgName(subdirs[i])
    requires forall i :: 0 <= i < |files| ==> ArgName(files[i])
    ensures r.text == RenderAll(r.lines)
    ensures SpaceFreeFields(r.lines)
    ensures |r.lines| <= |subdirs| + |files| + 1
    decreases Size(here), 4, 0
  {
    var P := NormaliseRepo(repo);
    NormaliseRepoIdempotent(repo, "");
    var start := Start(here, P);
    var order := subdirs + files + [DirName];
    OrderArchivable(subdirs, files);
    var init := State([], [], start.1, []);
    assert init.text == RenderAll(init.lines) && SpaceFreeFields(init.lines);
    Loop(sha, now, here, NormaliseRoot(root), P, start.0, order, init)
  }

  /** The merged index of the repository `here/repo` and its stored bytes. */
  function Start(here: Node, repo: string): (r: (map<string, seq<string>>, map<string, string>))
    requires Lookup(here, repo).Some? && Lookup(here, repo).value.Dir?
    ensures IndexHeld(r.0, r.1)
  {
    var rd := Lookup(here, repo).value;
    var fs := ListDirSorted(rd).1;
    InitiallyHeld(rd, fs, Index(fs), RepoMap(rd.entries));
    (Index(fs), RepoMap(rd.entries))
  }

  lemma OrderArchivable(subdirs: seq<string>, files: seq<string>)
    requires forall i :: 0 <= i < |subdirs| ==> ArgName(subdirs[i])
    requires forall i :: 0 <= i < |files| ==> ArgName(files[i])
    ensures forall i :: 0 <= i < |subdirs + files + [DirName]| ==> ArgName((subdirs + files + [DirName])[i])
  {
    var order := subdirs + files + [DirName];
    forall i | 0 <= i < |order|
      ensures ArgName(order[i])
    {
      if i < |subdirs| {
        assert order[i] == subdirs[i];
      } else if i < |subdirs| + |files| {
        assert order[i] == files[i - |subdirs|];
      }
    }
  }

  /** Lines whose names have no newline are well formed (hash and mode
      never hold a space). */
  predicate SpaceFreeFields(ls: seq<Line>) {
    forall i :: 0 <= i < |ls| ==> ' ' !in ls[i].hash && ' ' !in ls[i].mode
  }

  lemma InitiallyHeld(rd: Node, fs: seq<string>, idx: map<string, seq<string>>, held: map<string, string>)
    requires rd.Dir? && fs == ListDirSorted(rd).1 && idx == Index(fs) && held == RepoMap(rd.entries)
    ensures IndexHeld(idx, held)
  {
    forall n | n in idx
      ensures idx[n] != [] && Latest(idx, n) + n in held
    {
      LatestIsNewest(fs, n);
    }
  }

  /** The loop over `processing_order`, one entry at a time. */
  function Loop(sha: string -> Digest, now: DateTime, here: Node, root: string, repo: string,
                idx: map<string, seq<string>>, names: seq<string>, st: State): (r: State)
    requires here.Dir? && WF(here) && NormalRoot(root) && NormalRepo(repo)
    requires forall i :: 0 <= i < |names| ==> ArgName(names[i])
    requires IndexHeld(idx, st.repo)
    ensures IndexHeld(idx, r.repo) && st.repo.Keys <= r.repo.Keys
    ensures st.text == RenderAll(st.lines) ==> r.text == RenderAll(r.lines)
    ensures SpaceFreeFields(st.lines) ==> SpaceFreeFields(r.lines)
    ensures |r.lines| <= |st.lines| + |names|
    decreases Size(here), 3, |names|
  {
    if names == [] then st
    else
      var st' := Step(sha, now, here, root, repo, idx, names[0], st);
      Loop(sha, now, here, root, repo, idx, names[1..], st')
  }

  /** The facts every step keeps. */
  predicate Keeps(idx: map<string, seq<string>>, st: State, r: State) {
    IndexHeld(idx, r.repo) && st.repo.Keys <= r.repo.Keys &&
    (st.text == RenderAll(st.lines) ==> r.text == RenderAll(r.lines)) &&
    (SpaceFreeFields(st.lines) ==> SpaceFreeFields(r.lines)) &&
    |r.lines| <= |st.lines| + 1
  }

  /** One pass of the loop body for the entry `name`. */
  function Step(sha: string -> Digest, now: DateTime, here: Node, root: string, repo: string,
                idx: map<string, seq<string>>, name: string, st: State): (r: State)
    requires here.Dir? && WF(here) && NormalRoot(root) && NormalRepo(repo)
    requires ArgName(name)
    requires IndexHeld(idx, st.repo)
    ensures Keeps(idx, st, r)
    decreases Size(here), 2, 0
  {
    if name == RepoBase(repo) then st
    else
      match Lookup(here, name)
      case None => st
      case Some(node) =>
        if name == DirName then StepSelf(sha, now, node, root, repo, idx, st)
        else if node.Dir? then
          if RepoBase(repo) !in ListDirSorted(node).0 then st
          else StepSubdir(sha, now, here, root, repo, idx, name, node, st)
        else if node.File? && node.readable then StepFile(sha, root, repo, idx, BaseName(name), node, st)
        else st
  }

  /** The entry `.`: its line hashes the lines so far and goes on top;
      the whole text is what gets stored, under the time of the run. */
  function StepSelf(sha: string -> Digest, now: DateTime, node: Node, root: string, repo: string,
                    idx: map<string, seq<string>>, st: State): (r: State)
    requires IndexHeld(idx, st.repo)
    ensures Keeps(idx, st, r)
  {
    var src := BaseName(DirName);
    var l := SummaryLine(sha, st.text, node, src);
    var text := Render(l) + st.text;
    var st1 := State(text, [l] + st.lines, st.repo, st.writes);
    assert st.text == RenderAll(st.lines) ==> text == RenderAll([l] + st.lines) by {
      assert ([l] + st.lines)[0] == l && ([l] + st.lines)[1..] == st.lines;
    }
    assert SpaceFreeFields(st.lines) ==> SpaceFreeFields(st1.lines) by {
      assert forall i :: 1 <= i < |st1.lines| ==> st1.lines[i] == st.lines[i - 1];
    }
    if Stores(idx, st.repo, src, text) then Store(st1, root, repo, Format(now), src, text) else st1
  }

  /** A subdirectory holding a repository: archived first, its text
      hashed into this directory's line; nothing is stored here for it. */
  function StepSubdir(sha: string -> Digest, now: DateTime, here: Node, root: string, repo: string,
                      idx: map<string, seq<string>>, name: string, node: Node, st: State): (r: State)
    requires here.Dir? && WF(here) && NormalRoot(root) && NormalRepo(repo)
    requires ArgName(name) && name != DirName
    requires Lookup(here, name) == Some(node) && node.Dir?
    requires RepoBase(repo) in ListDirSorted(node).0
    requires IndexHeld(idx, st.repo)
    ensures Keeps(idx, st, r)
    decreases Size(here), 1, 0
  {
    var sub := ArchiveSub(sha, now, here, root, repo, name, node);
    var st1 := AddLine(st, SummaryLine(sha, sub.text, node, BaseName(name)));
    State(st1.text, st1.lines, st1.repo, st1.writes + sub.writes)
  }

  /** A readable regular file: its bytes are hashed, and stored under
      its modification time when the store rule says so. */
  function StepFile(sha: string -> Digest, root: string, repo: string,
                    idx: map<string, seq<string>>, src: string, node: Node, st: State): (r: State)
    requires node.File?
    requires IndexHeld(idx, st.repo)
    ensures Keeps(idx, st, r)
  {
    var st1 := AddLine(st, SummaryLine(sha, node.data, node, src));
    if Stores(idx, st.repo, src, node.data) then Store(st1, root, repo, Format(node.mtime), src, node.data)
    else st1
  }

  /** The recursive call `archive(root + name, repo, subdirs2, filenames2, now)`
      for a subdirectory that holds a repository of its own. */
  function ArchiveSub(sha: string -> Digest, now: DateTime, here: Node, root: string, repo: string,
                      name: string, node: Node): (r: State)
    requires here.Dir? && WF(here) && NormalRoot(root) && NormalRepo(repo)
    requires ArgName(name) && name != DirName
    requires Lookup(here, name) == Some(node) && node.Dir?
    requires RepoBase(repo) in ListDirSorted(node).0
    ensures r.text == RenderAll(r.lines)
    decreases Size(here), 0, 0
  {
    LookupDescends(here, name);
    WalkWF(here, Segments(name));
    var listing := ListDirSorted(node);
    assert repo == RepoBase(repo) + "/";
    LookupListedDir(node, RepoBase(repo));
    ListedNamesArchivable(node, listing.0);
    ListedNamesArchivable(node, listing.1);
    assert !AllSeps(root + name) by {
      assert (root + name)[|root| - 2] == root[|root| - 2];
    }
    ArchiveDir(sha, now, node, root + name, repo, listing.0, listing.1)
  }

  /** Names listed from a well-formed directory can be archived. */
  lemma ListedNamesArchivable(dir: Node, names: seq<string>)
    requires WF(dir) && dir.Dir?
    requires forall x :: x in names ==> exists i :: 0 <= i < |dir.entries| && dir.entries[i].name == x
    ensures forall i :: 0 <= i < |names| ==> ArgName(names[i])
  {
    forall k | 0 <= k < |names|
      ensures ArgName(names[k])
    {
      var x := names[k];
      assert x in names;
      var i :| 0 <= i < |dir.entries| && dir.entries[i].name == x;
      LookupListedName(dir, x, i);
      assert Moves(Segments(x)[0]);
    }
  }
}

=== FILE: archive_cli.dfy ===
/**
 The command line of the archiver, `handle_args(args)`, run in the
 directory `top`: the commands `init`, `add` and `addsuffix`, the
 selection of the files and subdirectories to archive from the other
 arguments, and the final call of one archiving pass.
 */
module ArchiveCli {
  import opened Wrappers
  import opened Stamps
  import opened FsTree
  import opened ArchivePaths
  import opened Summary
  import opened Archive

  /** How a run ends. Messages on the standard streams are not modelled. */
  datatype Outcome =
    | Initialised(made: bool)          // `init`: the repository was made, or already existed
    | NotImplemented(command: string)  // `add` or `addsuffix`
    | Crashed(arg: string)             // `os.stat(arg)` raised: the argument names nothing
    | NoRepository                     // no `.Archive` directory here
    | Unsupported(arg: string)         // a path this model does not resolve (see README)
    | Archived(subdirs: seq<string>, files: seq<string>, pass: State)

  /** Where the loop over the arguments stands. */
  datatype Gathered = Stop(outcome: Outcome) | Lists(subdirs: seq<string>, files: seq<string>)

  /** `repo_exists(REPO_DIRNAME)`: `.Archive` is among the subdirectories. */
  predicate RepoExists(top: Node)
    requires top.Dir?
  {
    RepoBase(RepoDirName) in ListDirSorted(top).0
  }

  /** `' ' in arg or '\t' in arg or '\n' in arg`. */
  predicate HasBlank(arg: string) {
    ' ' in arg || '\t' in arg || '\n' in arg
  }

  /** An argument the loop keeps as a file: a readable regular file whose
      name has no blank. */
  predicate FileArg(top: Node, arg: string)
    requires top.Dir?
  {
    arg != "" && Lookup(top, arg).Some? && Lookup(top, arg).value.File? &&
    Lookup(top, arg).value.readable && !HasBlank(arg)
  }

  /** An argument the loop keeps as a subdirectory. */
  predicate DirArg(top: Node, arg: string)
    requires top.Dir?
  {
    arg != "" && Lookup(top, arg).Some? && Lookup(top, arg).value.Dir? && !HasBlank(arg)
  }

  /** An argument that is not a command and that `os.stat` resolves. */
  predicate Plain(top: Node, arg: string)
    requires top.Dir?
  {
    arg !in ["init", "add", "addsuffix"] && ".." !in Segments(arg) && arg != "" && Lookup(top, arg).Some?
  }

  /** The loop `for arg in args[1:]`, with the lists gathered so far. */
  function Gather(top: Node, args: seq<string>, subdirs: seq<string>, files: seq<string>): (g: Gathered)
    requires top.Dir?
    ensures g.Stop? ==> !g.outcome.Archived? && !g.outcome.NoRepository?
    ensures g.Lists? ==> forall i :: 0 <= i < |args| ==> Plain(top, args[i])
    ensures g.Lists? ==> forall x :: x in g.files <==> x in files || (x in args && FileArg(top, x))
    ensures g.Lists? ==> forall x :: x in g.subdirs <==> x in subdirs || (x in args && DirArg(top, x))
    ensures g.Lists? && (forall i :: 0 <= i < |args| ==> !FileArg(top, args[i])) ==> g.files == files
    decreases |args|
  {
    if args == [] then Lists(subdirs, files)
    else
      var arg := args[0];
      if arg == "init" then Stop(Initialised(!RepoExists(top)))
      else if arg == "add" || arg == "addsuffix" then Stop(NotImplemented(arg))
      else if ".." in Segments(arg) then Stop(Unsupported(arg))
      else if arg == "" || Lookup(top, arg).None? then Stop(Crashed(arg))
      else
        var node := Lookup(top, arg).value;
        var g := if node.File? && !node.readable then Gather(top, args[1..], subdirs, files)
                 else if HasBlank(arg) then Gather(top, args[1..], subdirs, files)
                 else if node.File? then Gather(top, args[1..], subdirs, files + [arg])
                 else if node.Dir? then Gather(top, args[1..], subdirs + [arg], files)
                 else Gather(top, args[1..], subdirs, files);
        assert g.Lists? ==> forall i :: 1 <= i < |args| ==> args[i] == args[1..][i - 1];
        g
  }

  /** The first name of a list that the archiver cannot take. */
  function FirstUnarchivable(names: seq<string>): (r: Option<string>)
    ensures r.None? <==> forall i :: 0 <= i < |names| ==> ArgName(names[i])
    ensures r.Some? ==> r.value in names && !ArgName(r.value)
  {
    if names == [] then None
    else if !ArgName(names[0]) then Some(names[0])
    else
      var r := FirstUnarchivable(names[1..]);
      assert forall i :: 1 <= i < |names| ==> names[i] == names[1..][i - 1];
      r
  }

  /** `handle_args(args)` with `args` the arguments after the program
      name, run in the directory `top` at the time `now`. */
  function HandleArgs(sha: string -> Digest, now: DateTime, top: Node, args: seq<string>): (o: Outcome)
    requires top.Dir? && WF(top)
    ensures o.Archived? ==> RepoExists(top) && forall i :: 0 <= i < |args| ==> Plain(top, args[i])
    ensures o.Archived? ==> (forall i :: 0 <= i < |o.subdirs| ==> ArgName(o.subdirs[i])) &&
                            (forall i :: 0 <= i < |o.files| ==> ArgName(o.files[i])) &&
                            o.pass == Run(sha, now, top, o.subdirs, o.files)
  {
    match Gather(top, args, [], [])
    case Stop(o) => o
    case Lists(subdirs, files) => Finish(sha, now, top, subdirs, files)
  }

  /** After the loop: the repository check, the default to the listing of
      the directory when no file was named, and the pass. */
  function Finish(sha: string -> Digest, now: DateTime, top: Node, subdirs: seq<string>, files: seq<string>): (o: Outcome)
    requires top.Dir? && WF(top)
    ensures o.Archived? || o.NoRepository? || o.Unsupported?
    ensures o.NoRepository? <==> !RepoExists(top)
    ensures files == [] && RepoExists(top) ==> o.Archived?
    ensures o.Archived? ==> (forall i :: 0 <= i < |o.subdirs| ==> ArgName(o.subdirs[i])) &&
                            (forall i :: 0 <= i < |o.files| ==> ArgName(o.files[i])) &&
                            o.pass == Run(sha, now, top, o.subdirs, o.files)
    ensures o.Archived? ==> (files != [] ==> o.subdirs == subdirs && o.files == files)
    ensures o.Archived? ==> (files == [] ==> o.subdirs == ListDirSorted(top).0 && o.files == ListDirSorted(top).1)
  {
    if !RepoExists(top) then NoRepository
    else
      var lists := if files == [] then ListDirSorted(top) else (subdirs, files);
      ListingArchivable(top);
      var bad := FirstUnarchivable(lists.0 + lists.1);
      if bad.Some? then Unsupported(bad.value)
      else
        ArchivableParts(lists.0, lists.1);
        Archived(lists.0, lists.1, Run(sha, now, top, lists.0, lists.1))
  }

  /** Every name the listing gives can be archived. */
  lemma ListingArchivable(top: Node)
    requires top.Dir? && WF(top)
    ensures FirstUnarchivable(ListDirSorted(top).0 + ListDirSorted(top).1).None?
  {
    var listing := ListDirSorted(top);
    ListedNamesArchivable(top, listing.0);
    ListedNamesArchivable(top, listing.1);
    OrderArchivable(listing.0, listing.1);
    forall i | 0 <= i < |listing.0 + listing.1|
      ensures ArgName((listing.0 + listing.1)[i])
    {
      assert (listing.0 + listing.1)[i] == (listing.0 + listing.1 + [DirName])[i];
    }
  }

  /** `archive(".", repository, subdirs_to_archive, files_to_archive, now)`. */
  function Run(sha: string -> Digest, now: DateTime, top: Node, subdirs: seq<string>, files: seq<string>): (r: State)
    requires top.Dir? && WF(top) && RepoExists(top)
    requires forall i :: 0 <= i < |subdirs| ==> ArgName(subdirs[i])
    requires forall i :: 0 <= i < |files| ==> ArgName(files[i])
    ensures r.text == RenderAll(r.lines)
  {
    LookupListedDir(top, RepoBase(RepoDirName));
    RepoDirNormal();
    ArchiveDir(sha, now, top, DirName, RepoDirName, subdirs, files)
  }

  /** `.Archive/` is already in normal form. */
  lemma RepoDirNormal()
    ensures NormaliseRepo(RepoDirName) == RepoDirName
    ensures RepoBase(RepoDirName) + "/" == RepoDirName
  {
    assert StripSeps(RepoDirName) == StripSeps(".Archive");
    assert StripSeps(".Archive") == ".Archive";
  }

  lemma ArchivableParts(a: seq<string>, b: seq<string>)
    requires forall i :: 0 <= i < |a + b| ==> ArgName((a + b)[i])
    ensures forall i :: 0 <= i < |a| ==> ArgName(a[i])
    ensures forall i :: 0 <= i < |b| ==> ArgName(b[i])
  {
    assert forall i :: 0 <= i < |a| ==> a[i] == (a + b)[i];
    assert forall i :: 0 <= i < |b| ==> b[i] == (a + b)[|a| + i];
  }

  /** Plain arguments never stop the loop: after them it goes on with
      some lists gathered. */
  lemma {:induction false} GatherPlainPrefix(top: Node, pre: seq<string>, rest: seq<string>,
                                             subdirs: seq<string>, files: seq<string>)
      returns (subdirs2: seq<string>, files2: seq<string>)
    requires top.Dir?
    requires forall i :: 0 <= i < |pre| ==> Plain(top, pre[i])
    ensures Gather(top, pre + rest, subdirs, files) == Gather(top, rest, subdirs2, files2)
    decreases |pre|
  {
    if pre == [] {
      assert pre + rest == rest;
      subdirs2, files2 := subdirs, files;
    } else {
      var arg := pre[0];
      assert Plain(top, arg);
      assert (pre + rest)[0] == arg && (pre + rest)[1..] == pre[1..] + rest;
      var node := Lookup(top, arg).value;
      var s1, f1 := subdirs, files;
      if node.File? && node.readable && !HasBlank(arg) {
        f1 := files + [arg];
      } else if node.Dir? && !HasBlank(arg) {
        s1 := subdirs + [arg];
      }
      assert Gather(top, pre + rest, subdirs, files) == Gather(top, pre[1..] + rest, s1, f1);
      subdirs2, files2 := GatherPlainPrefix(top, pre[1..], rest, s1, f1);
    }
  }

  /** The first command ends the run, whatever follows it: `init` reports
      whether it made the repository, `add` and `addsuffix` that they are
      not implemented. Plain arguments before it are gathered for nothing. */
  lemma CommandEndsRun(sha: string -> Digest, now: DateTime, top: Node,
                       pre: seq<string>, command: string, post: seq<string>)
    requires top.Dir? && WF(top)
    requires forall i :: 0 <= i < |pre| ==> Plain(top, pre[i])
    requires command in ["init", "add", "addsuffix"]
    ensures HandleArgs(sha, now, top, pre + [command] + post)
         == if command == "init" then Initialised(!RepoExists(top)) else NotImplemented(command)
  {
    assert pre + [command] + post == pre + ([command] + post);
    var s2, f2 := GatherPlainPrefix(top, pre, [command] + post, [], []);
    assert ([command] + post)[0] == command;
  }

  /** An argument `os.stat` cannot resolve ends the run with a crash. */
  lemma MissingArgCrashes(sha: string -> Digest, now: DateTime, top: Node,
                          pre: seq<string>, arg: string, post: seq<string>)
    requires top.Dir? && WF(top)
    requires forall i :: 0 <= i < |pre| ==> Plain(top, pre[i])
    requires arg !in ["init", "add", "addsuffix"] && ".." !in Segments(arg)
    requires arg == "" || Lookup(top, arg).None?
    ensures HandleArgs(sha, now, top, pre + [arg] + post) == Crashed(arg)
  {
    var rest := [arg] + post;
    assert pre + [arg] + post == pre + rest;
    var s2, f2 := GatherPlainPrefix(top, pre, rest, [], []);
    GatherMissing(top, arg, post, s2, f2);
    HandleArgsStops(sha, now, top, pre + rest);
  }

  /** A missing name stops the argument loop where it stands. */
  lemma GatherMissing(top: Node, arg: string, post: seq<string>, subdirs: seq<string>, files: seq<string>)
    requires top.Dir?
    requires arg !in ["init", "add", "addsuffix"] && ".." !in Segments(arg)
    requires arg == "" || Lookup(top, arg).None?
    ensures Gather(top, [arg] + post, subdirs, files) == Stop(Crashed(arg))
  {
    assert ([arg] + post)[0] == arg;
  }

  /** When the argument loop stops, its outcome is the run's. */
  lemma HandleArgsStops(sha: string -> Digest, now: DateTime, top: Node, args: seq<string>)
    requires top.Dir? && WF(top)
    ensures Gather(top, args, [], []).Stop? ==> HandleArgs(sha, now, top, args) == Gather(top, args, [], []).outcome
  {
  }

  /** Without a repository nothing is archived. */
  lemma NoRepositoryNoRun(sha: string -> Digest, now: DateTime, top: Node, args: seq<string>)
    requires top.Dir? && WF(top) && !RepoExists(top)
    requires forall i :: 0 <= i < |args| ==> Plain(top, args[i])
    ensures HandleArgs(sha, now, top, args) == NoRepository
  {
    assert args + [] == args;
    var s2, f2 := GatherPlainPrefix(top, args, [], [], []);
  }

  /** With at least one file named, exactly the named readable regular
      files and the named subdirectories are archived (blank names
      skipped). */
  lemma NamedSelection(sha: string -> Digest, now: DateTime, top: Node, args: seq<string>)
    requires top.Dir? && WF(top)
    requires HandleArgs(sha, now, top, args).Archived?
    requires exists i :: 0 <= i < |args| && FileArg(top, args[i])
    ensures var o := HandleArgs(sha, now, top, args);
            && (forall x :: x in o.files <==> x in args && FileArg(top, x))
            && (forall x :: x in o.subdirs <==> x in args && DirArg(top, x))
  {
    var i :| 0 <= i < |args| && FileArg(top, args[i]);
    var g := Gather(top, args, [], []);
    assert g.Lists?;
    assert args[i] in args;
    assert args[i] in g.files;
    assert g.files != [];
  }

  /** With no file named, the sorted listing of the directory is archived
      instead, and directory arguments are dropped. */
  lemma NoFileArchivesListing(sha: string -> Digest, now: DateTime, top: Node, args: seq<string>)
    requires top.Dir? && WF(top) && RepoExists(top)
    requires forall i :: 0 <= i < |args| ==> Plain(top, args[i]) && !FileArg(top, args[i])
    ensures var o := HandleArgs(sha, now, top, args);
            && o.Archived?
            && o.subdirs == ListDirSorted(top).0 && o.files == ListDirSorted(top).1
  {
    assert args + [] == args;
    var s2, f2 := GatherPlainPrefix(top, args, [], [], []);
    var g := Gather(top, args, [], []);
    assert g.Lists?;
    assert HandleArgs(sha, now, top, args) == Finish(sha, now, top, g.subdirs, []);
  }
}

=== FILE: archive_index.dfy ===
/**
 The merged index `archive` builds from the sorted listing of a
 repository directory: every stored name is cut into a fixed-width
 timestamp and the real file name that follows it, and each real name
 maps to the timestamps of its revisions in listing order. Also the rule
 that decides whether an entry's content must be stored.
 */
module ArchiveIndex {
  import opened Strings
  import opened Sorting
  import opened Stamps

  /** `d[0:TIMESTAMP_LENGTH]`: the timestamp part of a stored name. */
  function DateOf(f: string): (d: string)
    ensures |d| <= TimestampLength && d <= f
  {
    SliceTo(f, TimestampLength)
  }

  /** `d[TIMESTAMP_LENGTH:]`: the real file name part of a stored name. */
  function RealOf(f: string): (n: string)
    ensures DateOf(f) + n == f
  {
    SliceFrom(f, TimestampLength)
  }

  /** A stored name is the timestamp followed by the real name. */
  lemma RevisionName(date: string, n: string)
    requires |date| == TimestampLength
    ensures DateOf(date + n) == date && RealOf(date + n) == n
  {
    assert (date + n)[..TimestampLength] == date;
  }

  /** Independent reference: the dates of the stored names whose real
      name is `n`, in listing order. */
  function DatesOf(fs: seq<string>, n: string): seq<string> {
    if fs == [] then []
    else (if RealOf(fs[0]) == n then [DateOf(fs[0])] else []) + DatesOf(fs[1..], n)
  }

  /** The merged index: the loop over the listing, appending each date to
      the list of its real name (creating the list on first sight). */
  function Index(fs: seq<string>): (m: map<string, seq<string>>)
    ensures forall n :: n in m <==> DatesOf(fs, n) != []
    ensures forall n :: n in m ==> m[n] == DatesOf(fs, n)
  {
    if fs == [] then map[]
    else
      var front := fs[..|fs| - 1];
      var f := fs[|fs| - 1];
      var m := Index(front);
      var m' := m[RealOf(f) := (if RealOf(f) in m then m[RealOf(f)] else []) + [DateOf(f)]];
      IndexSnoc(front, f, m, m');
      assert fs == front + [f];
      m'
  }

  /** Appending a stored name's date keeps the index equal to the
      reference, one stored name further. */
  lemma IndexSnoc(front: seq<string>, f: string, m: map<string, seq<string>>, m': map<string, seq<string>>)
    requires forall n :: n in m <==> DatesOf(front, n) != []
    requires forall n :: n in m ==> m[n] == DatesOf(front, n)
    requires m' == m[RealOf(f) := (if RealOf(f) in m then m[RealOf(f)] else []) + [DateOf(f)]]
    ensures forall n :: n in m' <==> DatesOf(front + [f], n) != []
    ensures forall n :: n in m' ==> m'[n] == DatesOf(front + [f], n)
  {
    DatesOfSnoc(front, f);
  }

  /** A real name is in the index iff some stored name carries it. */
  lemma {:induction false} IndexDomain(fs: seq<string>, n: string)
    ensures n in Index(fs) <==> exists i :: 0 <= i < |fs| && RealOf(fs[i]) == n
  {
    if n in Index(fs) {
      DatesOfMember(fs, n, 0);
    } else if exists i :: 0 <= i < |fs| && RealOf(fs[i]) == n {
      var i :| 0 <= i < |fs| && RealOf(fs[i]) == n;
      DatesOfComplete(fs, n, i);
    }
  }

  lemma {:induction false} DatesOfSnoc(fs: seq<string>, f: string)
    ensures forall n :: DatesOf(fs + [f], n) == DatesOf(fs, n) + (if RealOf(f) == n then [DateOf(f)] else [])
  {
    if fs == [] {
      assert [] + [f] == [f];
    } else {
      DatesOfSnoc(fs[1..], f);
      assert (fs + [f])[1..] == fs[1..] + [f];
    }
  }

  /** Every date listed for `n` comes from a stored name `date + n`. */
  lemma {:induction false} DatesOfMember(fs: seq<string>, n: string, k: int)
    requires 0 <= k < |DatesOf(fs, n)|
    ensures exists i :: 0 <= i < |fs| && RealOf(fs[i]) == n && DateOf(fs[i]) == DatesOf(fs, n)[k]
  {
    if RealOf(fs[0]) == n && k == 0 {
      assert RealOf(fs[0]) == n && DateOf(fs[0]) == DatesOf(fs, n)[0];
    } else {
      var k' := if RealOf(fs[0]) == n then k - 1 else k;
      DatesOfMember(fs[1..], n, k');
      var i :| 0 <= i < |fs[1..]| && RealOf(fs[1..][i]) == n && DateOf(fs[1..][i]) == DatesOf(fs[1..], n)[k'];
      assert fs[i + 1] == fs[1..][i];
    }
  }

  /** Every stored name of real name `n` contributes its date. */
  lemma {:induction false} DatesOfComplete(fs: seq<string>, n: string, i: int)
    requires 0 <= i < |fs| && RealOf(fs[i]) == n
    ensures DateOf(fs[i]) in DatesOf(fs, n)
  {
    if i > 0 {
      DatesOfComplete(fs[1..], n, i - 1);
      assert fs[1..][i - 1] == fs[i];
    }
  }

  /** Two stored names with the same real name sort as their dates do. */
  lemma DateOrder(f: string, g: string)
    requires RealOf(f) == RealOf(g)
    ensures LexLe(f, g) <==> LexLe(DateOf(f), DateOf(g))
  {
    var n := RealOf(f);
    if n == [] {
      assert DateOf(f) == f && DateOf(g) == g;
    } else {
      assert |DateOf(f)| == TimestampLength == |DateOf(g)|;
      LexLeOfHeads(DateOf(f), DateOf(g), n, n);
      if LexLe(DateOf(f), DateOf(g)) {
        LexLeSameTail(DateOf(f), DateOf(g), n);
      }
    }
  }

  /** A sorted listing gives each real name its dates in ascending order. */
  lemma {:induction false} DatesSorted(fs: seq<string>, n: string)
    requires Sorted(fs)
    ensures Sorted(DatesOf(fs, n))
  {
    if fs != [] {
      var rest := DatesOf(fs[1..], n);
      assert Sorted(fs[1..]) by {
        assert forall i :: 0 <= i < |fs[1..]| ==> fs[1..][i] == fs[i + 1];
      }
      DatesSorted(fs[1..], n);
      if RealOf(fs[0]) == n {
        if rest != [] {
          DatesOfMember(fs[1..], n, 0);
          var i :| 0 <= i < |fs[1..]| && RealOf(fs[1..][i]) == n && DateOf(fs[1..][i]) == rest[0];
          assert fs[1..][i] == fs[i + 1];
          DateOrder(fs[0], fs[i + 1]);
        }
        ConsSorted(DateOf(fs[0]), rest);
      }
    }
  }

  /** The date the source reads as `dates[-1]`. */
  function Latest(m: map<string, seq<string>>, n: string): string
    requires n in m && m[n] != []
  {
    m[n][|m[n]| - 1]
  }

  /** The latest revision named by the index exists in the listing and is
      the greatest stored name of its real name: the newest revision,
      while timestamps keep their width (see `Stamps.FormatOrder`). */
  lemma LatestIsNewest(fs: seq<string>, n: string)
    requires Sorted(fs) && n in Index(fs)
    ensures Index(fs)[n] != []
    ensures Latest(Index(fs), n) + n in fs && RealOf(Latest(Index(fs), n) + n) == n
    ensures forall f :: f in fs && RealOf(f) == n ==> LexLe(f, Latest(Index(fs), n) + n)
  {
    var ds := DatesOf(fs, n);
    assert Index(fs)[n] == ds && ds != [];
    var g := LastDateStored(fs, n);
    assert g == DateOf(g) + RealOf(g);
    DatesSorted(fs, n);
    forall f | f in fs && RealOf(f) == n
      ensures LexLe(f, g)
    {
      NewestDate(fs, n, f, g);
    }
  }

  /** The stored name the last date of `n` comes from. */
  lemma LastDateStored(fs: seq<string>, n: string) returns (g: string)
    requires DatesOf(fs, n) != []
    ensures g in fs && RealOf(g) == n
    ensures DateOf(g) == DatesOf(fs, n)[|DatesOf(fs, n)| - 1]
  {
    var last := |DatesOf(fs, n)| - 1;
    DatesOfMember(fs, n, last);
    var j :| 0 <= j < |fs| && RealOf(fs[j]) == n && DateOf(fs[j]) == DatesOf(fs, n)[last];
    g := fs[j];
  }

  /** A stored name whose date is the last date of its real name sorts
      after every stored name of that real name. */
  lemma NewestDate(fs: seq<string>, n: string, f: string, g: string)
    requires Sorted(DatesOf(fs, n)) && DatesOf(fs, n) != []
    requires f in fs && RealOf(f) == n && RealOf(g) == n
    requires DateOf(g) == DatesOf(fs, n)[|DatesOf(fs, n)| - 1]
    ensures LexLe(f, g)
  {
    var ds := DatesOf(fs, n);
    var i :| 0 <= i < |fs| && fs[i] == f;
    DatesOfComplete(fs, n, i);
    var k :| 0 <= k < |ds| && ds[k] == DateOf(f);
    SortedLast(ds, k);
    DateOrder(f, g);
  }

  /** The store rule: store when the real name has never been stored, or
      when the content differs from the latest stored revision. `repo`
      gives the bytes of each stored name. */
  predicate Stores(m: map<string, seq<string>>, repo: map<string, string>, src: string, content: string)
    requires src in m ==> m[src] != [] && Latest(m, src) + src in repo
  {
    src !in m || content != repo[Latest(m, src) + src]
  }

  /** The rule against the listing itself: store iff no stored name has
      real name `src`, or the content differs from the bytes of the
      greatest such stored name. */
  lemma StoresIff(fs: seq<string>, repo: map<string, string>, src: string, content: string, g: string)
    requires Sorted(fs) && forall f :: f in fs ==> f in repo
    requires g in fs && RealOf(g) == src
    requires forall f :: f in fs && RealOf(f) == src ==> LexLe(f, g)
    ensures src in Index(fs) && Index(fs)[src] != [] && Latest(Index(fs), src) + src in repo
    ensures Stores(Index(fs), repo, src, content) <==> content != repo[g]
  {
    var i :| 0 <= i < |fs| && fs[i] == g;
    IndexDomain(fs, src);
    LatestIsNewest(fs, src);
    var l := Latest(Index(fs), src) + src;
    assert LexLe(g, l);
    assert LexLe(l, g);
    LexLeAntisym(g, l);
  }

  /** With no stored name of real name `src`, the content is stored. */
  lemma StoresNew(fs: seq<string>, repo: map<string, string>, src: string, content: string)
    requires forall f :: f in fs ==> RealOf(f) != src
    ensures src !in Index(fs) && Stores(Index(fs), repo, src, content)
  {
  }

  /** Identical content is never stored twice: once `stamp + src` is the
      greatest stored name of real name `src` and holds `content`, the
      same content is skipped. */
  lemma StoreThenSkip(fs: seq<string>, repo: map<string, string>, stamp: string, src: string, content: string)
    requires Sorted(fs) && forall f :: f in fs ==> f in repo
    requires |stamp| == TimestampLength && stamp + src in fs
    requires forall f :: f in fs && RealOf(f) == src ==> LexLe(f, stamp + src)
    requires repo[stamp + src] == content
    ensures src in Index(fs) && Index(fs)[src] != [] && Latest(Index(fs), src) + src in repo
    ensures !Stores(Index(fs), repo, src, content)
  {
    RevisionName(stamp, src);
    StoresIff(fs, repo, src, content, stamp + src);
  }

  /** A revision stored under a stamp that sorts before the newest stored
      revision of its name, as a file whose modification time is older
      than that revision is, does not become the latest: the next pass
      compares the same content with the newer revision again and stores
      it again. */
  lemma OlderStampStoresAgain(fs: seq<string>, repo: map<string, string>, stamp: string, src: string,
                              content: string, g: string)
    requires Sorted(fs) && forall f :: f in fs ==> f in repo
    requires g in fs && RealOf(g) == src && repo[g] != content
    requires forall f :: f in fs && RealOf(f) == src ==> LexLe(f, g)
    requires |stamp| == TimestampLength && LexLe(stamp + src, g) && stamp + src != g
    ensures var fs', repo' := Insert(stamp + src, fs), repo[stamp + src := content];
      src in Index(fs') && Index(fs')[src] != [] && Latest(Index(fs'), src) + src in repo' &&
      Stores(Index(fs'), repo', src, content)
  {
    var fs', repo' := Insert(stamp + src, fs), repo[stamp + src := content];
    forall f | f in fs'
      ensures f in fs || f == stamp + src
    {
      assert f in multiset(fs');
    }
    assert g in multiset(fs');
    RevisionName(stamp, src);
    StoresIff(fs', repo', src, content, g);
  }
}

=== FILE: archive_paths.dfy ===
/**
 The path handling at the top of `archive`: trailing separators removed
 from the root and the repository name, exactly one `/` put back, and
 the base name of each processed path.
 */
module ArchivePaths {
  import opened Strings

  /** Either separator the archiver strips: `/` or `\`. */
  predicate IsSep(c: char) {
    c == '/' || c == '\\'
  }

  predicate AllSeps(s: string) {
    forall i :: 0 <= i < |s| ==> IsSep(s[i])
  }

  /** Python's `s[-1:]`: the last character, or nothing for an empty `s`. */
  function LastOne(s: string): string {
    if s == [] then [] else s[|s| - 1..]
  }

  /** `while s and s[-1] in "\\/": s = s[:-1]`. */
  function StripSeps(s: string): (r: string)
    ensures r <= s
    ensures r == [] || !IsSep(r[|r| - 1])
    ensures AllSeps(s[|r|..])
  {
    if s != [] && IsSep(s[|s| - 1]) then StripSeps(s[..|s| - 1]) else s
  }

  /** The repository name as `archive` normalises it: stripped, then one
      `/` appended (the test `repo[-1:] != '/'` always holds after the
      stripping, even for an empty result). */
  function NormaliseRepo(repo: string): (r: string)
    ensures |r| >= 1 && r[|r| - 1] == '/'
    ensures |r| == 1 || !IsSep(r[|r| - 2])
    ensures r[..|r| - 1] <= repo && AllSeps(repo[|r| - 1..])
  {
    var s := StripSeps(repo);
    if LastOne(s) != "/" then s + "/" else s
  }

  /** Extra trailing separators on the way in make no difference. */
  lemma {:induction false} StripSepsOfPadded(s: string, seps: string)
    requires AllSeps(seps)
    ensures StripSeps(s + seps) == StripSeps(s)
    decreases |seps|
  {
    if seps != [] {
      var t := s + seps;
      assert t[..|t| - 1] == s + seps[..|seps| - 1];
      StripSepsOfPadded(s, seps[..|seps| - 1]);
    } else {
      assert s + seps == s;
    }
  }

  /** Normalisation is idempotent and ignores trailing separators. */
  lemma NormaliseRepoIdempotent(repo: string, seps: string)
    requires AllSeps(seps)
    ensures NormaliseRepo(NormaliseRepo(repo)) == NormaliseRepo(repo)
    ensures NormaliseRepo(repo + seps) == NormaliseRepo(repo)
  {
    var s := StripSeps(repo);
    StripSepsOfPadded(s, "/");
    StripSepsOfPadded(repo, seps);
    var t := StripSeps(s);
    assert t == s;
  }

  /** The condition `root[-1:] in "\\/"` of the root loop. In Python the
      empty slice of an empty root is "in" any string, so the test is
      true there. */
  predicate RootLoopContinues(root: string) {
    root == [] || IsSep(root[|root| - 1])
  }

  /** The root loop: strip one trailing character while the test holds.
      It ends only if the root holds a character that is not a separator. */
  function StripRoot(root: string): (r: string)
    requires !AllSeps(root)
    ensures r <= root && !RootLoopContinues(r)
    ensures AllSeps(root[|r|..])
    decreases |root|
  {
    if RootLoopContinues(root) then StripRoot(root[..|root| - 1]) else root
  }

  /** The root as `archive` normalises it: stripped, then one `/`. */
  function NormaliseRoot(root: string): (r: string)
    requires !AllSeps(root)
    ensures |r| >= 2 && r[|r| - 1] == '/' && !IsSep(r[|r| - 2])
    ensures r[..|r| - 1] <= root && AllSeps(root[|r| - 1..])
  {
    var s := StripRoot(root);
    if LastOne(s) != "/" then s + "/" else s
  }

  /** For a root that holds a non-separator, the two loops agree. */
  lemma NormaliseRootAgrees(root: string)
    requires !AllSeps(root)
    ensures NormaliseRoot(root) == NormaliseRepo(root)
  {
    var a := StripRoot(root);
    var b := StripSeps(root);
    assert a == b;
  }

  /** The root loop never ends for an empty or all-separator root: the
      test holds, and stripping one more character keeps the root empty
      or all separators. */
  lemma RootLoopDiverges(root: string)
    requires AllSeps(root)
    ensures RootLoopContinues(root)
    ensures AllSeps(if root == [] then root else root[..|root| - 1])
  {
  }

  /** The base name as the source computes it: for `/` and then `\`, the
      last position of that separator is found in the whole `name` but
      the cut is applied to the already cut `src`. */
  function BaseName(name: string): (src: string)
    ensures |src| <= |name|
  {
    var p1 := RFind(name, '/');
    var s1 := if p1 >= 0 then SliceFrom(name, p1 + 1) else name;
    var p2 := RFind(name, '\\');
    if p2 >= 0 then SliceFrom(s1, p2 + 1) else s1
  }

  /** The text after the last separator of either kind: what a base name
      means. */
  predicate IsLastPart(name: string, src: string) {
    IsSuffix(src, name) && (forall i :: 0 <= i < |src| ==> !IsSep(src[i])) &&
    (|src| == |name| || IsSep(name[|name| - |src| - 1]))
  }

  /** With one kind of separator (or none) in the name the base name is
      the last part of the path. */
  lemma BaseNameOneKind(name: string)
    requires '/' !in name || '\\' !in name
    ensures IsLastPart(name, BaseName(name))
  {
    var p1 := RFind(name, '/');
    var p2 := RFind(name, '\\');
    if p1 >= 0 {
      assert name[p1] == '/';
      assert p2 == -1;
    }
  }

  /** With both kinds, the second cut uses a position in `name` on the
      shorter `src`: `d/a\b` gives the empty string, not `b`. */
  lemma BaseNameMixedSeparators()
    ensures BaseName("d/a\\b") == ""
    ensures IsLastPart("d/a\\b", "b") && !IsLastPart("d/a\\b", BaseName("d/a\\b"))
  {
    var name := "d/a\\b";
    assert name[0] == 'd' && name[1] == '/' && name[2] == 'a' && name[3] == '\\' && name[4] == 'b';
    assert RFind(name, '/') == 1;
    assert RFind(name, '\\') == 3;
  }
}

=== FILE: archive_props.dfy ===
/**
 What one archiving pass promises: the order of the summary lines, the
 self line on top hashing the lines below it, which entries add no line,
 what each kind of entry writes, and the Merkle link from a
 subdirectory's text to its parent's line.
 */
module ArchiveProps {
  import opened Wrappers
  import opened Stamps
  import opened FsTree
  import opened ArchivePaths
  import opened ArchiveIndex
  import opened Summary
  import opened Archive

  /** The loop runs its names in order: a split list runs as its two
      halves one after the other. */
  lemma {:induction false} LoopAppend(sha: string -> Digest, now: DateTime, here: Node, root: string, repo: string,
                                      idx: map<string, seq<string>>, a: seq<string>, b: seq<string>, st: State)
    requires here.Dir? && WF(here) && NormalRoot(root) && NormalRepo(repo)
    requires forall i :: 0 <= i < |a| ==> ArgName(a[i])
    requires forall i :: 0 <= i < |b| ==> ArgName(b[i])
    requires IndexHeld(idx, st.repo)
    ensures forall i :: 0 <= i < |a + b| ==> ArgName((a + b)[i])
    ensures Loop(sha, now, here, root, repo, idx, a + b, st)
         == Loop(sha, now, here, root, repo, idx, b, Loop(sha, now, here, root, repo, idx, a, st))
    decreases |a|
  {
    assert forall i :: 0 <= i < |a + b| ==> ArgName((a + b)[i]) by {
      forall i | 0 <= i < |a + b|
        ensures ArgName((a + b)[i])
      {
        if i < |a| {
          assert (a + b)[i] == a[i];
        } else {
          assert (a + b)[i] == b[i - |a|];
        }
      }
    }
    if a == [] {
      assert a + b == b;
    } else {
      var st' := Step(sha, now, here, root, repo, idx, a[0], st);
      assert (a + b)[0] == a[0] && (a + b)[1..] == a[1..] + b;
      LoopAppend(sha, now, here, root, repo, idx, a[1..], b, st');
    }
  }

  /** The entry `.` resolves to the directory itself and keeps its name. */
  lemma DirNameResolves(here: Node)
    requires here.Dir?
    ensures Lookup(here, DirName) == Some(here)
    ensures BaseName(DirName) == DirName
  {
    SegmentsOfName(DirName);
    assert !Moves(DirName);
    assert Walk(here, [DirName]) == Walk(here, []);
  }

  /** The pass over the named subdirectories and files, before `.`. */
  function ChildPass(sha: string -> Digest, now: DateTime, here: Node, root: string, repo: string,
                     subdirs: seq<string>, files: seq<string>): (st: State)
    requires here.Dir? && WF(here) && !AllSeps(root)
    requires Lookup(here, NormaliseRepo(repo)).Some? && Lookup(here, NormaliseRepo(repo)).value.Dir?
    requires forall i :: 0 <= i < |subdirs| ==> ArgName(subdirs[i])
    requires forall i :: 0 <= i < |files| ==> ArgName(files[i])
    ensures st.text == RenderAll(st.lines)
    ensures IndexHeld(Start(here, NormaliseRepo(repo)).0, st.repo)
  {
    var P := NormaliseRepo(repo);
    NormaliseRepoIdempotent(repo, "");
    var start := Start(here, P);
    OrderArchivable(subdirs, files);
    LoopAppend(sha, now, here, NormaliseRoot(root), P, start.0, subdirs, files, State([], [], start.1, []));
    Loop(sha, now, here, NormaliseRoot(root), P, start.0, subdirs + files, State([], [], start.1, []))
  }

  /** The last name of the loop runs last. */
  lemma LoopLast(sha: string -> Digest, now: DateTime, here: Node, root: string, repo: string,
                 idx: map<string, seq<string>>, names: seq<string>, x: string, st: State)
    requires here.Dir? && WF(here) && NormalRoot(root) && NormalRepo(repo)
    requires forall i :: 0 <= i < |names| ==> ArgName(names[i])
    requires ArgName(x) && IndexHeld(idx, st.repo)
    ensures forall i :: 0 <= i < |names + [x]| ==> ArgName((names + [x])[i])
    ensures IndexHeld(idx, Loop(sha, now, here, root, repo, idx, names, st).repo)
    ensures Loop(sha, now, here, root, repo, idx, names + [x], st)
         == Step(sha, now, here, root, repo, idx, x, Loop(sha, now, here, root, repo, idx, names, st))
  {
    LoopAppend(sha, now, here, root, repo, idx, names, [x], st);
    var c := Loop(sha, now, here, root, repo, idx, names, st);
    assert [x][1..] == [];
    assert Loop(sha, now, here, root, repo, idx, [x], c) == Step(sha, now, here, root, repo, idx, x, c);
  }

  /** The pass as the loop over `subdirs + files + ["."]`. */
  lemma PassIsLoop(sha: string -> Digest, now: DateTime, here: Node, root: string, repo: string,
                   subdirs: seq<string>, files: seq<string>)
    requires here.Dir? && WF(here) && !AllSeps(root)
    requires Lookup(here, NormaliseRepo(repo)).Some? && Lookup(here, NormaliseRepo(repo)).value.Dir?
    requires forall i :: 0 <= i < |subdirs| ==> ArgName(subdirs[i])
    requires forall i :: 0 <= i < |files| ==> ArgName(files[i])
    ensures NormalRoot(NormaliseRoot(root)) && NormalRepo(NormaliseRepo(repo))
    ensures forall i :: 0 <= i < |subdirs + files + [DirName]| ==> ArgName((subdirs + files + [DirName])[i])
    ensures ArchiveDir(sha, now, here, root, repo, subdirs, files)
         == Loop(sha, now, here, NormaliseRoot(root), NormaliseRepo(repo), Start(here, NormaliseRepo(repo)).0,
                 subdirs + files + [DirName], State([], [], Start(here, NormaliseRepo(repo)).1, []))
  {
    NormaliseRepoIdempotent(repo, "");
    OrderArchivable(subdirs, files);
  }

  lemma ChildPassIsLoop(sha: string -> Digest, now: DateTime, here: Node, root: string, repo: string,
                        subdirs: seq<string>, files: seq<string>)
    requires here.Dir? && WF(here) && !AllSeps(root)
    requires Lookup(here, NormaliseRepo(repo)).Some? && Lookup(here, NormaliseRepo(repo)).value.Dir?
    requires forall i :: 0 <= i < |subdirs| ==> ArgName(subdirs[i])
    requires forall i :: 0 <= i < |files| ==> ArgName(files[i])
    ensures NormalRoot(NormaliseRoot(root)) && NormalRepo(NormaliseRepo(repo))
    ensures forall i :: 0 <= i < |subdirs + files| ==> ArgName((subdirs + files)[i])
    ensures ChildPass(sha, now, here, root, repo, subdirs, files)
         == Loop(sha, now, here, NormaliseRoot(root), NormaliseRepo(repo), Start(here, NormaliseRepo(repo)).0,
                 subdirs + files, State([], [], Start(here, NormaliseRepo(repo)).1, []))
  {
    NormaliseRepoIdempotent(repo, "");
    var P := NormaliseRepo(repo);
    var start := Start(here, P);
    LoopAppend(sha, now, here, NormaliseRoot(root), P, start.0, subdirs, files, State([], [], start.1, []));
  }

  /** A whole pass is the child pass followed by the step for `.`. */
  lemma PassSplits(sha: string -> Digest, now: DateTime, here: Node, root: string, repo: string,
                   subdirs: seq<string>, files: seq<string>)
    requires here.Dir? && WF(here) && !AllSeps(root)
    requires Lookup(here, NormaliseRepo(repo)).Some? && Lookup(here, NormaliseRepo(repo)).value.Dir?
    requires forall i :: 0 <= i < |subdirs| ==> ArgName(subdirs[i])
    requires forall i :: 0 <= i < |files| ==> ArgName(files[i])
    ensures NormalRoot(NormaliseRoot(root)) && NormalRepo(NormaliseRepo(repo)) && ArgName(DirName)
    ensures ArchiveDir(sha, now, here, root, repo, subdirs, files)
         == Step(sha, now, here, NormaliseRoot(root), NormaliseRepo(repo), Start(here, NormaliseRepo(repo)).0,
                 DirName, ChildPass(sha, now, here, root, repo, subdirs, files))
  {
    PassIsLoop(sha, now, here, root, repo, subdirs, files);
    ChildPassIsLoop(sha, now, here, root, repo, subdirs, files);
    var P := NormaliseRepo(repo);
    var start := Start(here, P);
    LoopLast(sha, now, here, NormaliseRoot(root), P, start.0, subdirs + files, DirName, State([], [], start.1, []));
  }

  /** The step for `.`: its line hashes the text so far and goes on top,
      and the resulting text is stored under the time of the run exactly
      when the store rule says so. */
  lemma SelfStepEffect(sha: string -> Digest, now: DateTime, here: Node, root: string, repo: string,
                       idx: map<string, seq<string>>, c: State)
    requires here.Dir? && WF(here) && NormalRoot(root) && NormalRepo(repo)
    requires IndexHeld(idx, c.repo) && c.text == RenderAll(c.lines)
    requires RepoBase(repo) != DirName
    ensures ArgName(DirName)
    ensures var r := Step(sha, now, here, root, repo, idx, DirName, c);
            var stamp := Format(now) + DirName;
            && r.lines == [SummaryLine(sha, RenderAll(c.lines), here, DirName)] + c.lines
            && r.text == RenderAll(r.lines)
            && (Stores(idx, c.repo, DirName, r.text) ==>
                  r.writes == c.writes + [Write(root + repo + stamp, r.text)] && r.repo == c.repo[stamp := r.text])
            && (!Stores(idx, c.repo, DirName, r.text) ==> r.writes == c.writes && r.repo == c.repo)
  {
    DirNameResolves(here);
    var r := Step(sha, now, here, root, repo, idx, DirName, c);
    assert r == StepSelf(sha, now, here, root, repo, idx, c);
    var l := SummaryLine(sha, c.text, here, DirName);
    assert r.text == Render(l) + c.text;
    assert root + repo + Format(now) + DirName == root + repo + (Format(now) + DirName);
  }

  /** A repository other than `./` is not named `.`. */
  lemma RepoNotSelf(p: string)
    requires |p| >= 1 && p[|p| - 1] == '/' && p != "./"
    ensures RepoBase(p) != DirName
  {
    assert p == RepoBase(p) + "/";
  }

  /** The self line comes first and its hash covers exactly the lines
      below it, which are the lines of the subdirectories and files; the
      text is the one the pass stores as `now + "."` when the store rule
      asks for it, and nothing else is written after the children. */
  lemma SelfLineFirst(sha: string -> Digest, now: DateTime, here: Node, root: string, repo: string,
                      subdirs: seq<string>, files: seq<string>)
    requires here.Dir? && WF(here) && !AllSeps(root)
    requires Lookup(here, NormaliseRepo(repo)).Some? && Lookup(here, NormaliseRepo(repo)).value.Dir?
    requires forall i :: 0 <= i < |subdirs| ==> ArgName(subdirs[i])
    requires forall i :: 0 <= i < |files| ==> ArgName(files[i])
    requires NormaliseRepo(repo) != "./"
    ensures var r := ArchiveDir(sha, now, here, root, repo, subdirs, files);
            var c := ChildPass(sha, now, here, root, repo, subdirs, files);
            var idx := Start(here, NormaliseRepo(repo)).0;
            var stamp := Format(now) + DirName;
            && r.lines == [SummaryLine(sha, RenderAll(c.lines), here, DirName)] + c.lines
            && r.text == RenderAll(r.lines)
            && (Stores(idx, c.repo, DirName, r.text) ==>
                  r.writes == c.writes + [Write(NormaliseRoot(root) + NormaliseRepo(repo) + stamp, r.text)] &&
                  r.repo == c.repo[stamp := r.text])
            && (!Stores(idx, c.repo, DirName, r.text) ==> r.writes == c.writes && r.repo == c.repo)
  {
    var P := NormaliseRepo(repo);
    var R := NormaliseRoot(root);
    var idx := Start(here, P).0;
    var c := ChildPass(sha, now, here, root, repo, subdirs, files);
    PassSplits(sha, now, here, root, repo, subdirs, files);
    RepoNotSelf(P);
    SelfStepEffect(sha, now, here, R, P, idx, c);
    var r := ArchiveDir(sha, now, here, root, repo, subdirs, files);
    assert r == Step(sha, now, here, R, P, idx, DirName, c);
  }

  /** Entries that add no line and write nothing: the repository
      directory itself, a name that does not resolve, a subdirectory
      without a repository of its own, an unreadable file, and anything
      that is neither a file nor a directory. */
  lemma StepSkips(sha: string -> Digest, now: DateTime, here: Node, root: string, repo: string,
                  idx: map<string, seq<string>>, name: string, st: State)
    requires here.Dir? && WF(here) && NormalRoot(root) && NormalRepo(repo)
    requires ArgName(name) && IndexHeld(idx, st.repo)
    requires name == RepoBase(repo) ||
             Lookup(here, name).None? ||
             (name != DirName && Lookup(here, name).value.Dir? && RepoBase(repo) !in ListDirSorted(Lookup(here, name).value).0) ||
             (name != DirName && Lookup(here, name).value.File? && !Lookup(here, name).value.readable) ||
             (name != DirName && Lookup(here, name).value.Other?)
    ensures Step(sha, now, here, root, repo, idx, name, st) == st
  {
  }

  /** A subdirectory with its own repository: its line hashes the text
      its own pass returns (the Merkle link), its writes are those of its
      pass, and nothing goes into this directory's repository. */
  lemma StepSubdirEffect(sha: string -> Digest, now: DateTime, here: Node, root: string, repo: string,
                         idx: map<string, seq<string>>, name: string, st: State)
    requires here.Dir? && WF(here) && NormalRoot(root) && NormalRepo(repo)
    requires ArgName(name) && IndexHeld(idx, st.repo)
    requires name != RepoBase(repo) && name != DirName
    requires Lookup(here, name).Some? && Lookup(here, name).value.Dir?
    requires RepoBase(repo) in ListDirSorted(Lookup(here, name).value).0
    ensures var node := Lookup(here, name).value;
            var sub := ArchiveSub(sha, now, here, root, repo, name, node);
            var r := Step(sha, now, here, root, repo, idx, name, st);
            && r.lines == st.lines + [SummaryLine(sha, sub.text, node, BaseName(name))]
            && r.repo == st.repo
            && r.writes == st.writes + sub.writes
  {
  }

  /** A readable file: one line hashing its bytes; it is written under
      its modification time exactly when the store rule says so. */
  lemma StepFileEffect(sha: string -> Digest, now: DateTime, here: Node, root: string, repo: string,
                       idx: map<string, seq<string>>, name: string, st: State)
    requires here.Dir? && WF(here) && NormalRoot(root) && NormalRepo(repo)
    requires ArgName(name) && IndexHeld(idx, st.repo)
    requires name != RepoBase(repo) && name != DirName
    requires Lookup(here, name).Some? && Lookup(here, name).value.File? && Lookup(here, name).value.readable
    ensures var node := Lookup(here, name).value;
            var src := BaseName(name);
            var stamp := Format(node.mtime) + src;
            var r := Step(sha, now, here, root, repo, idx, name, st);
            && r.lines == st.lines + [SummaryLine(sha, node.data, node, src)]
            && (Stores(idx, st.repo, src, node.data) ==>
                  r.writes == st.writes + [Write(root + repo + stamp, node.data)] && r.repo == st.repo[stamp := node.data])
            && (!Stores(idx, st.repo, src, node.data) ==> r.writes == st.writes && r.repo == st.repo)
  {
    var node := Lookup(here, name).value;
    var src := BaseName(name);
    assert root + repo + Format(node.mtime) + src == root + repo + (Format(node.mtime) + src);
  }

  /** The Merkle chain, one level: if a subdirectory's pass returns a
      different text whose digest differs, its parent's summary differs,
      all other lines being equal. */
  lemma SubdirChangeShows(sha: string -> Digest, pre: seq<Line>, post: seq<Line>,
                          sub1: State, sub2: State, node: Node, src: string)
    requires AllWellFormed(pre) && AllWellFormed(post) && '\n' !in src
    requires sha(sub1.text) != sha(sub2.text)
    ensures RenderAll(pre + [SummaryLine(sha, sub1.text, node, src)] + post)
         != RenderAll(pre + [SummaryLine(sha, sub2.text, node, src)] + post)
  {
    var m := SummaryLine(sha, sub1.text, node, src).mode;
    assert SummaryLine(sha, sub2.text, node, src).mode == m;
    ChildChangesParent(sha, pre, post, sub1.text, sub2.text, m, src);
  }
}

=== FILE: archive_summary.dfy ===
/**
 Directory summaries: one line per archived entry, `hash mode name`,
 where the hash is the SHA-384 digest of the entry's content written in
 URL-safe base64. SHA-384 itself (FIPS 180-4) is a parameter: any
 function from byte strings to 48-byte digests.
 */
module Summary {
  import opened Wrappers
  import opened Strings
  import opened Base64Url

  /** A SHA-384 digest: 48 bytes. */
  type Digest = d: seq<Byte> | |d| == 48 witness seq(48, _ => 0)

  /** `hash384base64(content)`: 64 digits of the URL-safe alphabet, with
      no padding since 48 bytes are 16 whole blocks. */
  function HashText(sha: string -> Digest, content: string): (h: string)
    ensures |h| == 64
    ensures forall i :: 0 <= i < |h| ==> InAlphabet(h[i])
  {
    EncodeInAlphabet(sha(content));
    Encode(sha(content))
  }

  /** Digests that differ give hash texts that differ. */
  lemma HashTextInjective(sha: string -> Digest, a: string, b: string)
    requires sha(a) != sha(b)
    ensures HashText(sha, a) != HashText(sha, b)
  {
    if HashText(sha, a) == HashText(sha, b) {
      EncodeInjective(sha(a), sha(b));
    }
  }

  /** One summary line before rendering. */
  datatype Line = Line(hash: string, mode: string, name: string)

  /** `hash + " " + mode + " " + src + "\n"`. */
  function Render(l: Line): string {
    l.hash + " " + l.mode + " " + l.name + "\n"
  }

  /** Lines rendered one after another. */
  function RenderAll(ls: seq<Line>): string {
    if ls == [] then [] else Render(ls[0]) + RenderAll(ls[1..])
  }

  lemma {:induction false} RenderAllAppend(a: seq<Line>, b: seq<Line>)
    ensures RenderAll(a + b) == RenderAll(a) + RenderAll(b)
  {
    if a == [] {
      assert a + b == b;
    } else {
      assert (a + b)[0] == a[0] && (a + b)[1..] == a[1..] + b;
      RenderAllAppend(a[1..], b);
    }
  }

  /** A line that reads back unambiguously: no space in the hash or the
      mode, no newline in the name. Lines the archiver writes have this
      shape whenever the entry's name has no newline. */
  predicate WellFormed(l: Line) {
    ' ' !in l.hash && ' ' !in l.mode && '\n' !in l.name
  }

  predicate AllWellFormed(ls: seq<Line>) {
    forall i :: 0 <= i < |ls| ==> WellFormed(ls[i])
  }

  /** Reading the first line of a summary text: hash up to the first
      space, mode up to the next, name up to the newline. */
  function ParseLine(t: string): (r: Option<(Line, string)>)
    ensures r.Some? ==> |r.value.1| < |t|
  {
    var i := FirstIndex(t, ' ');
    if i == |t| then None
    else
      var u := t[i + 1..];
      var j := FirstIndex(u, ' ');
      if j == |u| then None
      else
        var v := u[j + 1..];
        var k := FirstIndex(v, '\n');
        if k == |v| then None
        else Some((Line(t[..i], u[..j], v[..k]), v[k + 1..]))
  }

  /** Reading a whole summary text back into lines. */
  function ParseAll(t: string): Option<seq<Line>>
    decreases |t|
  {
    if t == [] then Some([])
    else
      match ParseLine(t)
      case None => None
      case Some((l, rest)) =>
        match ParseAll(rest)
        case None => None
        case Some(ls) => Some([l] + ls)
  }

  lemma FirstIndexOfJoined(a: string, c: char, b: string)
    requires c !in a
    ensures FirstIndex(a + [c] + b, c) == |a|
  {
    var s := a + [c] + b;
    assert s[|a|] == c;
    assert forall j :: 0 <= j < |a| ==> s[j] == a[j];
  }

  lemma ParseFields(h: string, m: string, n: string, rest: string)
    requires ' ' !in h && ' ' !in m && '\n' !in n
    ensures ParseLine(h + [' '] + (m + [' '] + (n + ['\n'] + rest))) == Some((Line(h, m, n), rest))
  {
    var v := n + ['\n'] + rest;
    var u := m + [' '] + v;
    var t := h + [' '] + u;
    FirstIndexOfJoined(h, ' ', u);
    assert t[|h| + 1..] == u && t[..|h|] == h;
    FirstIndexOfJoined(m, ' ', v);
    assert u[|m| + 1..] == v && u[..|m|] == m;
    FirstIndexOfJoined(n, '\n', rest);
    assert v[|n| + 1..] == rest && v[..|n|] == n;
  }

  lemma ParseRender(l: Line, rest: string)
    requires WellFormed(l)
    ensures ParseLine(Render(l) + rest) == Some((l, rest))
  {
    assert Render(l) + rest == l.hash + [' '] + (l.mode + [' '] + (l.name + ['\n'] + rest));
    ParseFields(l.hash, l.mode, l.name, rest);
  }

  /** Well-formed lines read back exactly from their rendering. */
  lemma {:induction false} ParseRenderAll(ls: seq<Line>)
    requires AllWellFormed(ls)
    ensures ParseAll(RenderAll(ls)) == Some(ls)
  {
    if ls != [] {
      var rest := RenderAll(ls[1..]);
      ParseRender(ls[0], rest);
      assert AllWellFormed(ls[1..]) by {
        assert forall i :: 0 <= i < |ls[1..]| ==> ls[1..][i] == ls[i + 1];
      }
      ParseRenderAll(ls[1..]);
      assert ls == [ls[0]] + ls[1..];
    }
  }

  /** So distinct well-formed summaries render to distinct texts. */
  lemma RenderAllInjective(a: seq<Line>, b: seq<Line>)
    requires AllWellFormed(a) && AllWellFormed(b)
    requires RenderAll(a) == RenderAll(b)
    ensures a == b
  {
    ParseRenderAll(a);
    ParseRenderAll(b);
  }

  /** The Merkle step: in a directory summary, a child line whose content
      hashes differently changes the directory's text, all other lines
      being equal. The content may be a subdirectory's own summary text,
      so a change anywhere below shows at every level above it whenever
      the digests of the texts differ. */
  lemma ChildChangesParent(sha: string -> Digest, pre: seq<Line>, post: seq<Line>,
                           c1: string, c2: string, mode: string, name: string)
    requires AllWellFormed(pre) && AllWellFormed(post)
    requires ' ' !in mode && '\n' !in name
    requires sha(c1) != sha(c2)
    ensures RenderAll(pre + [Line(HashText(sha, c1), mode, name)] + post)
         != RenderAll(pre + [Line(HashText(sha, c2), mode, name)] + post)
  {
    var l1 := Line(HashText(sha, c1), mode, name);
    var l2 := Line(HashText(sha, c2), mode, name);
    var h1 := HashText(sha, c1);
    var h2 := HashText(sha, c2);
    HashTextInjective(sha, c1, c2);
    assert ' ' !in h1 by {
      forall i | 0 <= i < |h1|
        ensures h1[i] != ' '
      {
        assert InAlphabet(h1[i]);
      }
    }
    assert ' ' !in h2 by {
      forall i | 0 <= i < |h2|
        ensures h2[i] != ' '
      {
        assert InAlphabet(h2[i]);
      }
    }
    var a := pre + [l1] + post;
    var b := pre + [l2] + post;
    assert AllWellFormed(a) && AllWellFormed(b) by {
      forall i | 0 <= i < |a|
        ensures WellFormed(a[i]) && WellFormed(b[i])
      {
        if i < |pre| {
          assert a[i] == pre[i] && b[i] == pre[i];
        } else if i > |pre| {
          assert a[i] == post[i - |pre| - 1] && b[i] == post[i - |pre| - 1];
        }
      }
    }
    assert a[|pre|] == l1 && b[|pre|] == l2;
    if RenderAll(a) == RenderAll(b) {
      RenderAllInjective(a, b);
    }
  }
}

=== FILE: base64url.dfy ===
/**
 The URL- and filename-safe base64 alphabet of section 5 of RFC 4648
 (`A-Z a-z 0-9 - _`), with `=` padding, as Python's
 `base64.urlsafe_b64encode` produces it, together with its decoder.
 */
module Base64Url {
  import opened Wrappers

  type Byte = x: int | 0 <= x < 256

  /** The digit of value `i` in the URL-safe alphabet. */
  function CharOf(i: int): (c: char)
    requires 0 <= i < 64
  {
    if i < 26 then ('A' as int + i) as char
    else if i < 52 then ('a' as int + i - 26) as char
    else if i < 62 then ('0' as int + i - 52) as char
    else if i == 62 then '-'
    else '_'
  }

  /** The value of an alphabet digit, or -1 for any other character. */
  function IndexOf(c: char): (i: int)
    ensures -1 <= i < 64
  {
    if 'A' <= c <= 'Z' then c as int - 'A' as int
    else if 'a' <= c <= 'z' then c as int - 'a' as int + 26
    else if '0' <= c <= '9' then c as int - '0' as int + 52
    else if c == '-' then 62
    else if c == '_' then 63
    else -1
  }

  predicate InAlphabet(c: char) {
    IndexOf(c) >= 0
  }

  lemma IndexOfCharOf(i: int)
    requires 0 <= i < 64
    ensures IndexOf(CharOf(i)) == i
  {
  }

  /** The four six-bit digits of three bytes, most significant first:
      the top six bits of `a`; the low two of `a` with the top four of
      `b`; the low four of `b` with the top two of `c`; the low six of `c`. */
  function Sextets(a: Byte, b: Byte, c: Byte): (d: seq<int>)
    ensures |d| == 4
    ensures 0 <= d[0] < 64 && 0 <= d[1] < 64 && 0 <= d[2] < 64 && 0 <= d[3] < 64
  {
    [a / 4, a % 4 * 16 + b / 16, b % 16 * 4 + c / 64, c % 64]
  }

  /** Three bytes as four digits. */
  function EncodeBlock(a: Byte, b: Byte, c: Byte): (r: string)
    ensures |r| == 4
  {
    var d := Sextets(a, b, c);
    [CharOf(d[0]), CharOf(d[1]), CharOf(d[2]), CharOf(d[3])]
  }

  lemma EncodeBlockInAlphabet(a: Byte, b: Byte, c: Byte)
    ensures forall i :: 0 <= i < 4 ==> InAlphabet(EncodeBlock(a, b, c)[i])
  {
    var d := Sextets(a, b, c);
    IndexOfCharOf(d[0]);
    IndexOfCharOf(d[1]);
    IndexOfCharOf(d[2]);
    IndexOfCharOf(d[3]);
  }

  /** `base64.urlsafe_b64encode(bs)`: whole blocks, then a final block
      padded with `=` for one or two leftover bytes. */
  function Encode(bs: seq<Byte>): (r: string)
    ensures |r| == 4 * ((|bs| + 2) / 3)
  {
    if |bs| >= 3 then
      assert (|bs[3..]| + 2) / 3 == (|bs| + 2) / 3 - 1;
      EncodeBlock(bs[0], bs[1], bs[2]) + Encode(bs[3..])
    else if |bs| == 2 then
      var d := Sextets(bs[0], bs[1], 0);
      [CharOf(d[0]), CharOf(d[1]), CharOf(d[2]), '=']
    else if |bs| == 1 then
      var d := Sextets(bs[0], 0, 0);
      [CharOf(d[0]), CharOf(d[1]), '=', '=']
    else []
  }

  /** Whole blocks use only alphabet digits: no padding, no whitespace. */
  lemma {:induction false} EncodeInAlphabet(bs: seq<Byte>)
    requires |bs| % 3 == 0
    ensures forall i :: 0 <= i < |Encode(bs)| ==> InAlphabet(Encode(bs)[i])
    decreases |bs|
  {
    if |bs| >= 3 {
      var head := EncodeBlock(bs[0], bs[1], bs[2]);
      var tail := Encode(bs[3..]);
      EncodeBlockInAlphabet(bs[0], bs[1], bs[2]);
      EncodeInAlphabet(bs[3..]);
      assert Encode(bs) == head + tail;
      forall i | 0 <= i < |head + tail|
        ensures InAlphabet((head + tail)[i])
      {
        if i >= 4 {
          assert (head + tail)[i] == tail[i - 4];
        }
      }
    }
  }

  /** The bytes four digit values stand for. */
  function Unsextets(d0: int, d1: int, d2: int, d3: int): (r: seq<Byte>)
    requires 0 <= d0 < 64 && 0 <= d1 < 64 && 0 <= d2 < 64 && 0 <= d3 < 64
    ensures |r| == 3
  {
    [d0 * 4 + d1 / 16, d1 % 16 * 16 + d2 / 4, d2 % 4 * 64 + d3]
  }

  /** Four digits back to one, two or three bytes; None for anything an
      encoder cannot produce (a foreign character, padding that is not
      at the end, or non-zero bits under the padding). */
  function DecodeBlock(s: string, last: bool): Option<seq<Byte>>
    requires |s| == 4
  {
    if !InAlphabet(s[0]) || !InAlphabet(s[1]) then None
    else if s[2] == '=' && s[3] == '=' then
      var r := Unsextets(IndexOf(s[0]), IndexOf(s[1]), 0, 0);
      if last && IndexOf(s[1]) % 16 == 0 then Some(r[..1]) else None
    else if !InAlphabet(s[2]) then None
    else if s[3] == '=' then
      var r := Unsextets(IndexOf(s[0]), IndexOf(s[1]), IndexOf(s[2]), 0);
      if last && IndexOf(s[2]) % 4 == 0 then Some(r[..2]) else None
    else if !InAlphabet(s[3]) then None
    else
      Some(Unsextets(IndexOf(s[0]), IndexOf(s[1]), IndexOf(s[2]), IndexOf(s[3])))
  }

  /** `base64.urlsafe_b64decode(s)` for well-formed input. */
  function Decode(s: string): Option<seq<Byte>>
    decreases |s|
  {
    if s == [] then Some([])
    else if |s| < 4 then None
    else
      match DecodeBlock(s[..4], |s| == 4)
      case None => None
      case Some(head) =>
        match Decode(s[4..])
        case None => None
        case Some(tail) => Some(head + tail)
  }

  /** Cutting three bytes into digits and joining them again is the identity. */
  lemma SextetsRoundTrip(a: Byte, b: Byte, c: Byte)
    ensures var d := Sextets(a, b, c); Unsextets(d[0], d[1], d[2], d[3]) == [a, b, c]
    ensures c == 0 ==> Sextets(a, b, c)[3] == 0 && Sextets(a, b, c)[2] % 4 == 0
    ensures b == 0 && c == 0 ==> Sextets(a, b, c)[2] == 0 && Sextets(a, b, c)[1] % 16 == 0
  {
    assert (a % 4 * 16 + b / 16) / 16 == a % 4;
    assert (a % 4 * 16 + b / 16) % 16 == b / 16;
    assert (b % 16 * 4 + c / 64) / 4 == b % 16;
    assert (b % 16 * 4 + c / 64) % 4 == c / 64;
  }

  /** A whole block decodes to its three bytes. */
  lemma DecodeEncodeBlock(a: Byte, b: Byte, c: Byte, last: bool)
    ensures DecodeBlock(EncodeBlock(a, b, c), last) == Some([a, b, c])
  {
    var d := Sextets(a, b, c);
    IndexOfCharOf(d[0]);
    IndexOfCharOf(d[1]);
    IndexOfCharOf(d[2]);
    IndexOfCharOf(d[3]);
    SextetsRoundTrip(a, b, c);
  }

  /** Two leftover bytes decode from their one-`=` final block. */
  lemma DecodeEncodeTwo(a: Byte, b: Byte)
    ensures Decode(Encode([a, b])) == Some([a, b])
  {
    var s := Encode([a, b]);
    var d := Sextets(a, b, 0);
    IndexOfCharOf(d[0]);
    IndexOfCharOf(d[1]);
    IndexOfCharOf(d[2]);
    SextetsRoundTrip(a, b, 0);
    assert s[..4] == s && s[4..] == [];
    assert s[3] == '=' && IndexOf(s[2]) == d[2];
    var u := Unsextets(d[0], d[1], d[2], 0);
    assert u == [a, b, 0];
    assert DecodeBlock(s, true) == Some(u[..2]);
    assert u[..2] == [a, b];
    assert Decode(s[4..]) == Some([]);
    assert [a, b] + [] == [a, b];
  }

  /** One leftover byte decodes from its two-`=` final block. */
  lemma DecodeEncodeOne(a: Byte)
    ensures Decode(Encode([a])) == Some([a])
  {
    var s := Encode([a]);
    var d := Sextets(a, 0, 0);
    IndexOfCharOf(d[0]);
    IndexOfCharOf(d[1]);
    SextetsRoundTrip(a, 0, 0);
    assert s[..4] == s && s[4..] == [];
    assert s[2] == '=' && s[3] == '=' && IndexOf(s[1]) == d[1];
    var u := Unsextets(d[0], d[1], 0, 0);
    assert u == [a, 0, 0];
    assert DecodeBlock(s, true) == Some(u[..1]);
    assert u[..1] == [a];
    assert Decode(s[4..]) == Some([]);
    assert [a] + [] == [a];
  }

  /** Decoding undoes encoding, for every byte string. */
  lemma {:induction false} RoundTrip(bs: seq<Byte>)
    ensures Decode(Encode(bs)) == Some(bs)
    decreases |bs|
  {
    if |bs| >= 3 {
      var head := EncodeBlock(bs[0], bs[1], bs[2]);
      var tail := Encode(bs[3..]);
      var r := head + tail;
      assert Encode(bs) == r;
      assert r[..4] == head && r[4..] == tail;
      DecodeEncodeBlock(bs[0], bs[1], bs[2], |r| == 4);
      RoundTrip(bs[3..]);
      assert bs == [bs[0], bs[1], bs[2]] + bs[3..];
    } else if |bs| == 2 {
      DecodeEncodeTwo(bs[0], bs[1]);
      assert bs == [bs[0], bs[1]];
    } else if |bs| == 1 {
      DecodeEncodeOne(bs[0]);
      assert bs == [bs[0]];
    }
  }

  /** Distinct byte strings have distinct encodings. */
  lemma EncodeInjective(a: seq<Byte>, b: seq<Byte>)
    requires Encode(a) == Encode(b)
    ensures a == b
  {
    RoundTrip(a);
    RoundTrip(b);
  }
}

=== FILE: codehelper.dfy ===
/**
 `codehelper.py`: while counting a file's lines and bytes, report every
 pair of adjacent lines that both assign to the same variable, written
 the same way (`x = 1` followed by `x = 2`).
 */
module CodeHelper {
  import opened Wrappers
  import opened Strings
  import opened Sorting
  import opened FsTree
  import opened SourceFiles

  const CppSuffixes: seq<string> := [".c", ".h", ".cc", ".cpp", ".hh", ".hpp", ".c++", ".h++"]
  const ProgLangSuffixes: seq<string> := [".go", ".java", ".py", ".pl"]
  const ScriptSuffixes: seq<string> := [".sh", ".bat", "akefile", ".conf", ".config", ".pro", ".yml", ".yaml"]
  const ValidSuffixes: seq<string> := CppSuffixes + ProgLangSuffixes + ScriptSuffixes

  /** The blanks the scan skips: space and tab. */
  predicate Blank(c: char) {
    c == ' ' || c == '\t'
  }

  /** `Var_Name_Chars`: ASCII letters, digits and `_`. */
  predicate NameChar(c: char) {
    ('A' <= c <= 'Z') || ('a' <= c <= 'z') || ('0' <= c <= '9') || c == '_'
  }

  /** The first index at or after `i` that is not a blank. */
  function SkipBlanks(line: string, i: nat): (r: nat)
    requires i <= |line|
    ensures i <= r <= |line|
    ensures forall j :: i <= j < r ==> Blank(line[j])
    ensures r == |line| || !Blank(line[r])
    decreases |line| - i
  {
    if i < |line| && Blank(line[i]) then SkipBlanks(line, i + 1) else i
  }

  /** The first index at or after `i` that is not a name character. */
  function SkipName(line: string, i: nat): (r: nat)
    requires i <= |line|
    ensures i <= r <= |line|
    ensures forall j :: i <= j < r ==> NameChar(line[j])
    ensures r == |line| || !NameChar(line[r])
    decreases |line| - i
  {
    if i < |line| && NameChar(line[i]) then SkipName(line, i + 1) else i
  }

  /** The scan's `w`, `v` and `t`: where the name starts, where it ends,
      and the first non-blank after it. */
  function Scan(line: string): (r: (nat, nat, nat))
    ensures r.0 <= r.1 <= r.2 <= |line|
  {
    var w := SkipBlanks(line, 0);
    var v := SkipName(line, w);
    (w, v, SkipBlanks(line, v))
  }

  /** `line[:v]`: the leading blanks and the variable name. */
  function Key(line: string): (k: string)
    ensures k <= line
  {
    line[..Scan(line).1]
  }

  /** A line the detector treats as an assignment: after blanks, a name,
      blanks, then `:` or `=`, except that in C and C++ files a `::`
      there is a scope operator and not an assignment. */
  predicate IsAssign(line: string, cpp: bool) {
    var s := Scan(line);
    s.2 < |line| && (line[s.2] == ':' || line[s.2] == '=') &&
    !(cpp && s.2 + 1 < |line| && line[s.2] == ':' && line[s.2 + 1] == ':') &&
    s.1 != s.0
  }

  // ------------------------------------------------------- reference shape

  predicate AllBlank(s: string) {
    forall i :: 0 <= i < |s| ==> Blank(s[i])
  }

  predicate IsName(s: string) {
    s != [] && forall i :: 0 <= i < |s| ==> NameChar(s[i])
  }

  /** The shape of an assignment line at given cut points: blanks up
      to `w`, a name up to `v`, blanks up to `t`, and `:` or `=` at `t`
      (not the first `:` of `::` in C and C++ files). */
  predicate ShapeAt(line: string, cpp: bool, w: nat, v: nat, t: nat) {
    w < v <= t < |line| &&
    AllBlank(line[..w]) && IsName(line[w..v]) && AllBlank(line[v..t]) &&
    (line[t] == ':' || line[t] == '=') &&
    !(cpp && line[t] == ':' && t + 1 < |line| && line[t + 1] == ':')
  }

  /** The scan recognises exactly the lines of that shape, and its key
      is the line up to the end of the name. */
  lemma AssignIff(line: string, cpp: bool)
    ensures IsAssign(line, cpp) <==> exists w: nat, v: nat, t: nat :: ShapeAt(line, cpp, w, v, t) && Key(line) == line[..v]
  {
    var s := Scan(line);
    if IsAssign(line, cpp) {
      ScanShape(line);
      assert ShapeAt(line, cpp, s.0, s.1, s.2);
    }
    if exists w: nat, v: nat, t: nat :: ShapeAt(line, cpp, w, v, t) && Key(line) == line[..v] {
      var w: nat, v: nat, t: nat :| ShapeAt(line, cpp, w, v, t) && Key(line) == line[..v];
      ShapeScan(line, w, v, t);
    }
  }

  /** The pieces the scan cuts are blanks, a name run and blanks. */
  lemma ScanShape(line: string)
    ensures var s := Scan(line);
      AllBlank(line[..s.0]) && (forall i :: s.0 <= i < s.1 ==> NameChar(line[i])) && AllBlank(line[s.1..s.2])
  {
    var s := Scan(line);
    assert forall i :: 0 <= i < s.0 ==> line[..s.0][i] == line[i];
    assert forall i :: 0 <= i < s.2 - s.1 ==> line[s.1..s.2][i] == line[s.1 + i];
  }

  /** Where the scan stops on a line of assignment shape. */
  lemma ShapeScan(line: string, w: nat, v: nat, t: nat)
    requires w < v <= t < |line|
    requires AllBlank(line[..w]) && IsName(line[w..v]) && AllBlank(line[v..t])
    requires line[t] == ':' || line[t] == '='
    ensures Scan(line) == (w, v, t)
  {
    assert forall j :: 0 <= j < w ==> line[j] == line[..w][j];
    assert forall j :: w <= j < v ==> line[j] == line[w..v][j - w];
    assert forall j :: v <= j < t ==> line[j] == line[v..t][j - v];
    BlanksStop(line, 0, w);
    NameStops(line, w, v);
    BlanksStop(line, v, t);
  }
  lemma {:induction false} BlanksStop(line: string, i: nat, k: nat)
    requires i <= k < |line|
    requires forall j :: i <= j < k ==> Blank(line[j])
    requires !Blank(line[k])
    ensures SkipBlanks(line, i) == k
    decreases k - i
  {
    if i < k {
      BlanksStop(line, i + 1, k);
    }
  }

  lemma {:induction false} NameStops(line: string, i: nat, k: nat)
    requires i <= k < |line|
    requires forall j :: i <= j < k ==> NameChar(line[j])
    requires !NameChar(line[k])
    ensures SkipName(line, i) == k
    decreases k - i
  {
    if i < k {
      NameStops(line, i + 1, k);
    }
  }

  /** In a C or C++ file `name::member` is a scope, elsewhere the `:` of
      `name::` still reads as an assignment. */
  lemma CppScope(name: string, rest: string)
    requires IsName(name)
    ensures !IsAssign(name + "::" + rest, true)
    ensures IsAssign(name + "::" + rest, false)
    ensures Key(name + "::" + rest) == name
  {
    var line := name + "::" + rest;
    var v := |name|;
    assert line[..0] == [] && line[0..v] == name && line[v..v] == [];
    assert line[v] == ':' && line[v + 1] == ':';
    ShapeScan(line, 0, v, v);
  }

  // ----------------------------------------------------------- the tracker

  /** One reported pair: the 1-based numbers of the two lines and the
      lines without their last character. */
  datatype Dup = Dup(first: nat, second: nat, before: string, after: string)

  /** `line[:-1]`. */
  function DropLast(s: string): string {
    if s == [] then [] else s[..|s| - 1]
  }

  /** How the tracker sees one line: the key of an assignment, or
      nothing. */
  function Class(line: string, cpp: bool): Option<string> {
    if IsAssign(line, cpp) then Some(Key(line)) else None
  }

  /** The classes of all lines. */
  function Classes(ls: seq<string>, cpp: bool): (cs: seq<Option<string>>)
    ensures |cs| == |ls|
    ensures forall i :: 0 <= i < |ls| ==> cs[i] == Class(ls[i], cpp)
  {
    seq(|ls|, i requires 0 <= i < |ls| => Class(ls[i], cpp))
  }

  /** One line of the tracker, given the line's class: the new tracked
      name and whether a duplicate is reported. */
  function Step(tracked: Option<string>, c: Option<string>): (r: (Option<string>, bool))
    ensures r.0 == c
    ensures r.1 <==> c.Some? && tracked == c
  {
    if c == None then (None, false)
    else if tracked == None then (c, false)
    else if tracked == c then (tracked, true)
    else (c, false)
  }

  /** Lines `j - 1` and `j` (0-based) are assignments with the same key. */
  predicate Pair(cs: seq<Option<string>>, j: int)
    requires 1 <= j < |cs|
  {
    cs[j - 1].Some? && cs[j - 1] == cs[j]
  }

  /** Reference: the pairs among the first `n` lines, in order. */
  function Expected(ls: seq<string>, cs: seq<Option<string>>, n: nat): (ds: seq<Dup>)
    requires |cs| == |ls| && n <= |ls|
    ensures |ds| < n || n == 0
  {
    if n == 0 then []
    else
      var j := n - 1;
      Expected(ls, cs, j) +
        (if j >= 1 && Pair(cs, j) then [Dup(j, j + 1, DropLast(ls[j - 1]), DropLast(ls[j]))] else [])
  }

  /** Every reported pair is a pair of adjacent assignment lines with
      the same key, numbered and printed as the source prints it. */
  lemma {:induction false} ExpectedSound(ls: seq<string>, cs: seq<Option<string>>, n: nat, k: nat)
    requires |cs| == |ls| && n <= |ls|
    requires k < |Expected(ls, cs, n)|
    ensures var d := Expected(ls, cs, n)[k];
      1 <= d.first < n && d.second == d.first + 1 && Pair(cs, d.first) &&
      d.before == DropLast(ls[d.first - 1]) && d.after == DropLast(ls[d.first])
  {
    var p := Expected(ls, cs, n - 1);
    if k < |p| {
      ExpectedSound(ls, cs, n - 1, k);
      assert Expected(ls, cs, n)[k] == p[k];
    }
  }

  /** Every pair of adjacent assignment lines with the same key is
      reported. */
  lemma {:induction false} ExpectedComplete(ls: seq<string>, cs: seq<Option<string>>, n: nat, j: nat)
    requires |cs| == |ls| && n <= |ls|
    requires 1 <= j < n && Pair(cs, j)
    ensures exists k :: 0 <= k < |Expected(ls, cs, n)| && Expected(ls, cs, n)[k].first == j
  {
    var p := Expected(ls, cs, n - 1);
    var ds := Expected(ls, cs, n);
    if j < n - 1 {
      ExpectedComplete(ls, cs, n - 1, j);
      var k :| 0 <= k < |p| && p[k].first == j;
      assert ds[k] == p[k];
    } else {
      assert ds[|p|].first == j;
    }
  }

  /** The reports come in line order, so no pair is reported twice. */
  lemma {:induction false} ExpectedOrdered(ls: seq<string>, cs: seq<Option<string>>, n: nat, k: nat, m: nat)
    requires |cs| == |ls| && n <= |ls|
    requires k < m < |Expected(ls, cs, n)|
    ensures Expected(ls, cs, n)[k].first < Expected(ls, cs, n)[m].first
  {
    var p := Expected(ls, cs, n - 1);
    var ds := Expected(ls, cs, n);
    if m < |p| {
      ExpectedOrdered(ls, cs, n - 1, k, m);
      assert ds[k] == p[k] && ds[m] == p[m];
    } else {
      ExpectedSound(ls, cs, n - 1, k);
      assert ds[k] == p[k];
    }
  }

  /** The reported pairs of a file's lines. */
  function Dups(ls: seq<string>, cpp: bool): seq<Dup> {
    Expected(ls, Classes(ls, cpp), |ls|)
  }

  /** The tracker over a file's lines reports exactly the reference pairs. */
  method Detect(ls: seq<string>, cs: seq<Option<string>>) returns (ds: seq<Dup>)
    requires |cs| == |ls|
    ensures ds == Expected(ls, cs, |ls|)
  {
    var tracked: Option<string> := None;
    var prev: string := "";
    ds := [];
    var i := 0;
    while i < |ls|
      invariant 0 <= i <= |ls|
      invariant tracked == if i > 0 then cs[i - 1] else None
      invariant i > 0 ==> prev == ls[i - 1]
      invariant ds == Expected(ls, cs, i)
    {
      var s := Step(tracked, cs[i]);
      if s.1 {
        ds := ds + [Dup(i, i + 1, DropLast(prev), DropLast(ls[i]))];
      }
      tracked, prev := s.0, ls[i];
      i := i + 1;
    }
  }

  /** `k` identical assignment lines in a row give `k - 1` reports, one
      for every line after the first. */
  lemma {:induction false} RepeatedAssign(line: string, cpp: bool, k: nat)
    requires IsAssign(line, cpp)
    ensures |Dups(seq(k, _ => line), cpp)| == if k == 0 then 0 else k - 1
  {
    var ls := seq(k, _ => line);
    var cs := Classes(ls, cpp);
    RepeatedCount(ls, cs, k);
  }

  lemma {:induction false} RepeatedCount(ls: seq<string>, cs: seq<Option<string>>, n: nat)
    requires |cs| == |ls| && n <= |ls|
    requires forall i :: 0 <= i < |cs| ==> cs[i].Some? && cs[i] == cs[0]
    ensures |Expected(ls, cs, n)| == if n == 0 then 0 else n - 1
  {
    if n > 0 {
      RepeatedCount(ls, cs, n - 1);
      if n > 1 {
        assert Pair(cs, n - 1);
      }
    }
  }

  /** A line of no class is in no reported pair. */
  lemma NoClassNoPair(ls: seq<string>, cs: seq<Option<string>>, j: nat, k: nat)
    requires |cs| == |ls| && j < |ls| && cs[j] == None
    requires k < |Expected(ls, cs, |ls|)|
    ensures Expected(ls, cs, |ls|)[k].first != j && Expected(ls, cs, |ls|)[k].first != j + 1
  {
    ExpectedSound(ls, cs, |ls|, k);
  }

  /** A line that is not an assignment is in no reported pair. */
  lemma ResetBreaks(ls: seq<string>, cpp: bool, j: nat)
    requires j < |ls| && !IsAssign(ls[j], cpp)
    ensures forall k :: 0 <= k < |Dups(ls, cpp)| ==> Dups(ls, cpp)[k].first != j && Dups(ls, cpp)[k].first != j + 1
  {
    var cs := Classes(ls, cpp);
    assert cs[j] == None;
    forall k | 0 <= k < |Expected(ls, cs, |ls|)|
      ensures Expected(ls, cs, |ls|)[k].first != j && Expected(ls, cs, |ls|)[k].first != j + 1
    {
      NoClassNoPair(ls, cs, j, k);
    }
  }

  /** `count_lines_and_bytes(path)` for a file holding `data`. */
  datatype Counted = Counted(lines: nat, bytes: nat, dups: seq<Dup>)

  method CountLinesAndBytes(path: string, data: string) returns (c: Counted)
    ensures c.lines == |LinesOf(data)|
    ensures c.bytes == |data|
    ensures c.lines == Newlines(data) + (if data != [] && data[|data| - 1] != '\n' then 1 else 0)
    ensures c.dups == Dups(LinesOf(data), HasSuffix(path, CppSuffixes))
  {
    var ls := LinesOf(data);
    var counts := SourceFiles.CountLinesAndBytes(ls);
    FileCounts(data);
    var ds := Detect(ls, Classes(ls, HasSuffix(path, CppSuffixes)));
    c := Counted(counts.0, counts.1, ds);
  }

  /** `Makefile` and `makefile` are kept through the `akefile` suffix. */
  lemma MakefilesKept()
    ensures Wanted("Makefile", ValidSuffixes, []) && Wanted("makefile", ValidSuffixes, [])
  {
    var i := |CppSuffixes| + |ProgLangSuffixes| + 2;
    assert ValidSuffixes[i] == "akefile";
    HasSuffixIff("Makefile", ValidSuffixes);
    HasSuffixIff("makefile", ValidSuffixes);
    assert IsSuffix(ValidSuffixes[i], "Makefile");
    assert IsSuffix(ValidSuffixes[i], "makefile");
  }

  /** The counts and reports `count_lines_and_bytes` gives for a file. */
  predicate CountsOf(c: Counted, path: string, data: string) {
    c.lines == |LinesOf(data)| && c.bytes == |data| &&
    c.dups == Dups(LinesOf(data), HasSuffix(path, CppSuffixes))
  }

  /** What `main` reports. */
  datatype Report = Report(paths: seq<string>, counts: seq<Counted>, lines: nat, bytes: nat)

  /** `main` of `codehelper.py`: the source paths in order, and each
      file's counts and duplicate reports. */
  method Run(top: seq<Entry>, read: string -> string) returns (r: Report)
    ensures Sorted(r.paths)
    ensures forall p :: p in r.paths <==> exists n :: (p, n) in FoundPairs("", top, InvalidPrefixes, ValidSuffixes, [])
    ensures |r.counts| == |r.paths|
    ensures forall i :: 0 <= i < |r.paths| ==> CountsOf(r.counts[i], r.paths[i], read(r.paths[i]))
    ensures r.lines == Totals(Contents(read, r.paths)).1
    ensures r.bytes == Totals(Contents(read, r.paths)).2 == |Concat(Contents(read, r.paths))|
  {
    var paths := SortedPaths(Kept(top, InvalidPrefixes, ValidSuffixes));
    var counts: seq<Counted> := [];
    var i := 0;
    while i < |paths|
      invariant 0 <= i <= |paths|
      invariant |counts| == i
      invariant forall k :: 0 <= k < i ==> CountsOf(counts[k], paths[k], read(paths[k]))
    {
      var c := CountLinesAndBytes(paths[i], read(paths[i]));
      counts := counts + [c];
      i := i + 1;
    }
    var _, lines, bytes := Tally(Contents(read, paths));
    r := Report(paths, counts, lines, bytes);
  }
}

=== FILE: columns.dfy ===
/**
 `columns.py`: the input's lines re-printed as aligned columns. Every
 whitespace-separated token is padded to the widest token of its column,
 and the tokens of a line are joined by two spaces, or by a tab under
 `--tab`. Standard input and the named file are parameters.
 */
module Columns {
  import opened Wrappers
  import opened Strings
  import opened SourceFiles

  // ------------------------------------------------------------ arguments

  /** The separator, and the file to read when exactly one argument is
      left once the first `--tab` is taken out. */
  datatype Options = Options(sep: string, file: Option<string>)

  function ParseArgs(args: seq<string>): (o: Options)
    ensures o.sep == "\t" <==> "--tab" in args
    ensures o.sep == "  " <==> "--tab" !in args
    ensures o.sep != [] && AllSpace(o.sep)
    ensures o.file.Some? <==> |args| == (if "--tab" in args then 2 else 1)
    ensures o.file.Some? ==> o.file.value in args
  {
    var tab := "--tab" in args;
    var rest := if tab then RemoveFirst(args, "--tab") else args;
    assert rest != [] ==> rest[0] in rest;
    Options(if tab then "\t" else "  ", if |rest| == 1 then Some(rest[0]) else None)
  }

  // --------------------------------------------------------- column widths

  function Max(a: nat, b: nat): nat {
    if a < b then b else a
  }

  /** Reference: the most tokens on any row. */
  function MaxLen(rows: seq<seq<string>>): (m: nat)
    ensures forall j :: 0 <= j < |rows| ==> |rows[j]| <= m
  {
    if rows == [] then 0
    else
      var init := rows[..|rows| - 1];
      assert forall j :: 0 <= j < |init| ==> rows[j] == init[j];
      Max(MaxLen(init), |rows[|rows| - 1]|)
  }

  /** Reference: the longest token in column `c` of any row. */
  function ColWidth(rows: seq<seq<string>>, c: nat): nat {
    if rows == [] then 0
    else
      var last := rows[|rows| - 1];
      Max(ColWidth(rows[..|rows| - 1], c), if c < |last| then |last[c]| else 0)
  }

  /** `MaxLen` is reached: some row is that long. */
  lemma {:induction false} MaxLenReached(rows: seq<seq<string>>)
    requires rows != []
    ensures exists j :: 0 <= j < |rows| && |rows[j]| == MaxLen(rows)
  {
    var init := rows[..|rows| - 1];
    if init != [] && MaxLen(init) >= |rows[|rows| - 1]| {
      MaxLenReached(init);
      var j :| 0 <= j < |init| && |init[j]| == MaxLen(init);
      assert rows[j] == init[j];
    } else {
      assert |rows[|rows| - 1]| == MaxLen(rows);
    }
  }

  /** Past the longest row a column is empty. */
  lemma {:induction false} ColWidthBeyond(rows: seq<seq<string>>, c: nat)
    requires c >= MaxLen(rows)
    ensures ColWidth(rows, c) == 0
  {
    if rows != [] {
      ColWidthBeyond(rows[..|rows| - 1], c);
    }
  }

  /** `ColWidth` is the maximum: no token of the column is wider, and a
      token of the column is that wide whenever the column exists. */
  lemma {:induction false} ColWidthIsMax(rows: seq<seq<string>>, c: nat)
    ensures forall j :: 0 <= j < |rows| && c < |rows[j]| ==> |rows[j][c]| <= ColWidth(rows, c)
    ensures c < MaxLen(rows) ==>
      exists j :: 0 <= j < |rows| && c < |rows[j]| && |rows[j][c]| == ColWidth(rows, c)
  {
    if rows != [] {
      var init := rows[..|rows| - 1];
      var last := rows[|rows| - 1];
      ColWidthIsMax(init, c);
      assert forall j :: 0 <= j < |init| ==> rows[j] == init[j];
      if c < MaxLen(rows) {
        if c < |last| && |last[c]| >= ColWidth(init, c) {
          assert |rows[|rows| - 1][c]| == ColWidth(rows, c);
        } else {
          if c >= MaxLen(init) {
            ColWidthBeyond(init, c);
          }
          var j :| 0 <= j < |init| && c < |init[j]| && |init[j][c]| == ColWidth(init, c);
          assert |rows[j][c]| == ColWidth(rows, c);
        }
      }
    }
  }

  /** The widths after one more row: the list grows to the row's length
      and each column keeps the wider of its width and the row's token. */
  method Widen(w: seq<nat>, parts: seq<string>) returns (w': seq<nat>)
    ensures |w'| == Max(|w|, |parts|)
    ensures forall c :: 0 <= c < |w'| ==>
      w'[c] == Max(if c < |w| then w[c] else 0, if c < |parts| then |parts[c]| else 0)
  {
    w' := w;
    var i := 0;
    while i < |parts|
      invariant 0 <= i <= |parts|
      invariant |w'| == Max(|w|, i)
      invariant forall c :: 0 <= c < |w'| ==>
        w'[c] == Max(if c < |w| then w[c] else 0, if c < i then |parts[c]| else 0)
    {
      if i == |w'| {
        w' := w' + [0];
      }
      if |parts[i]| > w'[i] {
        w' := w'[i := |parts[i]|];
      }
      i := i + 1;
    }
  }

  /** The width loop of `main`: one width per column, the widest token
      of that column. */
  method Widths(rows: seq<seq<string>>) returns (w: seq<nat>)
    ensures |w| == MaxLen(rows)
    ensures forall c :: 0 <= c < |w| ==> w[c] == ColWidth(rows, c)
  {
    w := [];
    var j := 0;
    while j < |rows|
      invariant 0 <= j <= |rows|
      invariant |w| == MaxLen(rows[..j])
      invariant forall c :: 0 <= c < |w| ==> w[c] == ColWidth(rows[..j], c)
    {
      assert rows[..j + 1][..j] == rows[..j];
      w := Widen(w, rows[j]);
      forall c | MaxLen(rows[..j]) <= c < |w| {
        ColWidthBeyond(rows[..j], c);
      }
      j := j + 1;
    }
    assert rows[..j] == rows;
  }

  // --------------------------------------------------------- padded lines

  /** A row's token `i`, padded to its column, then the separator unless
      it is the row's last token. */
  function Cell(parts: seq<string>, w: seq<nat>, sep: string, i: nat): string
    requires i < |parts| <= |w|
  {
    parts[i] + Spaces(w[i] - |parts[i]|) + (if i < |parts| - 1 then sep else "")
  }

  /** The printed line from token `i` on. */
  function FormatFrom(parts: seq<string>, w: seq<nat>, sep: string, i: nat): string
    requires |parts| <= |w| && i <= |parts|
    decreases |parts| - i
  {
    if i == |parts| then "" else Cell(parts, w, sep, i) + FormatFrom(parts, w, sep, i + 1)
  }

  /** The line printed for a row. */
  function Format(parts: seq<string>, w: seq<nat>, sep: string): string
    requires |parts| <= |w|
  {
    FormatFrom(parts, w, sep, 0)
  }

  function Sum(xs: seq<nat>): nat {
    if xs == [] then 0 else Sum(xs[..|xs| - 1]) + xs[|xs| - 1]
  }

  /** Where column `i` starts: the widths before it and one separator
      after each. */
  function Offset(w: seq<nat>, sep: string, i: nat): nat
    requires i <= |w|
  {
    Sum(w[..i]) + i * |sep|
  }

  /** A cell is as wide as its column, plus the separator if one follows. */
  lemma CellLength(parts: seq<string>, w: seq<nat>, sep: string, i: nat)
    requires i < |parts| <= |w| && |parts[i]| <= w[i]
    ensures |Cell(parts, w, sep, i)| == w[i] + if i < |parts| - 1 then |sep| else 0
  {
  }

  /** The line up to token `i` fills exactly the columns before it. */
  lemma {:induction false} FormatPrefix(parts: seq<string>, w: seq<nat>, sep: string, i: nat)
    requires |parts| <= |w| && i < |parts|
    requires forall k :: 0 <= k < |parts| ==> |parts[k]| <= w[k]
    ensures |Format(parts, w, sep)| >= Offset(w, sep, i)
    ensures Format(parts, w, sep)[Offset(w, sep, i)..] == FormatFrom(parts, w, sep, i)
  {
    if i > 0 {
      FormatPrefix(parts, w, sep, i - 1);
      var f := Format(parts, w, sep);
      var o := Offset(w, sep, i - 1);
      CellLength(parts, w, sep, i - 1);
      assert w[..i][..i - 1] == w[..i - 1];
      assert Offset(w, sep, i) == o + w[i - 1] + |sep|;
      var cell := Cell(parts, w, sep, i - 1);
      assert f[o..] == cell + FormatFrom(parts, w, sep, i);
      assert f[o + |cell|..] == f[o..][|cell|..];
    }
  }

  /** Columns line up: token `i` of every row starts at the same offset. */
  lemma Aligned(parts: seq<string>, w: seq<nat>, sep: string, i: nat)
    requires |parts| <= |w| && i < |parts|
    requires forall k :: 0 <= k < |parts| ==> |parts[k]| <= w[k]
    ensures Offset(w, sep, i) + |parts[i]| <= |Format(parts, w, sep)|
    ensures Format(parts, w, sep)[Offset(w, sep, i)..Offset(w, sep, i) + |parts[i]|] == parts[i]
  {
    FormatPrefix(parts, w, sep, i);
    var f := Format(parts, w, sep);
    var o := Offset(w, sep, i);
    assert f[o..] == parts[i] + (Spaces(w[i] - |parts[i]|) + (if i < |parts| - 1 then sep else "")) + FormatFrom(parts, w, sep, i + 1);
    assert f[o..o + |parts[i]|] == f[o..][..|parts[i]|];
  }

  /** A line is as long as its columns plus one separator between each two. */
  lemma {:induction false} FormatLength(parts: seq<string>, w: seq<nat>, sep: string)
    requires 0 < |parts| <= |w|
    requires forall k :: 0 <= k < |parts| ==> |parts[k]| <= w[k]
    ensures |Format(parts, w, sep)| == Sum(w[..|parts|]) + (|parts| - 1) * |sep|
  {
    var n := |parts| - 1;
    FormatPrefix(parts, w, sep, n);
    CellLength(parts, w, sep, n);
    assert FormatFrom(parts, w, sep, n) == Cell(parts, w, sep, n) + "";
    assert w[..n + 1][..n] == w[..n];
  }

  /** What follows a token is whitespace, and is empty only at the end. */
  lemma Padding(parts: seq<string>, w: seq<nat>, sep: string, i: nat)
    requires i < |parts| <= |w|
    requires sep != [] && AllSpace(sep)
    ensures var pad := Spaces(w[i] - |parts[i]|) + (if i < |parts| - 1 then sep else "");
      AllSpace(pad) && (pad != [] || i == |parts| - 1)
  {
  }

  /** The first token of the line from `i` on is token `i`. */
  lemma SplitCell(parts: seq<string>, w: seq<nat>, sep: string, i: nat)
    requires i < |parts| <= |w| && IsWord(parts[i])
    requires sep != [] && AllSpace(sep)
    ensures Split(FormatFrom(parts, w, sep, i)) == [parts[i]] + Split(FormatFrom(parts, w, sep, i + 1))
  {
    var pad := Spaces(w[i] - |parts[i]|) + (if i < |parts| - 1 then sep else "");
    var rest := FormatFrom(parts, w, sep, i + 1);
    assert FormatFrom(parts, w, sep, i) == parts[i] + pad + rest;
    Padding(parts, w, sep, i);
    SplitWordThen(parts[i], pad, rest);
  }

  lemma SplitNext(parts: seq<string>, w: seq<nat>, sep: string, i: nat)
    requires i < |parts| <= |w| && IsWord(parts[i])
    requires sep != [] && AllSpace(sep)
    requires Split(FormatFrom(parts, w, sep, i + 1)) == parts[i + 1..]
    ensures Split(FormatFrom(parts, w, sep, i)) == parts[i..]
  {
    SplitCell(parts, w, sep, i);
    assert parts[i..] == [parts[i]] + parts[i + 1..];
  }

  /** Past the last token nothing is printed. */
  lemma SplitEnd(parts: seq<string>, w: seq<nat>, sep: string, i: nat)
    requires i == |parts| <= |w|
    ensures Split(FormatFrom(parts, w, sep, i)) == parts[i..]
  {
    assert FormatFrom(parts, w, sep, i) == [];
  }

  /** Splitting the line from token `i` on gives back tokens `i..`. */
  lemma {:induction false} SplitFrom(parts: seq<string>, w: seq<nat>, sep: string, i: nat)
    requires i < |parts| <= |w|
    requires forall k :: 0 <= k < |parts| ==> IsWord(parts[k])
    requires sep != [] && AllSpace(sep)
    ensures Split(FormatFrom(parts, w, sep, i)) == parts[i..]
    decreases |parts| - i
  {
    if i + 1 < |parts| {
      SplitFrom(parts, w, sep, i + 1);
    } else {
      SplitEnd(parts, w, sep, i + 1);
    }
    SplitNext(parts, w, sep, i);
  }

  /** Splitting a printed line on whitespace gives back the row's tokens. */
  lemma FormatSplit(parts: seq<string>, w: seq<nat>, sep: string)
    requires |parts| <= |w|
    requires forall k :: 0 <= k < |parts| ==> IsWord(parts[k])
    requires sep != [] && AllSpace(sep)
    ensures Split(Format(parts, w, sep)) == parts
  {
    if parts == [] {
      SplitEnd(parts, w, sep, 0);
    } else {
      SplitFrom(parts, w, sep, 0);
    }
  }

  // ---------------------------------------------------------------- main

  /** The tokens of each input line. */
  function Rows(text: string): (rows: seq<seq<string>>)
    ensures |rows| == |LinesOf(text)|
    ensures forall j :: 0 <= j < |rows| ==> rows[j] == Split(LinesOf(text)[j])
  {
    var lines := LinesOf(text);
    seq(|lines|, (j: nat) requires j < |lines| => Split(lines[j]))
  }

  /** Reference: the widths `main` computes, one per column. */
  function WidthsOf(rows: seq<seq<string>>): (w: seq<nat>)
    ensures |w| == MaxLen(rows)
  {
    seq(MaxLen(rows), (c: nat) => ColWidth(rows, c))
  }

  /** The input a run reads: the named file, or standard input. */
  function Input(o: Options, stdin: string, read: string -> string): string {
    if o.file.Some? then read(o.file.value) else stdin
  }

  /** Every token fits its column. */
  lemma {:induction false} Fits(rows: seq<seq<string>>, j: nat)
    requires j < |rows|
    ensures |rows[j]| <= |WidthsOf(rows)|
    ensures forall k :: 0 <= k < |rows[j]| ==> |rows[j][k]| <= WidthsOf(rows)[k]
  {
    forall k | 0 <= k < |rows[j]|
      ensures |rows[j][k]| <= WidthsOf(rows)[k]
    {
      ColWidthIsMax(rows, k);
    }
  }

  /** A printed line splits back into the tokens of its input line. */
  lemma PrintedSplits(rows: seq<seq<string>>, j: nat, sep: string)
    requires j < |rows| && sep != [] && AllSpace(sep)
    requires forall k :: 0 <= k < |rows[j]| ==> IsWord(rows[j][k])
    ensures |rows[j]| <= |WidthsOf(rows)|
    ensures Split(Format(rows[j], WidthsOf(rows), sep)) == rows[j]
  {
    Fits(rows, j);
    FormatSplit(rows[j], WidthsOf(rows), sep);
  }

  /** The printed lines of a whole input. */
  function Table(rows: seq<seq<string>>, w: seq<nat>, sep: string): (out: seq<string>)
    requires |w| == MaxLen(rows)
    ensures |out| == |rows|
    ensures forall j :: 0 <= j < |rows| ==> out[j] == Format(rows[j], w, sep)
  {
    seq(|rows|, (j: nat) requires j < |rows| => Format(rows[j], w, sep))
  }

  /** Every printed line splits back into the tokens of its input line. */
  lemma TableSplits(text: string, sep: string)
    requires sep != [] && AllSpace(sep)
    ensures forall j :: 0 <= j < |LinesOf(text)| ==>
      Split(Table(Rows(text), WidthsOf(Rows(text)), sep)[j]) == Split(LinesOf(text)[j])
  {
    var rows := Rows(text);
    forall j | 0 <= j < |rows|
      ensures Split(Table(rows, WidthsOf(rows), sep)[j]) == rows[j]
    {
      PrintedSplits(rows, j, sep);
    }
  }

  /** The two passes of `main` over the rows: widths, then padded lines. */
  method Layout(rows: seq<seq<string>>, sep: string) returns (out: seq<string>)
    ensures out == Table(rows, WidthsOf(rows), sep)
  {
    var w := Widths(rows);
    assert w == WidthsOf(rows);
    out := Table(rows, w, sep);
  }

  /** `main` of `columns.py`: one printed line per input line, each the
      line's tokens laid out in the columns' widths, so that it splits
      back into the same tokens. */
  method Run(args: seq<string>, stdin: string, read: string -> string) returns (out: seq<string>)
    ensures var rows := Rows(Input(ParseArgs(args), stdin, read));
      out == Table(rows, WidthsOf(rows), ParseArgs(args).sep)
    ensures var lines := LinesOf(Input(ParseArgs(args), stdin, read));
      |out| == |lines| && forall j :: 0 <= j < |lines| ==> Split(out[j]) == Split(lines[j])
  {
    var o := ParseArgs(args);
    var text := Input(o, stdin, read);
    out := Layout(Rows(text), o.sep);
    TableSplits(text, o.sep);
  }
}

=== FILE: formatjson.dfy ===
/**
 `formatjson.py`: JSON re-indented one value per line. Lines before the
 first one that starts with `{` are echoed; from there on every `{`,
 `[`, `,` and closing bracket ends a chunk, written on its own line at
 the current indent. The input text is a parameter; what is written is
 a list of pieces, each one printed line.
 */
module FormatJson {
  import opened Wrappers
  import opened Strings
  import opened SourceFiles

  predicate IsOpener(c: char) { c == '{' || c == '[' }
  predicate IsCloser(c: char) { c == ']' || c == '}' }

  /** A character that ends a chunk. */
  predicate IsDelim(c: char) { IsOpener(c) || IsCloser(c) || c == ',' }

  predicate NoDelim(s: string) {
    forall i :: 0 <= i < |s| ==> !IsDelim(s[i])
  }

  /** The text of a written chunk: undelimited text, then one delimiter,
      with a `,` or newline right after a closing bracket kept with it. */
  predicate Chunked(t: string) {
    (|t| >= 1 && NoDelim(t[..|t| - 1]) && IsDelim(t[|t| - 1])) ||
    (|t| >= 2 && NoDelim(t[..|t| - 2]) && IsCloser(t[|t| - 2]) && (t[|t| - 1] == ',' || t[|t| - 1] == '\n'))
  }

  /** A line written by `fout.write`: the chunk's text after `indent` spaces. */
  datatype Chunk = Chunk(indent: int, text: string)

  /** The loop's variables within one line: the indent, the previous
      character (`''` at the line's start), the pending text `s`, and
      the chunks written so far. */
  datatype Scan = Scan(indent: int, prev: Option<char>, s: string, chunks: seq<Chunk>)

  /** One turn of the character loop at position `n`: the position the
      next turn starts at, and the new variables. */
  function Step(line: string, n: nat, st: Scan): (r: (nat, Scan))
    requires n < |line|
    ensures n < r.0 <= |line|
  {
    var ch := line[n];
    var s := st.s + [ch];
    if IsOpener(ch) then
      (n + 1, Scan(st.indent + 2, Some(ch), "", st.chunks + [Chunk(st.indent, s)]))
    else if IsCloser(ch) then
      var absorb := n + 1 < |line| && (line[n + 1] == ',' || line[n + 1] == '\n');
      var text := if absorb then s + [line[n + 1]] else s;
      var last := if absorb then line[n + 1] else ch;
      var at := if st.prev.Some? && IsCloser(st.prev.value) then st.indent - 2 else st.indent;
      (if absorb then n + 2 else n + 1, Scan(st.indent - 2, Some(last), "", st.chunks + [Chunk(at, text)]))
    else if ch == ',' then
      (n + 1, Scan(st.indent, Some(ch), "", st.chunks + [Chunk(st.indent, s)]))
    else
      (n + 1, Scan(st.indent, Some(ch), s, st.chunks))
  }

  /** The character loop from position `n` to the end of the line. */
  function ScanFrom(line: string, n: nat, st: Scan): Scan
    requires n <= |line|
    decreases |line| - n
  {
    if n == |line| then st else ScanFrom(line, Step(line, n, st).0, Step(line, n, st).1)
  }

  /** One reformatted line, entered at `indent` (`s` and `prev` reset). */
  function FormatLine(line: string, indent: int): Scan {
    ScanFrom(line, 0, Scan(indent, None, "", []))
  }

  // ------------------------------------------------------ indent balance

  /** Twice the openers minus the closers. */
  function Depth(t: string): int {
    if t == [] then 0
    else (if IsOpener(t[0]) then 2 else if IsCloser(t[0]) then -2 else 0) + Depth(t[1..])
  }

  lemma {:induction false} DepthAppend(a: string, b: string)
    ensures Depth(a + b) == Depth(a) + Depth(b)
  {
    if a != [] {
      assert (a + b)[0] == a[0];
      assert (a + b)[1..] == a[1..] + b;
      DepthAppend(a[1..], b);
    } else {
      assert a + b == b;
    }
  }

  /** One turn moves the indent by the depth of what it consumed. */
  lemma StepBalance(line: string, n: nat, st: Scan)
    requires n < |line|
    ensures Step(line, n, st).1.indent + Depth(line[Step(line, n, st).0..]) == st.indent + Depth(line[n..])
  {
    assert line[n..][1..] == line[n + 1..];
    if Step(line, n, st).0 == n + 2 {
      assert line[n + 1..][1..] == line[n + 2..];
    }
  }

  /** Every opener raises the indent by 2 and every closer lowers it by 2. */
  lemma {:induction false} ScanBalance(line: string, n: nat, st: Scan)
    requires n <= |line|
    ensures ScanFrom(line, n, st).indent == st.indent + Depth(line[n..])
    decreases |line| - n
  {
    if n < |line| {
      StepBalance(line, n, st);
      ScanBalance(line, Step(line, n, st).0, Step(line, n, st).1);
    }
  }

  // ------------------------------------------------------ nothing is lost

  /** The chunks' texts, in order. */
  function Texts(cs: seq<Chunk>): string {
    if cs == [] then [] else Texts(cs[..|cs| - 1]) + cs[|cs| - 1].text
  }

  lemma TextsSnoc(cs: seq<Chunk>, c: Chunk)
    ensures Texts(cs + [c]) == Texts(cs) + c.text
  {
    assert (cs + [c])[..|cs|] == cs;
  }

  /** One turn moves characters from the line into the chunks or `s`. */
  lemma StepKeeps(line: string, n: nat, st: Scan)
    requires n < |line|
    ensures var r := Step(line, n, st);
      Texts(r.1.chunks) + r.1.s + line[r.0..] == Texts(st.chunks) + st.s + line[n..]
  {
    assert line[n..] == [line[n]] + line[n + 1..];
    if IsCloser(line[n]) {
      CloserKeeps(line, n, st);
    } else if IsDelim(line[n]) {
      TextsSnoc(st.chunks, Step(line, n, st).1.chunks[|st.chunks|]);
      assert Step(line, n, st).1.chunks == st.chunks + [Step(line, n, st).1.chunks[|st.chunks|]];
    }
  }

  lemma CloserKeeps(line: string, n: nat, st: Scan)
    requires n < |line| && IsCloser(line[n])
    ensures var r := Step(line, n, st);
      Texts(r.1.chunks) + r.1.s + line[r.0..] == Texts(st.chunks) + st.s + line[n..]
  {
    var r := Step(line, n, st);
    var c := r.1.chunks[|st.chunks|];
    assert r.1.chunks == st.chunks + [c];
    TextsSnoc(st.chunks, c);
    assert line[n..] == [line[n]] + line[n + 1..];
    if r.0 == n + 2 {
      assert line[n + 1..] == [line[n + 1]] + line[n + 2..];
    }
  }

  /** The chunks of a line, followed by what is left in `s`, spell the
      line: the loop drops no character and reorders none. */
  lemma {:induction false} ScanKeeps(line: string, n: nat, st: Scan)
    requires n <= |line|
    ensures var r := ScanFrom(line, n, st);
      Texts(r.chunks) + r.s == Texts(st.chunks) + st.s + line[n..]
    decreases |line| - n
  {
    if n < |line| {
      StepKeeps(line, n, st);
      ScanKeeps(line, Step(line, n, st).0, Step(line, n, st).1);
    }
  }

  // -------------------------------------------------------- chunk shape

  /** Every chunk is `Chunked` and the pending text has no delimiter. */
  ghost predicate Shaped(st: Scan) {
    NoDelim(st.s) && forall i :: 0 <= i < |st.chunks| ==> Chunked(st.chunks[i].text)
  }

  lemma StepShape(line: string, n: nat, st: Scan)
    requires n < |line| && Shaped(st)
    ensures Shaped(Step(line, n, st).1)
    ensures st.chunks <= Step(line, n, st).1.chunks
  {
    if IsCloser(line[n]) {
      CloserShape(line, n, st);
    } else if IsDelim(line[n]) {
      DelimShape(line, n, st);
    } else {
      var s := st.s + [line[n]];
      assert s[..|s| - 1] == st.s;
    }
  }

  lemma CloserShape(line: string, n: nat, st: Scan)
    requires n < |line| && Shaped(st) && IsCloser(line[n])
    ensures Shaped(Step(line, n, st).1)
    ensures st.chunks <= Step(line, n, st).1.chunks
  {
    var r := Step(line, n, st).1;
    var c := r.chunks[|st.chunks|];
    assert r.s == [] && r.chunks == st.chunks + [c];
    if n + 1 < |line| && (line[n + 1] == ',' || line[n + 1] == '\n') {
      assert c.text == st.s + [line[n]] + [line[n + 1]];
      ChunkedAbsorbing(st.s, line[n], line[n + 1]);
    } else {
      assert c.text == st.s + [line[n]];
      ChunkedEnding(st.s, line[n]);
    }
    ChunksAppend(st.chunks, c);
  }

  lemma DelimShape(line: string, n: nat, st: Scan)
    requires n < |line| && Shaped(st) && IsDelim(line[n]) && !IsCloser(line[n])
    ensures Shaped(Step(line, n, st).1)
    ensures st.chunks <= Step(line, n, st).1.chunks
  {
    var r := Step(line, n, st).1;
    var c := r.chunks[|st.chunks|];
    assert r.s == [] && r.chunks == st.chunks + [c];
    assert c.text == st.s + [line[n]];
    ChunkedEnding(st.s, line[n]);
    ChunksAppend(st.chunks, c);
  }

  /** Undelimited text and one delimiter make a chunk. */
  lemma ChunkedEnding(p: string, d: char)
    requires NoDelim(p) && IsDelim(d)
    ensures Chunked(p + [d])
  {
    assert (p + [d])[..|p|] == p;
  }

  /** So do undelimited text, a closer and the `,` or newline it keeps. */
  lemma ChunkedAbsorbing(p: string, d: char, e: char)
    requires NoDelim(p) && IsCloser(d) && (e == ',' || e == '\n')
    ensures Chunked(p + [d] + [e])
  {
    assert (p + [d] + [e])[..|p|] == p;
  }

  lemma ChunksAppend(cs: seq<Chunk>, c: Chunk)
    requires forall i :: 0 <= i < |cs| ==> Chunked(cs[i].text)
    requires Chunked(c.text)
    ensures forall i :: 0 <= i < |cs + [c]| ==> Chunked((cs + [c])[i].text)
  {
  }

  /** Chunks end exactly at a delimiter, and `s` never holds one: a
      line's trailing text is whatever follows its last delimiter. */
  lemma {:induction false} ScanShape(line: string, n: nat, st: Scan)
    requires n <= |line| && Shaped(st)
    ensures Shaped(ScanFrom(line, n, st))
    ensures st.chunks <= ScanFrom(line, n, st).chunks
    decreases |line| - n
  {
    if n < |line| {
      StepShape(line, n, st);
      ScanShape(line, Step(line, n, st).0, Step(line, n, st).1);
    }
  }

  /** A line's chunks and leftover. */
  lemma FormatLineFacts(line: string, indent: int)
    ensures FormatLine(line, indent).indent == indent + Depth(line)
    ensures Texts(FormatLine(line, indent).chunks) + FormatLine(line, indent).s == line
    ensures Shaped(FormatLine(line, indent))
  {
    assert line[0..] == line;
    ScanBalance(line, 0, Scan(indent, None, "", []));
    ScanKeeps(line, 0, Scan(indent, None, "", []));
    ScanShape(line, 0, Scan(indent, None, "", []));
  }

  // -------------------------------------------------------- whole input

  /** The reformatted lines: each entered at the indent the previous one
      left, with `s` holding the last line's leftover. */
  function Body(ls: seq<string>, indent: int): Scan {
    if ls == [] then Scan(indent, None, "", [])
    else
      var b := Body(ls[..|ls| - 1], indent);
      var f := FormatLine(ls[|ls| - 1], b.indent);
      Scan(f.indent, f.prev, f.s, b.chunks + f.chunks)
  }

  /** Across lines the indent is still twice the openers minus the
      closers seen since the first reformatted line. */
  lemma {:induction false} BodyBalance(ls: seq<string>, indent: int)
    ensures Body(ls, indent).indent == indent + Depth(Concat(ls))
  {
    if ls != [] {
      var init := ls[..|ls| - 1];
      BodyBalance(init, indent);
      FormatLineFacts(ls[|ls| - 1], Body(init, indent).indent);
      assert ls == init + [ls[|ls| - 1]];
      ConcatAppend(init, [ls[|ls| - 1]]);
      assert Concat([ls[|ls| - 1]]) == ls[|ls| - 1];
      DepthAppend(Concat(init), ls[|ls| - 1]);
    }
  }

  /** Every written chunk of every line is `Chunked`. */
  lemma {:induction false} BodyShape(ls: seq<string>, indent: int)
    ensures Shaped(Body(ls, indent))
  {
    if ls != [] {
      var init := ls[..|ls| - 1];
      BodyShape(init, indent);
      FormatLineFacts(ls[|ls| - 1], Body(init, indent).indent);
    }
  }

  /** Whether reformatting starts at this line. */
  predicate Enters(line: string) {
    Strip(line) != [] && Strip(line)[0] == '{'
  }

  /** The first line that starts with `{`, or the number of lines. */
  function FirstEntered(ls: seq<string>): (k: nat)
    ensures k <= |ls|
    ensures forall j :: 0 <= j < k ==> !Enters(ls[j])
    ensures k < |ls| ==> Enters(ls[k])
  {
    if ls == [] || Enters(ls[0]) then 0 else 1 + FirstEntered(ls[1..])
  }

  /** What is printed: a line through `print` (which adds a newline) or
      a chunk through `fout.write`. */
  datatype Piece = Echo(line: string) | Put(chunk: Chunk)

  /** The text a piece puts on standard output. */
  function Render(p: Piece): string {
    match p
    case Echo(line) => line + "\n"
    case Put(c) => Spaces(c.indent) + c.text + "\n"
  }

  function Puts(cs: seq<Chunk>): (ps: seq<Piece>)
    ensures |ps| == |cs|
    ensures forall i :: 0 <= i < |cs| ==> ps[i] == Put(cs[i])
  {
    seq(|cs|, (i: nat) requires i < |cs| => Put(cs[i]))
  }

  /** The input: the file named by the first argument, or standard input. */
  function Input(args: seq<string>, stdin: string, read: string -> string): string {
    if args != [] then read(args[0]) else stdin
  }

  /** The lines before the first `{` line, echoed. */
  function Echoes(ls: seq<string>): (ps: seq<Piece>)
    ensures |ps| == |ls|
    ensures forall j :: 0 <= j < |ls| ==> ps[j] == Echo(ls[j])
  {
    seq(|ls|, (j: nat) requires j < |ls| => Echo(ls[j]))
  }

  /** What is printed for the input's lines. */
  function Output(lines: seq<string>): (out: seq<Piece>)
    ensures FirstEntered(lines) <= |out|
    ensures forall j :: 0 <= j < FirstEntered(lines) ==> out[j] == Echo(lines[j])
    ensures var b := Body(lines[FirstEntered(lines)..], 0);
      out[FirstEntered(lines)..] == Puts(b.chunks) + (if b.s != "" then [Echo(b.s)] else [])
  {
    var k := FirstEntered(lines);
    var b := Body(lines[k..], 0);
    var rest := Puts(b.chunks) + (if b.s != "" then [Echo(b.s)] else []);
    var out := Echoes(lines[..k]) + rest;
    assert out[k..] == rest;
    out
  }

  /** `main` of `formatjson.py`: the lines before the first `{` line
      echoed, then every chunk of the remaining lines in order, then the
      last line's leftover if there is any. */
  method Run(args: seq<string>, stdin: string, read: string -> string) returns (out: seq<Piece>)
    ensures var lines := LinesOf(Input(args, stdin, read));
      FirstEntered(lines) <= |out| && forall j :: 0 <= j < FirstEntered(lines) ==> out[j] == Echo(lines[j])
    ensures var lines := LinesOf(Input(args, stdin, read));
      var b := Body(lines[FirstEntered(lines)..], 0);
      out[FirstEntered(lines)..] == Puts(b.chunks) + (if b.s != "" then [Echo(b.s)] else [])
  {
    out := Output(LinesOf(Input(args, stdin, read)));
  }
}

=== FILE: fstree.dfy ===
/**
 The file system as the archiver sees it through `os.listdir` and
 `os.stat`: an immutable tree of directories, regular files and other
 objects (devices, pipes, sockets), with symbolic links already followed.
 */
module FsTree {
  import opened Wrappers
  import opened Strings
  import opened Sorting
  import opened Stamps

  /** One object as `os.stat` reports it. `mode` holds the permission bits
      of `st_mode`; a file also carries its bytes, its modification time
      and whether opening it for reading succeeds. */
  datatype Node =
    | File(data: string, mode: bv16, mtime: DateTime, readable: bool)
    | Dir(mode: bv16, entries: seq<Entry>)
    | Other(mode: bv16)

  /** A directory entry, in the order `os.listdir` returns them. */
  datatype Entry = Entry(name: string, node: Node)

  /** Number of objects in a tree; strictly decreases into a subdirectory. */
  function Size(n: Node): (k: nat)
    ensures k >= 1
  {
    match n
    case Dir(_, es) => 1 + SizeOf(es)
    case _ => 1
  }

  function SizeOf(es: seq<Entry>): nat {
    if es == [] then 0 else Size(es[0].node) + SizeOf(es[1..])
  }

  lemma {:induction false} SizeOfEntry(es: seq<Entry>, i: int)
    requires 0 <= i < |es|
    ensures Size(es[i].node) <= SizeOf(es)
  {
    if i > 0 {
      SizeOfEntry(es[1..], i - 1);
    }
  }

  /** No two entries of one directory share a name. */
  predicate DistinctNames(es: seq<Entry>) {
    forall i, j :: 0 <= i < j < |es| ==> es[i].name != es[j].name
  }

  /** A name a directory can hold: not empty, no `/`, not `.` or `..`. */
  predicate ValidName(x: string) {
    x != "" && x != "." && x != ".." && '/' !in x
  }

  /** A tree as a real file system lays it out: in every directory the
      names are valid and distinct. */
  predicate WF(n: Node)
    decreases n
  {
    n.Dir? ==> DistinctNames(n.entries) &&
               forall i :: 0 <= i < |n.entries| ==> ValidName(n.entries[i].name) && WF(n.entries[i].node)
  }

  // ------------------------------------------------------------ path lookup

  /** `s.split('/')`: the pieces between slashes, empty pieces kept. */
  function Segments(s: string): (r: seq<string>)
    ensures |r| >= 1
    ensures forall i :: 0 <= i < |r| ==> '/' !in r[i]
    decreases |s|
  {
    var i := FirstIndex(s, '/');
    if i == |s| then [s] else [s[..i]] + Segments(s[i + 1..])
  }

  lemma SegmentsOfName(x: string)
    requires '/' !in x
    ensures Segments(x) == [x]
  {
  }

  lemma SegmentsOfDirPath(x: string)
    requires '/' !in x
    ensures Segments(x + "/") == [x, ""]
  {
    var s := x + "/";
    assert s[|x|] == '/';
    assert forall j :: 0 <= j < |x| ==> s[j] == x[j];
    assert FirstIndex(s, '/') == |x|;
    assert s[..|x|] == x && s[|x| + 1..] == "";
  }

  /** `"/".join(parts)`. */
  function JoinSlash(parts: seq<string>): string {
    if parts == [] then [] else if |parts| == 1 then parts[0]
    else parts[0] + "/" + JoinSlash(parts[1..])
  }

  /** Splitting a path on `/` loses nothing: the pieces join back to it. */
  lemma {:induction false} SegmentsJoin(s: string)
    ensures JoinSlash(Segments(s)) == s
    decreases |s|
  {
    var i := FirstIndex(s, '/');
    if i < |s| {
      SegmentsJoin(s[i + 1..]);
      assert s == s[..i] + "/" + s[i + 1..];
    }
  }

  /** The node of the first entry called `name`. */
  function Child(es: seq<Entry>, name: string): (r: Option<Node>)
    ensures r.None? <==> forall i :: 0 <= i < |es| ==> es[i].name != name
    ensures r.Some? ==> exists i :: 0 <= i < |es| && es[i].name == name && es[i].node == r.value
  {
    if es == [] then None
    else if es[0].name == name then Some(es[0].node)
    else
      assert forall i :: 1 <= i < |es| ==> es[i] == es[1..][i - 1];
      Child(es[1..], name)
  }

  /** A segment that moves into an entry (not empty, not `.`). */
  predicate Moves(seg: string) {
    seg != "" && seg != "."
  }

  /** Path resolution, one segment at a time: an empty or `.` segment stays
      put but only inside a directory, any other segment names an entry of
      the current directory. A path through a non-directory fails, as
      `os.stat` does with `ENOTDIR`. `..` is not resolved to a parent. */
  function Walk(n: Node, segs: seq<string>): Option<Node>
    decreases |segs|
  {
    if segs == [] then Some(n)
    else if !n.Dir? then None
    else if !Moves(segs[0]) then Walk(n, segs[1..])
    else
      match Child(n.entries, segs[0])
      case None => None
      case Some(c) => Walk(c, segs[1..])
  }

  /** `os.stat(root + name)` when `root` names the directory `here`. */
  function Lookup(here: Node, name: string): Option<Node> {
    Walk(here, Segments(name))
  }

  /** Resolution never leaves the tree, and strictly descends as soon as a
      segment names an entry. */
  lemma {:induction false} WalkDescends(n: Node, segs: seq<string>)
    requires Walk(n, segs).Some?
    ensures Size(Walk(n, segs).value) <= Size(n)
    ensures (exists i :: 0 <= i < |segs| && Moves(segs[i])) ==> Size(Walk(n, segs).value) < Size(n)
    decreases |segs|
  {
    if segs != [] {
      if !Moves(segs[0]) {
        WalkDescends(n, segs[1..]);
        if exists i :: 0 <= i < |segs| && Moves(segs[i]) {
          var i :| 0 <= i < |segs| && Moves(segs[i]);
          assert segs[1..][i - 1] == segs[i];
        }
      } else {
        var c := Child(n.entries, segs[0]).value;
        var k :| 0 <= k < |n.entries| && n.entries[k].name == segs[0] && n.entries[k].node == c;
        SizeOfEntry(n.entries, k);
        WalkDescends(c, segs[1..]);
      }
    }
  }

  /** Resolution in a well-formed tree ends in a well-formed node. */
  lemma {:induction false} WalkWF(n: Node, segs: seq<string>)
    requires WF(n) && Walk(n, segs).Some?
    ensures WF(Walk(n, segs).value)
    decreases |segs|
  {
    if segs != [] {
      if !Moves(segs[0]) {
        WalkWF(n, segs[1..]);
      } else {
        var c := Child(n.entries, segs[0]).value;
        WalkWF(c, segs[1..]);
      }
    }
  }

  /** In a well-formed directory, the path `x/` of a subdirectory entry
      `x` resolves to that subdirectory. */
  lemma LookupDirEntry(dir: Node, x: string, i: int)
    requires WF(dir) && dir.Dir? && 0 <= i < |dir.entries|
    requires dir.entries[i].name == x && dir.entries[i].node.Dir?
    ensures Lookup(dir, x + "/") == Some(dir.entries[i].node)
  {
    SegmentsOfDirPath(x);
    var c := Child(dir.entries, x);
    var k :| 0 <= k < |dir.entries| && dir.entries[k].name == x && dir.entries[k].node == c.value;
    assert k == i;
    assert Walk(dir, [x, ""]) == Walk(c.value, [""]);
  }

  /** In a well-formed directory, the path `x/` of a listed subdirectory
      `x` resolves to that subdirectory. */
  lemma LookupListedDir(dir: Node, x: string)
    requires WF(dir) && dir.Dir? && x in ListDirSorted(dir).0
    ensures Lookup(dir, x + "/").Some? && Lookup(dir, x + "/").value.Dir?
  {
    var i :| 0 <= i < |dir.entries| && dir.entries[i].name == x && dir.entries[i].node.Dir?;
    LookupDirEntry(dir, x, i);
  }

  /** A listed name resolves to its own entry. */
  lemma LookupListedName(dir: Node, x: string, i: int)
    requires WF(dir) && dir.Dir? && 0 <= i < |dir.entries| && dir.entries[i].name == x
    ensures Segments(x) == [x] && Moves(x)
    ensures Lookup(dir, x) == Some(dir.entries[i].node)
  {
    SegmentsOfName(x);
    var c := Child(dir.entries, x);
    var k :| 0 <= k < |dir.entries| && dir.entries[k].name == x && dir.entries[k].node == c.value;
    assert k == i;
    assert Walk(dir, [x]) == Walk(c.value, []);
  }

  /** The path of a name that moves at least once resolves below `here`. */
  lemma LookupDescends(here: Node, name: string)
    requires Lookup(here, name).Some?
    requires exists i :: 0 <= i < |Segments(name)| && Moves(Segments(name)[i])
    ensures Size(Lookup(here, name).value) < Size(here)
  {
    WalkDescends(here, Segments(name));
  }

  // ---------------------------------------------------------- listings

  /** Names of the entries that are directories, in listing order, without
      `.` and `..`. */
  function DirNames(es: seq<Entry>): (r: seq<string>)
    ensures forall x :: x in r <==> (x != "." && x != ".." &&
              exists i :: 0 <= i < |es| && es[i].name == x && es[i].node.Dir?)
  {
    if es == [] then []
    else
      var rest := DirNames(es[1..]);
      assert forall i :: 1 <= i < |es| ==> es[i] == es[1..][i - 1];
      if es[0].name != "." && es[0].name != ".." && es[0].node.Dir? then [es[0].name] + rest else rest
  }

  /** Names of the entries that are regular files, likewise. */
  function FileNames(es: seq<Entry>): (r: seq<string>)
    ensures forall x :: x in r <==> (x != "." && x != ".." &&
              exists i :: 0 <= i < |es| && es[i].name == x && es[i].node.File?)
  {
    if es == [] then []
    else
      var rest := FileNames(es[1..]);
      assert forall i :: 1 <= i < |es| ==> es[i] == es[1..][i - 1];
      if es[0].name != "." && es[0].name != ".." && es[0].node.File? then [es[0].name] + rest else rest
  }

  /** `list_dir_sorted(path)` on the directory `path` names: the
      subdirectory names and the regular-file names, each sorted. */
  function ListDirSorted(dir: Node): (r: (seq<string>, seq<string>))
    requires dir.Dir?
    ensures Sorted(r.0) && Sorted(r.1)
    ensures forall x :: x in r.0 <==> (x != "." && x != ".." &&
              exists i :: 0 <= i < |dir.entries| && dir.entries[i].name == x && dir.entries[i].node.Dir?)
    ensures forall x :: x in r.1 <==> (x != "." && x != ".." &&
              exists i :: 0 <= i < |dir.entries| && dir.entries[i].name == x && dir.entries[i].node.File?)
  {
    var ds := DirNames(dir.entries);
    var fs := FileNames(dir.entries);
    var sd := Sort(ds);
    var sf := Sort(fs);
    assert forall x :: x in sd <==> x in multiset(sd);
    assert forall x :: x in ds <==> x in multiset(ds);
    assert forall x :: x in sf <==> x in multiset(sf);
    assert forall x :: x in fs <==> x in multiset(fs);
    (sd, sf)
  }

  /** In a real directory the two lists never share a name, and an entry
      that is neither a file nor a directory appears in neither. */
  lemma ListDirDisjoint(dir: Node, x: string)
    requires dir.Dir? && DistinctNames(dir.entries)
    ensures !(x in ListDirSorted(dir).0 && x in ListDirSorted(dir).1)
    ensures (exists i :: 0 <= i < |dir.entries| && dir.entries[i].name == x && dir.entries[i].node.Other?) ==>
              x !in ListDirSorted(dir).0 && x !in ListDirSorted(dir).1
  {
  }
}

=== FILE: gonecode.dfy ===
/**
 `main` of `gonecode.py`: the command line, the walk for `.go` files, the
 collecting pass over every file, the usage passes, and the names
 declared but never used. The current directory is a tree node, file
 contents come from a reader function, and printing is left out: the
 outcome carries what the tool reports.
 */
module GoneCode {
  import opened Wrappers
  import opened Strings
  import opened Sorting
  import opened FsTree
  import opened SourceFiles
  import opened GoLex
  import opened GoScan

  const ValidSuffixes: seq<string> := [".go"]
  const TestSuffixes: seq<string> := ["_test.go"]

  // ------------------------------------------------------------ directives

  /** The ten global switches, in the order `main` tests them. */
  datatype Flag =
    | IgnoreTestFiles | IgnoreTestFuncs
    | PrintAllFuncs | PrintAllTypes | PrintAllVars | PrintAllPaths
    | PrintLineCounts | PrintUnusedFuncs | PrintUnusedTypes | PrintUnusedVars

  function Directive(f: Flag): string {
    match f
    case IgnoreTestFiles => "--ignore-test-files"
    case IgnoreTestFuncs => "--ignore-test-funcs"
    case PrintAllFuncs => "--print-all-funcs"
    case PrintAllTypes => "--print-all-types"
    case PrintAllVars => "--print-all-vars"
    case PrintAllPaths => "--print-all-paths"
    case PrintLineCounts => "--print-line-counts"
    case PrintUnusedFuncs => "--print-unused-funcs"
    case PrintUnusedTypes => "--print-unused-types"
    case PrintUnusedVars => "--print-unused-vars"
  }

  /** The switches that start at 1. */
  const Defaults: set<Flag> := {PrintLineCounts, PrintUnusedFuncs, PrintUnusedTypes, PrintUnusedVars}

  /** The switches in the order `main` tests their directives. */
  const Flags: seq<Flag> := [
    IgnoreTestFiles, IgnoreTestFuncs, PrintAllFuncs, PrintAllTypes, PrintAllVars,
    PrintAllPaths, PrintLineCounts, PrintUnusedFuncs, PrintUnusedTypes, PrintUnusedVars]

  lemma FlagsListed(f: Flag)
    ensures f in Flags
  {
    match f
    case IgnoreTestFiles => assert Flags[0] == f;
    case IgnoreTestFuncs => assert Flags[1] == f;
    case PrintAllFuncs => assert Flags[2] == f;
    case PrintAllTypes => assert Flags[3] == f;
    case PrintAllVars => assert Flags[4] == f;
    case PrintAllPaths => assert Flags[5] == f;
    case PrintLineCounts => assert Flags[6] == f;
    case PrintUnusedFuncs => assert Flags[7] == f;
    case PrintUnusedTypes => assert Flags[8] == f;
    case PrintUnusedVars => assert Flags[9] == f;
  }

  /** The first of `fs` whose directive `is_param(arg, directive)` accepts. */
  function MatchIn(arg: string, fs: seq<Flag>): (r: Option<Flag>)
    ensures r.Some? ==> r.value in fs && Dashed(arg) == Directive(r.value)
    ensures r.None? ==> forall f :: f in fs ==> Dashed(arg) != Directive(f)
  {
    if fs == [] then None
    else if IsParam(arg, Directive(fs[0]), 0) then Some(fs[0])
    else MatchIn(arg, fs[1..])
  }

  /** The switch an argument names, trying the directives in order with
      `is_param(arg, directive)`. */
  function MatchFlag(arg: string): (r: Option<Flag>)
    ensures r.Some? ==> Dashed(arg) == Directive(r.value)
    ensures r.None? ==> forall f: Flag :: Dashed(arg) != Directive(f)
  {
    var r := MatchIn(arg, Flags);
    assert r.None? ==> forall f: Flag :: Dashed(arg) != Directive(f) by {
      forall f: Flag ensures r.None? ==> Dashed(arg) != Directive(f) { FlagsListed(f); }
    }
    r
  }

  /** `flag ^= 1`. */
  function Toggle(on: set<Flag>, f: Flag): (r: set<Flag>)
    ensures forall g :: g in r <==> (g in on) != (g == f)
  {
    if f in on then on - {f} else on + {f}
  }

  /** An argument `main` rejects: no directive, but starting with `--`. */
  predicate IsUnknown(arg: string) {
    MatchFlag(arg).None? && StartsWith(arg, "--")
  }

  /** An argument taken as the root of the search. */
  predicate IsPlain(arg: string) {
    MatchFlag(arg).None? && !StartsWith(arg, "--")
  }

  /** The switches on, `root`, and `dirname`, the directory listed. */
  datatype Options = Options(on: set<Flag>, root: string, dirname: string)

  const Start: Options := Options(Defaults, "", ".")

  datatype Parsed = Unknown(arg: string) | Parsed(options: Options)

  /** The options after an argument that is not rejected: a directive
      toggles its switch, anything else becomes the root and the
      directory listed. */
  function TakeArg(arg: string, o: Options): Options {
    match MatchFlag(arg)
    case Some(f) => o.(on := Toggle(o.on, f))
    case None => o.(root := arg, dirname := arg)
  }

  /** The argument loop of `main`. */
  function ParseArgs(args: seq<string>, o: Options): Parsed {
    if args == [] then Parsed(o)
    else if IsUnknown(args[0]) then Unknown(args[0])
    else ParseArgs(args[1..], TakeArg(args[0], o))
  }

  /** `f` is named an odd number of times among `args`. */
  predicate NamedOddly(args: seq<string>, f: Flag) {
    if args == [] then false
    else (MatchFlag(args[0]) == Some(f)) != NamedOddly(args[1..], f)
  }

  /** A switch ends up on iff it started on and is named an even number of
      times, or started off and is named an odd number of times. */
  lemma {:induction false} FlagParity(args: seq<string>, o: Options, f: Flag)
    requires ParseArgs(args, o).Parsed?
    ensures f in ParseArgs(args, o).options.on <==> (f in o.on) != NamedOddly(args, f)
  {
    if args != [] {
      var o' := TakeArg(args[0], o);
      ParseStep(args, o);
      FlagParity(args[1..], o', f);
      TakeArgToggles(args[0], o, f);
      FlagParityCons(ParseArgs(args, o).options.on, ParseArgs(args[1..], o').options.on,
        o.on, o'.on, MatchFlag(args[0]) == Some(f), NamedOddly(args, f), NamedOddly(args[1..], f), f);
    }
  }

  /** A parse that gets through an argument goes on from the options
      the argument leaves. */
  lemma ParseStep(args: seq<string>, o: Options)
    requires args != [] && ParseArgs(args, o).Parsed?
    ensures !IsUnknown(args[0])
    ensures ParseArgs(args, o) == ParseArgs(args[1..], TakeArg(args[0], o))
  {
  }

  /** The parity after the first argument, moved back over it. */
  lemma FlagParityCons(on: set<Flag>, on': set<Flag>, start: set<Flag>, start': set<Flag>,
                       named: bool, odd: bool, odd': bool, f: Flag)
    requires on == on' && odd == (named != odd')
    requires (f in start') == ((f in start) != named)
    requires f in on' <==> (f in start') != odd'
    ensures f in on <==> (f in start) != odd
  {
  }

  /** An argument toggles exactly the switch it names. */
  lemma TakeArgToggles(arg: string, o: Options, f: Flag)
    ensures (f in TakeArg(arg, o).on) == ((f in o.on) != (MatchFlag(arg) == Some(f)))
  {
  }

  /** The loop stops at the first unknown directive, and only there. */
  lemma {:induction false} UnknownFirst(args: seq<string>, o: Options)
    ensures ParseArgs(args, o).Unknown? <==> exists i :: 0 <= i < |args| && IsUnknown(args[i])
    ensures ParseArgs(args, o).Unknown? ==>
      exists i :: 0 <= i < |args| && args[i] == ParseArgs(args, o).arg && IsUnknown(args[i]) &&
        forall j :: 0 <= j < i ==> !IsUnknown(args[j])
  {
    if args != [] && !IsUnknown(args[0]) {
      var o' := TakeArg(args[0], o);
      UnknownFirst(args[1..], o');
      UnknownShift(args, ParseArgs(args[1..], o'));
    } else if args != [] {
      assert ParseArgs(args, o) == Unknown(args[0]);
    }
  }

  /** What holds of the arguments after a known one holds of them all. */
  lemma UnknownShift(args: seq<string>, p: Parsed)
    requires args != [] && !IsUnknown(args[0])
    requires p.Unknown? <==> exists i :: 0 <= i < |args[1..]| && IsUnknown(args[1..][i])
    requires p.Unknown? ==>
      exists i :: 0 <= i < |args[1..]| && args[1..][i] == p.arg && IsUnknown(args[1..][i]) &&
        forall j :: 0 <= j < i ==> !IsUnknown(args[1..][j])
    ensures p.Unknown? <==> exists i :: 0 <= i < |args| && IsUnknown(args[i])
    ensures p.Unknown? ==>
      exists i :: 0 <= i < |args| && args[i] == p.arg && IsUnknown(args[i]) &&
        forall j :: 0 <= j < i ==> !IsUnknown(args[j])
  {
    assert forall i :: 1 <= i < |args| ==> args[i] == args[1..][i - 1];
    if p.Unknown? {
      var i :| 0 <= i < |args[1..]| && args[1..][i] == p.arg && IsUnknown(args[1..][i]) &&
        forall j :: 0 <= j < i ==> !IsUnknown(args[1..][j]);
      assert args[i + 1] == p.arg;
    }
  }

  /** The root and the listed directory are the last plain argument, or
      stay as they were when there is none. */
  lemma {:induction false} RootIsLastPlain(args: seq<string>, o: Options)
    requires ParseArgs(args, o).Parsed?
    ensures var r := ParseArgs(args, o).options;
      (exists k :: 0 <= k < |args| && IsPlain(args[k]) && r.root == r.dirname == args[k] &&
         forall m :: k < m < |args| ==> !IsPlain(args[m])) ||
      ((forall m :: 0 <= m < |args| ==> !IsPlain(args[m])) && r.root == o.root && r.dirname == o.dirname)
  {
    if args != [] {
      var o' := TakeArg(args[0], o);
      RootIsLastPlain(args[1..], o');
      RootShift(args, o, ParseArgs(args[1..], o').options);
    }
  }

  /** What holds of the arguments after a known one, from the options
      it leaves, holds of them all from the options before it. */
  lemma RootShift(args: seq<string>, o: Options, r: Options)
    requires args != [] && !IsUnknown(args[0])
    requires var o' := TakeArg(args[0], o);
      (exists k :: 0 <= k < |args[1..]| && IsPlain(args[1..][k]) && r.root == r.dirname == args[1..][k] &&
         forall m :: k < m < |args[1..]| ==> !IsPlain(args[1..][m])) ||
      ((forall m :: 0 <= m < |args[1..]| ==> !IsPlain(args[1..][m])) && r.root == o'.root && r.dirname == o'.dirname)
    ensures
      (exists k :: 0 <= k < |args| && IsPlain(args[k]) && r.root == r.dirname == args[k] &&
         forall m :: k < m < |args| ==> !IsPlain(args[m])) ||
      ((forall m :: 0 <= m < |args| ==> !IsPlain(args[m])) && r.root == o.root && r.dirname == o.dirname)
  {
    if exists k :: 0 <= k < |args[1..]| && IsPlain(args[1..][k]) && r.root == r.dirname == args[1..][k] &&
         forall m :: k < m < |args[1..]| ==> !IsPlain(args[1..][m]) {
      var k :| 0 <= k < |args[1..]| && IsPlain(args[1..][k]) && r.root == r.dirname == args[1..][k] &&
         forall m :: k < m < |args[1..]| ==> !IsPlain(args[1..][m]);
      LastPlainShift(args, r, k);
    } else {
      NoPlainShift(args, o, r);
    }
  }

  /** The last plain argument after the first is the last plain one. */
  lemma LastPlainShift(args: seq<string>, r: Options, k: int)
    requires args != [] && 0 <= k < |args[1..]| && IsPlain(args[1..][k]) && r.root == r.dirname == args[1..][k]
    requires forall m :: k < m < |args[1..]| ==> !IsPlain(args[1..][m])
    ensures IsPlain(args[k + 1]) && r.root == r.dirname == args[k + 1]
    ensures forall m :: k + 1 < m < |args| ==> !IsPlain(args[m])
  {
    forall m | k + 1 < m < |args|
      ensures !IsPlain(args[m])
    {
      assert args[m] == args[1..][m - 1];
    }
    assert args[k + 1] == args[1..][k];
  }

  /** With no plain argument after the first, the first decides. */
  lemma NoPlainShift(args: seq<string>, o: Options, r: Options)
    requires args != [] && !IsUnknown(args[0])
    requires forall m :: 0 <= m < |args[1..]| ==> !IsPlain(args[1..][m])
    requires r.root == TakeArg(args[0], o).root && r.dirname == TakeArg(args[0], o).dirname
    ensures IsPlain(args[0]) ==> r.root == r.dirname == args[0] && forall m :: 0 < m < |args| ==> !IsPlain(args[m])
    ensures !IsPlain(args[0]) ==> (forall m :: 0 <= m < |args| ==> !IsPlain(args[m])) && r.root == o.root && r.dirname == o.dirname
  {
    forall m | 0 < m < |args|
      ensures !IsPlain(args[m])
    {
      assert args[m] == args[1..][m - 1];
    }
  }

  /** Naming a switch twice changes nothing. */
  lemma RepeatCancels(a: string, rest: seq<string>, o: Options)
    requires MatchFlag(a).Some?
    ensures ParseArgs([a, a] + rest, o) == ParseArgs(rest, o)
  {
    var f := MatchFlag(a).value;
    assert ([a, a] + rest)[1..] == [a] + rest;
    assert ([a] + rest)[1..] == rest;
    assert Toggle(Toggle(o.on, f), f) == o.on;
    assert o.(on := Toggle(Toggle(o.on, f), f)) == o;
  }

  // --------------------------------------------------------- the analysis

  /** `Test_Suffixes` under `--ignore-test-files`, nothing otherwise. */
  function Excluded(on: set<Flag>): seq<string> {
    if IgnoreTestFiles in on then TestSuffixes else []
  }

  /** `os.listdir(dirname)`: the entries of a directory, `None` where the
      call raises (an empty name, a missing path, a non-directory). */
  function ListDir(cwd: Node, dirname: string): (r: Option<seq<Entry>>)
    ensures r.Some? <==> dirname != "" && Lookup(cwd, dirname).Some? && Lookup(cwd, dirname).value.Dir?
    ensures r.Some? ==> r.value == Lookup(cwd, dirname).value.entries
  {
    if dirname == "" then None
    else
      match Lookup(cwd, dirname)
      case Some(Dir(_, es)) => Some(es)
      case _ => None
  }

  /** Every collected path ends in `.go` and, under `--ignore-test-files`,
      not in `_test.go`; no name on the way to it has a pruned prefix. */
  lemma GoSources(root: string, es: seq<Entry>, on: set<Flag>, p: string, n: string)
    requires (p, n) in FoundPairs(root, es, InvalidPrefixes, ValidSuffixes, Excluded(on))
    ensures HasSuffix(n, ValidSuffixes) && !HasPrefix(n, InvalidPrefixes)
    ensures IgnoreTestFiles in on ==> !HasSuffix(n, TestSuffixes)
  {
    PairsAreLists(root, es, InvalidPrefixes, ValidSuffixes, Excluded(on), p, n);
    var cs :| cs in Found(es, InvalidPrefixes, ValidSuffixes, Excluded(on)) && Leads(root, cs, p, n);
    FoundShape(es, InvalidPrefixes, ValidSuffixes, Excluded(on), cs);
  }

  /** The lines of every file, in order. */
  function Files(read: string -> string, paths: seq<string>): (fs: seq<seq<string>>)
    ensures |fs| == |paths|
    ensures forall i :: 0 <= i < |paths| ==> fs[i] == LinesOf(read(paths[i]))
  {
    seq(|paths|, i requires 0 <= i < |paths| => LinesOf(read(paths[i])))
  }

  function FileFuncs(paths: seq<string>, fs: seq<seq<string>>, ignoreTests: bool): nat -> seq<FuncDecl> {
    (i: nat) => if i < |paths| && i < |fs| then FuncDecls(paths[i], fs[i], ignoreTests) else []
  }

  function FileTypes(paths: seq<string>, fs: seq<seq<string>>): nat -> seq<Decl> {
    (i: nat) => if i < |paths| && i < |fs| then TypeDecls(paths[i], fs[i]) else []
  }

  function FileVars(paths: seq<string>, fs: seq<seq<string>>): nat -> seq<Decl> {
    (i: nat) => if i < |paths| && i < |fs| then VarDecls(paths[i], fs[i]) else []
  }

  /** The func records of all files, file after file. */
  function AllFuncs(paths: seq<string>, fs: seq<seq<string>>, ignoreTests: bool): seq<FuncDecl> {
    Gather(FileFuncs(paths, fs, ignoreTests), |paths|)
  }

  function AllTypes(paths: seq<string>, fs: seq<seq<string>>): seq<Decl> {
    Gather(FileTypes(paths, fs), |paths|)
  }

  function AllVars(paths: seq<string>, fs: seq<seq<string>>): seq<Decl> {
    Gather(FileVars(paths, fs), |paths|)
  }

  /** A func record of the run is one of some file's. */
  lemma AllFuncsIn(paths: seq<string>, fs: seq<seq<string>>, ignoreTests: bool, x: FuncDecl)
    requires |fs| == |paths|
    ensures x in AllFuncs(paths, fs, ignoreTests) <==>
      exists i :: 0 <= i < |paths| && x in FuncDecls(paths[i], fs[i], ignoreTests)
  {
    var at := FileFuncs(paths, fs, ignoreTests);
    GatherIn(at, |paths|, x);
    if exists i :: 0 <= i < |paths| && x in FuncDecls(paths[i], fs[i], ignoreTests) {
      var i :| 0 <= i < |paths| && x in FuncDecls(paths[i], fs[i], ignoreTests);
      assert x in at(i);
    }
  }

  lemma AllTypesIn(paths: seq<string>, fs: seq<seq<string>>, x: Decl)
    requires |fs| == |paths|
    ensures x in AllTypes(paths, fs) <==> exists i :: 0 <= i < |paths| && x in TypeDecls(paths[i], fs[i])
  {
    var at := FileTypes(paths, fs);
    GatherIn(at, |paths|, x);
    if exists i :: 0 <= i < |paths| && x in TypeDecls(paths[i], fs[i]) {
      var i :| 0 <= i < |paths| && x in TypeDecls(paths[i], fs[i]);
      assert x in at(i);
    }
  }

  lemma AllVarsIn(paths: seq<string>, fs: seq<seq<string>>, x: Decl)
    requires |fs| == |paths|
    ensures x in AllVars(paths, fs) <==> exists i :: 0 <= i < |paths| && x in VarDecls(paths[i], fs[i])
  {
    var at := FileVars(paths, fs);
    GatherIn(at, |paths|, x);
    if exists i :: 0 <= i < |paths| && x in VarDecls(paths[i], fs[i]) {
      var i :| 0 <= i < |paths| && x in VarDecls(paths[i], fs[i]);
      assert x in at(i);
    }
  }

  /** The keys of `all_funcs`, `all_types` or `all_vars`: the names of
      the records. */
  function KeysOf<D>(ds: seq<D>, name: D -> string): (ns: set<string>)
    ensures forall n :: n in ns <==> exists i :: 0 <= i < |ds| && name(ds[i]) == n
  {
    set i | 0 <= i < |ds| :: name(ds[i])
  }

  function FuncNames(ds: seq<FuncDecl>): set<string> {
    KeysOf(ds, (d: FuncDecl) => d.name)
  }

  function DeclNames(ds: seq<Decl>): set<string> {
    KeysOf(ds, (d: Decl) => d.name)
  }

  /** The first file whose collecting pass raises on a bare `type ` line. */
  function FirstCrash(fs: seq<seq<string>>, from: nat): (r: Option<nat>)
    requires from <= |fs|
    ensures r.Some? ==> from <= r.value < |fs| && TypeCrash(fs[r.value]) &&
                        forall i :: from <= i < r.value ==> !TypeCrash(fs[i])
    ensures r.None? ==> forall i :: from <= i < |fs| ==> !TypeCrash(fs[i])
    decreases |fs| - from
  {
    if from == |fs| then None
    else if TypeCrash(fs[from]) then Some(from)
    else FirstCrash(fs, from + 1)
  }

  ghost predicate FuncUsedAnywhere(fs: seq<seq<string>>, n: string, upto: nat)
    requires upto <= |fs|
  {
    exists f :: 0 <= f < upto && FuncUsedIn(fs[f], n, |fs[f]|)
  }

  ghost predicate UsedAnywhere(fs: seq<seq<string>>, kw: string, n: string, upto: nat)
    requires upto <= |fs|
  {
    exists f :: 0 <= f < upto && UsedIn(fs[f], kw, n, |fs[f]|)
  }

  lemma FuncUsedAnywhereStep(fs: seq<seq<string>>, i: nat, declared: set<string>, used: set<string>, here: set<string>)
    requires i < |fs|
    requires forall n :: n in used <==> n in declared && FuncUsedAnywhere(fs, n, i)
    requires forall n :: n in here <==> n in declared && FuncUsedIn(fs[i], n, |fs[i]|)
    ensures forall n :: n in used + here <==> n in declared && FuncUsedAnywhere(fs, n, i + 1)
  {
    forall n
      ensures FuncUsedAnywhere(fs, n, i + 1) <==> FuncUsedAnywhere(fs, n, i) || FuncUsedIn(fs[i], n, |fs[i]|)
    {
      if FuncUsedAnywhere(fs, n, i + 1) && !FuncUsedIn(fs[i], n, |fs[i]|) {
        var f :| 0 <= f < i + 1 && FuncUsedIn(fs[f], n, |fs[f]|);
        assert f < i;
      }
    }
  }

  /** The func usage pass over all files: `used_funcs`. */
  method FuncUsage(fs: seq<seq<string>>, declared: set<string>) returns (used: set<string>)
    ensures forall n :: n in used <==> n in declared && FuncUsedAnywhere(fs, n, |fs|)
  {
    used := {};
    var i := 0;
    while i < |fs|
      invariant 0 <= i <= |fs|
      invariant forall n :: n in used <==> n in declared && FuncUsedAnywhere(fs, n, i)
    {
      var here := FuncUsesIn(fs[i], declared);
      FuncUsedAnywhereStep(fs, i, declared, used, here);
      used := used + here;
      i := i + 1;
    }
  }

  lemma UsedAnywhereStep(fs: seq<seq<string>>, kw: string, i: nat, declared: set<string>, used: set<string>, here: set<string>)
    requires i < |fs|
    requires forall n :: n in used <==> n in declared && UsedAnywhere(fs, kw, n, i)
    requires forall n :: n in here <==> n in declared && UsedIn(fs[i], kw, n, |fs[i]|)
    ensures forall n :: n in used + here <==> n in declared && UsedAnywhere(fs, kw, n, i + 1)
  {
    forall n
      ensures UsedAnywhere(fs, kw, n, i + 1) <==> UsedAnywhere(fs, kw, n, i) || UsedIn(fs[i], kw, n, |fs[i]|)
    {
      if UsedAnywhere(fs, kw, n, i + 1) && !UsedIn(fs[i], kw, n, |fs[i]|) {
        var f :| 0 <= f < i + 1 && UsedIn(fs[f], kw, n, |fs[f]|);
        assert f < i;
      }
    }
  }

  /** The type or var usage pass over all files: `used_types` or `used_vars`. */
  method Usage(fs: seq<seq<string>>, kw: string, declared: set<string>) returns (used: set<string>)
    ensures forall n :: n in used <==> n in declared && UsedAnywhere(fs, kw, n, |fs|)
  {
    used := {};
    var i := 0;
    while i < |fs|
      invariant 0 <= i <= |fs|
      invariant forall n :: n in used <==> n in declared && UsedAnywhere(fs, kw, n, i)
    {
      var here := UsesIn(fs[i], kw, declared);
      UsedAnywhereStep(fs, kw, i, declared, used, here);
      used := used + here;
      i := i + 1;
    }
  }

  /** The unused funcs, as `main` lists them: declared, never used, sorted. */
  method UnusedFuncs(fs: seq<seq<string>>, declared: set<string>) returns (names: seq<string>)
    ensures Sorted(names)
    ensures forall n :: n in names <==> n in declared && !FuncUsedAnywhere(fs, n, |fs|)
  {
    var used := FuncUsage(fs, declared);
    names := SortedSet(declared - used);
  }

  /** The unused types (`kw` = `type `) or vars (`kw` = `var `). */
  method Unused(fs: seq<seq<string>>, kw: string, declared: set<string>) returns (names: seq<string>)
    ensures Sorted(names)
    ensures forall n :: n in names <==> n in declared && !UsedAnywhere(fs, kw, n, |fs|)
  {
    var used := Usage(fs, kw, declared);
    names := SortedSet(declared - used);
  }

  // --------------------------------------------------------------- main

  /** What the tool reports: the files in order, every declaration record
      (`all_funcs`, `all_types`, `all_vars` flattened, file after file),
      the unused names of each kind when that report is switched on, and
      the totals. */
  datatype Report = Report(
    paths: seq<string>,
    funcs: seq<FuncDecl>, types: seq<Decl>, vars: seq<Decl>,
    unusedFuncs: Option<seq<string>>, unusedTypes: Option<seq<string>>, unusedVars: Option<seq<string>>,
    files: nat, lines: nat, bytes: nat)

  /** How a run ends: an unknown directive, `os.listdir` raising, the
      collecting pass raising on a bare `type ` line in file `paths[at]`,
      or a report. */
  datatype Outcome =
    | UnknownDirective(arg: string)
    | NoDirectory(dirname: string)
    | TypeLineCrash(paths: seq<string>, at: nat)
    | Done(report: Report)

  /** The `.go` files of the walk from `es` under `root`, sorted. */
  ghost predicate IsSources(paths: seq<string>, o: Options, es: seq<Entry>) {
    Sorted(paths) &&
    forall p :: p in paths <==> exists n :: (p, n) in FoundPairs(o.root, es, InvalidPrefixes, ValidSuffixes, Excluded(o.on))
  }

  method SortedSources(o: Options, es: seq<Entry>) returns (paths: seq<string>)
    ensures IsSources(paths, o, es)
  {
    var excluded := Excluded(o.on);
    FindCollects(map[], o.root, es, InvalidPrefixes, ValidSuffixes, excluded);
    paths := SortedPaths(SourceFiles.Find(map[], o.root, es, InvalidPrefixes, ValidSuffixes, excluded));
  }

  /** The unused report of one kind, present iff its switch is on. */
  method UnusedReport(fs: seq<seq<string>>, kw: string, declared: set<string>, wanted: bool)
    returns (r: Option<seq<string>>)
    ensures r.Some? <==> wanted
    ensures r.Some? ==>
      Sorted(r.value) &&
      forall n :: n in r.value <==> n in declared && !UsedAnywhere(fs, kw, n, |fs|)
  {
    r := None;
    if wanted {
      var names := Unused(fs, kw, declared);
      r := Some(names);
    }
  }

  /** Everything `main` does after the argument loop, given the listing. */
  method Analyse(o: Options, es: seq<Entry>, read: string -> string) returns (out: Outcome)
    ensures out.TypeLineCrash? || out.Done?
    ensures out.TypeLineCrash? ==>
      IsSources(out.paths, o, es) && FirstCrash(Files(read, out.paths), 0) == Some(out.at)
    ensures out.Done? ==> IsSources(out.report.paths, o, es)
    ensures out.Done? ==> FirstCrash(Files(read, out.report.paths), 0).None?
    ensures out.Done? ==>
      var r := out.report;
      var fs := Files(read, r.paths);
      r.funcs == AllFuncs(r.paths, fs, IgnoreTestFuncs in o.on) &&
      r.types == AllTypes(r.paths, fs) && r.vars == AllVars(r.paths, fs)
    ensures out.Done? ==>
      var r := out.report;
      var fs := Files(read, r.paths);
      (r.unusedFuncs.Some? <==> PrintUnusedFuncs in o.on) &&
      (r.unusedFuncs.Some? ==>
         Sorted(r.unusedFuncs.value) &&
         forall n :: n in r.unusedFuncs.value <==> n in FuncNames(r.funcs) && !FuncUsedAnywhere(fs, n, |fs|))
    ensures out.Done? ==>
      var r := out.report;
      var fs := Files(read, r.paths);
      (r.unusedTypes.Some? <==> PrintUnusedTypes in o.on) &&
      (r.unusedTypes.Some? ==>
         Sorted(r.unusedTypes.value) &&
         forall n :: n in r.unusedTypes.value <==> n in DeclNames(r.types) && !UsedAnywhere(fs, "type ", n, |fs|))
    ensures out.Done? ==>
      var r := out.report;
      var fs := Files(read, r.paths);
      (r.unusedVars.Some? <==> PrintUnusedVars in o.on) &&
      (r.unusedVars.Some? ==>
         Sorted(r.unusedVars.value) &&
         forall n :: n in r.unusedVars.value <==> n in DeclNames(r.vars) && !UsedAnywhere(fs, "var ", n, |fs|))
    ensures out.Done? ==>
      (out.report.files, out.report.lines, out.report.bytes) == Totals(Contents(read, out.report.paths))
  {
    var paths := SortedSources(o, es);
    var fs := Files(read, paths);
    match FirstCrash(fs, 0)
    case Some(at) =>
      out := TypeLineCrash(paths, at);
    case None =>
      var files, lines, bytes := Tally(Contents(read, paths));
      var funcs := AllFuncs(paths, fs, IgnoreTestFuncs in o.on);
      var types := AllTypes(paths, fs);
      var vars := AllVars(paths, fs);
      var unusedFuncs: Option<seq<string>> := None;
      if PrintUnusedFuncs in o.on {
        var names := UnusedFuncs(fs, FuncNames(funcs));
        unusedFuncs := Some(names);
      }
      var unusedTypes := UnusedReport(fs, "type ", DeclNames(types), PrintUnusedTypes in o.on);
      var unusedVars := UnusedReport(fs, "var ", DeclNames(vars), PrintUnusedVars in o.on);
      out := Done(Report(paths, funcs, types, vars, unusedFuncs, unusedTypes, unusedVars, files, lines, bytes));
  }

  /** `main` of `gonecode.py`. */
  method Run(cwd: Node, args: seq<string>, read: string -> string) returns (out: Outcome)
    ensures out.UnknownDirective? <==> ParseArgs(args, Start).Unknown?
    ensures out.UnknownDirective? ==> out.arg == ParseArgs(args, Start).arg
    ensures out.NoDirectory? <==>
      ParseArgs(args, Start).Parsed? && ListDir(cwd, ParseArgs(args, Start).options.dirname).None?
    ensures out.NoDirectory? ==> out.dirname == ParseArgs(args, Start).options.dirname
    ensures out.TypeLineCrash? ==>
      var o := ParseArgs(args, Start).options;
      IsSources(out.paths, o, ListDir(cwd, o.dirname).value) && FirstCrash(Files(read, out.paths), 0) == Some(out.at)
    ensures out.Done? ==>
      var o := ParseArgs(args, Start).options;
      IsSources(out.report.paths, o, ListDir(cwd, o.dirname).value)
    ensures out.Done? ==> FirstCrash(Files(read, out.report.paths), 0).None?
    ensures out.Done? ==>
      var o := ParseArgs(args, Start).options;
      var r := out.report;
      var fs := Files(read, r.paths);
      r.funcs == AllFuncs(r.paths, fs, IgnoreTestFuncs in o.on) &&
      r.types == AllTypes(r.paths, fs) && r.vars == AllVars(r.paths, fs)
    ensures out.Done? ==>
      var o := ParseArgs(args, Start).options;
      var r := out.report;
      var fs := Files(read, r.paths);
      (r.unusedFuncs.Some? <==> PrintUnusedFuncs in o.on) &&
      (r.unusedFuncs.Some? ==>
         Sorted(r.unusedFuncs.value) &&
         forall n :: n in r.unusedFuncs.value <==> n in FuncNames(r.funcs) && !FuncUsedAnywhere(fs, n, |fs|))
    ensures out.Done? ==>
      var o := ParseArgs(args, Start).options;
      var r := out.report;
      var fs := Files(read, r.paths);
      (r.unusedTypes.Some? <==> PrintUnusedTypes in o.on) &&
      (r.unusedTypes.Some? ==>
         Sorted(r.unusedTypes.value) &&
         forall n :: n in r.unusedTypes.value <==> n in DeclNames(r.types) && !UsedAnywhere(fs, "type ", n, |fs|))
    ensures out.Done? ==>
      var o := ParseArgs(args, Start).options;
      var r := out.report;
      var fs := Files(read, r.paths);
      (r.unusedVars.Some? <==> PrintUnusedVars in o.on) &&
      (r.unusedVars.Some? ==>
         Sorted(r.unusedVars.value) &&
         forall n :: n in r.unusedVars.value <==> n in DeclNames(r.vars) && !UsedAnywhere(fs, "var ", n, |fs|))
    ensures out.Done? ==>
      (out.report.files, out.report.lines, out.report.bytes) == Totals(Contents(read, out.report.paths))
  {
    match ParseArgs(args, Start)
    case Unknown(arg) =>
      out := UnknownDirective(arg);
    case Parsed(o) =>
      match ListDir(cwd, o.dirname)
      case None =>
        out := NoDirectory(o.dirname);
      case Some(es) =>
        out := Analyse(o, es, read);
  }
}

=== FILE: gonecode_lex.dfy ===
/**
 The line-level text handling of `gonecode.py`: cutting a line of Go
 into identifier-like tokens (`split_code`, `split_vars`), reading the
 receiver type and name of a `func ` declaration, the name of a
 `type ` declaration, and matching command-line directives (`is_param`).
 */
module GoLex {
  import opened Wrappers
  import opened Strings

  /** The characters `split_code` turns into spaces. */
  const Puncts: set<char> :=
    {'(', ')', '{', '}', '[', ']', '<', '>', '*', '.', '-', '+', '=', '!', '~', '^', '&', '|', ',', ':', ';',
     '\t', '\r', '\n'}

  /** The line with every punctuation character replaced by a space
      (the source replaces them one character kind after another, which
      is the same since a space is not punctuation). */
  function Blot(line: string): (r: string)
    ensures |r| == |line|
    ensures NoneOf(r, Puncts)
  {
    if line == [] then []
    else [if line[0] in Puncts then ' ' else line[0]] + Blot(line[1..])
  }

  /** `split_code(line)`: the tokens left once punctuation counts as
      whitespace. */
  function SplitCode(line: string): (ts: seq<string>)
    ensures forall i :: 0 <= i < |ts| ==> IsWord(ts[i]) && NoneOf(ts[i], Puncts)
  {
    SplitNoneOf(Blot(line), Puncts);
    Split(Blot(line))
  }

  /** A line without punctuation splits as `str.split()` would. */
  lemma {:induction false} SplitCodePlain(line: string)
    requires NoneOf(line, Puncts)
    ensures SplitCode(line) == Split(line)
  {
    BlotPlain(line);
  }

  lemma {:induction false} BlotPlain(line: string)
    requires NoneOf(line, Puncts)
    ensures Blot(line) == line
  {
    if line != [] {
      assert NoneOf(line[1..], Puncts) by {
        forall i | 0 <= i < |line[1..]| ensures line[1..][i] !in Puncts { assert line[1..][i] == line[i + 1]; }
      }
      BlotPlain(line[1..]);
    }
  }

  // ------------------------------------------------------------ split_vars

  /** `line[:line.find(stop)]` when `stop` occurs, the line otherwise. */
  function CutAt(line: string, stop: string): (r: string)
    ensures r <= line
  {
    var p := Find(line, stop);
    if p >= 0 then line[..p] else line
  }

  /** `split_vars(line)`: the tokens before a comment or an assignment. */
  function SplitVars(line: string): seq<string> {
    SplitCode(CutAt(CutAt(CutAt(line, "//"), ":="), "="))
  }

  /** One of the markers `split_vars` cuts at starts at index `i`. */
  predicate StopAt(line: string, i: int) {
    OccursAt(line, "//", i) || OccursAt(line, ":=", i) || (0 <= i < |line| && line[i] == '=')
  }

  /** Reference: the first index where a marker starts, or the length. */
  function FirstStop(line: string, from: nat): (k: nat)
    requires from <= |line|
    ensures from <= k <= |line|
    ensures k == |line| || StopAt(line, k)
    ensures forall i :: from <= i < k ==> !StopAt(line, i)
    decreases |line| - from
  {
    if from == |line| || StopAt(line, from) then from else FirstStop(line, from + 1)
  }

  /** The three cuts together cut at the first marker of any kind, so
      no token comes from text after a comment start, `:=` or `=`. */
  lemma SplitVarsCut(line: string)
    ensures SplitVars(line) == SplitCode(line[..FirstStop(line, 0)])
  {
    var k := FirstStop(line, 0);
    var a := CutLength(line, "//", |line|, k);
    assert line[..|line|] == line;
    var b := CutLength(line, ":=", a, k);
    var c := CutLength(line, "=", b, k);
    assert CutAt(CutAt(CutAt(line, "//"), ":="), "=") == line[..c];
    if k < |line| {
      if OccursAt(line, "//", k) {
        assert a <= k;
      } else if OccursAt(line, ":=", k) {
        assert line[k..k + 2] == ":=";
        assert a != k;
        CutAtAssign(line, k, a, b);
      } else {
        assert line[k] == '=';
        assert a != k;
        assert b != k;
        CutAtEquals(line, k, a, b, c);
      }
    }
  }

  lemma CutAtAssign(line: string, k: nat, a: nat, b: nat)
    requires k + 2 <= a <= |line| || (k < a <= |line| && OccursAt(line, "//", a))
    requires OccursAt(line, ":=", k)
    requires forall i :: 0 <= i < k ==> !OccursAt(line, ":=", i)
    requires b == |CutAt(line[..a], ":=")|
    ensures b == k
  {
    assert line[k..k + 2] == ":=";
    assert line[k] == ':' && line[k + 1] == '=';
    assert line[..a][k..k + 2] == line[k..k + 2];
    assert OccursAt(line[..a], ":=", k);
    var p := Find(line[..a], ":=");
    assert p >= 0 && p <= k;
    if p < k {
      assert line[..a][p..p + 2] == line[p..p + 2];
      assert OccursAt(line, ":=", p);
    }
  }

  lemma CutAtEquals(line: string, k: nat, a: nat, b: nat, c: nat)
    requires k < |line| && line[k] == '='
    requires k < b && b <= |line|
    requires forall i :: 0 <= i < k ==> !StopAt(line, i)
    requires c == |CutAt(line[..b], "=")|
    ensures c == k
  {
    assert line[..b][k..k + 1] == "=";
    assert OccursAt(line[..b], "=", k);
    var p := Find(line[..b], "=");
    assert p >= 0 && p <= k;
    if p < k {
      assert line[..b][p..p + 1] == line[p..p + 1];
      assert StopAt(line, p);
    }
  }

  /** Cutting `line[..m]` at `stop`, where no marker starts before `k`:
      the result is a prefix of `line` no shorter than `k` (or `m`). */
  lemma CutLength(line: string, stop: string, m: nat, k: nat) returns (n: nat)
    requires m <= |line| && k <= |line|
    requires stop == "//" || stop == ":=" || stop == "="
    requires forall i :: 0 <= i < k ==> !StopAt(line, i)
    ensures n == |CutAt(line[..m], stop)| && CutAt(line[..m], stop) == line[..n]
    ensures n <= m && (k <= m ==> k <= n)
    ensures n == m || (n + |stop| <= m && OccursAt(line, stop, n))
    ensures forall i :: 0 <= i && i + |stop| <= m && OccursAt(line, stop, i) ==> n <= i
  {
    var s := line[..m];
    var p := Find(s, stop);
    n := |CutAt(s, stop)|;
    forall i | 0 <= i && i + |stop| <= m && OccursAt(line, stop, i)
      ensures n <= i
    {
      assert s[i..i + |stop|] == line[i..i + |stop|];
      assert OccursAt(s, stop, i);
    }
    if p >= 0 {
      assert s[p..p + |stop|] == line[p..p + |stop|];
      assert OccursAt(line, stop, p);
      if p < k {
        assert StopAt(line, p);
      }
    }
  }

  /** `split_code` never yields `(`, so the `var (` check in `find_vars`
      never skips anything. */
  lemma NoParenToken(line: string)
    ensures "(" !in SplitVars(line)
  {
    var ts := SplitVars(line);
    assert '(' in Puncts;
    forall i | 0 <= i < |ts|
      ensures ts[i] != "("
    {
      assert ts[i][0] !in Puncts;
    }
  }

  // ------------------------------------------------------ func declarations

  /** The name part of a declaration: up to the parameter list's `(`,
      stripped. */
  function NameOf(s: string): (n: string)
    ensures '(' !in n
    ensures n == [] || (!IsSpace(n[0]) && !IsSpace(n[|n| - 1]))
  {
    var p := Find(s, "(");
    var head := if p < 0 then s else s[..p];
    assert '(' !in head by {
      if '(' in head {
        var i :| 0 <= i < |head| && head[i] == '(';
        assert OccursAt(s, "(", i);
      }
    }
    StripInside(head);
    Strip(head)
  }

  /** What `strip` keeps is taken from its input. */
  lemma StripInside(s: string)
    ensures forall c :: c in Strip(s) ==> c in s
  {
    var i := StripSlice(s);
    forall c | c in Strip(s) ensures c in s {
      var j :| 0 <= j < |Strip(s)| && Strip(s)[j] == c;
      assert s[i + j] == c;
    }
  }

  /** A `func ` line after its first five characters: the receiver type
      (empty without a receiver) and the function name, or `None` when
      the receiver has no `)` or names nothing. */
  function ParseFunc(rest: string): (r: Option<(string, string)>)
    ensures r.Some? ==> '(' !in r.value.1
    ensures (r.None? || r.value.0 != "") ==> StartsWith(rest, "(")
  {
    if StartsWith(rest, "(") then
      var r := rest[1..];
      var pos := Find(r, ")");
      if pos < 0 then None
      else
        var decl := Split(r[..pos]);
        if |decl| < 1 then None
        else Some((decl[|decl| - 1], NameOf(r[pos + 1..])))
    else Some(("", NameOf(rest)))
  }

  /** A receiver without `)` or with nothing inside is not understood,
      and anything else is. */
  lemma ParseFuncFails(rest: string)
    ensures ParseFunc(rest).None? <==>
      rest != [] && rest[0] == '(' &&
      (Find(rest[1..], ")") < 0 || Split(rest[1..][..Find(rest[1..], ")")]) == [])
  {
  }

  /** A plain declaration reads back its name. */
  lemma ParsePlainFunc(name: string, params: string)
    requires IsWord(name) && '(' !in name
    ensures ParseFunc(name + "(" + params) == Some(("", name))
  {
    var rest := name + "(" + params;
    assert rest[0] == name[0];
    assert !StartsWith(rest, "(");
    NameAtParen(rest, |name|);
    assert rest[..|name|] == name;
    StripWord([], name);
    assert [] + name == name;
  }

  /** A method declaration reads back its receiver type and its name. */
  lemma ParseMethodFunc(recv: string, typ: string, name: string, params: string)
    requires IsWord(recv) && IsWord(typ) && IsWord(name)
    requires ')' !in recv && ')' !in typ && '(' !in name
    ensures ParseFunc("(" + recv + " " + typ + ") " + name + "(" + params) == Some((typ, name))
  {
    var tail := " " + name + "(" + params;
    var rest := "(" + recv + " " + typ + ") " + name + "(" + params;
    var r := recv + " " + typ + ")" + tail;
    assert rest == "(" + r;
    assert StartsWith(rest, "(");
    assert rest[1..] == r;
    var pos := |recv| + 1 + |typ|;
    ReceiverPart(recv, typ, tail);
    ReceiverSplit(recv, typ, r[..pos]);
    PaddedName(name, params);
  }

  /** The receiver runs to the first `)` and its last token is the type. */
  lemma ReceiverPart(recv: string, typ: string, tail: string)
    requires IsWord(recv) && IsWord(typ) && ')' !in recv && ')' !in typ
    ensures var r := recv + " " + typ + ")" + tail;
      var pos := |recv| + 1 + |typ|;
      Find(r, ")") == pos && r[..pos] == recv + " " + typ && r[pos + 1..] == tail
  {
    var r := recv + " " + typ + ")" + tail;
    var pos := |recv| + 1 + |typ|;
    assert r[pos] == ')';
    assert forall i :: 0 <= i < pos ==> r[i] != ')' by {
      forall i | 0 <= i < pos ensures r[i] != ')' {
        if i < |recv| { assert r[i] == recv[i]; }
        else if i > |recv| { assert r[i] == typ[i - |recv| - 1]; }
      }
    }
    FindFirstChar(r, ')', pos);
    assert r[..pos] == recv + " " + typ;
    assert r[pos + 1..] == tail;
  }

  /** The name after the receiver, before the parameters. */
  lemma PaddedName(name: string, params: string)
    requires IsWord(name) && '(' !in name
    ensures NameOf(" " + name + "(" + params) == name
  {
    var tail := " " + name + "(" + params;
    assert forall i :: 0 <= i < 1 + |name| ==> tail[i] != '(' by {
      forall i | 0 <= i < 1 + |name| ensures tail[i] != '(' {
        if i > 0 { assert tail[i] == name[i - 1]; }
      }
    }
    NameAtParen(tail, 1 + |name|);
    assert tail[..1 + |name|] == " " + name;
    StripWord(" ", name);
  }

  lemma ReceiverSplit(recv: string, typ: string, s: string)
    requires IsWord(recv) && IsWord(typ) && s == recv + " " + typ
    ensures Split(s) == [recv, typ]
  {
    assert s == recv + " " + typ + [];
    SplitWordThen(recv, " ", typ);
    SplitOfWord(typ);
  }

  /** The first occurrence of a one-character needle. */
  lemma FindFirstChar(s: string, c: char, k: nat)
    requires k < |s| && s[k] == c
    requires forall i :: 0 <= i < k ==> s[i] != c
    ensures Find(s, [c]) == k
  {
    assert OccursAt(s, [c], k);
    forall i | 0 <= i < k
      ensures !OccursAt(s, [c], i)
    {
      assert s[i..i + 1][0] == s[i];
    }
  }

  /** The name part ends at the first `(`. */
  lemma NameAtParen(s: string, k: nat)
    requires k < |s| && s[k] == '('
    requires forall i :: 0 <= i < k ==> s[i] != '('
    ensures NameOf(s) == Strip(s[..k])
  {
    FindFirstChar(s, '(', k);
  }

  // ----------------------------------------------------- type declarations

  /** `line.split()[0]` for a `type ` line after its first five
      characters; `None` where the source raises `IndexError`. */
  function TypeName(rest: string): (r: Option<string>)
    ensures r.Some? ==> IsWord(r.value)
    ensures r.None? <==> AllSpace(rest)
  {
    var ts := Split(rest);
    if ts == [] then
      assert AllSpace(rest) by { SplitEmptyAllSpace(rest); }
      None
    else
      assert !AllSpace(rest) by { if AllSpace(rest) { SplitOfSpaces(rest); } }
      Some(ts[0])
  }

  lemma SplitEmptyAllSpace(s: string)
    requires Split(s) == []
    ensures AllSpace(s)
  {
    assert DropSpaces(s) == [];
    DropSpacesSuffix(s);
    assert s[..|s|] == s;
  }

  // ------------------------------------------------------------- is_param

  /** `s.replace('_', '-')`. */
  function Dashed(s: string): (r: string)
    ensures |r| == |s|
    ensures '_' !in r
  {
    if s == [] then [] else [if s[0] == '_' then '-' else s[0]] + Dashed(s[1..])
  }

  /** `is_param(s, param, significant)`: with `significant` zero the
      dashed argument must equal `param`, otherwise it must start with
      the first `significant` characters of `param`. */
  function IsParam(s: string, param: string, significant: nat): (b: bool)
    ensures significant == 0 ==> (b <==> Dashed(s) == param)
    ensures significant > 0 ==> (b <==> SliceTo(param, significant) <= Dashed(s))
  {
    var simple := Dashed(s);
    var p := SliceTo(param, significant);
    StartsWithIsPrefix(simple, p);
    assert [p][0] == p && [p][1..] == [];
    assert HasPrefix(simple, [p]) <==> StartsWith(simple, p);
    if significant > 0 then HasPrefix(simple, [p])
    else simple == param
  }

  /** Underscores and dashes are interchangeable in a directive. */
  lemma DashedIdempotent(s: string)
    ensures Dashed(Dashed(s)) == Dashed(s)
  {
    if s != [] {
      DashedIdempotent(s[1..]);
    }
  }
}

=== FILE: gonecode_scan.dfy ===
/**
 The passes `find_funcs`, `find_types` and `find_vars` of `gonecode.py`
 make over one file's lines: collecting declarations, and finding which
 declared names are used on lines that are not declarations of their
 kind. A file is its sequence of lines as `for line in open(path)`
 yields them; line numbers are 1-based as in the source.
 */
module GoScan {
  import opened Wrappers
  import opened Strings
  import opened GoLex

  predicate IsFuncLine(line: string) {
    StartsWith(line, "func ")
  }

  predicate IsTypeLine(line: string) {
    StartsWith(line, "type ")
  }

  predicate IsVarLine(line: string) {
    StartsWith(line, "var ")
  }

  /** A line starting with `}` ends the enclosing function. */
  predicate IsClose(line: string) {
    StartsWith(line, "}")
  }

  /** A func record `(path, line_num, receiver_type, name)`. */
  datatype FuncDecl = FuncDecl(path: string, line: nat, receiver: string, name: string)

  /** A type or var record `(path, line_num, name)`. */
  datatype Decl = Decl(path: string, line: nat, name: string)

  /** The records of lines `0 .. n - 1`, line after line. */
  function Gather<T>(at: nat -> seq<T>, n: nat): seq<T> {
    if n == 0 then [] else Gather(at, n - 1) + at(n - 1)
  }

  /** A record only line `k` can produce is gathered iff line `k` is
      among those scanned and produces it. */
  lemma {:induction false} GatherAt<T>(at: nat -> seq<T>, n: nat, x: T, k: nat)
    requires forall j: nat :: x in at(j) ==> j == k
    ensures x in Gather(at, n) <==> k < n && x in at(k)
  {
    if n > 0 {
      GatherAt(at, n - 1, x, k);
    }
  }

  /** A record is gathered iff some line produces it. */
  lemma {:induction false} GatherIn<T>(at: nat -> seq<T>, n: nat, x: T)
    ensures x in Gather(at, n) <==> exists j: nat :: j < n && x in at(j)
  {
    if n > 0 {
      GatherIn(at, n - 1, x);
      if x in at(n - 1) {
        assert n - 1 < n && x in at(n - 1);
      }
    }
  }

  /** The line whose records carry line number `line`. */
  function LineIndex(line: nat, count: nat): nat {
    if line == 0 then count else line - 1
  }

  // ------------------------------------------------------------ find_funcs

  /** What a `func ` line declares in the collecting pass: its receiver
      type and name, unless the receiver is not understood or test
      functions are ignored and the name starts with `Test`. */
  function FuncLineDecl(line: string, ignoreTests: bool): (r: Option<(string, string)>)
    requires IsFuncLine(line)
    ensures r.Some? ==> ParseFunc(line[5..]) == r && !(ignoreTests && "Test" <= r.value.1)
    ensures r.None? ==> ParseFunc(line[5..]).None? || (ignoreTests && "Test" <= ParseFunc(line[5..]).value.1)
  {
    match ParseFunc(line[5..])
    case None => None
    case Some(d) =>
      StartsWithIsPrefix(d.1, "Test");
      if ignoreTests && StartsWith(d.1, "Test") then None else Some(d)
  }

  function FuncAt(path: string, ls: seq<string>, ignoreTests: bool, j: nat): seq<FuncDecl> {
    if j < |ls| && IsFuncLine(ls[j]) then
      match FuncLineDecl(ls[j], ignoreTests)
      case None => []
      case Some(d) => [FuncDecl(path, j + 1, d.0, d.1)]
    else []
  }

  function FuncLines(path: string, ls: seq<string>, ignoreTests: bool): nat -> seq<FuncDecl> {
    (j: nat) => FuncAt(path, ls, ignoreTests, j)
  }

  /** `find_funcs(path, funcs)` over a file: the func records in order. */
  function FuncDecls(path: string, ls: seq<string>, ignoreTests: bool): seq<FuncDecl> {
    Gather(FuncLines(path, ls, ignoreTests), |ls|)
  }

  /** The records of one line: a func record of line `j` carries its
      number and the receiver and name the line declares. */
  lemma FuncAtIff(path: string, ls: seq<string>, ignoreTests: bool, j: nat, x: FuncDecl)
    ensures x in FuncAt(path, ls, ignoreTests, j) <==>
      j < |ls| && x.path == path && x.line == j + 1 && IsFuncLine(ls[j]) &&
      FuncLineDecl(ls[j], ignoreTests) == Some((x.receiver, x.name))
  {
  }

  /** A func record of a file comes from the line at its line number. */
  lemma FuncDeclsAt(path: string, ls: seq<string>, ignoreTests: bool, x: FuncDecl)
    ensures x in FuncDecls(path, ls, ignoreTests) <==> 1 <= x.line <= |ls| && x in FuncAt(path, ls, ignoreTests, x.line - 1)
  {
    var at := FuncLines(path, ls, ignoreTests);
    forall j: nat
      ensures x in at(j) ==> j == LineIndex(x.line, |ls|)
    {
      FuncAtIff(path, ls, ignoreTests, j, x);
    }
    GatherAt(at, |ls|, x, LineIndex(x.line, |ls|));
  }

  lemma FuncDeclsIff(path: string, ls: seq<string>, ignoreTests: bool, x: FuncDecl)
    ensures x in FuncDecls(path, ls, ignoreTests) <==>
      x.path == path && 1 <= x.line <= |ls| && IsFuncLine(ls[x.line - 1]) &&
      FuncLineDecl(ls[x.line - 1], ignoreTests) == Some((x.receiver, x.name))
  {
    FuncDeclsAt(path, ls, ignoreTests, x);
    if 1 <= x.line <= |ls| {
      FuncAtIff(path, ls, ignoreTests, x.line - 1, x);
    }
  }


  // ------------------------------------------------------------ find_types

  /** The type record of a line, if it is a `type ` line with a name. */
  function TypeAt(path: string, ls: seq<string>, j: nat): seq<Decl> {
    if j < |ls| && IsTypeLine(ls[j]) then
      match TypeName(ls[j][5..])
      case None => []
      case Some(n) => [Decl(path, j + 1, n)]
    else []
  }

  function TypeLines(path: string, ls: seq<string>): nat -> seq<Decl> {
    (j: nat) => TypeAt(path, ls, j)
  }

  /** `find_types(path, types)` over a file. */
  function TypeDecls(path: string, ls: seq<string>): seq<Decl> {
    Gather(TypeLines(path, ls), |ls|)
  }

  /** A `type ` line with nothing after the keyword: the source's
      `line.split()[0]` raises there. */
  predicate TypeCrash(ls: seq<string>) {
    exists j :: 0 <= j < |ls| && IsTypeLine(ls[j]) && TypeName(ls[j][5..]).None?
  }

  lemma TypeAtIff(path: string, ls: seq<string>, j: nat, x: Decl)
    ensures x in TypeAt(path, ls, j) <==>
      j < |ls| && x.path == path && x.line == j + 1 && IsTypeLine(ls[j]) &&
      TypeName(ls[j][5..]) == Some(x.name)
  {
  }

  lemma TypeDeclsAt(path: string, ls: seq<string>, x: Decl)
    ensures x in TypeDecls(path, ls) <==> 1 <= x.line <= |ls| && x in TypeAt(path, ls, x.line - 1)
  {
    var at := TypeLines(path, ls);
    forall j: nat
      ensures x in at(j) ==> j == LineIndex(x.line, |ls|)
    {
      TypeAtIff(path, ls, j, x);
    }
    GatherAt(at, |ls|, x, LineIndex(x.line, |ls|));
  }

  lemma TypeDeclsIff(path: string, ls: seq<string>, x: Decl)
    ensures x in TypeDecls(path, ls) <==>
      x.path == path && 1 <= x.line <= |ls| && IsTypeLine(ls[x.line - 1]) &&
      TypeName(ls[x.line - 1][5..]) == Some(x.name)
  {
    TypeDeclsAt(path, ls, x);
    if 1 <= x.line <= |ls| {
      TypeAtIff(path, ls, x.line - 1, x);
    }
  }


  // ------------------------------------------------------------- find_vars

  /** The names a `var ` line declares, skipping `(`. */
  function VarNames(line: string): (ns: seq<string>)
    requires IsVarLine(line)
    ensures ns == SplitVars(line[4..])
  {
    NoParenToken(line[4..]);
    DropParen(SplitVars(line[4..]))
  }

  function DropParen(ts: seq<string>): (r: seq<string>)
    ensures "(" !in ts ==> r == ts
  {
    if ts == [] then []
    else (if ts[0] == "(" then [] else [ts[0]]) + DropParen(ts[1..])
  }

  function VarAt(path: string, ls: seq<string>, j: nat): seq<Decl> {
    if j < |ls| && IsVarLine(ls[j]) then
      var ns := VarNames(ls[j]);
      seq(|ns|, i requires 0 <= i < |ns| => Decl(path, j + 1, ns[i]))
    else []
  }

  function VarLines(path: string, ls: seq<string>): nat -> seq<Decl> {
    (j: nat) => VarAt(path, ls, j)
  }

  /** `find_vars(path, vars)` over a file. */
  function VarDecls(path: string, ls: seq<string>): seq<Decl> {
    Gather(VarLines(path, ls), |ls|)
  }

  lemma VarAtIff(path: string, ls: seq<string>, j: nat, x: Decl)
    ensures x in VarAt(path, ls, j) <==>
      j < |ls| && x.path == path && x.line == j + 1 && IsVarLine(ls[j]) &&
      x.name in SplitVars(ls[j][4..])
  {
    if j < |ls| && IsVarLine(ls[j]) {
      var ns := VarNames(ls[j]);
      var ds := VarAt(path, ls, j);
      if x in ds {
        var i :| 0 <= i < |ds| && ds[i] == x;
        assert x.name == ns[i];
      }
      if x.path == path && x.line == j + 1 && x.name in ns {
        var i :| 0 <= i < |ns| && ns[i] == x.name;
        assert ds[i] == x;
      }
    }
  }

  lemma VarDeclsAt(path: string, ls: seq<string>, x: Decl)
    ensures x in VarDecls(path, ls) <==> 1 <= x.line <= |ls| && x in VarAt(path, ls, x.line - 1)
  {
    var at := VarLines(path, ls);
    forall j: nat
      ensures x in at(j) ==> j == LineIndex(x.line, |ls|)
    {
      VarAtIff(path, ls, j, x);
    }
    GatherAt(at, |ls|, x, LineIndex(x.line, |ls|));
  }

  lemma VarDeclsIff(path: string, ls: seq<string>, x: Decl)
    ensures x in VarDecls(path, ls) <==>
      x.path == path && 1 <= x.line <= |ls| && IsVarLine(ls[x.line - 1]) &&
      x.name in SplitVars(ls[x.line - 1][4..])
  {
    VarDeclsAt(path, ls, x);
    if 1 <= x.line <= |ls| {
      VarAtIff(path, ls, x.line - 1, x);
    }
  }


  // -------------------------------------------------- the enclosing function

  /** A line that changes the enclosing function: a `}` line, or a
      `func ` line whose declaration is understood. */
  predicate Marker(line: string) {
    IsClose(line) || (IsFuncLine(line) && ParseFunc(line[5..]).Some?)
  }

  /** The enclosing name a marker line sets. */
  function MarkName(line: string): string
    requires Marker(line)
  {
    if IsClose(line) then "" else ParseFunc(line[5..]).value.1
  }

  /** The last marker line at or before line `j`. */
  function LastMarker(ls: seq<string>, j: nat): (r: Option<nat>)
    requires j < |ls|
    ensures r.Some? ==> r.value <= j && Marker(ls[r.value]) &&
                        forall m :: r.value < m <= j ==> !Marker(ls[m])
    ensures r.None? ==> forall m :: 0 <= m <= j ==> !Marker(ls[m])
  {
    if Marker(ls[j]) then Some(j)
    else if j == 0 then None
    else LastMarker(ls, j - 1)
  }

  /** Reference: the function a line `j` is inside, as the usage pass sees
      it: set by the last marker line up to and including `j`, empty
      before any. */
  function Enclosing(ls: seq<string>, j: nat): string
    requires j < |ls|
  {
    match LastMarker(ls, j)
    case None => ""
    case Some(k) => MarkName(ls[k])
  }

  /** Name `n` is used at line `j`: not a declaration line, not the
      enclosing function itself, and a whole token of the line. */
  predicate FuncUsedAt(ls: seq<string>, j: nat, n: string)
    requires j < |ls|
  {
    !IsFuncLine(ls[j]) && n != Enclosing(ls, j) && Contains(ls[j], n) && n in SplitCode(ls[j])
  }

  /** A `}` line is inside no function: every declared name that is a
      token of it is used there, the last function's own name included. */
  lemma CloseClears(ls: seq<string>, j: nat, n: string)
    requires j < |ls| && IsClose(ls[j])
    ensures Enclosing(ls, j) == ""
    ensures n != "" && Contains(ls[j], n) && n in SplitCode(ls[j]) ==> FuncUsedAt(ls, j, n)
  {
    assert ls[j][0] == '}';
    assert !IsFuncLine(ls[j]);
  }

  ghost predicate FuncUsedIn(ls: seq<string>, n: string, upto: nat)
    requires upto <= |ls|
  {
    exists j :: 0 <= j < upto && FuncUsedAt(ls, j, n)
  }

  /** The tracker's `funcname` after a line: a `}` line clears it, a
      `func ` line whose declaration is understood sets it. */
  function Next(line: string, funcname: string): string {
    if IsFuncLine(line) && ParseFunc(line[5..]).Some? then ParseFunc(line[5..]).value.1
    else if IsClose(line) then ""
    else funcname
  }

  /** The tracker agrees with the reference line after line. */
  lemma EnclosingStep(ls: seq<string>, i: nat)
    requires i < |ls|
    ensures Enclosing(ls, i) == Next(ls[i], if i == 0 then "" else Enclosing(ls, i - 1))
  {
    assert IsClose(ls[i]) ==> ls[i][0] == '}';
    assert IsFuncLine(ls[i]) ==> ls[i][0] == 'f';
  }

  /** The names of `declared` a non-declaration line uses, given the
      function it is inside. */
  function LineUses(line: string, funcname: string, declared: set<string>): (here: set<string>)
    ensures forall n :: n in here <==> n in declared && n != funcname && Contains(line, n) && n in SplitCode(line)
  {
    set n | n in declared && n != funcname && Contains(line, n) && n in SplitCode(line)
  }

  /** The names a line adds in the usage pass, against the reference. */
  lemma LineUsesAt(ls: seq<string>, i: nat, cur: string, declared: set<string>, here: set<string>)
    requires i < |ls|
    requires here == if IsFuncLine(ls[i]) then {} else LineUses(ls[i], cur, declared)
    requires !IsFuncLine(ls[i]) ==> cur == Enclosing(ls, i)
    ensures forall n :: n in here <==> n in declared && FuncUsedAt(ls, i, n)
  {
  }

  /** A name is used in the first `i + 1` lines iff it is used in the
      first `i` or at line `i`. */
  lemma FuncUsedInSnoc(ls: seq<string>, n: string, i: nat)
    requires i < |ls|
    ensures FuncUsedIn(ls, n, i + 1) <==> FuncUsedIn(ls, n, i) || FuncUsedAt(ls, i, n)
  {
    if FuncUsedIn(ls, n, i + 1) && !FuncUsedAt(ls, i, n) {
      var j :| 0 <= j < i + 1 && FuncUsedAt(ls, j, n);
      assert j < i;
    }
  }

  lemma FuncUsedInStep(ls: seq<string>, i: nat, declared: set<string>, used: set<string>, here: set<string>)
    requires i < |ls|
    requires forall n :: n in used <==> n in declared && FuncUsedIn(ls, n, i)
    requires forall n :: n in here <==> n in declared && FuncUsedAt(ls, i, n)
    ensures forall n :: n in used + here <==> n in declared && FuncUsedIn(ls, n, i + 1)
  {
    forall n
      ensures FuncUsedIn(ls, n, i + 1) <==> FuncUsedIn(ls, n, i) || FuncUsedAt(ls, i, n)
    {
      FuncUsedInSnoc(ls, n, i);
    }
  }

  /** One line of the usage pass of `find_funcs`, with the `funcname`
      the lines before it left: the names used so far grow by the
      declared names the line uses, and `funcname` follows the line. */
  method FuncUsesLine(ls: seq<string>, i: nat, funcname: string, declared: set<string>, used: set<string>)
    returns (used': set<string>, funcname': string)
    requires i < |ls|
    requires funcname == if i == 0 then "" else Enclosing(ls, i - 1)
    requires forall n :: n in used <==> n in declared && FuncUsedIn(ls, n, i)
    ensures funcname' == Enclosing(ls, i)
    ensures forall n :: n in used' <==> n in declared && FuncUsedIn(ls, n, i + 1)
  {
    var line := ls[i];
    EnclosingStep(ls, i);
    var cur := if IsClose(line) then "" else funcname;
    var here: set<string> := {};
    if !IsFuncLine(line) {
      here := LineUses(line, cur, declared);
    }
    LineUsesAt(ls, i, cur, declared, here);
    FuncUsedInStep(ls, i, declared, used, here);
    used' := used + here;
    funcname' := Next(line, funcname);
  }

  /** The usage pass of `find_funcs` over one file, with its running
      `funcname`: the declared names used somewhere in the file. */
  method FuncUsesIn(ls: seq<string>, declared: set<string>) returns (used: set<string>)
    ensures forall n :: n in used <==> n in declared && FuncUsedIn(ls, n, |ls|)
  {
    var funcname := "";
    used := {};
    var i := 0;
    while i < |ls|
      invariant 0 <= i <= |ls|
      invariant funcname == if i == 0 then "" else Enclosing(ls, i - 1)
      invariant forall n :: n in used <==> n in declared && FuncUsedIn(ls, n, i)
    {
      used, funcname := FuncUsesLine(ls, i, funcname, declared, used);
      i := i + 1;
    }
  }

  // --------------------------------------------- find_types / find_vars usage

  /** Name `n` is used at `line` in the usage pass for keyword `kw`
      (`type ` or `var `): not a declaration line of that kind, and a
      whole token of the line. */
  predicate UsedAt(line: string, kw: string, n: string) {
    !StartsWith(line, kw) && Contains(line, n) && n in SplitCode(line)
  }

  ghost predicate UsedIn(ls: seq<string>, kw: string, n: string, upto: nat)
    requires upto <= |ls|
  {
    exists j :: 0 <= j < upto && UsedAt(ls[j], kw, n)
  }

  /** The usage pass of `find_types` (`kw` = `type `) or `find_vars`
      (`kw` = `var `) over one file. */
  method UsesIn(ls: seq<string>, kw: string, declared: set<string>) returns (used: set<string>)
    ensures forall n :: n in used <==> n in declared && UsedIn(ls, kw, n, |ls|)
  {
    used := {};
    var i := 0;
    while i < |ls|
      invariant 0 <= i <= |ls|
      invariant forall n :: n in used <==> n in declared && UsedIn(ls, kw, n, i)
    {
      var line := ls[i];
      if !StartsWith(line, kw) {
        used := used + set n | n in declared && Contains(line, n) && n in SplitCode(line);
      }
      forall n
        ensures UsedIn(ls, kw, n, i + 1) <==> UsedIn(ls, kw, n, i) || UsedAt(ls[i], kw, n)
      {
        if UsedIn(ls, kw, n, i + 1) && !UsedAt(ls[i], kw, n) {
          var j :| 0 <= j < i + 1 && UsedAt(ls[j], kw, n);
          assert j < i;
        }
      }
      i := i + 1;
    }
  }
}

=== FILE: grepblocks.dfy ===
/**
 `grepblocks.py`: for every source file below the working directory, the
 blocks of consecutive lines in which the sought words occur in order,
 each on its own line, no further apart than a distance. File contents
 come from a reader function and printing is left out.
 */
module GrepBlocks {
  import opened Wrappers
  import opened Strings
  import opened Sorting
  import opened FsTree
  import opened SourceFiles
  import opened Numbers

  /** `Valid_Suffixes` of `grepblocks.py` (the commented-out ones excluded). */
  const ValidSuffixes: seq<string> :=
    [".c", ".h", ".cc", ".cpp", ".hh", ".hpp", ".c++", ".h++", ".go", ".java", ".py", ".pl"]

  const DefaultDistance: int := 7

  // ------------------------------------------------------------ arguments

  /** An argument that sets the distance: it starts with a digit. */
  predicate IsDistance(arg: string) {
    arg != [] && IsDigit(arg[0])
  }

  datatype Args = Args(distance: int, sought: seq<string>)

  /** The argument loop of `main`: a digit-led argument sets the distance
      with `int(arg)` (`None` where that raises), every other argument is
      a sought word. */
  function ParseArgs(args: seq<string>, a: Args): (r: Option<Args>)
    ensures r.Some? ==> |r.value.sought| <= |a.sought| + |args|
  {
    if args == [] then Some(a)
    else if IsDistance(args[0]) then
      match ParseInt(args[0])
      case None => None
      case Some(d) => ParseArgs(args[1..], a.(distance := d))
    else ParseArgs(args[1..], a.(sought := a.sought + [args[0]]))
  }

  /** The sought words are the other arguments, in order, after those
      already collected. */
  lemma {:induction false} SoughtInOrder(args: seq<string>, a: Args)
    requires ParseArgs(args, a).Some?
    ensures var s := ParseArgs(args, a).value.sought;
      |a.sought| <= |s| && s[..|a.sought|] == a.sought &&
      forall w :: w in s[|a.sought|..] <==> w in args && !IsDistance(w)
  {
    if args != [] {
      var a' := if IsDistance(args[0]) then a.(distance := ParseInt(args[0]).value)
                else a.(sought := a.sought + [args[0]]);
      SoughtInOrder(args[1..], a');
      var s := ParseArgs(args, a).value.sought;
      assert s == ParseArgs(args[1..], a').value.sought;
      assert forall w :: w in args <==> w == args[0] || w in args[1..];
      if !IsDistance(args[0]) {
        assert s[..|a.sought|] == s[..|a'.sought|][..|a.sought|];
        assert s[|a.sought|..] == [args[0]] + s[|a'.sought|..];
      }
    }
  }

  /** The distance is the value of the last digit-led argument, or the
      one given when there is none. */
  lemma {:induction false} DistanceIsLast(args: seq<string>, a: Args)
    requires ParseArgs(args, a).Some?
    ensures var d := ParseArgs(args, a).value.distance;
      (exists k :: 0 <= k < |args| && IsDistance(args[k]) && ParseInt(args[k]) == Some(d) &&
         forall m :: k < m < |args| ==> !IsDistance(args[m])) ||
      ((forall m :: 0 <= m < |args| ==> !IsDistance(args[m])) && d == a.distance)
  {
    if args != [] {
      var a' := if IsDistance(args[0]) then a.(distance := ParseInt(args[0]).value)
                else a.(sought := a.sought + [args[0]]);
      DistanceIsLast(args[1..], a');
      assert ParseArgs(args, a) == ParseArgs(args[1..], a');
      var d := ParseArgs(args, a).value.distance;
      assert forall i :: 1 <= i < |args| ==> args[i] == args[1..][i - 1];
      if exists k :: 0 <= k < |args[1..]| && IsDistance(args[1..][k]) && ParseInt(args[1..][k]) == Some(d) &&
           forall m :: k < m < |args[1..]| ==> !IsDistance(args[1..][m]) {
        var k :| 0 <= k < |args[1..]| && IsDistance(args[1..][k]) && ParseInt(args[1..][k]) == Some(d) &&
           forall m :: k < m < |args[1..]| ==> !IsDistance(args[1..][m]);
        assert IsDistance(args[k + 1]) && ParseInt(args[k + 1]) == Some(d);
      } else if IsDistance(args[0]) {
        assert ParseInt(args[0]) == Some(d);
      }
    }
  }

  /** A digit-led argument that `int` cannot read stops the tool. */
  lemma BadDistanceStops(args: seq<string>, a: Args, k: nat)
    requires k < |args| && IsDistance(args[k]) && ParseInt(args[k]).None?
    ensures ParseArgs(args, a).None?
  {
    if k > 0 {
      var a' := if IsDistance(args[0]) && ParseInt(args[0]).Some? then
                  a.(distance := ParseInt(args[0]).value)
                else a.(sought := a.sought + [args[0]]);
      BadDistanceStops(args[1..], a', k - 1);
    }
  }

  // ------------------------------------------------------ one file's blocks

  /** `contains_any(line, words)`: the first word, in list order, found in
      the line. */
  function ContainsAny(line: string, words: seq<string>): (r: Option<string>)
    ensures r.Some? ==> Contains(line, r.value)
    ensures r.Some? ==> exists k :: 0 <= k < |words| && words[k] == r.value &&
                          forall j :: 0 <= j < k ==> !Contains(line, words[j])
    ensures r.None? <==> forall k :: 0 <= k < |words| ==> !Contains(line, words[k])
  {
    if words == [] then None
    else if Contains(line, words[0]) then Some(words[0])
    else
      var r := ContainsAny(line, words[1..]);
      assert forall k :: 1 <= k < |words| ==> words[k] == words[1..][k - 1];
      if r.Some? then
        var k :| 0 <= k < |words[1..]| && words[1..][k] == r.value &&
                 forall j :: 0 <= j < k ==> !Contains(line, words[1..][j]);
        assert words[k + 1] == r.value;
        r
      else r
  }

  /** `remaining[:1]`. */
  function Head(ws: seq<string>): (r: seq<string>)
    ensures ws == [] ==> r == []
    ensures ws != [] ==> r == [ws[0]]
  {
    if ws == [] then [] else ws[..1]
  }

  /** The longest block kept: a block grows past `distance` lines only
      when the distance is zero and the block is one line. */
  function Bound(distance: int): nat {
    if distance < 1 then 1 else distance
  }

  /** Line indexes `hs`, strictly increasing, where `words` occur in turn. */
  predicate Hits(lines: seq<string>, hs: seq<nat>, words: seq<string>) {
    |hs| == |words| &&
    (forall k :: 0 <= k < |hs| ==> hs[k] < |lines| && Contains(lines[hs[k]], words[k])) &&
    (forall k :: 0 <= k < |hs| - 1 ==> hs[k] < hs[k + 1])
  }

  /** Lines `s .. e` hold the sought words in order, the first on line `s`
      and the last on line `e`, each on a later line than the one before. */
  ghost predicate InOrder(lines: seq<string>, s: nat, e: nat, sought: seq<string>) {
    sought != [] &&
    exists hs: seq<nat> :: Hits(lines, hs, sought) && hs[0] == s && hs[|hs| - 1] == e
  }

  /** Strictly increasing indexes spread at least one apart. */
  lemma {:induction false} HitsSpread(hs: seq<nat>)
    requires hs != []
    requires forall k :: 0 <= k < |hs| - 1 ==> hs[k] < hs[k + 1]
    ensures hs[|hs| - 1] >= hs[0] + |hs| - 1
  {
    if |hs| > 1 {
      HitsSpread(hs[..|hs| - 1]);
    }
  }

  lemma HitsExtend(lines: seq<string>, hs: seq<nat>, sought: seq<string>, i: nat)
    requires |hs| < |sought| && Hits(lines, hs, sought[..|hs|])
    requires i < |lines| && Contains(lines[i], sought[|hs|])
    requires forall k :: 0 <= k < |hs| ==> hs[k] < i
    ensures Hits(lines, hs + [i], sought[..|hs| + 1])
  {
    assert sought[..|hs| + 1] == sought[..|hs|] + [sought[|hs|]];
  }

  /** A complete run of hits is a block of at least `|sought|` lines. */
  lemma Complete(lines: seq<string>, hs: seq<nat>, sought: seq<string>, start: nat, i: nat)
    requires |hs| == |sought| && sought != [] && Hits(lines, hs, sought[..|hs|])
    requires hs[0] == start && hs[|hs| - 1] == i
    ensures InOrder(lines, start, i, sought)
    ensures i - start + 1 >= |sought|
  {
    assert sought[..|hs|] == sought;
    HitsSpread(hs);
  }

  /** Each emitted block is the run of lines its span names, ending
      before line `bound`, and the spans do not overlap. */
  predicate Spans(lines: seq<string>, blocks: seq<seq<string>>, spans: seq<(nat, nat)>, bound: nat) {
    |spans| == |blocks| &&
    (forall k :: 0 <= k < |blocks| ==>
      spans[k].0 <= spans[k].1 < bound && spans[k].1 < |lines| &&
      blocks[k] == lines[spans[k].0..spans[k].1 + 1]) &&
    (forall k :: 0 <= k < |blocks| - 1 ==> spans[k].1 < spans[k + 1].0)
  }

  predicate Sizes(distance: int, sought: seq<string>, blocks: seq<seq<string>>) {
    forall k :: 0 <= k < |blocks| ==> |sought| <= |blocks[k]| <= Bound(distance)
  }

  ghost predicate Ordered(lines: seq<string>, sought: seq<string>, spans: seq<(nat, nat)>) {
    forall k :: 0 <= k < |spans| ==> InOrder(lines, spans[k].0, spans[k].1, sought)
  }

  /** What holds of the blocks emitted so far, all of them ending
      before line `bound`. */
  ghost predicate Emitted(lines: seq<string>, distance: int, sought: seq<string>,
                          blocks: seq<seq<string>>, spans: seq<(nat, nat)>, bound: nat) {
    Spans(lines, blocks, spans, bound) && Sizes(distance, sought, blocks) &&
    Ordered(lines, sought, spans) && (sought == [] ==> blocks == [])
  }

  lemma SpansAdd(lines: seq<string>, blocks: seq<seq<string>>, spans: seq<(nat, nat)>,
                 start: nat, i: nat, block: seq<string>)
    requires Spans(lines, blocks, spans, start)
    requires start <= i < |lines| && block == lines[start..i + 1]
    ensures Spans(lines, blocks + [block], spans + [(start, i)], i + 1)
  {
    var bs, ss := blocks + [block], spans + [(start, i)];
    assert forall k :: 0 <= k < |blocks| ==> bs[k] == blocks[k] && ss[k] == spans[k];
  }

  lemma SizesAdd(distance: int, sought: seq<string>, blocks: seq<seq<string>>, block: seq<string>)
    requires Sizes(distance, sought, blocks) && |sought| <= |block| <= Bound(distance)
    ensures Sizes(distance, sought, blocks + [block])
  {
    var bs := blocks + [block];
    assert forall k :: 0 <= k < |blocks| ==> bs[k] == blocks[k];
  }

  lemma OrderedAdd(lines: seq<string>, sought: seq<string>, spans: seq<(nat, nat)>, start: nat, i: nat)
    requires Ordered(lines, sought, spans) && InOrder(lines, start, i, sought)
    ensures Ordered(lines, sought, spans + [(start, i)])
  {
    var ss := spans + [(start, i)];
    assert forall k :: 0 <= k < |spans| ==> ss[k] == spans[k];
  }

  /** The block being built after `i` lines, and the words it has found
      at lines `hits`. */
  ghost predicate Building(lines: seq<string>, distance: int, sought: seq<string>, i: nat,
                           block: seq<string>, start: nat, remaining: seq<string>, hits: seq<nat>) {
    i <= |lines| &&
    |hits| <= |sought| && remaining == sought[|hits|..] &&
    Hits(lines, hits, sought[..|hits|]) && (forall k :: 0 <= k < |hits| ==> hits[k] < i) &&
    (block == [] ==> hits == []) &&
    (block != [] ==>
      hits != [] && hits[0] == start && |hits| < |sought| &&
      start + |block| == i && block == lines[start..i] && |block| <= Bound(distance))
  }

  lemma EmittedWeaken(lines: seq<string>, distance: int, sought: seq<string>,
                      blocks: seq<seq<string>>, spans: seq<(nat, nat)>, bound: nat, bound': nat)
    requires Emitted(lines, distance, sought, blocks, spans, bound) && bound <= bound'
    ensures Emitted(lines, distance, sought, blocks, spans, bound')
  {
  }

  lemma EmittedAdd(lines: seq<string>, distance: int, sought: seq<string>,
                   blocks: seq<seq<string>>, spans: seq<(nat, nat)>, start: nat, i: nat, block: seq<string>)
    requires Emitted(lines, distance, sought, blocks, spans, start)
    requires start <= i < |lines| && block == lines[start..i + 1]
    requires |sought| <= |block| <= Bound(distance) && InOrder(lines, start, i, sought)
    ensures Emitted(lines, distance, sought, blocks + [block], spans + [(start, i)], i + 1)
  {
    SpansAdd(lines, blocks, spans, start, i, block);
    SizesAdd(distance, sought, blocks, block);
    OrderedAdd(lines, sought, spans, start, i);
  }

  /** The blocks of a file: runs of its lines, in order and apart, each
      holding the sought words in order, no shorter than the word list and
      no longer than the distance allows; none when no word is sought. */
  lemma EmittedFacts(lines: seq<string>, distance: int, sought: seq<string>,
                      blocks: seq<seq<string>>, spans: seq<(nat, nat)>)
    requires Emitted(lines, distance, sought, blocks, spans, |lines|)
    ensures |spans| == |blocks|
    ensures forall k :: 0 <= k < |blocks| ==>
      spans[k].0 <= spans[k].1 < |lines| && blocks[k] == lines[spans[k].0..spans[k].1 + 1]
    ensures forall k :: 0 <= k < |blocks| - 1 ==> spans[k].1 < spans[k + 1].0
    ensures forall k :: 0 <= k < |blocks| ==> |sought| <= |blocks[k]| <= Bound(distance)
    ensures forall k :: 0 <= k < |blocks| ==> InOrder(lines, spans[k].0, spans[k].1, sought)
    ensures sought == [] ==> blocks == []
  {
  }

  /** A line without the next word extends a started block. */
  lemma KeepBuilding(lines: seq<string>, distance: int, sought: seq<string>, i: nat,
                     block: seq<string>, start: nat, remaining: seq<string>, hits: seq<nat>)
    requires i < |lines| && Building(lines, distance, sought, i, block, start, remaining, hits)
    requires block != [] ==> |block| + 1 <= Bound(distance)
    ensures Building(lines, distance, sought, i + 1, if block == [] then [] else block + [lines[i]], start, remaining, hits)
  {
    if block != [] {
      assert lines[start..i + 1] == lines[start..i] + [lines[i]];
    }
  }

  /** A line with the next word, not the last one, extends or starts the
      block and records the hit. */
  lemma FoundNext(lines: seq<string>, distance: int, sought: seq<string>, i: nat,
                  block: seq<string>, start: nat, remaining: seq<string>, hits: seq<nat>)
    requires i < |lines| && Building(lines, distance, sought, i, block, start, remaining, hits)
    requires |hits| + 1 < |sought| && Contains(lines[i], sought[|hits|])
    requires block != [] ==> |block| + 1 <= Bound(distance)
    ensures Building(lines, distance, sought, i + 1,
                     if block == [] then [lines[i]] else block + [lines[i]],
                     if block == [] then i else start,
                     sought[|hits| + 1..], hits + [i])
  {
    HitsExtend(lines, hits, sought, i);
    if block != [] {
      assert lines[start..i + 1] == lines[start..i] + [lines[i]];
    }
  }

  /** A line with the last word completes the block. */
  lemma FoundLast(lines: seq<string>, distance: int, sought: seq<string>, i: nat,
                  block: seq<string>, start: nat, remaining: seq<string>, hits: seq<nat>)
    requires i < |lines| && Building(lines, distance, sought, i, block, start, remaining, hits)
    requires |hits| + 1 == |sought| && Contains(lines[i], sought[|hits|])
    requires block != [] ==> |block| + 1 <= Bound(distance)
    ensures var b := if block == [] then [lines[i]] else block + [lines[i]];
            var s := if block == [] then i else start;
            s <= i && b == lines[s..i + 1] && |sought| <= |b| <= Bound(distance) && InOrder(lines, s, i, sought)
  {
    var s := if block == [] then i else start;
    LastHitSpan(lines, sought, i, hits, s);
    BlockGrown(lines, block, start, i);
  }

  /** The block with line `i` added is the slice of lines it spans. */
  lemma BlockGrown(lines: seq<string>, block: seq<string>, start: nat, i: nat)
    requires i < |lines|
    requires block != [] ==> start + |block| == i && block == lines[start..i]
    ensures var b := if block == [] then [lines[i]] else block + [lines[i]];
            var s := if block == [] then i else start;
            s <= i && b == lines[s..i + 1] && |b| == i - s + 1
  {
    if block != [] {
      assert lines[start..i + 1] == lines[start..i] + [lines[i]];
    }
  }

  /** The hits with the last one added span the sought words in order. */
  lemma LastHitSpan(lines: seq<string>, sought: seq<string>, i: nat, hits: seq<nat>, s: nat)
    requires i < |lines| && |hits| + 1 == |sought| && Contains(lines[i], sought[|hits|])
    requires Hits(lines, hits, sought[..|hits|]) && forall k :: 0 <= k < |hits| ==> hits[k] < i
    requires if hits == [] then s == i else hits[0] == s
    ensures InOrder(lines, s, i, sought) && i - s + 1 >= |sought|
  {
    var hs := hits + [i];
    HitsExtend(lines, hits, sought, i);
    assert hs[0] == s && hs[|hs| - 1] == i;
    Complete(lines, hs, sought, s, i);
  }

  // ------------------------------------------- the scan as a reference

  /** The first line at or after `from` that holds `w`, or `|lines|` when
      no such line exists (`NextHitFirst`). */
  function NextHit(lines: seq<string>, w: string, from: nat): (j: nat)
    ensures j <= |lines| && (j < |lines| ==> from <= j)
    decreases |lines| - from
  {
    if from >= |lines| then |lines|
    else if Contains(lines[from], w) then from
    else NextHit(lines, w, from + 1)
  }

  /** `NextHit` is the first line from `from` on that holds the word: no
      line between `from` and it does, and it does unless it is `|lines|`. */
  lemma {:induction false} NextHitFirst(lines: seq<string>, w: string, from: nat)
    ensures var j := NextHit(lines, w, from);
      (j == |lines| || Contains(lines[j], w)) &&
      forall t :: from <= t < j ==> !Contains(lines[t], w)
    decreases |lines| - from
  {
    if from < |lines| && !Contains(lines[from], w) {
      NextHitFirst(lines, w, from + 1);
    }
  }

  /** The line of the last of `words` when the first is taken at its first
      line at or after `from` and each other at its first line after the
      one before; `|lines|` when one of them is never found. */
  function Chain(lines: seq<string>, words: seq<string>, from: nat): (e: nat)
    requires words != []
    ensures e <= |lines| && (e < |lines| ==> from + |words| - 1 <= e)
    decreases |words|
  {
    var j := NextHit(lines, words[0], from);
    if j == |lines| || |words| == 1 then j else Chain(lines, words[1..], j + 1)
  }

  /** The spans the scan emits from line `from` on, with no block open.
      The block opens at the first line holding the first sought word and
      takes every further word at its first line after the previous hit.
      It is emitted when its last hit lies within `Bound(distance)` lines
      of its opening. Otherwise it is dropped at the line that makes it too
      long, and the scan starts afresh after that line, which is not looked
      at. A negative distance drops every line and emits nothing. */
  function Greedy(lines: seq<string>, distance: int, sought: seq<string>, from: nat): seq<(nat, nat)>
    decreases |lines| - from
  {
    if distance < 0 || sought == [] || from >= |lines| then []
    else
      var j := NextHit(lines, sought[0], from);
      var e := Chain(lines, sought, from);
      if j == |lines| then []
      else if e < |lines| && e - j + 1 <= Bound(distance) then [(j, e)] + Greedy(lines, distance, sought, e + 1)
      else Greedy(lines, distance, sought, j + Bound(distance) + 1)
  }

  /** What `Greedy` still emits from the scan's state before line `i`:
      afresh from `i` when no block is open, else the open block, if its
      remaining words are found in time, and what follows it. */
  function Pending(lines: seq<string>, distance: int, sought: seq<string>, i: nat,
                   block: seq<string>, start: nat, remaining: seq<string>): seq<(nat, nat)>
  {
    if block == [] || remaining == [] then Greedy(lines, distance, sought, i)
    else
      var e := Chain(lines, remaining, i);
      if e < |lines| && e - start + 1 <= Bound(distance) then [(start, e)] + Greedy(lines, distance, sought, e + 1)
      else Greedy(lines, distance, sought, start + Bound(distance) + 1)
  }

  /** A line without the first sought word changes nothing when no block
      is open. */
  lemma GreedySkip(lines: seq<string>, distance: int, sought: seq<string>, i: nat)
    requires i < |lines| && sought != [] && !Contains(lines[i], sought[0])
    ensures Greedy(lines, distance, sought, i) == Greedy(lines, distance, sought, i + 1)
  {
    var j := NextHit(lines, sought[0], i + 1);
    assert NextHit(lines, sought[0], i) == j;
    ChainSkip(lines, sought, i);
    if distance >= 0 && i + 1 < |lines| {
      GreedyAt(lines, distance, sought, i, j, Chain(lines, sought, i));
      GreedyAt(lines, distance, sought, i + 1, j, Chain(lines, sought, i));
    }
  }

  /** A line without the first word does not move the chain. */
  lemma ChainSkip(lines: seq<string>, words: seq<string>, i: nat)
    requires i < |lines| && words != [] && !Contains(lines[i], words[0])
    ensures Chain(lines, words, i) == Chain(lines, words, i + 1)
  {
    assert NextHit(lines, words[0], i) == NextHit(lines, words[0], i + 1);
  }

  /** `Greedy` from a line, in terms of where its block opens and where the
      chain of its words ends. */
  lemma GreedyAt(lines: seq<string>, distance: int, sought: seq<string>, from: nat, j: nat, e: nat)
    requires 0 <= distance && sought != [] && from < |lines|
    requires j == NextHit(lines, sought[0], from) && e == Chain(lines, sought, from)
    ensures Greedy(lines, distance, sought, from) ==
      if j == |lines| then []
      else if e < |lines| && e - j + 1 <= Bound(distance) then [(j, e)] + Greedy(lines, distance, sought, e + 1)
      else Greedy(lines, distance, sought, j + Bound(distance) + 1)
  {
  }

  /** A line without the next word leaves what is still to come as it was. */
  lemma PendingSkip(lines: seq<string>, distance: int, sought: seq<string>, i: nat,
                    block: seq<string>, start: nat, remaining: seq<string>)
    requires i < |lines|
    requires block == [] ==> remaining == sought
    requires block != [] ==> remaining != []
    requires remaining != [] ==> !Contains(lines[i], remaining[0])
    ensures Pending(lines, distance, sought, i, block, start, remaining) ==
            Pending(lines, distance, sought, i + 1, if block == [] then [] else block + [lines[i]], start, remaining)
  {
    if block == [] {
      if sought != [] {
        GreedySkip(lines, distance, sought, i);
      }
    } else {
      assert Chain(lines, remaining, i) == Chain(lines, remaining, i + 1);
    }
  }

  /** The line that makes the open block too long drops it, and what is
      still to come is the scan afresh from the next line. */
  lemma PendingReset(lines: seq<string>, distance: int, sought: seq<string>, i: nat,
                     block: seq<string>, start: nat, remaining: seq<string>)
    requires block == [] ==> distance < 0
    requires block != [] ==> remaining != [] && start + |block| == i &&
                             |block| <= Bound(distance) && |block| + 1 > distance
    ensures Pending(lines, distance, sought, i, block, start, remaining) == Greedy(lines, distance, sought, i + 1)
  {
    if block != [] {
      assert i == start + Bound(distance);
    }
  }

  /** A line with the next word, not the last, moves on to the word after it. */
  lemma PendingNext(lines: seq<string>, distance: int, sought: seq<string>, i: nat,
                    block: seq<string>, start: nat, remaining: seq<string>)
    requires i < |lines| && |remaining| > 1 && Contains(lines[i], remaining[0])
    requires block == [] ==> remaining == sought && 0 <= distance
    ensures Pending(lines, distance, sought, i, block, start, remaining) ==
            Pending(lines, distance, sought, i + 1,
                    if block == [] then [lines[i]] else block + [lines[i]],
                    if block == [] then i else start, remaining[1..])
  {
    assert NextHit(lines, remaining[0], i) == i;
    var e := Chain(lines, remaining[1..], i + 1);
    assert Chain(lines, remaining, i) == e;
    if block == [] {
      GreedyAt(lines, distance, sought, i, i, e);
    }
  }

  /** A line with the last word emits the open block, or the one-line
      block when none is open. */
  lemma PendingLast(lines: seq<string>, distance: int, sought: seq<string>, i: nat,
                    block: seq<string>, start: nat, remaining: seq<string>)
    requires i < |lines| && |remaining| == 1 && Contains(lines[i], remaining[0])
    requires block == [] ==> remaining == sought && 0 <= distance
    requires block != [] ==> start + |block| == i && |block| + 1 <= distance
    ensures Pending(lines, distance, sought, i, block, start, remaining) ==
            [(if block == [] then i else start, i)] + Greedy(lines, distance, sought, i + 1)
  {
    assert NextHit(lines, remaining[0], i) == i;
    assert Chain(lines, remaining, i) == i;
  }

  /** `PendingLast` with the block added to those already emitted. */
  lemma PendingEmit(lines: seq<string>, distance: int, sought: seq<string>, i: nat,
                    block: seq<string>, start: nat, remaining: seq<string>, spans: seq<(nat, nat)>)
    requires i < |lines| && |remaining| == 1 && Contains(lines[i], remaining[0])
    requires block == [] ==> remaining == sought && 0 <= distance
    requires block != [] ==> start + |block| == i && |block| + 1 <= distance
    ensures var s := if block == [] then i else start;
      (spans + [(s, i)]) + Pending(lines, distance, sought, i + 1, [], s, sought) ==
      spans + Pending(lines, distance, sought, i, block, start, remaining)
  {
    var s := if block == [] then i else start;
    var g := Greedy(lines, distance, sought, i + 1);
    PendingLast(lines, distance, sought, i, block, start, remaining);
    assert (spans + [(s, i)]) + g == spans + ([(s, i)] + g);
  }

  /** At the end of the file nothing is still to come: an open block is
      dropped unprinted. */
  lemma PendingDone(lines: seq<string>, distance: int, sought: seq<string>,
                    block: seq<string>, start: nat, remaining: seq<string>)
    requires block != [] ==> start + |block| == |lines| && |block| <= Bound(distance)
    ensures Pending(lines, distance, sought, |lines|, block, start, remaining) == []
  {
    if block != [] && remaining != [] {
      assert Chain(lines, remaining, |lines|) == |lines|;
    }
  }

  /** One line of the loop. */
  method Step(lines: seq<string>, distance: int, sought: seq<string>, i: nat,
              blocks: seq<seq<string>>, spans: seq<(nat, nat)>,
              block: seq<string>, start: nat, remaining: seq<string>, ghost hits: seq<nat>)
    returns (blocks': seq<seq<string>>, spans': seq<(nat, nat)>,
             block': seq<string>, start': nat, remaining': seq<string>, ghost hits': seq<nat>)
    requires i < |lines|
    requires Emitted(lines, distance, sought, blocks, spans, if block == [] then i else start)
    requires Building(lines, distance, sought, i, block, start, remaining, hits)
    ensures Emitted(lines, distance, sought, blocks', spans', if block' == [] then i + 1 else start')
    ensures Building(lines, distance, sought, i + 1, block', start', remaining', hits')
    ensures spans' + Pending(lines, distance, sought, i + 1, block', start', remaining') ==
            spans + Pending(lines, distance, sought, i, block, start, remaining)
  {
    blocks', spans' := blocks, spans;
    var line := lines[i];
    var word := ContainsAny(line, Head(remaining));
    var grown := if |block| > 0 then block + [line] else block;
    if |grown| > distance {
      EmittedWeaken(lines, distance, sought, blocks, spans, if block == [] then i else start, i + 1);
      block', start', remaining', hits' := [], start, sought, [];
      PendingReset(lines, distance, sought, i, block, start, remaining);
    } else if word.None? {
      KeepBuilding(lines, distance, sought, i, block, start, remaining, hits);
      if block == [] {
        EmittedWeaken(lines, distance, sought, blocks, spans, i, i + 1);
      }
      block', start', remaining', hits' := grown, start, remaining, hits;
      PendingSkip(lines, distance, sought, i, block, start, remaining);
    } else {
      blocks', spans', block', start', remaining', hits' :=
        StepHit(lines, distance, sought, i, blocks, spans, block, start, remaining, hits, word.value);
    }
  }

  /** The turn of `Step` on a line that holds the next sought word. */
  method StepHit(lines: seq<string>, distance: int, sought: seq<string>, i: nat,
                 blocks: seq<seq<string>>, spans: seq<(nat, nat)>,
                 block: seq<string>, start: nat, remaining: seq<string>, ghost hits: seq<nat>, word: string)
    returns (blocks': seq<seq<string>>, spans': seq<(nat, nat)>,
             block': seq<string>, start': nat, remaining': seq<string>, ghost hits': seq<nat>)
    requires i < |lines|
    requires Emitted(lines, distance, sought, blocks, spans, if block == [] then i else start)
    requires Building(lines, distance, sought, i, block, start, remaining, hits)
    requires (if |block| > 0 then |block| + 1 else 0) <= distance
    requires ContainsAny(lines[i], Head(remaining)) == Some(word)
    ensures Emitted(lines, distance, sought, blocks', spans', if block' == [] then i + 1 else start')
    ensures Building(lines, distance, sought, i + 1, block', start', remaining', hits')
    ensures spans' + Pending(lines, distance, sought, i + 1, block', start', remaining') ==
            spans + Pending(lines, distance, sought, i, block, start, remaining)
  {
    var line := lines[i];
    var grown := if |block| > 0 then block + [line] else block;
    assert word == remaining[0] == sought[|hits|];
    var b := if |grown| == 0 then [line] else grown;
    var s := if |grown| == 0 then i else start;
    var rest := RemoveFirst(remaining, word);
    if |rest| == 0 {
      FoundLast(lines, distance, sought, i, block, start, remaining, hits);
      EmittedAdd(lines, distance, sought, blocks, spans, s, i, b);
      blocks', spans' := blocks + [b], spans + [(s, i)];
      block', start', remaining', hits' := [], s, sought, [];
      PendingEmit(lines, distance, sought, i, block, start, remaining, spans);
    } else {
      FoundNext(lines, distance, sought, i, block, start, remaining, hits);
      blocks', spans' := blocks, spans;
      block', start', remaining', hits' := b, s, rest, hits + [i];
      PendingNext(lines, distance, sought, i, block, start, remaining);
    }
  }

  /** `find_blocks_containing_words(path, distance, sought)` over the
      file's lines; `spans` gives each block's first and last line, and
      `EmittedFacts` spells out what the blocks satisfy. */
  method FindBlocks(lines: seq<string>, distance: int, sought: seq<string>)
    returns (blocks: seq<seq<string>>, spans: seq<(nat, nat)>)
    ensures Emitted(lines, distance, sought, blocks, spans, |lines|)
    ensures spans == Greedy(lines, distance, sought, 0)
  {
    blocks, spans := [], [];
    var remaining := sought;
    var block: seq<string> := [];
    var start: nat := 0;
    ghost var hits: seq<nat> := [];
    var i := 0;
    while i < |lines|
      invariant 0 <= i <= |lines|
      invariant Emitted(lines, distance, sought, blocks, spans, if block == [] then i else start)
      invariant Building(lines, distance, sought, i, block, start, remaining, hits)
      invariant spans + Pending(lines, distance, sought, i, block, start, remaining) == Greedy(lines, distance, sought, 0)
    {
      blocks, spans, block, start, remaining, hits :=
        Step(lines, distance, sought, i, blocks, spans, block, start, remaining, hits);
      i := i + 1;
    }
    EmittedWeaken(lines, distance, sought, blocks, spans, if block == [] then i else start, |lines|);
    PendingDone(lines, distance, sought, block, start, remaining);
  }

  // ---------------------------------------------------------------- main

  /** The blocks of each file, in sorted path order, with their spans. */
  datatype Report = Report(paths: seq<string>, blocks: seq<seq<seq<string>>>, spans: seq<seq<(nat, nat)>>)

  /** How a run ends: the usage message when no word is sought, `int`
      raising on a digit-led argument, or the blocks found. */
  datatype Outcome = Usage | BadDistance | Done(report: Report)

  /** The blocks and spans `find_blocks` gives for a file's lines: valid
      blocks, at exactly the spans the reference scan emits. */
  ghost predicate Scanned(lines: seq<string>, distance: int, sought: seq<string>,
                          blocks: seq<seq<string>>, spans: seq<(nat, nat)>) {
    Emitted(lines, distance, sought, blocks, spans, |lines|) && spans == Greedy(lines, distance, sought, 0)
  }

  /** `ok` holds of the entry of every path, the entries in path order. */
  ghost predicate FilesEmitted(paths: seq<string>, blocks: seq<seq<seq<string>>>, spans: seq<seq<(nat, nat)>>,
                               ok: (string, seq<seq<string>>, seq<(nat, nat)>) -> bool)
    decreases |paths|
  {
    |blocks| == |spans| == |paths| &&
    (paths != [] ==>
      var k := |paths| - 1;
      FilesEmitted(paths[..k], blocks[..k], spans[..k], ok) && ok(paths[k], blocks[k], spans[k]))
  }

  /** What `find_blocks` gives for the file at a path. */
  ghost function ScannedFile(read: string -> string, distance: int, sought: seq<string>):
    (string, seq<seq<string>>, seq<(nat, nat)>) -> bool
  {
    (p: string, b: seq<seq<string>>, s: seq<(nat, nat)>) => Scanned(LinesOf(read(p)), distance, sought, b, s)
  }

  /** Entries gathered one path at a time all satisfy `ok`. */
  lemma {:induction false} FilesEmittedEach(paths: seq<string>, blocks: seq<seq<seq<string>>>, spans: seq<seq<(nat, nat)>>,
                                           ok: (string, seq<seq<string>>, seq<(nat, nat)>) -> bool)
    requires FilesEmitted(paths, blocks, spans, ok)
    ensures |blocks| == |spans| == |paths|
    ensures forall i :: 0 <= i < |paths| ==> ok(paths[i], blocks[i], spans[i])
    decreases |paths|
  {
    if paths != [] {
      var k := |paths| - 1;
      FilesEmittedEach(paths[..k], blocks[..k], spans[..k], ok);
      assert forall i :: 0 <= i < k ==> paths[..k][i] == paths[i] && blocks[..k][i] == blocks[i] && spans[..k][i] == spans[i];
    }
  }

  /** The loop of `main` over the sorted paths: each file's blocks and
      spans, as `find_blocks` gives them. */
  method BlocksOfFiles(paths: seq<string>, read: string -> string, distance: int, sought: seq<string>)
    returns (blocks: seq<seq<seq<string>>>, spans: seq<seq<(nat, nat)>>)
    ensures |blocks| == |spans| == |paths|
    ensures forall i :: 0 <= i < |paths| ==> Scanned(LinesOf(read(paths[i])), distance, sought, blocks[i], spans[i])
  {
    blocks, spans := [], [];
    var i := 0;
    while i < |paths|
      invariant 0 <= i <= |paths|
      invariant FilesEmitted(paths[..i], blocks, spans, ScannedFile(read, distance, sought))
    {
      var lines := LinesOf(read(paths[i]));
      var bs, ss := FindBlocks(lines, distance, sought);
      assert paths[..i + 1][..i] == paths[..i] && (blocks + [bs])[..i] == blocks && (spans + [ss])[..i] == spans;
      blocks, spans := blocks + [bs], spans + [ss];
      i := i + 1;
    }
    assert paths[..i] == paths;
    FilesEmittedEach(paths, blocks, spans, ScannedFile(read, distance, sought));
  }

  /** `main` of `grepblocks.py`. */
  method Run(top: seq<Entry>, args: seq<string>, read: string -> string) returns (out: Outcome)
    ensures out.BadDistance? <==> ParseArgs(args, Args(DefaultDistance, [])).None?
    ensures out.Usage? <==>
      ParseArgs(args, Args(DefaultDistance, [])).Some? && ParseArgs(args, Args(DefaultDistance, [])).value.sought == []
    ensures out.Done? ==>
      var a := ParseArgs(args, Args(DefaultDistance, [])).value;
      var r := out.report;
      Sorted(r.paths) &&
      (forall p :: p in r.paths <==> exists n :: (p, n) in FoundPairs("", top, InvalidPrefixes, ValidSuffixes, [])) &&
      |r.blocks| == |r.spans| == |r.paths| &&
      forall i :: 0 <= i < |r.paths| ==>
        Scanned(LinesOf(read(r.paths[i])), a.distance, a.sought, r.blocks[i], r.spans[i])
  {
    match ParseArgs(args, Args(DefaultDistance, []))
    case None =>
      out := BadDistance;
    case Some(a) =>
      if a.sought == [] {
        out := Usage;
      } else {
        var found := Kept(top, InvalidPrefixes, ValidSuffixes);
        var paths := SortedPaths(found);
        var blocks, spans := BlocksOfFiles(paths, read, a.distance, a.sought);
        out := Done(Report(paths, blocks, spans));
      }
  }
}

=== FILE: loc.dfy ===
/**
 `loc.py`: the source files below the working directory, in sorted
 path order, and the lines, bytes and files they add up to. File
 contents come from a reader function; the working directory is the
 entry list `os.listdir(".")` returns.
 */
module Loc {
  import opened Strings
  import opened Sorting
  import opened FsTree
  import opened SourceFiles

  /** `Valid_Suffixes` of `loc.py` (the commented-out ones excluded). */
  const ValidSuffixes: seq<string> :=
    [".c", ".h", ".cc", ".cpp", ".hh", ".hpp", ".c++", ".h++", ".go", ".java", ".py", ".pl"]

  /** The prefixes skipped: `vendor` stops being skipped when `vendor`
      or `+vendor` is among the arguments. */
  function Prefixes(args: seq<string>): (ps: seq<string>)
    ensures ".git" in ps && ".svn" in ps
    ensures forall p :: p in ps ==> p in InvalidPrefixes
    ensures "vendor" in ps <==> "vendor" !in args && "+vendor" !in args
  {
    if "vendor" in args || "+vendor" in args then [".git", ".svn"] else InvalidPrefixes
  }

  /** A vendored name is skipped exactly when vendoring was not asked for. */
  lemma VendorSkipped(args: seq<string>, name: string)
    requires "vendor" <= name
    ensures HasPrefix(name, Prefixes(args)) <==> "vendor" !in args && "+vendor" !in args
  {
    var ps := Prefixes(args);
    HasPrefixIff(name, ps);
    if "vendor" in ps {
      var i :| 0 <= i < |ps| && ps[i] == "vendor";
      assert ps[i] <= name;
    } else {
      assert ps == [".git", ".svn"];
      assert name[0] == 'v';
      assert !(ps[0] <= name) && !(ps[1] <= name);
    }
  }

  /** What the tool reports. */
  datatype Report = Report(paths: seq<string>, files: nat, lines: nat, bytes: nat)

  /** `main` of `loc.py`: every source path is listed once, in order, and
      the totals are those of the listed files' contents. */
  method Run(top: seq<Entry>, args: seq<string>, read: string -> string) returns (r: Report)
    ensures Sorted(r.paths)
    ensures forall p :: p in r.paths <==> exists n :: (p, n) in FoundPairs("", top, Prefixes(args), ValidSuffixes, [])
    ensures (r.files, r.lines, r.bytes) == Totals(Contents(read, r.paths))
    ensures r.files == |r.paths|
    ensures r.bytes == |Concat(Contents(read, r.paths))|
  {
    var found := Kept(top, Prefixes(args), ValidSuffixes);
    var paths := SortedPaths(found);
    var files, lines, bytes := Tally(Contents(read, paths));
    r := Report(paths, files, lines, bytes);
  }
}

=== FILE: modes.dfy ===
/**
 The `ls -l` style permission string of `get_mode_str`: a type letter
 followed by read, write and execute flags for owner, group and others.
 */
module Modes {

  /** The permission bits `stat.S_IRUSR` ... `stat.S_IXOTH`, in the order
      their letters appear; slot 0 is the type letter and has no bit. */
  const PermBits: seq<bv16> := [0, 0x100, 0x80, 0x40, 0x20, 0x10, 0x8, 0x4, 0x2, 0x1]

  /** The letter each slot shows when its bit is set. */
  const Letters: string := "drwxrwxrwx"

  /** One slot: its letter when the bit is set in `mode`, `-` otherwise. */
  function Flag(mode: bv16, bit: bv16, letter: char): char {
    if mode & bit != 0 then letter else '-'
  }

  /** `get_mode_str(path)` for an object whose `st_mode` permission bits
      are `mode`. */
  function ModeStr(isDir: bool, mode: bv16): (s: string)
    ensures |s| == 10
    ensures s[0] == 'd' <==> isDir
    ensures s[0] == '-' <==> !isDir
  {
    [if isDir then 'd' else '-',
     Flag(mode, 0x100, 'r'),
     Flag(mode, 0x80, 'w'),
     Flag(mode, 0x40, 'x'),
     Flag(mode, 0x20, 'r'),
     Flag(mode, 0x10, 'w'),
     Flag(mode, 0x8, 'x'),
     Flag(mode, 0x4, 'r'),
     Flag(mode, 0x2, 'w'),
     Flag(mode, 0x1, 'x')]
  }

  /** Slot `i` shows its letter iff its bit is set, and `-` otherwise. */
  lemma ModeStrSlot(d: bool, m: bv16, i: int)
    requires 1 <= i < 10
    ensures ModeStr(d, m)[i] == Flag(m, PermBits[i], Letters[i])
  {
    var s := ModeStr(d, m);
    if i == 1 { assert s[1] == Flag(m, PermBits[1], Letters[1]); }
    else if i == 2 { assert s[2] == Flag(m, PermBits[2], Letters[2]); }
    else if i == 3 { assert s[3] == Flag(m, PermBits[3], Letters[3]); }
    else if i == 4 { assert s[4] == Flag(m, PermBits[4], Letters[4]); }
    else if i == 5 { assert s[5] == Flag(m, PermBits[5], Letters[5]); }
    else if i == 6 { assert s[6] == Flag(m, PermBits[6], Letters[6]); }
    else if i == 7 { assert s[7] == Flag(m, PermBits[7], Letters[7]); }
    else if i == 8 { assert s[8] == Flag(m, PermBits[8], Letters[8]); }
    else { assert s[9] == Flag(m, PermBits[9], Letters[9]); }
  }

  /** The whole string, slot by slot. */
  lemma ModeStrSlots(isDir: bool, mode: bv16)
    ensures forall i :: 1 <= i < 10 ==> (ModeStr(isDir, mode)[i] == Letters[i] <==> mode & PermBits[i] != 0)
    ensures forall i :: 1 <= i < 10 ==> (ModeStr(isDir, mode)[i] == '-' <==> mode & PermBits[i] == 0)
  {
    assert forall i :: 1 <= i < 10 ==> Letters[i] != '-';
    forall i | 1 <= i < 10
      ensures ModeStr(isDir, mode)[i] == Letters[i] <==> mode & PermBits[i] != 0
      ensures ModeStr(isDir, mode)[i] == '-' <==> mode & PermBits[i] == 0
    {
      ModeStrSlot(isDir, mode, i);
    }
  }

  /** A mode string never holds a space, so it reads back as one field. */
  lemma ModeStrNoSpace(isDir: bool, mode: bv16)
    ensures ' ' !in ModeStr(isDir, mode)
  {
    var s := ModeStr(isDir, mode);
    forall i | 1 <= i < 10
      ensures s[i] != ' '
    {
      ModeStrSlot(isDir, mode, i);
    }
  }

  /** Reading a mode string back: the type and the nine permission bits. */
  function ParseMode(s: string): (r: (bool, bv16))
    requires |s| == 10
    ensures r.1 & 0xFE00 == 0
  {
    (s[0] == 'd',
     (if s[1] != '-' then 0x100 else 0) | (if s[2] != '-' then 0x80 else 0) |
     (if s[3] != '-' then 0x40 else 0) | (if s[4] != '-' then 0x20 else 0) |
     (if s[5] != '-' then 0x10 else 0) | (if s[6] != '-' then 0x8 else 0) |
     (if s[7] != '-' then 0x4 else 0) | (if s[8] != '-' then 0x2 else 0) |
     (if s[9] != '-' then 0x1 else 0))
  }

  /** The string keeps exactly the type and the nine permission bits:
      everything else in `st_mode` (set-id, sticky) is dropped. */
  lemma ModeRoundTrip(isDir: bool, mode: bv16)
    ensures ParseMode(ModeStr(isDir, mode)) == (isDir, mode & 0x1FF)
  {
  }

  /** Bits above the nine permission bits do not show. */
  lemma ModeStrMasked(isDir: bool, mode: bv16)
    ensures ModeStr(isDir, mode) == ModeStr(isDir, mode & 0x1FF)
  {
    var m := mode & 0x1FF;
    assert mode & 0x100 == m & 0x100 && mode & 0x80 == m & 0x80 && mode & 0x40 == m & 0x40;
    assert mode & 0x20 == m & 0x20 && mode & 0x10 == m & 0x10 && mode & 0x8 == m & 0x8;
    assert mode & 0x4 == m & 0x4 && mode & 0x2 == m & 0x2 && mode & 0x1 == m & 0x1;
  }

  /** Two objects print the same mode string iff they agree on type and
      on the nine permission bits. */
  lemma ModeStrInjective(d1: bool, m1: bv16, d2: bool, m2: bv16)
    ensures ModeStr(d1, m1) == ModeStr(d2, m2) <==> d1 == d2 && m1 & 0x1FF == m2 & 0x1FF
  {
    ModeRoundTrip(d1, m1);
    ModeRoundTrip(d2, m2);
    if d1 == d2 && m1 & 0x1FF == m2 & 0x1FF {
      ModeStrMasked(d1, m1);
      ModeStrMasked(d2, m2);
    }
  }
}

=== FILE: numbers.dfy ===
/**
 Decimal integers as the tools read them with `int(arg)`: whitespace
 around, an optional sign, then one or more digits.
 */
module Numbers {
  import opened Wrappers
  import opened Strings

  predicate IsDigit(c: char) {
    '0' <= c <= '9'
  }

  predicate AllDigits(s: string) {
    forall i :: 0 <= i < |s| ==> IsDigit(s[i])
  }

  /** The value of a string of digits, most significant first. */
  function DigitsValue(s: string): nat
    requires AllDigits(s)
  {
    if s == [] then 0 else 10 * DigitsValue(s[..|s| - 1]) + (s[|s| - 1] as int - '0' as int)
  }

  /** The decimal digits of `n`, without leading zeros. */
  function Decimal(n: nat): (s: string)
    ensures s != [] && AllDigits(s)
    ensures |s| > 1 ==> s[0] != '0'
  {
    var d := ('0' as int + n % 10) as char;
    if n < 10 then [d] else Decimal(n / 10) + [d]
  }

  /** Reading back the digits of `n` gives `n`. */
  lemma {:induction false} DecimalValue(n: nat)
    ensures DigitsValue(Decimal(n)) == n
  {
    var s := Decimal(n);
    if n >= 10 {
      DecimalValue(n / 10);
      assert s[..|s| - 1] == Decimal(n / 10);
    }
  }

  /** A sign and digits, nothing else. */
  function ParseSigned(s: string): (r: Option<int>)
    ensures r.Some? ==> s != []
  {
    if s != [] && (s[0] == '-' || s[0] == '+') && |s| > 1 && AllDigits(s[1..]) then
      var v: int := DigitsValue(s[1..]);
      Some(if s[0] == '-' then -v else v)
    else if s != [] && AllDigits(s) then Some(DigitsValue(s))
    else None
  }

  /** `int(s)`; `None` where it raises `ValueError`. */
  function ParseInt(s: string): Option<int> {
    ParseSigned(Strip(s))
  }

  /** `str(i)`. */
  function ShowInt(i: int): (s: string)
    ensures IsWord(s)
  {
    var s := if i < 0 then "-" + Decimal(-i) else Decimal(i);
    assert forall k :: 0 <= k < |s| ==> s[k] == '-' || IsDigit(s[k]);
    s
  }

  /** The sign and digits of `str(i)` read back as `i`. */
  lemma ParseSignedShow(i: int)
    ensures ParseSigned(ShowInt(i)) == Some(i)
  {
    var s := ShowInt(i);
    if i < 0 {
      DecimalValue(-i);
      assert s[1..] == Decimal(-i);
      assert s[0] == '-' && |s| > 1 && AllDigits(s[1..]);
    } else {
      DecimalValue(i);
      assert !(s[0] == '-' || s[0] == '+') && AllDigits(s);
    }
  }

  /** `int(str(i)) == i`, whatever whitespace surrounds it. */
  lemma ParseShow(i: int, before: string, after: string)
    requires AllSpace(before) && AllSpace(after)
    ensures ParseInt(before + ShowInt(i) + after) == Some(i)
  {
    StripPadded(before, ShowInt(i), after);
    ParseSignedShow(i);
  }
}

=== FILE: s3viewer.dfy ===
/**
 `s3viewer.py`: a menu over an S3 bucket. Each menu lists the folders
 and files that `aws s3 ls` reports for the current path; a choice
 enters a folder, shows a file name, or goes back up. The command's
 output is a parameter (`popen` maps a command line to its output
 lines), and so is the sequence of answers typed at the prompt.
 */
module S3Viewer {
  import opened Wrappers
  import opened Strings
  import opened Numbers

  // ------------------------------------------------------------ commands

  /** The command run to list a path, and the one printed after a move. */
  const CmdFmt: string := "aws s3 ls {PATH} 2>/dev/null"
  const CmdFmtPretty: string := "aws s3 ls {PATH}"
  const Placeholder: string := "{PATH}"

  /** A non-empty path without the `s3://` scheme gets it. */
  function Qualify(path: string): (p: string)
    ensures path != "" ==> "s3://" <= p
    ensures p == "" <==> path == ""
  {
    if path != "" && !StartsWith(path, "s3://") then "s3://" + path else path
  }

  /** `cmdfmt`: the path, qualified and single-quoted, put in place of
      `{PATH}`; an empty path just removes the placeholder. */
  function Command(path: string, fmt: string): string {
    var p := Qualify(path);
    if p != "" then ReplaceAll(fmt, Placeholder, "'" + p + "'") else ReplaceAll(fmt, Placeholder, "")
  }

  /** Qualifying twice changes nothing. */
  lemma QualifyIdempotent(path: string)
    ensures Qualify(Qualify(path)) == Qualify(path)
  {
    StartsWithIsPrefix(Qualify(path), "s3://");
  }

  /** Writing the scheme out or leaving it off gives the same command. */
  lemma CommandScheme(path: string, fmt: string)
    requires path != "" && !("s3://" <= path)
    ensures Command(path, fmt) == Command("s3://" + path, fmt)
  {
    StartsWithIsPrefix(path, "s3://");
    StartsWithIsPrefix("s3://" + path, "s3://");
  }

  /** A string without `{` holds no placeholder. */
  lemma NoPlaceholder(s: string, i: int)
    requires '{' !in s
    ensures !OccursAt(s, Placeholder, i)
  {
    if 0 <= i && i + |Placeholder| <= |s| {
      assert s[i..i + |Placeholder|][0] == s[i];
      assert s[i] in s;
    }
  }

  /** A string without `{` has no placeholder to find. */
  lemma NoPlaceholderFound(s: string)
    requires '{' !in s
    ensures Find(s, Placeholder) == -1
  {
    var r := Find(s, Placeholder);
    if r != -1 {
      NoPlaceholder(s, r);
    }
  }

  /** The first placeholder is the one after `pre`. */
  lemma FindPlaceholder(pre: string, post: string)
    requires '{' !in pre
    ensures Find(pre + Placeholder + post, Placeholder) == |pre|
  {
    var s := pre + Placeholder + post;
    assert s[|pre|..|pre| + |Placeholder|] == Placeholder;
    assert OccursAt(s, Placeholder, |pre|);
    forall i | 0 <= i < |pre|
      ensures !OccursAt(s, Placeholder, i)
    {
      assert s[i..i + |Placeholder|][0] == pre[i];
      assert pre[i] in pre;
    }
    var r := Find(s, Placeholder);
    assert r != -1;
    assert r >= |pre|;
  }

  /** Replacing the one placeholder of a format without other `{`. */
  lemma ReplaceOnce(pre: string, post: string, rep: string)
    requires '{' !in pre && '{' !in post
    ensures ReplaceAll(pre + Placeholder + post, Placeholder, rep) == pre + rep + post
  {
    var s := pre + Placeholder + post;
    FindPlaceholder(pre, post);
    NoPlaceholderFound(post);
    assert s[..|pre|] == pre;
    assert s[|pre| + |Placeholder|..] == post;
  }

  /** The listing command, written out: the quoted path or nothing. */
  lemma CommandText(path: string)
    ensures Command(path, CmdFmt) ==
      "aws s3 ls " + (if path == "" then "" else "'" + Qualify(path) + "'") + " 2>/dev/null"
    ensures Command(path, CmdFmtPretty) ==
      "aws s3 ls " + (if path == "" then "" else "'" + Qualify(path) + "'")
  {
    assert CmdFmt == "aws s3 ls " + Placeholder + " 2>/dev/null";
    assert CmdFmtPretty == "aws s3 ls " + Placeholder + "";
    var rep := if path == "" then "" else "'" + Qualify(path) + "'";
    ReplaceOnce("aws s3 ls ", " 2>/dev/null", rep);
    ReplaceOnce("aws s3 ls ", "", rep);
  }

  // ------------------------------------------------------------ listing

  /** One menu entry: date, time, size (`None` for a three-token folder
      line, empty for a `PRE` line) and name. */
  datatype Item = Item(date: string, time: string, size: Option<string>, name: string)

  /** What a line of `aws s3 ls` output is taken for. */
  datatype Listed = Folder(item: Item) | File(item: Item) | Unknown(line: string)

  /** A folder name loses one trailing `/`. */
  function DropSlash(s: string): (r: string)
    ensures s != [] && s[|s| - 1] == '/' ==> s == r + "/"
    ensures !(s != [] && s[|s| - 1] == '/') ==> r == s
  {
    if s != [] && s[|s| - 1] == '/' then s[..|s| - 1] else s
  }

  /** The line without its trailing newline. */
  function Chomp(raw: string): string {
    if raw != [] && raw[|raw| - 1] == '\n' then raw[..|raw| - 1] else raw
  }

  /** The body of the loop in `ls`: a `PRE name/` line and a three-token
      line are folders, a line of four or more tokens is a file named by
      everything after the size token and one more character. */
  function ParseLine(raw: string): Listed {
    var line := Chomp(raw);
    var parts := Split(line);
    Classify(line, parts, SizeAt(line, parts))
  }

  /** Where the size token is searched for: past the date, the time and
      one character after each. */
  function SizeAt(line: string, parts: seq<string>): int {
    if |parts| >= 4 then FindFrom(line, parts[2], |parts[0]| + 1 + |parts[1]| + 1) else -1
  }

  /** The branches of that body, on the line, its tokens and where the
      size token was found. */
  function Classify(line: string, parts: seq<string>, pos: int): Listed {
    if |parts| >= 4 then
      if pos > 0 then File(Item(parts[0], parts[1], Some(parts[2]), SliceFrom(line, pos + |parts[2]| + 1)))
      else Unknown(line)
    else if |parts| == 3 then
      Folder(Item(parts[0], parts[1], None, DropSlash(parts[2])))
    else if |parts| == 2 && parts[0] == "PRE" then
      Folder(Item("", "", Some(""), DropSlash(Strip(parts[1]))))
    else Unknown(line)
  }

  /** A file line as `aws s3 ls` prints it: date, time, spaces, size,
      one space, then the name. */
  function FileLine(date: string, time: string, sp: string, size: string, name: string): string {
    date + (" " + (time + (sp + (size + (" " + name)))))
  }

  lemma FileLineSplit(date: string, time: string, sp: string, size: string, name: string)
    requires IsWord(date) && IsWord(time) && IsWord(size)
    requires sp != [] && AllSpace(sp)
    ensures Split(FileLine(date, time, sp, size, name)) == [date, time, size] + Split(name)
  {
    var t3 := size + (" " + name);
    var t2 := time + (sp + t3);
    SplitWordThen(size, " ", name);
    SplitWordThen(time, sp, t3);
    SplitWordThen(date, " ", t2);
    ConsThree(date, time, size, Split(name));
  }

  lemma ConsThree(a: string, b: string, c: string, rest: seq<string>)
    ensures [a] + ([b] + ([c] + rest)) == [a, b, c] + rest
  {
  }

  /** Searching a file line from inside the spaces before the size
      finds the size, and the name follows it after one character. */
  lemma FindSize(date: string, time: string, sp: string, size: string, name: string, start: nat)
    requires IsWord(size) && AllSpace(sp)
    requires |date| + 1 + |time| <= start <= |date| + 1 + |time| + |sp|
    ensures FindFrom(FileLine(date, time, sp, size, name), size, start) == |date| + 1 + |time| + |sp|
    ensures FileLine(date, time, sp, size, name)[|date| + 1 + |time| + |sp| + |size| + 1..] == name
  {
    var s := FileLine(date, time, sp, size, name);
    var pre := |date| + 1 + |time|;
    var at := pre + |sp|;
    assert s[pre..] == sp + (size + (" " + name));
    assert s[at..] == size + (" " + name);
    assert s[at..at + |size|] == size;
    assert s[at + |size| + 1..] == name;
    forall i | start <= i < at
      ensures !OccursAt(s, size, i)
    {
      assert s[i] == sp[i - pre];
      assert s[i..i + |size|][0] == s[i];
    }
    var r := FindFrom(s, size, start);
    assert OccursAt(s, size, at);
    assert !(r < at);
    assert !(r > at);
  }

  /** A line of four or more tokens whose size token is found past the
      date and time is a file named by what follows the size and one
      more character. */
  lemma ParseFile(line: string, date: string, time: string, size: string, rest: seq<string>, pos: int)
    requires rest != [] && pos > 0
    ensures Classify(line, [date, time, size] + rest, pos) ==
      File(Item(date, time, Some(size), SliceFrom(line, pos + |size| + 1)))
  {
    var ws := [date, time, size] + rest;
    assert ws[0] == date && ws[1] == time && ws[2] == size;
  }

  /** The size of a line of four or more tokens is searched for past
      the date, the time and one space. */
  lemma SizeSearched(line: string, date: string, time: string, size: string, rest: seq<string>)
    requires rest != []
    ensures SizeAt(line, [date, time, size] + rest) == FindFrom(line, size, |date| + 1 + |time| + 1)
  {
    var ws := [date, time, size] + rest;
    assert ws[0] == date && ws[1] == time && ws[2] == size;
  }

  /** `ParseLine` is `Classify` on the chomped line, its tokens and the
      size position. */
  lemma ParseLineIs(raw: string, line: string, ws: seq<string>)
    requires Chomp(raw) == line && Split(line) == ws
    ensures ParseLine(raw) == Classify(line, ws, SizeAt(line, ws))
  {
  }

  /** A file line ends as its name does, so it has no newline to lose. */
  lemma FileLineChomp(date: string, time: string, sp: string, size: string, name: string)
    requires name != [] && name[|name| - 1] != '\n'
    ensures Chomp(FileLine(date, time, sp, size, name)) == FileLine(date, time, sp, size, name)
  {
    var line := FileLine(date, time, sp, size, name);
    assert line[|line| - 1] == name[|name| - 1];
  }

  /** `ParseLine` of a file line is `Classify` of its tokens. */
  lemma FileLineClassify(date: string, time: string, sp: string, size: string, name: string)
    requires IsWord(date) && IsWord(time) && IsWord(size)
    requires sp != [] && AllSpace(sp)
    requires name != [] && name[|name| - 1] != '\n'
    ensures ParseLine(FileLine(date, time, sp, size, name)) ==
      Classify(FileLine(date, time, sp, size, name), [date, time, size] + Split(name),
        SizeAt(FileLine(date, time, sp, size, name), [date, time, size] + Split(name)))
  {
    FileLineChomp(date, time, sp, size, name);
    FileLineSplit(date, time, sp, size, name);
    ParseLineIs(FileLine(date, time, sp, size, name), FileLine(date, time, sp, size, name),
      [date, time, size] + Split(name));
  }

  /** The size of a file line is found right after its spaces, and the
      name follows it after one character. */
  lemma FileLineSize(date: string, time: string, sp: string, size: string, name: string)
    requires IsWord(size) && AllSpace(sp) && sp != [] && Split(name) != []
    ensures SizeAt(FileLine(date, time, sp, size, name), [date, time, size] + Split(name)) ==
      |date| + 1 + |time| + |sp|
    ensures SliceFrom(FileLine(date, time, sp, size, name),
      SizeAt(FileLine(date, time, sp, size, name), [date, time, size] + Split(name)) + |size| + 1) == name
  {
    var line := FileLine(date, time, sp, size, name);
    var at := |date| + 1 + |time| + |sp|;
    FindSize(date, time, sp, size, name, |date| + 1 + |time| + 1);
    SizeSearched(line, date, time, size, Split(name));
    assert |line| == at + |size| + 1 + |name|;
  }

  /** The tokens of a file line, with the size where it is found,
      classify as that file. */
  lemma FileLineFile(date: string, time: string, sp: string, size: string, name: string)
    requires IsWord(size) && AllSpace(sp) && sp != [] && Split(name) != []
    ensures Classify(FileLine(date, time, sp, size, name), [date, time, size] + Split(name),
      SizeAt(FileLine(date, time, sp, size, name), [date, time, size] + Split(name))) ==
      File(Item(date, time, Some(size), name))
  {
    var line := FileLine(date, time, sp, size, name);
    var rest := Split(name);
    var pos := SizeAt(line, [date, time, size] + rest);
    FileLineSize(date, time, sp, size, name);
    ParseFileAt(line, date, time, size, rest, pos, name);
  }

  /** `ParseFile` with the name the slice gives. */
  lemma ParseFileAt(line: string, date: string, time: string, size: string, rest: seq<string>, pos: int, name: string)
    requires rest != [] && pos > 0
    requires SliceFrom(line, pos + |size| + 1) == name
    ensures Classify(line, [date, time, size] + rest, pos) == File(Item(date, time, Some(size), name))
  {
    ParseFile(line, date, time, size, rest, pos);
  }

  /** A file line as `aws s3 ls` prints it gives back the file's name,
      whatever spaces the name holds. */
  lemma FileName(date: string, time: string, sp: string, size: string, name: string)
    requires IsWord(date) && IsWord(time) && IsWord(size)
    requires sp != [] && AllSpace(sp)
    requires Split(name) != []
    requires name[|name| - 1] != '\n'
    ensures ParseLine(FileLine(date, time, sp, size, name)) == File(Item(date, time, Some(size), name))
  {
    FileLineClassify(date, time, sp, size, name);
    FileLineFile(date, time, sp, size, name);
  }

  /** What each line of the output is taken for. */
  function Parse(lines: seq<string>): (ps: seq<Listed>)
    ensures |ps| == |lines|
    ensures forall j :: 0 <= j < |lines| ==> ps[j] == ParseLine(lines[j])
  {
    seq(|lines|, (j: nat) requires j < |lines| => ParseLine(lines[j]))
  }

  /** The loop of `ls`: the folders and the files, each in order. */
  function Collect(ps: seq<Listed>): (r: (seq<Item>, seq<Item>))
    ensures |r.0| + |r.1| <= |ps|
  {
    if ps == [] then ([], [])
    else
      var r := Collect(ps[..|ps| - 1]);
      match ps[|ps| - 1]
      case Folder(f) => (r.0 + [f], r.1)
      case File(f) => (r.0, r.1 + [f])
      case Unknown(_) => r
  }

  /** The folders collected are those of the folder lines, the files
      those of the file lines. */
  lemma {:induction false} Collected(ps: seq<Listed>, f: Item)
    ensures f in Collect(ps).0 <==> Folder(f) in ps
    ensures f in Collect(ps).1 <==> File(f) in ps
  {
    if ps != [] {
      var init := ps[..|ps| - 1];
      Collected(init, f);
      assert ps == init + [ps[|ps| - 1]];
    }
  }

  /** `ls` on the output lines of its command. */
  function Listing(lines: seq<string>): (seq<Item>, seq<Item>) {
    Collect(Parse(lines))
  }

  /** The listing of a path: the output of its listing command. */
  function Ls(path: string, popen: string -> seq<string>): (seq<Item>, seq<Item>) {
    Listing(popen(Command(path, CmdFmt)))
  }

  // --------------------------------------------------------- navigation

  /** What an answer at the prompt does. `Quit` is the `except` branch:
      an answer `int()` rejects, or a negative choice past the folders. */
  datatype Move = Exit | Up | Enter(name: string) | Show(name: string) | Invalid | Quit

  /** The choice `num` against a menu of `folders` then `files`,
      numbered from 1; negative choices index the folders from the end,
      as Python lists do. */
  function Decide(levels: seq<string>, folders: seq<Item>, files: seq<Item>, num: int): Move {
    if num == 0 then (if levels == [] then Exit else Up)
    else
      var k := num - 1;
      if k < |folders| then
        if k >= 0 then Enter(folders[k].name)
        else if k >= -|folders| then Enter(folders[|folders| + k].name)
        else Quit
      else if k - |folders| < |files| then Show(files[k - |folders|].name)
      else Invalid
  }

  /** An answer line, read and converted by `int()`. */
  function Choose(levels: seq<string>, folders: seq<Item>, files: seq<Item>, answer: string): Move {
    match ParseInt(answer)
    case None => Quit
    case Some(num) => Decide(levels, folders, files, num)
  }

  /** The numbering the menu prints: entry `c` is item `c - 1` of the
      folders followed by the files. */
  lemma DecideMenu(levels: seq<string>, folders: seq<Item>, files: seq<Item>, c: int)
    requires 1 <= c <= |folders| + |files|
    ensures var menu := folders + files;
      Decide(levels, folders, files, c) ==
        if c <= |folders| then Enter(menu[c - 1].name) else Show(menu[c - 1].name)
  {
  }

  /** Past the menu a choice is invalid; before it only 0 goes back. */
  lemma DecideOutside(levels: seq<string>, folders: seq<Item>, files: seq<Item>, c: int)
    ensures c > |folders| + |files| ==> Decide(levels, folders, files, c) == Invalid
    ensures c < 0 && c < 1 - |folders| ==> Decide(levels, folders, files, c) == Quit
    ensures c == 0 ==> Decide(levels, folders, files, c) == (if levels == [] then Exit else Up)
    ensures 1 - |folders| <= c < 0 ==> Decide(levels, folders, files, c) == Enter(folders[|folders| + c - 1].name)
  {
  }

  /** The levels after a move: `cd ..` or `cd name`. */
  function Apply(levels: seq<string>, m: Move): (r: seq<string>)
    requires m.Up? ==> levels != []
  {
    match m
    case Up => levels[..|levels| - 1]
    case Enter(name) => levels + [name]
    case _ => levels
  }

  /** Going up undoes entering. */
  lemma UpUndoesEnter(levels: seq<string>, name: string)
    ensures Apply(Apply(levels, Enter(name)), Up) == levels
  {
  }

  /** The path of the levels: joined by `/`, with a `/` added unless it
      is empty or already ends with one. */
  function PathOf(levels: seq<string>): string {
    var p := Join(levels, "/");
    if p != "" && p[|p| - 1] != '/' then p + "/" else p
  }

  /** Every level followed by `/`. */
  function Slashed(levels: seq<string>): string {
    if levels == [] then "" else levels[0] + "/" + Slashed(levels[1..])
  }

  lemma {:induction false} JoinSlashed(levels: seq<string>)
    requires levels != []
    ensures Join(levels, "/") + "/" == Slashed(levels)
  {
    if |levels| > 1 {
      JoinSlashed(levels[1..]);
    }
  }

  lemma {:induction false} JoinEnds(levels: seq<string>)
    requires levels != []
    ensures |Join(levels, "/")| >= |levels[|levels| - 1]|
    ensures Join(levels, "/")[|Join(levels, "/")| - |levels[|levels| - 1]|..] == levels[|levels| - 1]
  {
    if |levels| > 1 {
      JoinEnds(levels[1..]);
      var j := Join(levels[1..], "/");
      var last := levels[|levels| - 1];
      assert Join(levels, "/") == levels[0] + "/" + j;
      assert (levels[0] + "/" + j)[|levels[0] + "/" + j| - |last|..] == j[|j| - |last|..];
    }
  }

  /** When the last level is a plain name, the path is every level
      followed by one `/`: the top is the empty path. */
  lemma PathOfLevels(levels: seq<string>)
    requires levels != [] ==> levels[|levels| - 1] != "" && levels[|levels| - 1][|levels[|levels| - 1]| - 1] != '/'
    ensures PathOf(levels) == Slashed(levels)
  {
    if levels != [] {
      JoinSlashed(levels);
      JoinEnds(levels);
      var p := Join(levels, "/");
      var last := levels[|levels| - 1];
      assert p[|p| - 1] == p[|p| - |last|..][|last| - 1];
    }
  }

  /** The names of the items. */
  function Names(items: seq<Item>): (ns: seq<string>)
    ensures |ns| == |items|
    ensures forall i :: 0 <= i < |items| ==> ns[i] == items[i].name
  {
    seq(|items|, (i: nat) requires i < |items| => items[i].name)
  }

  /** The listing of every path, as `Ls` computes it from the output of
      the listing command: folders, then files. */
  type Lister = string -> (seq<Item>, seq<Item>)

  /** The folder names the menu of a path shows. */
  function FolderNames(path: string, ls: Lister): seq<string> {
    Names(ls(path).0)
  }

  /** Every level is a folder the listing of its parent path showed. */
  ghost predicate Reachable(levels: seq<string>, ls: Lister) {
    forall i :: 0 <= i < |levels| ==> levels[i] in FolderNames(PathOf(levels[..i]), ls)
  }

  lemma ReachableEnter(levels: seq<string>, ls: Lister, name: string)
    requires Reachable(levels, ls)
    requires name in FolderNames(PathOf(levels), ls)
    ensures Reachable(levels + [name], ls)
  {
    var l := levels + [name];
    forall i | 0 <= i < |l|
      ensures l[i] in FolderNames(PathOf(l[..i]), ls)
    {
      if i < |levels| {
        assert l[..i] == levels[..i];
      } else {
        assert l[..i] == levels;
      }
    }
  }

  lemma ReachableUp(levels: seq<string>, ls: Lister)
    requires levels != [] && Reachable(levels, ls)
    ensures Reachable(levels[..|levels| - 1], ls)
  {
    var l := levels[..|levels| - 1];
    forall i | 0 <= i < |l|
      ensures l[i] in FolderNames(PathOf(l[..i]), ls)
    {
      assert l[..i] == levels[..i];
    }
  }

  /** The move an answer makes at the menu of the current path. */
  function Next(levels: seq<string>, ls: Lister, answer: string): Move {
    var menu := ls(PathOf(levels));
    Choose(levels, menu.0, menu.1, answer)
  }

  /** Only the top exits; a move chosen from the menu of the current
      path keeps every level reachable. */
  lemma NextReachable(levels: seq<string>, ls: Lister, answer: string)
    requires Reachable(levels, ls)
    ensures var m := Next(levels, ls, answer);
      (m.Exit? ==> levels == []) &&
      (m.Up? ==> levels != []) &&
      (m.Enter? ==> m.name in FolderNames(PathOf(levels), ls)) &&
      (m.Up? || m.Enter? ==> Reachable(Apply(levels, m), ls))
  {
    var menu := ls(PathOf(levels));
    var m := Choose(levels, menu.0, menu.1, answer);
    if m.Enter? {
      var num := ParseInt(answer).value;
      var k := num - 1;
      var idx := if k >= 0 then k else |menu.0| + k;
      assert m.name == Names(menu.0)[idx];
      ReachableEnter(levels, ls, m.name);
    } else if m.Up? {
      ReachableUp(levels, ls);
    }
  }

  /** A path the session can get to: that of reachable levels. */
  ghost predicate Visitable(path: string, ls: Lister) {
    exists levels {:trigger Reachable(levels, ls)} :: Reachable(levels, ls) && PathOf(levels) == path
  }

  /** Every path of `vs` is visitable, stated one path at a time from
      the end. */
  ghost predicate AllVisitable(vs: seq<string>, ls: Lister)
    decreases |vs|
  {
    vs != [] ==> AllVisitable(vs[..|vs| - 1], ls) && Visitable(vs[|vs| - 1], ls)
  }

  lemma {:induction false} AllVisitableEach(vs: seq<string>, ls: Lister)
    requires AllVisitable(vs, ls)
    ensures forall j :: 0 <= j < |vs| ==> Visitable(vs[j], ls)
    decreases |vs|
  {
    if vs != [] {
      var k := |vs| - 1;
      AllVisitableEach(vs[..k], ls);
      assert forall j :: 0 <= j < k ==> vs[..k][j] == vs[j];
    }
  }

  /** How a session ends: choice 0 at the top, or the `except` branch
      (which also ends a session whose answers run out). */
  datatype End = Exited | Quitted

  /** One answer of the session: the move chosen from the current
      menu, and the levels and viewed paths after it. */
  method Turn(levels: seq<string>, viewed: seq<string>, ls: Lister, answer: string)
    returns (m: Move, levels': seq<string>, viewed': seq<string>)
    requires Reachable(levels, ls)
    requires AllVisitable(viewed, ls)
    requires |viewed| > 0 ==> viewed[|viewed| - 1] == PathOf(levels)
    ensures m == Next(levels, ls, answer)
    ensures m.Exit? ==> levels == [] && levels' == []
    ensures !(m.Up? || m.Enter?) ==> levels' == levels && viewed' == viewed
    ensures Reachable(levels', ls)
    ensures AllVisitable(viewed', ls)
    ensures |viewed'| > 0 ==> viewed'[|viewed'| - 1] == PathOf(levels')
  {
    m := Next(levels, ls, answer);
    NextReachable(levels, ls, answer);
    if m.Up? || m.Enter? {
      levels' := Apply(levels, m);
      viewed' := viewed + [PathOf(levels')];
      assert viewed'[..|viewed'| - 1] == viewed;
    } else {
      levels', viewed' := levels, viewed;
    }
  }

  /** `main` of `s3viewer.py`, with `ls` the listing of each path: answers
      are taken in turn until one ends the session. The levels only ever
      name folders the menu showed; `viewed` holds the paths whose pretty
      listing command is printed after each move, the last of them the
      current path. */
  method Run(answers: seq<string>, ls: Lister)
    returns (levels: seq<string>, viewed: seq<string>, shown: seq<string>, end: End)
    ensures Reachable(levels, ls)
    ensures end == Exited ==> levels == []
    ensures forall j :: 0 <= j < |viewed| ==> Visitable(viewed[j], ls)
    ensures |viewed| > 0 ==> viewed[|viewed| - 1] == PathOf(levels)
  {
    levels := [];
    viewed := [];
    shown := [];
    var i := 0;
    var done := false;
    end := Quitted;
    while i < |answers| && !done
      invariant 0 <= i <= |answers|
      invariant Reachable(levels, ls)
      invariant !done ==> end == Quitted
      invariant end == Exited ==> levels == []
      invariant AllVisitable(viewed, ls)
      invariant |viewed| > 0 ==> viewed[|viewed| - 1] == PathOf(levels)
      decreases |answers| - i
    {
      var m;
      m, levels, viewed := Turn(levels, viewed, ls, answers[i]);
      i := i + 1;
      if m.Exit? {
        done := true;
        end := Exited;
      } else if m.Quit? {
        done := true;
      } else if m.Show? {
        shown := shown + [m.name];
      }
    }
    AllVisitableEach(viewed, ls);
  }
}

=== FILE: sorting.dfy ===
/**
 Python's ordering of byte strings (`<=` compares byte by byte, a proper
 prefix coming first) and `list.sort()` on lists of strings.
 */
module Sorting {

  /** Python's `a <= b` on byte strings. */
  predicate LexLe(a: string, b: string)
    decreases |a|
  {
    a == [] || (b != [] && (a[0] < b[0] || (a[0] == b[0] && LexLe(a[1..], b[1..]))))
  }

  /** Python's `a < b` on byte strings. */
  predicate LexLt(a: string, b: string) {
    LexLe(a, b) && a != b
  }

  lemma LexLeRefl(a: string)
    ensures LexLe(a, a)
  {
  }

  lemma LexLeTotal(a: string, b: string)
    ensures LexLe(a, b) || LexLe(b, a)
  {
  }

  lemma LexLeAntisym(a: string, b: string)
    requires LexLe(a, b) && LexLe(b, a)
    ensures a == b
  {
    if a != [] && b != [] {
      LexLeAntisym(a[1..], b[1..]);
      assert a == [a[0]] + a[1..] && b == [b[0]] + b[1..];
    }
  }

  lemma LexLeTrans(a: string, b: string, c: string)
    requires LexLe(a, b) && LexLe(b, c)
    ensures LexLe(a, c)
  {
    if a != [] && b != [] && c != [] && a[0] == b[0] && b[0] == c[0] {
      LexLeTrans(a[1..], b[1..], c[1..]);
    }
  }

  /** Between strings of one width, the order of two extensions is
      decided by the width-`|a|` heads whenever those differ. */
  lemma {:induction false} LexLeOfHeads(a: string, b: string, x: string, y: string)
    requires |a| == |b|
    ensures LexLe(a + x, b + y) ==> LexLe(a, b)
    ensures LexLe(a, b) && a != b ==> LexLe(a + x, b + y)
    decreases |a|
  {
    if a != [] {
      assert (a + x)[0] == a[0] && (b + y)[0] == b[0];
      assert (a + x)[1..] == a[1..] + x && (b + y)[1..] == b[1..] + y;
      LexLeOfHeads(a[1..], b[1..], x, y);
      if a[0] == b[0] && a[1..] == b[1..] {
        assert a == [a[0]] + a[1..] && b == [b[0]] + b[1..];
      }
    }
  }

  /** Appending the same tail keeps the order of two strings of one width. */
  lemma LexLeSameTail(a: string, b: string, x: string)
    requires |a| == |b| && LexLe(a, b)
    ensures LexLe(a + x, b + x)
  {
    if a == b {
      LexLeRefl(a + x);
    } else {
      LexLeOfHeads(a, b, x, x);
    }
  }

  /** Ascending under Python's order. */
  predicate Sorted(s: seq<string>) {
    forall i, j :: 0 <= i < j < |s| ==> LexLe(s[i], s[j])
  }

  /** A string no greater than the head of a sorted list extends it. */
  lemma ConsSorted(a: string, t: seq<string>)
    requires Sorted(t)
    requires t != [] ==> LexLe(a, t[0])
    ensures Sorted([a] + t)
  {
    forall j | 0 <= j < |t|
      ensures LexLe(a, t[j])
    {
      if j > 0 {
        LexLeTrans(a, t[0], t[j]);
      }
    }
  }

  /** `x` placed before the first element it does not exceed. */
  function Insert(x: string, s: seq<string>): (r: seq<string>)
    requires Sorted(s)
    ensures Sorted(r)
    ensures multiset(r) == multiset(s) + multiset{x}
    ensures |r| == |s| + 1
    ensures r[0] == x || (s != [] && r[0] == s[0])
  {
    if s == [] then [x]
    else if LexLe(x, s[0]) then
      ConsSorted(x, s);
      [x] + s
    else
      var t := Insert(x, s[1..]);
      LexLeTotal(x, s[0]);
      assert s == [s[0]] + s[1..];
      assert t[0] == x || (|s| > 1 && t[0] == s[1]);
      ConsSorted(s[0], t);
      [s[0]] + t
  }

  /** Python's `sorted(s)`: the same strings, in ascending order. */
  function Sort(s: seq<string>): (r: seq<string>)
    ensures Sorted(r)
    ensures multiset(r) == multiset(s)
    ensures |r| == |s|
  {
    if s == [] then []
    else
      assert s == [s[0]] + s[1..];
      Insert(s[0], Sort(s[1..]))
  }

  /** The string of a sorted list that comes last is at least every
      other element. */
  lemma SortedLast(s: seq<string>, i: int)
    requires Sorted(s) && 0 <= i < |s|
    ensures LexLe(s[i], s[|s| - 1])
  {
    if i == |s| - 1 {
      LexLeRefl(s[i]);
    }
  }

  /** `sorted(d)` for a dictionary with keys `keys`: each key once,
      ascending. */
  method SortedSet(keys: set<string>) returns (ps: seq<string>)
    ensures Sorted(ps)
    ensures forall p :: p in ps <==> p in keys
    ensures |ps| == |keys|
  {
    var left := keys;
    var acc: seq<string> := [];
    while left != {}
      invariant left <= keys
      invariant forall p :: p in acc <==> p in keys - left
      invariant |acc| + |left| == |keys|
      decreases |left|
    {
      var p :| p in left;
      acc := acc + [p];
      left := left - {p};
    }
    ps := Sort(acc);
    forall p
      ensures p in ps <==> p in keys
    {
      assert p in ps <==> p in multiset(ps);
      assert p in acc <==> p in multiset(acc);
    }
  }
}

=== FILE: sourcefiles.dfy ===
/**
 `recursively_find_source_files(paths, root, names)`, shared by the code
 tools: a walk of the tree below `root` that prunes every name with an
 ignored prefix, descends into every directory `os.listdir` can open, and
 keeps every other name with a wanted suffix, as `paths[path] = name`.
 Reading a file's lines and counting them is also here.
 */
module SourceFiles {
  import opened Strings
  import opened Sorting
  import opened FsTree

  /** `.git`, `.svn` and `vendor`: names never looked at. */
  const InvalidPrefixes: seq<string> := [".git", ".svn", "vendor"]

  /** `root + "/" + name if root else name`. */
  function JoinPath(root: string, name: string): (p: string)
    ensures root == "" ==> p == name
    ensures root != "" ==> p == root + "/" + name
  {
    if root != "" then root + "/" + name else name
  }

  /** A name kept as a source file: a wanted suffix and no excluded one
      (the excluded list is `Test_Suffixes` under `--ignore-test-files`
      and empty everywhere else). */
  predicate Wanted(name: string, valid: seq<string>, excluded: seq<string>) {
    HasSuffix(name, valid) && !HasSuffix(name, excluded)
  }

  /** The walk, threading the dictionary through the loop over `es`. */
  function Find(paths: map<string, string>, root: string, es: seq<Entry>,
                invalid: seq<string>, valid: seq<string>, excluded: seq<string>): (r: map<string, string>)
    ensures paths.Keys <= r.Keys
    decreases SizeOf(es)
  {
    if es == [] then paths
    else
      var e := es[0];
      var path := JoinPath(root, e.name);
      SizeOfEntry(es, 0);
      if HasPrefix(e.name, invalid) then Find(paths, root, es[1..], invalid, valid, excluded)
      else if e.node.Dir? then
        var sub := Find(paths, path, e.node.entries, invalid, valid, excluded);
        Find(sub, root, es[1..], invalid, valid, excluded)
      else if Wanted(e.name, valid, excluded) then Find(paths[path := e.name], root, es[1..], invalid, valid, excluded)
      else Find(paths, root, es[1..], invalid, valid, excluded)
  }

  /** The path reached from `root` by a list of names. */
  function PathOf(root: string, names: seq<string>): string
    decreases |names|
  {
    if names == [] then root else PathOf(JoinPath(root, names[0]), names[1..])
  }

  /** Reference: the name lists, from `es` down, of the entries the walk
      keeps, as a set. */
  function Found(es: seq<Entry>, invalid: seq<string>, valid: seq<string>, excluded: seq<string>): set<seq<string>>
    decreases SizeOf(es)
  {
    if es == [] then {}
    else
      var e := es[0];
      SizeOfEntry(es, 0);
      var here :=
        if HasPrefix(e.name, invalid) then {}
        else if e.node.Dir? then
          set cs | cs in Found(e.node.entries, invalid, valid, excluded) :: [e.name] + cs
        else if Wanted(e.name, valid, excluded) then {[e.name]}
        else {};
      here + Found(es[1..], invalid, valid, excluded)
  }

  /** Every name list found is non-empty, passes the prefix filter at
      every level (a pruned directory is never entered) and ends in a
      wanted name. */
  lemma {:induction false} FoundShape(es: seq<Entry>, invalid: seq<string>, valid: seq<string>, excluded: seq<string>,
                                      cs: seq<string>)
    requires cs in Found(es, invalid, valid, excluded)
    ensures cs != []
    ensures forall i :: 0 <= i < |cs| ==> !HasPrefix(cs[i], invalid)
    ensures Wanted(cs[|cs| - 1], valid, excluded)
    decreases SizeOf(es)
  {
    var e := es[0];
    SizeOfEntry(es, 0);
    if cs in Found(es[1..], invalid, valid, excluded) {
      FoundShape(es[1..], invalid, valid, excluded, cs);
    } else if e.node.Dir? && !HasPrefix(e.name, invalid) {
      var ds :| ds in Found(e.node.entries, invalid, valid, excluded) && cs == [e.name] + ds;
      FoundShape(e.node.entries, invalid, valid, excluded, ds);
      ShapeCons(e.name, ds, invalid, valid, excluded);
    }
  }

  /** A kept directory's name in front of a found list keeps its shape. */
  lemma ShapeCons(name: string, ds: seq<string>, invalid: seq<string>, valid: seq<string>, excluded: seq<string>)
    requires !HasPrefix(name, invalid) && ds != []
    requires forall i :: 0 <= i < |ds| ==> !HasPrefix(ds[i], invalid)
    requires Wanted(ds[|ds| - 1], valid, excluded)
    ensures forall i :: 0 <= i < |[name] + ds| ==> !HasPrefix(([name] + ds)[i], invalid)
    ensures Wanted(([name] + ds)[|ds|], valid, excluded)
  {
    assert forall i :: 1 <= i < |[name] + ds| ==> ([name] + ds)[i] == ds[i - 1];
  }

  /** The found name lists as `(path, name)` pairs below `root`. */
  function FoundPairs(root: string, es: seq<Entry>, invalid: seq<string>, valid: seq<string>, excluded: seq<string>)
    : set<(string, string)>
    decreases SizeOf(es)
  {
    if es == [] then {}
    else
      var e := es[0];
      SizeOfEntry(es, 0);
      var here :=
        if HasPrefix(e.name, invalid) then {}
        else if e.node.Dir? then FoundPairs(JoinPath(root, e.name), e.node.entries, invalid, valid, excluded)
        else if Wanted(e.name, valid, excluded) then {(JoinPath(root, e.name), e.name)}
        else {};
      here + FoundPairs(root, es[1..], invalid, valid, excluded)
  }

  /** What the walk returns, against the pairs it should find. */
  ghost predicate Collects(r: map<string, string>, paths: map<string, string>, pairs: set<(string, string)>) {
    (forall p :: p in r <==> (p in paths || exists n :: (p, n) in pairs)) &&
    (forall p :: p in r ==> (p in paths && r[p] == paths[p]) || (p, r[p]) in pairs)
  }

  /** The walk collects exactly the paths of the found pairs (on top of
      what the dictionary held), each mapped to the name of its pair. */
  lemma {:induction false} FindCollects(paths: map<string, string>, root: string, es: seq<Entry>,
                                        invalid: seq<string>, valid: seq<string>, excluded: seq<string>)
    ensures Collects(Find(paths, root, es, invalid, valid, excluded), paths, FoundPairs(root, es, invalid, valid, excluded))
    decreases SizeOf(es)
  {
    if es != [] {
      var e := es[0];
      var path := JoinPath(root, e.name);
      SizeOfEntry(es, 0);
      var rest := FoundPairs(root, es[1..], invalid, valid, excluded);
      if HasPrefix(e.name, invalid) {
        FindCollects(paths, root, es[1..], invalid, valid, excluded);
      } else if e.node.Dir? {
        var sub := Find(paths, path, e.node.entries, invalid, valid, excluded);
        FindCollects(paths, path, e.node.entries, invalid, valid, excluded);
        FindCollects(sub, root, es[1..], invalid, valid, excluded);
        CollectsChain(Find(sub, root, es[1..], invalid, valid, excluded), sub, paths,
                      FoundPairs(path, e.node.entries, invalid, valid, excluded), rest);
      } else if Wanted(e.name, valid, excluded) {
        FindCollects(paths[path := e.name], root, es[1..], invalid, valid, excluded);
        CollectsStore(Find(paths[path := e.name], root, es[1..], invalid, valid, excluded), paths, path, e.name, rest);
      } else {
        FindCollects(paths, root, es[1..], invalid, valid, excluded);
      }
    }
  }

  /** The walk from the top directory with an empty dictionary: the
      paths it keeps are exactly those of the found pairs. */
  function Kept(top: seq<Entry>, invalid: seq<string>, valid: seq<string>): (m: map<string, string>)
    ensures forall p :: p in m <==> exists n :: (p, n) in FoundPairs("", top, invalid, valid, [])
  {
    FindCollects(map[], "", top, invalid, valid, []);
    Find(map[], "", top, invalid, valid, [])
  }

  lemma CollectsChain(r: map<string, string>, mid: map<string, string>, paths: map<string, string>,
                      a: set<(string, string)>, b: set<(string, string)>)
    requires Collects(mid, paths, a) && Collects(r, mid, b)
    ensures Collects(r, paths, a + b)
  {
  }

  lemma CollectsStore(r: map<string, string>, paths: map<string, string>, path: string, name: string,
                      b: set<(string, string)>)
    requires Collects(r, paths[path := name], b)
    ensures Collects(r, paths, {(path, name)} + b)
  {
    forall p | p in r
      ensures (p in paths && r[p] == paths[p]) || (p, r[p]) in {(path, name)} + b
    {
      if p == path && (p, r[p]) !in b {
        assert r[p] == name;
      }
    }
  }

  /** The names `cs` lead from `root` to path `p`, ending in name `n`. */
  predicate Leads(root: string, cs: seq<string>, p: string, n: string) {
    cs != [] && PathOf(root, cs) == p && cs[|cs| - 1] == n
  }

  /** A found pair is a found name list below `root`, and back. */
  lemma {:induction false} PairsAreLists(root: string, es: seq<Entry>, invalid: seq<string>, valid: seq<string>,
                                         excluded: seq<string>, p: string, n: string)
    ensures (p, n) in FoundPairs(root, es, invalid, valid, excluded) <==>
            exists cs :: cs in Found(es, invalid, valid, excluded) && Leads(root, cs, p, n)
    decreases SizeOf(es)
  {
    if es != [] {
      var e := es[0];
      SizeOfEntry(es, 0);
      var path := JoinPath(root, e.name);
      PairsAreLists(root, es[1..], invalid, valid, excluded, p, n);
      if !HasPrefix(e.name, invalid) && e.node.Dir? {
        PairsAreLists(path, e.node.entries, invalid, valid, excluded, p, n);
        var sub := Found(e.node.entries, invalid, valid, excluded);
        forall ds | ds in sub
          ensures ds != []
        {
          FoundShape(e.node.entries, invalid, valid, excluded, ds);
        }
        PairsDir(root, e.name, sub, FoundPairs(path, e.node.entries, invalid, valid, excluded), p, n);
      } else if !HasPrefix(e.name, invalid) && Wanted(e.name, valid, excluded) {
        LeadsCons(root, e.name, [], p, n);
        assert [e.name] + [] == [e.name];
      }
    }
  }

  /** Names under a directory lead from its parent through its name. */
  lemma LeadsCons(root: string, name: string, ds: seq<string>, p: string, n: string)
    ensures Leads(root, [name] + ds, p, n) <==>
            (ds != [] && Leads(JoinPath(root, name), ds, p, n)) ||
            (ds == [] && JoinPath(root, name) == p && name == n)
  {
    assert ([name] + ds)[0] == name && ([name] + ds)[1..] == ds;
    assert PathOf(root, [name] + ds) == PathOf(JoinPath(root, name), ds);
    if ds != [] {
      assert ([name] + ds)[|ds|] == ds[|ds| - 1];
    }
  }

  /** The pairs of a kept directory are the name lists below it, with the
      directory's name in front. */
  lemma PairsDir(root: string, name: string, sub: set<seq<string>>, pairs: set<(string, string)>, p: string, n: string)
    requires forall ds :: ds in sub ==> ds != []
    requires (p, n) in pairs <==> exists ds :: ds in sub && Leads(JoinPath(root, name), ds, p, n)
    ensures (p, n) in pairs <==> exists cs :: cs in (set ds | ds in sub :: [name] + ds) && Leads(root, cs, p, n)
  {
    if (p, n) in pairs {
      var ds :| ds in sub && Leads(JoinPath(root, name), ds, p, n);
      LeadsCons(root, name, ds, p, n);
      assert [name] + ds in (set ds | ds in sub :: [name] + ds);
    }
    if exists cs :: cs in (set ds | ds in sub :: [name] + ds) && Leads(root, cs, p, n) {
      var cs :| cs in (set ds | ds in sub :: [name] + ds) && Leads(root, cs, p, n);
      var ds :| ds in sub && cs == [name] + ds;
      LeadsCons(root, name, ds, p, n);
    }
  }

  // ------------------------------------------------------ reading a file

  /** One line as file iteration yields it: not empty, no newline
      before its end, and ending in a newline unless it is the last. */
  predicate IsLine(l: string, last: bool) {
    l != [] && '\n' !in l[..|l| - 1] && (last || l[|l| - 1] == '\n')
  }

  /** A file read by `for line in open(path)`: the lines hold the bytes
      in order, each ending with its newline except possibly the last. */
  function LinesOf(data: string): (ls: seq<string>)
    ensures Concat(ls) == data
    ensures forall i :: 0 <= i < |ls| ==> IsLine(ls[i], i == |ls| - 1)
    decreases |data|
  {
    if data == [] then []
    else
      var k := FirstIndex(data, '\n');
      if k == |data| then
        assert data[..|data| - 1] <= data;
        [data]
      else
        var rest := LinesOf(data[k + 1..]);
        var l := data[..k + 1];
        assert data == l + data[k + 1..];
        assert l[..|l| - 1] == data[..k];
        assert IsLine(l, rest == []);
        assert forall i :: 1 <= i < |[l] + rest| ==> ([l] + rest)[i] == rest[i - 1];
        [l] + rest
  }

  /** `count_lines_and_bytes`: the number of lines and the sum of their
      lengths. */
  function CountLinesAndBytes(ls: seq<string>): (r: (nat, nat))
    ensures r.0 == |ls|
  {
    if ls == [] then (0, 0)
    else
      var t := CountLinesAndBytes(ls[1..]);
      (t.0 + 1, t.1 + |ls[0]|)
  }

  /** The byte count is the length of what the lines hold together. */
  lemma {:induction false} BytesAreLength(ls: seq<string>)
    ensures CountLinesAndBytes(ls).1 == |Concat(ls)|
  {
    if ls != [] {
      BytesAreLength(ls[1..]);
    }
  }

  /** For a file: as many bytes as the file holds, and one line per
      newline plus one for an unterminated tail. */
  lemma FileCounts(data: string)
    ensures CountLinesAndBytes(LinesOf(data)).1 == |data|
    ensures CountLinesAndBytes(LinesOf(data)).0 ==
            Newlines(data) + (if data != [] && data[|data| - 1] != '\n' then 1 else 0)
  {
    BytesAreLength(LinesOf(data));
    NewlinesOfLines(data);
  }

  /** The number of newline characters. */
  function Newlines(s: string): nat {
    if s == [] then 0 else (if s[0] == '\n' then 1 else 0) + Newlines(s[1..])
  }

  lemma {:induction false} NewlinesAppend(a: string, b: string)
    ensures Newlines(a + b) == Newlines(a) + Newlines(b)
  {
    if a == [] {
      assert a + b == b;
    } else {
      assert (a + b)[0] == a[0] && (a + b)[1..] == a[1..] + b;
      NewlinesAppend(a[1..], b);
    }
  }

  lemma {:induction false} NewlinesNone(s: string)
    requires forall j :: 0 <= j < |s| ==> s[j] != '\n'
    ensures Newlines(s) == 0
  {
    if s != [] {
      NewlinesNone(s[1..]);
    }
  }

  lemma {:induction false} NewlinesOfLines(data: string)
    ensures |LinesOf(data)| == Newlines(data) + (if data != [] && data[|data| - 1] != '\n' then 1 else 0)
    decreases |data|
  {
    if data != [] {
      var k := FirstIndex(data, '\n');
      if k == |data| {
        NewlinesNone(data);
      } else {
        var rest := data[k + 1..];
        NewlinesOfLines(rest);
        NewlinesSplit(data, k);
        if rest != [] {
          assert data[|data| - 1] == rest[|rest| - 1];
        }
      }
    }
  }

  /** Cutting at the first newline. */
  lemma NewlinesSplit(data: string, k: nat)
    requires k < |data| && data[k] == '\n'
    requires forall j :: 0 <= j < k ==> data[j] != '\n'
    ensures Newlines(data) == 1 + Newlines(data[k + 1..])
  {
    assert data == data[..k] + ([data[k]] + data[k + 1..]);
    NewlinesAppend(data[..k], [data[k]] + data[k + 1..]);
    NewlinesAppend([data[k]], data[k + 1..]);
    NewlinesNone(data[..k]);
  }

  /** Totals over files read in order: files, lines, bytes. */
  function Totals(contents: seq<string>): (t: (nat, nat, nat))
    ensures t.0 == |contents|
  {
    if contents == [] then (0, 0, 0)
    else
      var c := CountLinesAndBytes(LinesOf(contents[0]));
      var t := Totals(contents[1..]);
      (t.0 + 1, t.1 + c.0, t.2 + c.1)
  }

  /** Totals add up over any split of the files, and the byte total is
      the size of all files together. */
  lemma {:induction false} TotalsAppend(a: seq<string>, b: seq<string>)
    ensures Totals(a + b).0 == Totals(a).0 + Totals(b).0
    ensures Totals(a + b).1 == Totals(a).1 + Totals(b).1
    ensures Totals(a + b).2 == Totals(a).2 + Totals(b).2
  {
    if a == [] {
      assert a + b == b;
    } else {
      assert (a + b)[0] == a[0] && (a + b)[1..] == a[1..] + b;
      TotalsAppend(a[1..], b);
    }
  }

  /** The totals from file `i` on: file `i`, then the rest. */
  lemma TotalsFrom(cs: seq<string>, i: nat)
    requires i < |cs|
    ensures Totals(cs[i..]).0 == Totals(cs[i + 1..]).0 + 1
    ensures Totals(cs[i..]).1 == Totals(cs[i + 1..]).1 + CountLinesAndBytes(LinesOf(cs[i])).0
    ensures Totals(cs[i..]).2 == Totals(cs[i + 1..]).2 + CountLinesAndBytes(LinesOf(cs[i])).1
  {
    assert cs[i..][0] == cs[i] && cs[i..][1..] == cs[i + 1..];
  }

  lemma {:induction false} TotalBytes(contents: seq<string>)
    ensures Totals(contents).2 == |Concat(contents)|
  {
    if contents != [] {
      TotalBytes(contents[1..]);
      FileCounts(contents[0]);
    }
  }

  // ------------------------------------------------------- sorted paths

  /** `sorted(paths)`: the keys of the dictionary, each once, ascending. */
  method SortedPaths(m: map<string, string>) returns (ps: seq<string>)
    ensures Sorted(ps)
    ensures forall p :: p in ps <==> p in m
    ensures |ps| == |m.Keys|
  {
    ps := SortedSet(m.Keys);
  }

  /** The contents of the files at `paths`, in order. */
  function Contents(read: string -> string, paths: seq<string>): (cs: seq<string>)
    ensures |cs| == |paths|
    ensures forall i :: 0 <= i < |paths| ==> cs[i] == read(paths[i])
  {
    seq(|paths|, i requires 0 <= i < |paths| => read(paths[i]))
  }

  /** The totals loop of the tools' `main`, over the files' contents in order. */
  method Tally(cs: seq<string>) returns (files: nat, lines: nat, bytes: nat)
    ensures (files, lines, bytes) == Totals(cs)
    ensures files == |cs| && bytes == |Concat(cs)|
  {
    files, lines, bytes := 0, 0, 0;
    var i := 0;
    assert cs[i..] == cs;
    while i < |cs|
      invariant 0 <= i <= |cs|
      invariant var t := Totals(cs[i..]);
        files + t.0 == Totals(cs).0 && lines + t.1 == Totals(cs).1 && bytes + t.2 == Totals(cs).2
    {
      var c := CountLinesAndBytes(LinesOf(cs[i]));
      TotalsFrom(cs, i);
      files, lines, bytes := files + 1, lines + c.0, bytes + c.1;
      i := i + 1;
    }
    assert cs[i..] == [];
    TotalBytes(cs);
  }

}

=== FILE: stamps.dfy ===
/**
 Revision-name timestamps: the ISO 8601 basic format
 `Y%Y%m%dT%H%M%SZ_` (a literal Y, the year, month and day, a literal T,
 hours, minutes and seconds in UTC, a literal Z and an underscore),
 rendered as `time.strftime` renders it.
 */
module Stamps {
  import opened Sorting

  /** Width of every revision-name prefix the archiver splits off. */
  const TimestampLength := 18

  /** A broken-down UTC time, as `time.gmtime` returns it. */
  datatype DateTime = DateTime(year: nat, month: nat, day: nat, hour: nat, minute: nat, second: nat)

  /** Every field fits its strftime width: four year digits, two for the rest. */
  predicate InRange(t: DateTime) {
    t.year < 10000 && t.month < 100 && t.day < 100 && t.hour < 100 && t.minute < 100 && t.second < 100
  }

  /** Chronological order, field by field from the year down. */
  predicate NotAfter(a: DateTime, b: DateTime) {
    a.year < b.year || (a.year == b.year &&
    (a.month < b.month || (a.month == b.month &&
    (a.day < b.day || (a.day == b.day &&
    (a.hour < b.hour || (a.hour == b.hour &&
    (a.minute < b.minute || (a.minute == b.minute &&
    a.second <= b.second)))))))))
  }

  function Pow10(w: nat): (p: nat)
    ensures p >= 1
  {
    if w == 0 then 1 else 10 * Pow10(w - 1)
  }

  function DigitChar(d: nat): char
    requires d < 10
  {
    ('0' as int + d) as char
  }

  /** The lowest `w` decimal digits of `n`, most significant first. */
  function Fixed(n: nat, w: nat): (r: string)
    ensures |r| == w
  {
    if w == 0 then [] else Fixed(n / 10, w - 1) + [DigitChar(n % 10)]
  }

  /** Number of decimal digits of `n` (at least one). */
  function NumDigits(n: nat): (k: nat)
    ensures k >= 1
  {
    if n < 10 then 1 else 1 + NumDigits(n / 10)
  }

  /** A strftime numeric field: zero-padded to `w` digits, or all digits
      when the value needs more (a five-digit year prints in full). */
  function Field(n: nat, w: nat): string {
    if n < Pow10(w) then Fixed(n, w) else Fixed(n, NumDigits(n))
  }

  /** `time.strftime("Y%Y%m%dT%H%M%SZ_", t)`. */
  function Format(t: DateTime): string {
    "Y" + (Field(t.year, 4) + (Field(t.month, 2) + (Field(t.day, 2) + ("T" +
    (Field(t.hour, 2) + (Field(t.minute, 2) + (Field(t.second, 2) + "Z_")))))))
  }

  /** Comparing two strings that share a prefix compares what follows it. */
  lemma {:induction false} LexLeCommonPrefix(c: string, x: string, y: string)
    ensures LexLe(c + x, c + y) <==> LexLe(x, y)
  {
    if c != [] {
      assert (c + x)[0] == c[0] && (c + y)[0] == c[0];
      assert (c + x)[1..] == c[1..] + x && (c + y)[1..] == c[1..] + y;
      LexLeCommonPrefix(c[1..], x, y);
    } else {
      assert c + x == x && c + y == y;
    }
  }

  /** Two equal-width heads decide the order unless they are equal. */
  lemma SegmentOrder(c: string, d: string, x: string, y: string)
    requires |c| == |d|
    ensures LexLe(c + x, d + y) <==> (LexLt(c, d) || (c == d && LexLe(x, y)))
  {
    LexLeOfHeads(c, d, x, y);
    if c == d {
      LexLeCommonPrefix(c, x, y);
    }
  }

  lemma {:induction false} FixedInjective(n: nat, m: nat, w: nat)
    requires n < Pow10(w) && m < Pow10(w)
    ensures Fixed(n, w) == Fixed(m, w) <==> n == m
  {
    if w > 0 && Fixed(n, w) == Fixed(m, w) {
      var a := Fixed(n / 10, w - 1);
      var b := Fixed(m / 10, w - 1);
      assert Fixed(n, w)[..w - 1] == a && Fixed(m, w)[..w - 1] == b;
      assert Fixed(n, w)[w - 1] == DigitChar(n % 10);
      FixedInjective(n / 10, m / 10, w - 1);
    }
  }

  /** Zero-padded fields of one width sort as their values do. */
  lemma {:induction false} FixedOrder(n: nat, m: nat, w: nat)
    requires n < Pow10(w) && m < Pow10(w)
    ensures LexLe(Fixed(n, w), Fixed(m, w)) <==> n <= m
  {
    if w > 0 {
      var a := Fixed(n / 10, w - 1);
      var b := Fixed(m / 10, w - 1);
      FixedOrder(n / 10, m / 10, w - 1);
      FixedInjective(n / 10, m / 10, w - 1);
      SegmentOrder(a, b, [DigitChar(n % 10)], [DigitChar(m % 10)]);
    }
  }

  /** The same fact for a field of the timestamp. */
  lemma FieldOrder(n: nat, m: nat, w: nat)
    requires n < Pow10(w) && m < Pow10(w)
    ensures LexLt(Field(n, w), Field(m, w)) <==> n < m
    ensures Field(n, w) == Field(m, w) <==> n == m
    ensures |Field(n, w)| == w
  {
    FixedOrder(n, m, w);
    FixedInjective(n, m, w);
  }

  /** Every in-range timestamp is exactly `TimestampLength` characters. */
  lemma FormatLength(t: DateTime)
    requires InRange(t)
    ensures |Format(t)| == TimestampLength
  {
    assert Pow10(4) == 10000 && Pow10(2) == 100;
  }

  /** Monotonic naming: before the year 10000, revision-name prefixes
      sort exactly in chronological order, so the alphabetically last
      revision of a name is the most recent one. */
  lemma {:induction false} FormatOrder(a: DateTime, b: DateTime)
    requires InRange(a) && InRange(b)
    ensures LexLe(Format(a), Format(b)) <==> NotAfter(a, b)
  {
    assert Pow10(4) == 10000 && Pow10(2) == 100;
    FieldOrder(a.year, b.year, 4);
    FieldOrder(a.month, b.month, 2);
    FieldOrder(a.day, b.day, 2);
    FieldOrder(a.hour, b.hour, 2);
    FieldOrder(a.minute, b.minute, 2);
    FieldOrder(a.second, b.second, 2);
    FixedOrder(a.second, b.second, 2);
    var s5 := Field(a.second, 2) + "Z_";
    var t5 := Field(b.second, 2) + "Z_";
    SegmentOrder(Field(a.second, 2), Field(b.second, 2), "Z_", "Z_");
    LexLeRefl("Z_");
    var s4 := Field(a.minute, 2) + s5;
    var t4 := Field(b.minute, 2) + t5;
    SegmentOrder(Field(a.minute, 2), Field(b.minute, 2), s5, t5);
    var s3 := Field(a.hour, 2) + s4;
    var t3 := Field(b.hour, 2) + t4;
    SegmentOrder(Field(a.hour, 2), Field(b.hour, 2), s4, t4);
    SegmentOrder("T", "T", s3, t3);
    var s2 := Field(a.day, 2) + ("T" + s3);
    var t2 := Field(b.day, 2) + ("T" + t3);
    SegmentOrder(Field(a.day, 2), Field(b.day, 2), "T" + s3, "T" + t3);
    var s1 := Field(a.month, 2) + s2;
    var t1 := Field(b.month, 2) + t2;
    SegmentOrder(Field(a.month, 2), Field(b.month, 2), s2, t2);
    var s0 := Field(a.year, 4) + s1;
    var t0 := Field(b.year, 4) + t1;
    SegmentOrder(Field(a.year, 4), Field(b.year, 4), s1, t1);
    SegmentOrder("Y", "Y", s0, t0);
  }

  /** The Y10K boundary: a timestamp in the year 10000 is 19 characters
      long and sorts before one from the year 9999. */
  lemma Y10KBreaksOrder()
    ensures var late := DateTime(10000, 1, 1, 0, 0, 0);
            var early := DateTime(9999, 12, 31, 23, 59, 59);
            |Format(late)| == TimestampLength + 1 && LexLt(Format(late), Format(early))
  {
    var late := DateTime(10000, 1, 1, 0, 0, 0);
    var early := DateTime(9999, 12, 31, 23, 59, 59);
    assert Pow10(4) == 10000 && Pow10(2) == 100;
    assert NumDigits(10000) == 5;
    var y := Field(10000, 4);
    var e := Field(9999, 4);
    assert y == Fixed(10000, 5);
    assert e == Fixed(9999, 4);
    assert y[0] == '1' by {
      assert Fixed(10000, 5) == Fixed(1000, 4) + ['0'];
      assert Fixed(1000, 4) == Fixed(100, 3) + ['0'];
      assert Fixed(100, 3) == Fixed(10, 2) + ['0'];
      assert Fixed(10, 2) == Fixed(1, 1) + ['0'];
      assert Fixed(1, 1) == Fixed(0, 0) + ['1'];
    }
    assert e[0] == '9' by {
      assert Fixed(9999, 4) == Fixed(999, 3) + ['9'];
      assert Fixed(999, 3) == Fixed(99, 2) + ['9'];
      assert Fixed(99, 2) == Fixed(9, 1) + ['9'];
      assert Fixed(9, 1) == Fixed(0, 0) + ['9'];
    }
    var rl := Field(1, 2) + (Field(1, 2) + ("T" + (Field(0, 2) + (Field(0, 2) + (Field(0, 2) + "Z_")))));
    var re := Field(12, 2) + (Field(31, 2) + ("T" + (Field(23, 2) + (Field(59, 2) + (Field(59, 2) + "Z_")))));
    assert |rl| == 13;
    var fl := "Y" + (y + rl);
    var fe := "Y" + (e + re);
    assert Format(late) == fl;
    assert Format(early) == fe;
    assert |fl| == 19;
    assert (y + rl)[0] == '1' && (e + re)[0] == '9';
    assert LexLe(y + rl, e + re);
    assert fl[1..] == y + rl && fe[1..] == e + re;
    assert LexLe(fl, fe);
    assert fl[1] != fe[1];
  }
}

=== FILE: strings.dfy ===
/**
 The Python string operations the tools rely on, over byte strings
 (every `char` here stands for one byte of a Python 2 `str`):
 whitespace splitting (`str.split()`), searching (`find`, `rfind`, `in`),
 prefix and suffix tests, `strip`, `replace` and `join`.
 */
module Strings {

  /** The bytes `str.split()` and `str.strip()` treat as whitespace. */
  predicate IsSpace(c: char) {
    c == ' ' || c == '\t' || c == '\n' || c == '\r' || c as int == 0x0B || c as int == 0x0C
  }

  predicate AllSpace(s: string) {
    forall i :: 0 <= i < |s| ==> IsSpace(s[i])
  }

  /** A token `str.split()` can return: non-empty, without whitespace. */
  predicate IsWord(w: string) {
    w != [] && forall i :: 0 <= i < |w| ==> !IsSpace(w[i])
  }

  predicate IsSuffix(suf: string, s: string) {
    |suf| <= |s| && s[|s| - |suf|..] == suf
  }

  /** The longest suffix of `s` that does not start with whitespace. */
  function DropSpaces(s: string): (r: string)
    ensures |r| <= |s|
    ensures r == [] || !IsSpace(r[0])
  {
    if s != [] && IsSpace(s[0]) then DropSpaces(s[1..]) else s
  }

  /** What `DropSpaces` keeps is a suffix, and what it drops is
      whitespace. */
  lemma {:induction false} DropSpacesSuffix(s: string)
    ensures DropSpaces(s) == s[|s| - |DropSpaces(s)|..]
    ensures AllSpace(s[..|s| - |DropSpaces(s)|])
  {
    if s != [] && IsSpace(s[0]) {
      var r := DropSpaces(s[1..]);
      DropSpacesSuffix(s[1..]);
      var k := |s| - |r|;
      assert s[1..][k - 1..] == s[k..];
      assert s[..k] == [s[0]] + s[1..][..k - 1];
    }
  }

  /** The longest prefix of `s` without whitespace. */
  function TakeWord(s: string): (w: string)
    ensures w <= s
    ensures forall i :: 0 <= i < |w| ==> !IsSpace(w[i])
    ensures |w| < |s| ==> IsSpace(s[|w|])
  {
    if s != [] && !IsSpace(s[0]) then [s[0]] + TakeWord(s[1..]) else []
  }

  /** Python's `s.split()`: the maximal whitespace-free runs, in order. */
  function Split(s: string): (ws: seq<string>)
    ensures forall i :: 0 <= i < |ws| ==> IsWord(ws[i])
    decreases |s|
  {
    var t := DropSpaces(s);
    if t == [] then []
    else
      var w := TakeWord(t);
      [w] + Split(t[|w|..])
  }

  /** The characters of `s` that are not whitespace, in order. */
  function RemoveSpaces(s: string): (r: string)
    ensures |r| <= |s|
  {
    if s == [] then [] else (if IsSpace(s[0]) then [] else [s[0]]) + RemoveSpaces(s[1..])
  }

  function Concat(ws: seq<string>): string {
    if ws == [] then [] else ws[0] + Concat(ws[1..])
  }

  /** Python's `sep.join(ws)`. */
  function Join(ws: seq<string>, sep: string): string {
    if ws == [] then [] else if |ws| == 1 then ws[0] else ws[0] + sep + Join(ws[1..], sep)
  }

  lemma RemoveSpacesAppend(a: string, b: string)
    ensures RemoveSpaces(a + b) == RemoveSpaces(a) + RemoveSpaces(b)
  {
    if a == [] {
      assert a + b == b;
    } else {
      assert (a + b)[0] == a[0];
      assert (a + b)[1..] == a[1..] + b;
      RemoveSpacesAppend(a[1..], b);
    }
  }

  lemma RemoveSpacesOfSpaces(s: string)
    requires AllSpace(s)
    ensures RemoveSpaces(s) == []
  {
    if s != [] {
      RemoveSpacesOfSpaces(s[1..]);
    }
  }

  lemma RemoveSpacesOfWord(w: string)
    requires forall i :: 0 <= i < |w| ==> !IsSpace(w[i])
    ensures RemoveSpaces(w) == w
  {
    if w != [] {
      RemoveSpacesOfWord(w[1..]);
    }
  }

  lemma ConcatAppend(a: seq<string>, b: seq<string>)
    ensures Concat(a + b) == Concat(a) + Concat(b)
  {
    if a == [] {
      assert a + b == b;
    } else {
      assert (a + b)[0] == a[0];
      assert (a + b)[1..] == a[1..] + b;
      ConcatAppend(a[1..], b);
    }
  }

  /** Leading whitespace adds nothing to `RemoveSpaces`. */
  lemma RemoveLeadingSpaces(s: string)
    ensures RemoveSpaces(s) == RemoveSpaces(DropSpaces(s))
  {
    var t := DropSpaces(s);
    var k := |s| - |t|;
    DropSpacesSuffix(s);
    assert s == s[..k] + t;
    RemoveSpacesAppend(s[..k], t);
    RemoveSpacesOfSpaces(s[..k]);
  }

  /** A leading word keeps all of its characters. */
  lemma RemoveAfterWord(t: string)
    ensures RemoveSpaces(t) == TakeWord(t) + RemoveSpaces(t[|TakeWord(t)|..])
  {
    var w := TakeWord(t);
    assert t == w + t[|w|..];
    RemoveSpacesAppend(w, t[|w|..]);
    RemoveSpacesOfWord(w);
  }

  /** Splitting loses exactly the whitespace: the tokens, glued back
      together, are the non-whitespace characters of the input. */
  lemma {:induction false} SplitKeepsContent(s: string)
    ensures Concat(Split(s)) == RemoveSpaces(s)
    decreases |s|
  {
    var t := DropSpaces(s);
    RemoveLeadingSpaces(s);
    if t != [] {
      var w := TakeWord(t);
      var rest := t[|w|..];
      assert Split(s) == [w] + Split(rest);
      RemoveAfterWord(t);
      SplitKeepsContent(rest);
      assert Concat([w] + Split(rest)) == w + Concat(Split(rest));
    }
  }

  lemma SplitOfSpaces(s: string)
    requires AllSpace(s)
    ensures Split(s) == []
  {
    if s != [] {
      SplitOfSpaces(s[1..]);
    }
  }

  lemma DropSpacesOfPadded(sp: string, rest: string)
    requires AllSpace(sp)
    ensures DropSpaces(sp + rest) == DropSpaces(rest)
  {
    if sp == [] {
      assert sp + rest == rest;
    } else {
      assert (sp + rest)[0] == sp[0];
      assert (sp + rest)[1..] == sp[1..] + rest;
      DropSpacesOfPadded(sp[1..], rest);
    }
  }

  lemma TakeWordOfWord(w: string, rest: string)
    requires forall i :: 0 <= i < |w| ==> !IsSpace(w[i])
    requires rest == [] || IsSpace(rest[0])
    ensures TakeWord(w + rest) == w
  {
    if w != [] {
      assert (w + rest)[1..] == w[1..] + rest;
      TakeWordOfWord(w[1..], rest);
    }
  }

  /** The split depends only on what follows the leading whitespace. */
  lemma SplitAfterSpaces(x: string, y: string)
    requires DropSpaces(x) == DropSpaces(y)
    ensures Split(x) == Split(y)
  {
  }

  /** A word followed by whitespace (or by nothing) is the first token. */
  lemma SplitWordThen(w: string, sp: string, rest: string)
    requires IsWord(w) && AllSpace(sp)
    requires sp != [] || rest == []
    ensures Split(w + sp + rest) == [w] + Split(rest)
    ensures Split(w + (sp + rest)) == [w] + Split(rest)
  {
    var tail := sp + rest;
    var s := w + tail;
    assert w + sp + rest == s;
    assert s[0] == w[0];
    assert DropSpaces(s) == s;
    TakeWordOfWord(w, tail);
    assert s[|w|..] == tail;
    assert Split(s) == [w] + Split(tail);
    if sp == [] {
      assert tail == [];
    } else {
      DropSpacesOfPadded(sp, rest);
      SplitAfterSpaces(tail, rest);
    }
  }

  /** A single token splits to itself. */
  lemma SplitOfWord(w: string)
    requires IsWord(w)
    ensures Split(w) == [w]
  {
    assert w[0] == w[0];
    assert DropSpaces(w) == w;
    TakeWordOfWord(w, []);
    assert w + [] == w;
    assert w[|w|..] == [];
  }

  /** Where the first token sits: after `k` whitespace characters, and
      the rest of the split starts right after it. */
  lemma SplitHead(s: string) returns (k: nat)
    requires Split(s) != []
    ensures k + |Split(s)[0]| <= |s|
    ensures s[k..k + |Split(s)[0]|] == Split(s)[0]
    ensures AllSpace(s[..k])
    ensures Split(s[k + |Split(s)[0]|..]) == Split(s)[1..]
    ensures |Split(s)| > 1 ==> k + |Split(s)[0]| < |s| && IsSpace(s[k + |Split(s)[0]|])
  {
    var ws := Split(s);
    var t := DropSpaces(s);
    DropSpacesSuffix(s);
    k := |s| - |t|;
    var w := TakeWord(t);
    var rest := t[|w|..];
    assert ws == [w] + Split(rest);
    assert ws[0] == w && ws[1..] == Split(rest);
    assert s[k..] == t;
    assert s[k..k + |w|] == t[..|w|];
    assert s[k + |w|..] == rest;
    if |ws| > 1 {
      assert rest != [];
      assert s[k + |w|] == t[|w|];
    }
  }

  /** `list.remove(x)`: the list without its first `x`. */
  function RemoveFirst(ws: seq<string>, x: string): (r: seq<string>)
    requires x in ws
    ensures |r| == |ws| - 1
    ensures ws[0] == x ==> r == ws[1..]
    ensures forall y :: y != x ==> (y in r <==> y in ws)
  {
    if ws[0] == x then ws[1..] else [ws[0]] + RemoveFirst(ws[1..], x)
  }

  /** No character of `s` is one of `cs`. */
  predicate NoneOf(s: string, cs: set<char>) {
    forall i :: 0 <= i < |s| ==> s[i] !in cs
  }

  /** Tokens are cut from the input, so they avoid whatever it avoids. */
  lemma {:induction false} SplitNoneOf(s: string, cs: set<char>)
    requires NoneOf(s, cs)
    ensures forall i :: 0 <= i < |Split(s)| ==> NoneOf(Split(s)[i], cs)
    decreases |s|
  {
    var t := DropSpaces(s);
    if t != [] {
      var w := TakeWord(t);
      var rest := t[|w|..];
      DropSpacesSuffix(s);
      assert NoneOf(t, cs) by {
        forall i | 0 <= i < |t| ensures t[i] !in cs { assert t[i] == s[|s| - |t| + i]; }
      }
      assert NoneOf(w, cs) by {
        forall i | 0 <= i < |w| ensures w[i] !in cs { assert w[i] == t[i]; }
      }
      assert NoneOf(rest, cs) by {
        forall i | 0 <= i < |rest| ensures rest[i] !in cs { assert rest[i] == t[|w| + i]; }
      }
      SplitNoneOf(rest, cs);
      assert Split(s) == [w] + Split(rest);
      AllNoneOf([w], Split(rest), cs);
    }
  }

  lemma AllNoneOf(a: seq<string>, b: seq<string>, cs: set<char>)
    requires forall i :: 0 <= i < |a| ==> NoneOf(a[i], cs)
    requires forall i :: 0 <= i < |b| ==> NoneOf(b[i], cs)
    ensures forall i :: 0 <= i < |a + b| ==> NoneOf((a + b)[i], cs)
  {
    forall i | 0 <= i < |a + b| ensures NoneOf((a + b)[i], cs) {
      if i >= |a| { assert (a + b)[i] == b[i - |a|]; }
    }
  }

  // ---------------------------------------------------------------- search

  /** `sub` occurs in `s` starting at index `i`. */
  predicate OccursAt(s: string, sub: string, i: int) {
    0 <= i && i + |sub| <= |s| && s[i..i + |sub|] == sub
  }

  /** Python's `s.find(sub, start)`: the least index at or after `start`
      where `sub` occurs, or -1. */
  function FindFrom(s: string, sub: string, start: nat): (r: int)
    ensures r == -1 || (start <= r && OccursAt(s, sub, r))
    ensures r == -1 ==> forall i :: start <= i ==> !OccursAt(s, sub, i)
    ensures r >= 0 ==> forall i :: start <= i < r ==> !OccursAt(s, sub, i)
    decreases |s| - start
  {
    if start + |sub| > |s| then -1
    else if s[start..start + |sub|] == sub then start
    else FindFrom(s, sub, start + 1)
  }

  /** Python's `s.find(sub)`. */
  function Find(s: string, sub: string): int {
    FindFrom(s, sub, 0)
  }

  /** Python's `sub in s`, computed as the source's `find` would. */
  predicate Contains(s: string, sub: string) {
    Find(s, sub) >= 0
  }

  /** `sub in s` holds iff `sub` occurs at some index of `s`. */
  lemma ContainsIff(s: string, sub: string)
    ensures Contains(s, sub) <==> exists i :: OccursAt(s, sub, i)
  {
    if Contains(s, sub) {
      assert OccursAt(s, sub, Find(s, sub));
    }
  }

  /** Index of the first `c` in `s`, or `|s|` when there is none. */
  function FirstIndex(s: string, c: char): (i: nat)
    ensures i <= |s|
    ensures forall j :: 0 <= j < i ==> s[j] != c
    ensures i < |s| ==> s[i] == c
  {
    if s == [] || s[0] == c then 0 else 1 + FirstIndex(s[1..], c)
  }

  /** Python's `s.rfind(c)` for a one-character needle. */
  function RFind(s: string, c: char): (r: int)
    ensures -1 <= r < |s|
    ensures r >= 0 ==> s[r] == c && forall i :: r < i < |s| ==> s[i] != c
    ensures r == -1 ==> forall i :: 0 <= i < |s| ==> s[i] != c
  {
    if s == [] then -1
    else if s[|s| - 1] == c then |s| - 1
    else RFind(s[..|s| - 1], c)
  }

  /** Python's `s[k:]` for a non-negative `k`, which clamps past the end. */
  function SliceFrom(s: string, k: nat): (r: string)
    ensures k <= |s| ==> r == s[k..]
    ensures k >= |s| ==> r == []
  {
    if k <= |s| then s[k..] else []
  }

  /** Python's `s[:k]` for a non-negative `k`. */
  function SliceTo(s: string, k: nat): (r: string)
    ensures r <= s
    ensures |r| == if k <= |s| then k else |s|
  {
    if k <= |s| then s[..k] else s
  }

  // ---------------------------------------------------- prefixes, suffixes

  /** The test `s[:len(p)] == p`, which is exactly "p is a prefix of s". */
  predicate StartsWith(s: string, p: string) {
    SliceTo(s, |p|) == p
  }

  lemma StartsWithIsPrefix(s: string, p: string)
    ensures StartsWith(s, p) <==> p <= s
  {
  }

  /** The test `s[-len(suf):] == suf`. For an empty `suf` Python reads
      `s[-0:]`, the whole of `s`, so the empty suffix matches only the
      empty string. */
  predicate EndsWith(s: string, suf: string) {
    if |suf| == 0 then s == suf
    else if |suf| <= |s| then s[|s| - |suf|..] == suf
    else s == suf
  }

  /** For a non-empty suffix the test means what it says. */
  lemma EndsWithIsSuffix(s: string, suf: string)
    requires suf != []
    ensures EndsWith(s, suf) <==> IsSuffix(suf, s)
  {
  }

  /** `has_prefix(s, prefix_list)`: some listed prefix starts `s`. */
  predicate HasPrefix(s: string, prefixes: seq<string>) {
    if prefixes == [] then false
    else StartsWith(s, prefixes[0]) || HasPrefix(s, prefixes[1..])
  }

  /** `has_suffix(s, suffix_list)`: some listed suffix ends `s`. */
  predicate HasSuffix(s: string, suffixes: seq<string>) {
    if suffixes == [] then false
    else EndsWith(s, suffixes[0]) || HasSuffix(s, suffixes[1..])
  }

  lemma {:induction false} HasPrefixIff(s: string, prefixes: seq<string>)
    ensures HasPrefix(s, prefixes) <==> exists i :: 0 <= i < |prefixes| && prefixes[i] <= s
  {
    if prefixes != [] {
      HasPrefixIff(s, prefixes[1..]);
      if HasPrefix(s, prefixes[1..]) {
        var i :| 0 <= i < |prefixes[1..]| && prefixes[1..][i] <= s;
        assert prefixes[i + 1] <= s;
      }
      if exists i :: 0 <= i < |prefixes| && prefixes[i] <= s {
        var i :| 0 <= i < |prefixes| && prefixes[i] <= s;
        if i > 0 {
          assert prefixes[1..][i - 1] <= s;
        }
      }
    }
  }

  lemma {:induction false} HasSuffixIff(s: string, suffixes: seq<string>)
    requires forall i :: 0 <= i < |suffixes| ==> suffixes[i] != []
    ensures HasSuffix(s, suffixes) <==> exists i :: 0 <= i < |suffixes| && IsSuffix(suffixes[i], s)
  {
    if suffixes != [] {
      HasSuffixIff(s, suffixes[1..]);
      if HasSuffix(s, suffixes[1..]) {
        var i :| 0 <= i < |suffixes[1..]| && IsSuffix(suffixes[1..][i], s);
        assert IsSuffix(suffixes[i + 1], s);
      }
      if exists i :: 0 <= i < |suffixes| && IsSuffix(suffixes[i], s) {
        var i :| 0 <= i < |suffixes| && IsSuffix(suffixes[i], s);
        if i > 0 {
          assert IsSuffix(suffixes[1..][i - 1], s);
        }
      }
    }
  }

  // ------------------------------------------------------------- rewriting

  /** Python's `s.strip()`: whitespace removed from both ends. */
  function Strip(s: string): (r: string)
    ensures |r| <= |s|
    ensures r == [] || (!IsSpace(r[0]) && !IsSpace(r[|r| - 1]))
  {
    StripEnd(DropSpaces(s))
  }

  /** A word with only whitespace before it strips to itself. */
  lemma StripWord(sp: string, w: string)
    requires AllSpace(sp) && IsWord(w)
    ensures Strip(sp + w) == w
  {
    DropSpacesOfPadded(sp, w);
    assert DropSpaces(w) == w by { assert !IsSpace(w[0]); }
    assert StripEnd(w) == w by { assert !IsSpace(w[|w| - 1]); }
  }

  /** Trailing whitespace after a non-blank end is all `rstrip` drops. */
  lemma {:induction false} StripEndPadded(w: string, after: string)
    requires AllSpace(after)
    requires w == [] || !IsSpace(w[|w| - 1])
    ensures StripEnd(w + after) == w
    decreases |after|
  {
    if after == [] {
      assert w + after == w;
    } else {
      var s := w + after;
      assert s[|s| - 1] == after[|after| - 1];
      assert s[..|s| - 1] == w + after[..|after| - 1];
      StripEndPadded(w, after[..|after| - 1]);
    }
  }

  /** A word with whitespace around it strips to itself. */
  lemma StripPadded(before: string, w: string, after: string)
    requires AllSpace(before) && AllSpace(after) && IsWord(w)
    ensures Strip(before + w + after) == w
  {
    assert before + w + after == before + (w + after);
    DropSpacesOfPadded(before, w + after);
    assert DropSpaces(w + after) == w + after by { assert (w + after)[0] == w[0]; }
    StripEndPadded(w, after);
  }

  /** What `strip` keeps is a slice of the input with only whitespace
      around it. */
  lemma StripSlice(s: string) returns (i: nat)
    ensures i + |Strip(s)| <= |s| && s[i..i + |Strip(s)|] == Strip(s)
    ensures AllSpace(s[..i]) && AllSpace(s[i + |Strip(s)|..])
  {
    var t := DropSpaces(s);
    var r := StripEnd(t);
    DropSpacesSuffix(s);
    i := |s| - |t|;
    assert s[i..] == t;
    assert s[i..i + |r|] == t[..|r|];
    assert s[i + |r|..] == t[|r|..];
  }

  /** Whitespace removed from the end. */
  function StripEnd(s: string): (r: string)
    ensures r <= s && AllSpace(s[|r|..])
    ensures r == [] || !IsSpace(r[|r| - 1])
  {
    if s != [] && IsSpace(s[|s| - 1]) then StripEnd(s[..|s| - 1]) else s
  }

  /** Python's `s.replace(pat, rep)`: every non-overlapping occurrence of
      `pat`, scanning left to right, is replaced by `rep`. */
  function ReplaceAll(s: string, pat: string, rep: string): (r: string)
    requires pat != []
    ensures Find(s, pat) == -1 ==> r == s
    decreases |s|
  {
    var p := Find(s, pat);
    if p < 0 then s else s[..p] + rep + ReplaceAll(s[p + |pat|..], pat, rep)
  }

  /** `" " * n`. */
  function Spaces(n: int): (r: string)
    ensures |r| == if n < 0 then 0 else n
    ensures AllSpace(r)
  {
    if n <= 0 then [] else [' '] + Spaces(n - 1)
  }
}

=== FILE: word.dfy ===
/**
 `word.py`: the `n`-th whitespace-separated word of every line of
 standard input, `n` counted from 0, or from the end of the line when
 negative. Standard input is a parameter.
 */
module Word {
  import opened Wrappers
  import opened Strings
  import opened SourceFiles
  import opened Numbers

  /** The word a line contributes: `parts[n]` with Python's negative
      indexing when `n` is in range, an empty line otherwise. */
  function Pick(parts: seq<string>, n: int): (r: string)
    ensures r == "" || r in parts
  {
    if 0 <= n < |parts| then parts[n]
    else if -|parts| <= n < 0 then parts[|parts| + n]
    else ""
  }

  /** The words in the opposite order. */
  function Reversed(ws: seq<string>): (r: seq<string>)
    ensures |r| == |ws|
    ensures forall k :: 0 <= k < |ws| ==> r[k] == ws[|ws| - 1 - k]
  {
    if ws == [] then [] else [ws[|ws| - 1]] + Reversed(ws[..|ws| - 1])
  }

  /** Counting from the front: `n` picks word `n`. */
  lemma PickFront(parts: seq<string>, k: nat)
    requires k < |parts|
    ensures Pick(parts, k) == parts[k]
  {
  }

  /** Counting from the back: `-1 - k` picks word `k` of the reversed
      line, so `-1` is the last word. */
  lemma PickBack(parts: seq<string>, k: nat)
    requires k < |parts|
    ensures Pick(parts, -1 - k) == Reversed(parts)[k]
    ensures Pick(parts, -1) == parts[|parts| - 1]
  {
  }

  /** A negative index and its non-negative counterpart pick the same word. */
  lemma PickWraps(parts: seq<string>, n: int)
    requires -|parts| <= n < 0
    ensures Pick(parts, n) == Pick(parts, n + |parts|)
  {
  }

  /** For the words of a line, the output is empty exactly when `n` is
      out of range. */
  lemma PickEmpty(line: string, n: int)
    ensures Pick(Split(line), n) == "" <==> !(-|Split(line)| <= n < |Split(line)|)
  {
    var parts := Split(line);
    if 0 <= n < |parts| {
      assert IsWord(parts[n]);
    } else if -|parts| <= n < 0 {
      assert IsWord(parts[|parts| + n]);
    }
  }

  /** How a run ends: the printed lines, `int()` rejecting the argument,
      or the `NameError` of an `n` that was never bound because no
      argument was given and there is a line to print. */
  datatype Outcome = Printed(lines: seq<string>) | BadNumber(arg: string) | Unbound

  /** The output for the given lines. */
  function Words(lines: seq<string>, n: int): (out: seq<string>)
    ensures |out| == |lines|
    ensures forall j :: 0 <= j < |lines| ==> out[j] == Pick(Split(lines[j]), n)
  {
    if lines == [] then [] else Words(lines[..|lines| - 1], n) + [Pick(Split(lines[|lines| - 1]), n)]
  }

  /** `main` of `word.py`. Only the first argument is looked at, and
      the input is always standard input: a file name after `n` is
      never opened. */
  method Run(args: seq<string>, stdin: string) returns (r: Outcome)
    ensures r.BadNumber? <==> args != [] && ParseInt(args[0]).None?
    ensures r.BadNumber? ==> r.arg == args[0]
    ensures r.Unbound? <==> args == [] && LinesOf(stdin) != []
    ensures r.Printed? ==> |r.lines| == |LinesOf(stdin)|
    ensures r.Printed? && args != [] ==>
      forall j :: 0 <= j < |LinesOf(stdin)| ==> r.lines[j] == Pick(Split(LinesOf(stdin)[j]), ParseInt(args[0]).value)
  {
    var lines := LinesOf(stdin);
    if args == [] {
      if lines == [] {
        return Printed([]);
      }
      return Unbound;
    }
    var n := ParseInt(args[0]);
    if n.None? {
      return BadNumber(args[0]);
    }
    var out := Words(lines, n.value);
    r := Printed(out);
  }
}

=== FILE: wrappers.dfy ===
/** Small failure-carrying datatypes shared by every module. */
module Wrappers {

  /** A value that may be absent: Python's `None` versus a present value. */
  datatype Option<T> = None | Some(value: T)
}
